=== FILE: README.md ===
# ai-sync core in Dafny

This project models the rule engine of `ai-sync`. The engine copies an
AI assistant's configuration from a Claude-style tree (`~/.claude`,
`~/.claude.json`) into the layouts of other tools: Cursor, CodeBuddy,
OpenCode, Gemini, iFlow and Codex. The configuration covers commands,
skills, rules, MCP servers and settings.

The model has four layers.

- **Pure converters.** These are functions over `string` and a `Json`
  datatype:
  - deep merge of JSON trees;
  - the MCP server-map reshapes for Codex, OpenCode and Gemini;
  - the Markdown → TOML command rewriter;
  - the `.mdc` → merged-Markdown rules document;
  - Markdown → MDC frontmatter injection;
  - agent frontmatter reduction;
  - Cursor hooks → Claude settings.

  Each regular expression is an explicit recursive string function. The
  YAML, JSON and TOML libraries are parameters of type
  `string -> Result<Json>` or `Json -> Result<string>`, where `Err` means
  that the library throws.
- **An in-memory file system.** The class `FileSystem.FileSystem` holds a
  map from absolute paths (segment lists) to nodes, plus the set of paths
  whose reads fail. The Node primitives (`mkdir`, `readFile`, `writeFile`,
  `copyFile`, `readdir`, `stat`) are state-transition functions in `Fs`.
  The repository's own helpers are methods proved against them:
  `copyFileSafe`, `copyDirectory`, `getMarkdownFiles` and
  `ensureDirectoryExists`.
- **Path and registry resolution.** This covers `~` expansion, backslash
  normalisation, the tool's target path with its fallback,
  first-existing-candidate selection, the rule-source priority, and the
  registry queries of `config.ts`.
- **The migrators.** `BaseMigrator.migrate` is a loop over the target
  tools that sums each tool's `MigrationStats` and turns a thrown error
  into one recorded error. Each type's `migrateForTool` is a method whose
  `ensures` ties its result and the new file tree to a specification
  function. The lemmas beside it state the counts:
  - one recorded error per counted error (`|errors| == error`);
  - one count per file visited;
  - which branch wins.

Methods that change files take the `FileSystem` object and state
`(result, fs.nodes) == Spec(old(fs.nodes), …)`. The walking specifications
are `ghost` functions that recurse over the size of the source subtree.

## Model

| member | source | states |
|---|---|---|
| DeepMerge.IsObj | src/lib/utils/deepMerge.ts:7-9 | a value is a plain object exactly when it is a JSON object (not null, not an array) |
| DeepMerge.DefinedKeys | src/lib/utils/deepMerge.ts:37-48 | the source keys that take part in the merge are exactly those whose value is not `undefined` |
| DeepMerge.Merge | src/lib/utils/deepMerge.ts:34-68 | result keys are the target keys plus the defined source keys; target-only keys keep their values; two objects merge recursively; anything else, `null` included, is replaced by the source value |
| DeepMerge.MergeSelf | src/lib/utils/deepMerge.ts:53-64 | merging a map into itself gives the same map |
| DeepMerge.MergeIdempotent | src/lib/utils/deepMerge.ts:53-64 | merging the same source a second time changes nothing |
| DeepMerge.MergeExample | src/lib/utils/deepMerge.ts:21-23 | `{a:1,b:{c:2,d:3}}` merged with `{b:{c:4}}` is `{a:1,b:{c:4,d:3}}` |
| DeepMerge.MergeReplaceOne | src/lib/utils/deepMerge.ts:61-64 | a defined scalar source value replaces the target's value under its key, and the target's other key is kept |
| DeepMerge.MergeNestedOne | src/lib/utils/deepMerge.ts:53-60 | an object source value under a key that holds an object in the target is merged recursively, and the target's other key is kept |
| DeepMerge.OverrideOneField | tests/lib/customConfig.test.ts:126-158 | overriding one scalar field of one registry entry changes only that field; sibling fields and other entries are kept |
| Stats.Stats.AddError | src/lib/migrators/settings.ts:66-70 | an error adds one to `error` and appends exactly one record, keeping `|errors| == error` |
| Stats.Stats.AddSuccess | src/lib/migrators/settings.ts:61 | a success adds one to `success` and nothing else |
| Stats.Stats.AddSkipped | src/lib/migrators/mcp.ts:34 | a skip adds one to `skipped` and nothing else |
| Stats.Sum | src/lib/migrators/base.ts:94-99 | the summed stats count everything both operands counted, with the addition's errors after the base's |
| Stats.SumConsistent | src/lib/migrators/base.ts:42-45 | summing two results that each keep `|errors| == error` keeps it |
| Stats.SumZero | src/lib/migrators/base.ts:35 | the zero stats are neutral on both sides of a sum |
| Stats.SumAssoc | src/lib/migrators/base.ts:42-45 | sums regroup freely |
| Stats.Record | src/lib/utils/file.ts:100-109 | one file outcome adds exactly one to exactly the matching counter and keeps the invariant |
| Json.Get | src/lib/utils/deepMerge.ts:45 | a missing key reads as `undefined` |
| Json.Prop | src/lib/converters/mcp.ts:25 | a property read fails exactly on `undefined` or `null`; on an object it is the key's value |
| Json.Read | src/lib/migrators/mcp.ts:63 | a property read throws exactly on `undefined`/`null`, else yields the property |
| Json.Or | src/lib/converters/mcp.ts:25 | `a || b` is `a` when `a` is truthy and `b` otherwise |
| Fs.Resolve | src/lib/path.ts:92 | resolving against the working directory always gives a normal absolute path |
| Fs.RenderResolve | src/lib/path.ts:92 | resolving the rendered form of a normal path gives the path back |
| Fs.Parent | src/lib/utils/file.ts:65 | `dirname` drops the last segment |
| Fs.Mkdir | src/lib/utils/file.ts:17 | recursive `mkdir` touches only the path and its ancestors; on success every prefix is a directory; `EEXIST` only when a file is in the way |
| Fs.ReadFile | src/lib/utils/file.ts:145-148 | a read succeeds exactly on a readable existing file and yields its content; a missing path fails with `ENOTDIR` when it runs through a regular file, else with `ENOENT` |
| Fs.WriteFile | src/lib/converters/markdown-to-mdc.ts:36 | a write succeeds exactly when the parent directory exists and the path is not a directory; then the file holds the content; a failed write changes nothing; a missing parent fails with `ENOTDIR` when it runs through a regular file, else with `ENOENT` |
| Fs.CopyFile | src/lib/utils/file.ts:66 | a successful copy puts the source's node at the target; a failure changes nothing |
| Fs.ReadDir | src/lib/utils/file.ts:85 | listing succeeds exactly on a readable directory and yields its entries in order, each with its kind; a missing path fails with `ENOTDIR` when it runs through a regular file, else with `ENOENT` |
| Fs.ThroughFileIsNotDir | src/lib/utils/file.ts:85 | reading or listing a path below a regular file fails with `ENOTDIR` |
| Fs.EnsureDir | src/lib/utils/file.ts:15-24 | `EEXIST` is swallowed and never surfaces; every other `mkdir` error is passed on; the tree is the one `mkdir` leaves |
| Fs.CopyFileSafeSpec | src/lib/utils/file.ts:55-72 | exactly one of success, skip or error holds; a skip happens exactly when the target exists without `autoOverwrite` and leaves the tree unchanged; a success copies the source's content |
| FileSystem.MarkdownNames | src/lib/utils/file.ts:129-133 | the listed names are exactly the regular files ending in `.md` or `.mdc` |
| FileSystem.MarkdownFiles | src/lib/utils/file.ts:124-140 | an unreadable directory gives `[]`, otherwise the Markdown names of the listing |
| FileSystem.ReadParsed | src/lib/utils/file.ts:145-148 | a read failure becomes its message, otherwise the parser's result on the content |
| FileSystem.WriteSerialized | src/lib/utils/file.ts:153-156 | a successful write leaves the serialised text at the path; nothing outside the path and its ancestors changes |
| FileSystem.FileSystem.DirectoryExists | src/lib/utils/file.ts:42-50 | a directory that exists is also a path that exists |
| FileSystem.FileSystem.Stat | src/lib/migrators/rules.ts:34-35 | `stat` fails exactly on a missing path, with `ENOTDIR` when the path runs through a regular file and `ENOENT` otherwise; otherwise it reports the node's kind |
| FileSystem.FileSystem.ReadFile | src/lib/utils/file.ts:145-148 | reads follow `Fs.ReadFile` |
| FileSystem.FileSystem.ReadDirectory | src/lib/utils/file.ts:85 | listings follow `Fs.ReadDir` |
| FileSystem.FileSystem.WriteFile | src/lib/utils/file.ts:153-156 | the new tree is the one `Fs.WriteFile` describes |
| FileSystem.FileSystem.Mkdir | src/lib/utils/file.ts:17 | the new tree is the one `Fs.Mkdir` describes |
| FileSystem.FileSystem.EnsureDirectoryExists | src/lib/utils/file.ts:15-24 | never reports `EEXIST`; on success the directory exists, or a file that was already there is untouched |
| FileSystem.FileSystem.CopyFile | src/lib/utils/file.ts:66 | the new tree is the one `Fs.CopyFile` describes |
| FileSystem.FileSystem.CopyFileSafe | src/lib/utils/file.ts:55-72 | follows `CopyFileSafeSpec`: exactly one outcome; skip iff the target existed without `autoOverwrite`, with nothing changed; success copies the source |
| FileSystem.FileSystem.TransformFile | src/lib/migrators/rules.ts:204-213 | read, transform, ensure the directory and write, as `Walk.TransformFileSpec` describes |
| FileSystem.FileSystem.ConvertFile | src/lib/converters/markdown-to-mdc.ts:8-43 | read, convert and write, mapping any failure to `false`, as `Walk.ConvertFileSpec` describes |
| FileSystem.FileSystem.Step | src/lib/utils/file.ts:98-110 | one regular file of a walk, as `Walk.StepSpec` describes |
| FileSystem.FileSystem.Walk | src/lib/migrators/rules.ts:179-223 | the recursive walk, as `Walk.WalkDir` describes |
| FileSystem.FileSystem.WalkListing | src/lib/migrators/rules.ts:186-215 | the loop over one directory listing visits the entries in order, recursing into directories and stepping files, with the result and tree `Walk.WalkEntries` specifies |
| FileSystem.FileSystem.CopyDirectory | src/lib/utils/file.ts:77-119 | the recursive copy as `WalkDir` describes; the result keeps `|errors| == error` and counts every file of the tree exactly once, also for a copy onto itself whose listings name no entry twice |
| FileSystem.FileSystem.GetMarkdownFiles | src/lib/utils/file.ts:124-140 | the loop returns `MarkdownFiles` of the current tree |
| FileSystem.FileSystem.ReadParsedFile | src/lib/utils/file.ts:145-148 | follows `ReadParsed` |
| FileSystem.FileSystem.WriteSerializedFile | src/lib/utils/file.ts:153-156 | on success the file exists and holds the serialised text |
| Walk.MdcName | src/lib/migrators/rules.ts:250 | the renamed target ends in `.mdc` and has the `.md` name's stem |
| Walk.CopyOutcome | src/lib/utils/file.ts:100-109 | a copy result counts as success iff it succeeded, as a skip iff it was skipped, and otherwise as an error under the bare entry name |
| Walk.ConvertFileSpec | src/lib/converters/markdown-to-mdc.ts:8-43 | `true` means the target holds the converted source; an unreadable source gives `false` with no change |
| Walk.TransformFileSpec | src/lib/migrators/rules.ts:204-213 | success means the target holds the transform of the source content |
| Walk.StepSpec | src/lib/migrators/rules.ts:197-219 | one file: a skip happens exactly when the target exists without `autoOverwrite` and changes nothing; a failure is recorded under the entry name; only the target's path is touched |
| Walk.StepConfined | src/lib/migrators/rules.ts:197-219 | one file's step changes nothing outside the target directory |
| Walk.WalkDir | src/lib/utils/file.ts:77-119 | a walk changes nothing outside the target tree and removes no directory; a walk of a tree onto itself adds directories only above it, so it ends |
| Walk.EntryStep | src/lib/migrators/rules.ts:189-214 | one listing entry: a directory is walked into, a file is copied or converted; only the target tree changes |
| Walk.EntriesNext | src/lib/migrators/rules.ts:188-215 | after one entry the source is still a directory with no directory below it that was not there before, and the rest of the listing continues from that entry's result |
| Walk.StepKeepsSource | src/lib/utils/file.ts:85-110 | a step apart from the source leaves its tree alone; a step onto the source itself adds no directory at or below it |
| Walk.VisitsBelow | src/lib/utils/file.ts:87-111 | the number of files visited depends only on the source subtree |
| Walk.WalkCounts | src/lib/utils/file.ts:82-118 | every regular file and every unreadable directory adds exactly one count, for a target apart from the source and for the source itself when its listings name no entry twice |
| Walk.ApartWalkCounts | src/lib/utils/file.ts:82-118 | with the target apart from the source, the walk counts each regular file and each unreadable directory of the source tree once |
| Walk.SelfWalkCounts | src/lib/utils/file.ts:85-111 | a walk of a tree onto itself counts each file of the listings it read once: the files it writes are not in those listings, and the sub-trees still to come are untouched |
| Walk.WalkConsistent | src/lib/utils/file.ts:106-116 | the walk only appends errors and keeps `|errors| == error` |
| Walk.WalkAllSkipped | tests/lib/utils/file.test.ts:150-162 | with every target present and no `autoOverwrite`, everything is skipped and the tree is unchanged |
| Migration.TallyStep | src/lib/migrators/commands.ts:62-86 | one more file of a per-file loop adds that file's outcome on the tree the previous files left |
| Migration.TallyCounts | src/lib/migrators/skills.ts:56-74 | a per-file loop counts each listed file once, keeps the invariant, only appends errors, never skips with a non-skipping step, and records errors under listed names |
| Config.TypeName | src/lib/migrators/base.ts:53 | each config type has a non-empty name that is one path segment |
| Config.SectionOf | src/lib/config.ts:84-89 | commands, skills and MCP sections are always present in an entry |
| Config.Lookup | src/lib/config.ts:85 | lookup fails exactly when no registry key matches; otherwise it returns an entry stored under that key |
| Config.LookupAt | src/lib/config.ts:85 | with unique keys, looking up the i-th key gives the i-th entry |
| Config.IsConfigTypeSupported | src/lib/config.ts:84-89 | false for a tool missing from the registry; otherwise true iff the type is in the tool's `supported` list |
| Config.GetToolChoiceList | src/lib/config.ts:64-69 | one choice per registry key, in key order |
| Config.ChoiceNames | src/lib/config.ts:64-69 | each choice's name is the name of the entry it points to |
| Config.ChoicesCover | src/lib/config.ts:64-69 | every registered tool appears among the choices |
| Config.DefineConfig | src/lib/config.ts:94-96 | `defineConfig` returns its argument |
| Config.DefaultsUnique | src/lib/configs/index.ts:1-19 | the built-in registry has no duplicate keys |
| Config.DefaultSupport | src/lib/configs/cursor.ts:23 | cursor supports agents but not rules, codebuddy supports settings, and an unknown tool supports nothing |
| Paths.ExpandHome | src/lib/path.ts:15-20 | a path not starting with `~` is unchanged; one starting with `~` becomes absolute |
| Paths.ExpandHomeResolves | src/lib/path.ts:15-20 | `~rest` resolves to the home directory joined with `rest` |
| Paths.ExpandHomeAlone | src/lib/path.ts:15-20 | `~` alone is the home directory |
| Paths.NormalizePath | src/lib/path.ts:78-80 | same length; every `\` becomes `/` and every other character is kept |
| Paths.NormalizePathClean | src/lib/path.ts:78-80 | the result has no backslash; a path without one is unchanged; normalising twice equals once |
| Paths.ConfiguredTarget | src/lib/path.ts:27-33 | a configured target comes from the tool's section for the type and is never the empty string |
| Paths.FallbackName | src/lib/path.ts:34-37 | the fallback file is `mcp.json` for MCP and the type's name otherwise |
| Paths.GetToolPath | src/lib/path.ts:27-42 | no configured target gives the expanded fallback; the call throws exactly on an empty candidate list |
| Paths.FallbackLocation | src/lib/path.ts:34-37 | the fallback is `~/.<tool>/mcp.json` for MCP and `~/.<tool>/<configType>` otherwise |
| Paths.DefaultsSingleTargets | src/lib/configs/index.ts:1-19 | every built-in target is a single string, so `getToolPath` never throws on the defaults |
| Paths.DefaultsResolve | src/lib/path.ts:47-73 | for the built-in registry, target resolution is `getToolPath` and never fails |
| Paths.OpencodeRulesTarget | src/lib/configs/opencode.ts:1-27 | OpenCode's rules target is `~/.config/opencode/AGENTS.md` |
| Paths.ClaudeCommandsTarget | src/lib/configs/claude.ts:5-9 | Claude Code's commands target is `~/.claude/commands` |
| Paths.FirstExistingAt | src/lib/path.ts:58-72 | the first candidate that exists is chosen |
| Paths.FirstExistingNone | src/lib/path.ts:58-72 | with no candidate present, the default is chosen |
| Paths.ResolveTargetSingle | src/lib/path.ts:54-57 | a string or missing target resolves as `getToolPath` does |
| Paths.ResolveTargetCandidates | src/lib/path.ts:58-72 | a candidate list resolves to the first candidate that exists, else to `getToolPath`'s choice |
| Paths.ResolveTargetPath | src/lib/path.ts:47-73 | the probing loop returns `ResolveTarget` of the current tree |
| Paths.ResolveSourceDir | src/lib/path.ts:85-97 | no path, or an empty one, gives `home`; otherwise the resolved path, or its parent when the path ends in `.claude` |
| Paths.ResolveSourceDirHome | src/lib/path.ts:85-97 | `~/.claude` and `~` both give the home directory |
| Paths.ResolveSourceDirAbsolute | src/lib/path.ts:85-97 | an absolute path not ending in `.claude` is returned as it is |
| Paths.McpSourcePath | src/lib/path.ts:102-104 | the MCP source is `<sourceDir>/.claude.json` |
| Paths.CommandsSourcePath | src/lib/path.ts:120-122 | the commands source is `<sourceDir>/.claude/commands` |
| Paths.SkillsSourcePath | src/lib/path.ts:124-126 | the skills source is `<sourceDir>/.claude/skills` |
| Paths.AgentsSourcePath | src/lib/path.ts:128-130 | the agents source is `<sourceDir>/.claude/agents` |
| Paths.SettingsSourcePath | src/lib/path.ts:132-134 | the settings source is `<sourceDir>/.claude/settings.json` |
| Paths.RuleSourcePriority | src/lib/path.ts:136-147 | the first existing of `.claude/CLAUDE.md`, `.claude/AGENTS.md`, `CLAUDE.md`, `AGENTS.md` wins, with `.claude/CLAUDE.md` as the default |
| Paths.GetRuleSourcePath | src/lib/path.ts:136-147 | the probing loop returns that priority choice |
| Paths.GetOpenCodeMcpPath | src/lib/path.ts:110-118 | the result is `opencode.json` exactly when only that file exists, else `opencode.jsonc` |
| Frontmatter.YamlBlock | src/lib/converters/markdown-to-toml.ts:19 | a match starts with `---\n` and captures the text up to the first `\n---`; no match means there is no opening or no closing fence |
| Frontmatter.StripBlock | src/lib/converters/markdown-to-toml.ts:23 | the result is a suffix of the content; content not starting with `---` is unchanged; a removed prefix ends at a `---\n` |
| Frontmatter.SplitDocument | src/lib/converters/rules-merger.ts:33-46 | no block or a failing YAML parse keeps the whole content with no description; a parsed block yields its `description` and the stripped body, and `null`/`undefined` YAML throws |
| Frontmatter.BlockRoundTrip | src/lib/converters/rules-merger.ts:36-40 | a document built as `---\n` + yaml + `\n---\n` + body yields that yaml and that body |
| Frontmatter.AgentMatch | src/lib/converters/agent.ts:17-18 | a match starts with `---`; the captured text sits between a newline and the closing `\n---`, inside the content |
| Agent.ParseAgentContent | src/lib/converters/agent.ts:16-51 | no match gives empty metadata, the whole content and no frontmatter; a match gives the rest after it as body whether or not YAML parses, the parse error flag iff YAML throws, and empty metadata on a parse error |
| Agent.ExtractUniversalMetadata | src/lib/converters/agent.ts:56-63 | at most `name` then `description`, each present iff truthy in the input and equal to it |
| Agent.NoFrontmatter | src/lib/converters/agent.ts:93 | without frontmatter, the OpenCode form is `---\nmode: subagent\n---\n\n` + content and the universal form is the content unchanged |
| Agent.OpenCodeMetadata | src/lib/converters/agent.ts:79-84 | parsed frontmatter is reduced to name/description with `mode: subagent` appended last |
| Agent.OpenCodeFallbackHasMode | src/lib/converters/agent.ts:86-90 | on a YAML failure the OpenCode output always contains `mode: subagent` |
| Agent.UniversalDropsEmptyMetadata | src/lib/converters/agent.ts:104-106 | with neither name nor description, the universal form is the trimmed body |
| Agent.StringifyParseRoundTrip | src/lib/converters/agent.ts:68-71 | the written agent parses back with the YAML text as its frontmatter and the trimmed body after it |
| Agent.ExtractStable | src/lib/converters/agent.ts:56-63 | reducing already-reduced metadata changes nothing |
| Agent.UniversalIdempotent | src/lib/converters/agent.ts:99-111 | converting an agent to the universal form twice equals converting it once |
| Agent.UniversalOfWritten | src/lib/converters/agent.ts:99-111 | converting a written universal agent keeps its metadata |
| MarkdownToMdc.LastSegment | src/lib/converters/markdown-to-mdc.ts:20 | the result is the suffix after the last `/` or `\` |
| MarkdownToMdc.LastSegmentAfter | src/lib/converters/markdown-to-mdc.ts:20 | a name after a separator is its last segment |
| MarkdownToMdc.StripMdSuffix | src/lib/converters/markdown-to-mdc.ts:20 | a trailing `.md` is removed; any other name is kept |
| MarkdownToMdc.CamelSpace | src/lib/converters/markdown-to-mdc.ts:21 | the first character is kept |
| MarkdownToMdc.CamelSpaceSeparates | src/lib/converters/markdown-to-mdc.ts:21 | no lowercase-uppercase pair is left adjacent |
| MarkdownToMdc.CamelSpaceIdentity | src/lib/converters/markdown-to-mdc.ts:21 | a name without such a pair is unchanged |
| MarkdownToMdc.CamelSpaceOnlySpaces | src/lib/converters/markdown-to-mdc.ts:21 | only spaces are inserted |
| MarkdownToMdc.MdcContent | src/lib/converters/markdown-to-mdc.ts:14-29 | content starting with `---\n` is unchanged; otherwise the header `---\ndescription: <d>\nalwaysApply: true\n---\n\n` is put in front of it; either way the content is a suffix of the result |
| MarkdownToMdc.MdcIdempotent | src/lib/converters/markdown-to-mdc.ts:14-18 | converting a converted file again changes nothing |
| MarkdownToMdc.MdcFrontmatterRoundTrip | src/lib/converters/markdown-to-mdc.ts:24-29 | the injected frontmatter parses back as the generated YAML and strips back to the original content |
| MarkdownToMdc.MarkdownToMdc | src/lib/converters/markdown-to-mdc.ts:8-43 | `true` means the target holds the MDC form of the source; every failure is `false` |
| MarkdownToToml.DigitRun | src/lib/converters/markdown-to-toml.ts:45 | the longest prefix of digits |
| MarkdownToToml.DigitArgs | src/lib/converters/markdown-to-toml.ts:45 | the rewrite is empty iff its input is |
| MarkdownToToml.DigitArgsComplete | src/lib/converters/markdown-to-toml.ts:45 | no `$<digit>` is left after the rewrite |
| MarkdownToToml.DigitArgsIdentity | src/lib/converters/markdown-to-toml.ts:45 | text without `$` is unchanged |
| MarkdownToToml.BackticksIdentity | src/lib/converters/markdown-to-toml.ts:46 | text without a backtick is unchanged |
| MarkdownToToml.BackticksSpan | src/lib/converters/markdown-to-toml.ts:46 | a non-empty backtick span becomes `!{…}` with its text kept |
| MarkdownToToml.ParameterSyntaxIdentity | src/lib/converters/markdown-to-toml.ts:43-48 | a prompt without `$` or backticks is unchanged |
| MarkdownToToml.FirstTerminator | src/lib/converters/markdown-to-toml.ts:54 | the first line terminator, or none |
| MarkdownToToml.KeyLineLength | src/lib/converters/markdown-to-toml.ts:54-56 | a match is `key:` then text up to and including the first `\n`, with no other terminator in between |
| MarkdownToToml.RemoveKeyLine | src/lib/converters/markdown-to-toml.ts:54-56 | a `key:` line is deleted together with its newline |
| MarkdownToToml.RemoveKeyLinesSplit | src/lib/converters/markdown-to-toml.ts:54-56 | deletion works line by line: it distributes over a split after a newline |
| MarkdownToToml.RemoveKeyLinesUnterminated | src/lib/converters/markdown-to-toml.ts:54-56 | a final line without `\n` is untouched |
| MarkdownToToml.CrlfLineKept | src/lib/converters/markdown-to-toml.ts:54-56 | a `\r\n` line not starting with the key is kept |
| MarkdownToToml.CrlfExample | src/lib/converters/markdown-to-toml.ts:54-56 | `context: a\r\n` is kept, because `.` stops at `\r` |
| MarkdownToToml.GenerateTomlRoundTrip | src/lib/converters/markdown-to-toml.ts:63-69 | the generated TOML reads back as the trimmed prompt, with the description iff it is non-empty |
| MarkdownToToml.TomlOf | src/lib/converters/markdown-to-toml.ts:16-34 | fails iff the frontmatter split throws; otherwise the TOML of `description || ''` and the rewritten body |
| MarkdownToToml.NoFrontmatterWholePrompt | src/lib/converters/markdown-to-toml.ts:16-27 | with no block, or a failing YAML parse, the whole content is the prompt and there is no description |
| MarkdownToToml.ConvertSpec | src/lib/converters/markdown-to-toml.ts:13-38 | success means the target holds the TOML of the source; an unreadable source fails with no change |
| MarkdownToToml.ConvertMarkdownToToml | src/lib/converters/markdown-to-toml.ts:13-38 | the new tree is the one `ConvertSpec` describes |
| HooksConverter.HookEntry | src/lib/converters/hooks-converter.ts:30-58 | each entry has `hooks`, and has `matcher` iff one is given |
| HooksConverter.HookCommand | src/lib/converters/hooks-converter.ts:34 | the first `~/.cursor/hooks` is replaced by `${CLAUDE_PLUGIN_ROOT}/hooks` for `afterFileEdit`; other commands are unchanged; a missing hook throws |
| HooksConverter.MapHooks | src/lib/converters/hooks-converter.ts:30-58 | one entry per hook, in order, each built from its hook's command |
| HooksConverter.ConvertEvent | src/lib/converters/hooks-converter.ts:29-59 | a falsy list produces no key; a non-array list throws; an array maps element-wise |
| HooksConverter.ConvertHooks | src/lib/converters/hooks-converter.ts:27-59 | the settings have only `PostToolUse`, `PreToolUse` and `Stop` keys |
| HooksConverter.NoHooksEmptySettings | src/lib/converters/hooks-converter.ts:27-59 | without `hooks`, the settings are `{}` |
| HooksConverter.EntryCommandOf | src/lib/converters/hooks-converter.ts:32-36 | the command can be read back from a generated entry |
| HooksConverter.EventEntries | src/lib/converters/hooks-converter.ts:29-59 | an output list exists iff the input list does, has its length, and carries each hook's command in order |
| HooksConverter.ConvertHooksFields | src/lib/converters/hooks-converter.ts:29-59 | `PostToolUse`, `PreToolUse` and `Stop` come from `afterFileEdit` (matcher `Write|Edit`), `beforeShellExecution` (matcher `Bash`) and `stop` (no matcher), each present iff its input is |
| HooksConverter.ConvertSpec | src/lib/converters/hooks-converter.ts:19-25 | an unreadable or unparsable hooks file writes nothing and raises nothing |
| HooksConverter.ConvertWritesSettings | src/lib/converters/hooks-converter.ts:61-62 | on success the target holds the serialised Claude settings |
| HooksConverter.ConvertHooksForClaude | src/lib/converters/hooks-converter.ts:12-63 | the new tree is the one `ConvertSpec` describes |
| McpConvert.MapServers | src/lib/converters/mcp.ts:28-46 | the names of the new table are exactly the kept entries; any throwing entry makes the whole conversion throw |
| McpConvert.ServersOf | src/lib/converters/mcp.ts:25 | a missing `mcpServers` is `{}`; reading it from `null`/`undefined` throws |
| McpConvert.CodexEntry | src/lib/converters/mcp.ts:29-45 | an entry the conversion cannot read throws; a local entry (one with `command`) takes the local form even when it also has a URL; a remote one takes the remote form; any other entry is dropped |
| McpConvert.CodexLocal | src/lib/converters/mcp.ts:30-37 | a local entry keeps exactly `command`, `args` (defaulting to `[]`) and, only when it has keys, `env`, with their source values |
| McpConvert.CodexRemote | src/lib/converters/mcp.ts:38-44 | a remote entry keeps exactly `url` and, only when the headers have keys, `http_headers`, with the source values |
| McpConvert.ConvertToCodexFormat | src/lib/converters/mcp.ts:24-49 | it throws exactly when `mcpServers` cannot be read or some entry is neither an object nor an array; otherwise the result is `{mcp_servers: …}` holding exactly the local and remote servers under their names, each in Codex form |
| McpConvert.SpreadArgs | src/lib/converters/mcp.ts:64 | missing args spread as nothing; an array spreads its items |
| McpConvert.OpenCodeCommand | src/lib/converters/mcp.ts:62-64 | an array command is kept; otherwise it is `[command, ...args]` |
| McpConvert.OpenCodeEntry | src/lib/converters/mcp.ts:59-77 | local is `{type:'local', command, enabled:true}`, remote is `{type:'remote', url, enabled:true}`, anything else is copied with `enabled:true`; no entry is dropped; it throws exactly for an entry that is neither an object nor an array, or a local one whose arguments cannot be spread |
| McpConvert.ConvertToOpenCodeFormat | src/lib/converters/mcp.ts:54-81 | it throws exactly when `mcpServers` cannot be read, or some entry is neither an object nor an array, or is local with arguments that cannot be spread; otherwise the result is `{mcp: …}` keeping every server name, each entry in OpenCode form |
| McpConvert.GeminiRemote | src/lib/converters/mcp.ts:92-98 | a remote entry keeps its other fields, gains `httpUrl` and `type:'streamable-http'`, and loses `url` |
| McpConvert.GeminiEntry | src/lib/converters/mcp.ts:91-102 | remote entries are converted, checked before local; others are copied; it throws exactly for an entry that is neither an object nor an array |
| McpConvert.ConvertToGeminiFormat | src/lib/converters/mcp.ts:86-106 | it throws exactly when `mcpServers` cannot be read or some entry is neither an object nor an array; otherwise the result is `{mcpServers: …}` keeping every server name, each entry in Gemini form |
| McpConvert.MissingServersIsEmpty | src/lib/converters/mcp.ts:25 | without `mcpServers` each converter gives its wrapper around `{}` |
| McpConvert.CodexKeepsClassified | src/lib/converters/mcp.ts:28-46 | Codex keeps exactly the local and remote servers, and a local one never gains `url` |
| McpConvert.OpenCodeKeepsAllNames | src/lib/converters/mcp.ts:58-80 | OpenCode keeps every server name |
| McpConvert.GeminiRemoteWinsOverLocal | src/lib/converters/mcp.ts:91-99 | an entry with both `command` and `url` is converted as remote, keeps `command` and loses `url`; every name is kept |
| RulesMerger.Insert | src/lib/converters/rules-merger.ts:17 | inserting adds exactly the one name |
| RulesMerger.InsertSorted | src/lib/converters/rules-merger.ts:17 | insertion keeps a sorted list sorted |
| RulesMerger.ConsSorted | src/lib/converters/rules-merger.ts:17 | a name that precedes every name of a sorted list can head it |
| RulesMerger.InsertBounded | src/lib/converters/rules-merger.ts:17 | inserting a name keeps every lower bound of the list and the name |
| RulesMerger.SortNames | src/lib/converters/rules-merger.ts:17 | sorting is a permutation |
| RulesMerger.SortNamesSorted | src/lib/converters/rules-merger.ts:17 | the sorted list is in ascending order |
| RulesMerger.SortedUnique | src/lib/converters/rules-merger.ts:17 | two sorted permutations of the same names are equal |
| RulesMerger.SortOrderIndependent | src/lib/converters/rules-merger.ts:14-17 | the order of the listing does not change the sorted names |
| RulesMerger.MdcNames | src/lib/converters/rules-merger.ts:15-16 | exactly the names ending in `.mdc` are kept; none gives `[]` |
| RulesMerger.Header | src/lib/converters/rules-merger.ts:24-27 | the document starts with the fixed banner, notice and source label and ends with the rule line |
| RulesMerger.Section | src/lib/converters/rules-merger.ts:33-48 | a section is `## <title>\n\n`, the body, then `\n\n---\n\n`; it fails iff the frontmatter split throws |
| RulesMerger.Then | src/lib/converters/rules-merger.ts:29-49 | appending stops at the first failure |
| RulesMerger.ThenAssoc | src/lib/converters/rules-merger.ts:29-49 | appending results regroups freely |
| RulesMerger.ConcatSnoc | src/lib/converters/rules-merger.ts:29-49 | one more name adds that name's text after the texts so far |
| RulesMerger.ConcatPrefix | src/lib/converters/rules-merger.ts:29-49 | when the whole document succeeds, every prefix of the names succeeds and its text starts the document |
| RulesMerger.ConcatFails | src/lib/converters/rules-merger.ts:29-49 | the first failing file ends the loop with its error, whatever follows |
| RulesMerger.FileSection | src/lib/converters/rules-merger.ts:30-31 | an unreadable file fails with its message; otherwise its section |
| RulesMerger.SectionsAppend | src/lib/converters/rules-merger.ts:29-49 | the sections of two lists in a row are the sections of each, appended |
| RulesMerger.SectionsEach | src/lib/converters/rules-merger.ts:29-49 | every file contributes its own section, in sorted order |
| RulesMerger.SectionWithoutFrontmatter | src/lib/converters/rules-merger.ts:46 | without frontmatter the title is the name minus its first `.mdc` and the body is the whole content |
| RulesMerger.SectionWithDescription | src/lib/converters/rules-merger.ts:39-46 | a parsed description is the title and the block is stripped |
| RulesMerger.MergeSpec | src/lib/converters/rules-merger.ts:13-53 | the merge changes nothing but the target and its ancestors |
| RulesMerger.NoRulesNoWrite | src/lib/converters/rules-merger.ts:19-22 | no `.mdc` file means nothing is written and nothing fails |
| RulesMerger.MergeWritesDocument | src/lib/converters/rules-merger.ts:24-52 | a merge that succeeds writes the header and one section per sorted `.mdc` name |
| RulesMerger.CollectSections | src/lib/converters/rules-merger.ts:29-49 | the loop builds `Sections` of the current tree |
| RulesMerger.ReadSection | src/lib/converters/rules-merger.ts:30-48 | one pass of the loop body reads the file and gives the section `FileSection` specifies |
| RulesMerger.MergeRules | src/lib/converters/rules-merger.ts:13-53 | the new tree is the one `MergeSpec` describes |
| Commands.TransformStep | src/lib/migrators/commands.ts:62-86 | never a skip; a failure is recorded under the file name; a success writes the transform of the file |
| Commands.TomlNames | src/lib/migrators/commands.ts:101 | in a name whose first `.md` follows `base`, exactly that `.md` becomes `.toml` and the rest is kept, so `x.mdc` becomes `x.tomlc` and `a.md.md` becomes `a.toml.md` |
| Commands.ConvertStep | src/lib/migrators/commands.ts:99-116 | never a skip; success iff the TOML conversion succeeds; a failure is recorded under the file name |
| Commands.CustomTransform | src/lib/migrators/commands.ts:31-34 | the transform is the registry entry's `commands.transform` |
| Commands.MigrateForToolCounts | src/lib/migrators/commands.ts:26-46 | the result keeps the invariant; the transform and TOML branches count each listed file once as a success or an error under its name, and never skip; the copy counts every file of the tree (onto itself, when no listing names an entry twice) |
| Commands.TransformStepShape | src/lib/migrators/commands.ts:62-86 | the transform step never skips and fails under the file name |
| Commands.ConvertStepShape | src/lib/migrators/commands.ts:99-116 | the conversion step never skips and fails under the file name |
| Commands.TransformOne | src/lib/migrators/commands.ts:62-86 | one file of the custom transform, as `TransformStep` describes |
| Commands.MigrateWithCustomTransform | src/lib/migrators/commands.ts:51-87 | the loop's result and tree are the tally of the transform step over the Markdown files |
| Commands.MigrateWithConversion | src/lib/migrators/commands.ts:92-117 | the loop's result and tree are the tally of the conversion step over the Markdown files |
| Commands.MigrateForTool | src/lib/migrators/commands.ts:26-46 | transform > TOML for `gemini`/`iflow` by name > directory copy, as `MigrateForToolSpec` describes |
| Skills.SkillTransform | src/lib/migrators/skills.ts:27 | the transform is the registry entry's `skills.transform` |
| Skills.SkillStepShape | src/lib/migrators/skills.ts:56-74 | the step fails under the file name and never skips with `autoOverwrite` |
| Skills.MigrateForToolCounts | src/lib/migrators/skills.ts:22-36 | the result keeps the invariant; with a transform each top-level Markdown file is counted once and errors carry listed names; the copy counts every file of the tree (onto itself, when no listing names an entry twice) |
| Skills.MigrateWithTransform | src/lib/migrators/skills.ts:41-76 | the loop's result and tree are the tally of the skipping transform step over the top-level Markdown files |
| Skills.MigrateForTool | src/lib/migrators/skills.ts:22-36 | transform if configured, else directory copy, as `MigrateForToolSpec` describes |
| Rules.TargetFile | src/lib/migrators/rules.ts:91-101 | project mode throws; otherwise `expandHome(rules.target || '')`; a missing entry or section throws |
| Rules.SingleFileSpec | src/lib/migrators/rules.ts:152-174 | one count, never an error: success iff the copy succeeded, a skip otherwise (a failing copy included); the tree is the copy's |
| Rules.CustomMergeSpec | src/lib/migrators/rules.ts:106-126 | one count: a success with the merge's tree, or one error naming the target file with the tree unchanged |
| Rules.MergeWithSpec | src/lib/migrators/rules.ts:131-147 | one count: success iff `mergeRules` succeeds, else one error naming the target file |
| Rules.DirectIsWalk | src/lib/migrators/rules.ts:67-86 | direct migration is one walk whose action is the transform if configured, else md→mdc for a `.claude` source and `cursor`, else a plain copy |
| Rules.MigrateForToolCounts | src/lib/migrators/rules.ts:27-62 | a missing source gives exactly one error naming it and no change; a file source counts one; merges count one; the direct walk counts every file (onto itself, when no listing names an entry twice); the invariant holds |
| Rules.SingleFileIgnoresFlags | src/lib/migrators/rules.ts:46-47 | a single-file source's result does not depend on the `merge`/`customMerge`/`transform` settings |
| Rules.MigrateSingleFile | src/lib/migrators/rules.ts:152-174 | the new tree and result are those of `SingleFileSpec` |
| Rules.MigrateWithCustomMerge | src/lib/migrators/rules.ts:106-126 | the new tree and result are those of `CustomMergeSpec` |
| Rules.MigrateWithMerge | src/lib/migrators/rules.ts:131-147 | the new tree and result are those of `MergeWithSpec` |
| Rules.MigrateDirect | src/lib/migrators/rules.ts:67-86 | the new tree and result are those of the direct walk |
| Rules.MigrateForTool | src/lib/migrators/rules.ts:27-62 | stat failure, then file vs directory, then `customMerge` > `merge` > direct, as `MigrateForToolSpec` describes |
| McpMigrator.MigratorOpenCodeEntry | src/lib/migrators/mcp.ts:149-177 | like the public converter, except that an unclassified entry is copied without `enabled` |
| McpMigrator.MigratorGeminiEntry | src/lib/migrators/mcp.ts:179-204 | a remote entry is converted only when `type==='http'` or its url is truthy, otherwise copied; a local entry is copied |
| McpMigrator.Table | src/lib/migrators/mcp.ts:122-146 | the table is the server map or the error of the entry that throws |
| McpMigrator.ConvertMcpConfig | src/lib/migrators/mcp.ts:86-106 | opencode goes under `mcp`; every other tool under `mcpServers`; cursor and unknown tools get an unchanged copy; gemini/iflow get the migrator's Gemini shape |
| McpMigrator.CodexDocument | src/lib/migrators/mcp.ts:56-66 | the existing document keeps every key except `mcp_servers`, which becomes the unwrapped Codex table |
| McpMigrator.McpTransform | src/lib/migrators/mcp.ts:42 | the transform is the registry entry's `mcp.transform` |
| McpMigrator.Converted | src/lib/migrators/mcp.ts:67-71 | the converted document replaces the target file; a conversion that throws changes nothing |
| McpMigrator.CodexExisting | src/lib/migrators/mcp.ts:58-61 | a missing target starts from `{}`, otherwise from the parsed TOML |
| McpMigrator.CodexWrite | src/lib/migrators/mcp.ts:56-66 | on success the target holds the TOML of the updated existing document |
| McpMigrator.PrintFor | src/lib/migrators/mcp.ts:40-49 | a transform's output is written as TOML iff the target ends in `.toml`, else as JSON |
| McpMigrator.TryMigrate | src/lib/migrators/mcp.ts:38-73 | an unreadable source fails with no change; a success leaves a file at the target |
| McpMigrator.MigrateForToolSpec | src/lib/migrators/mcp.ts:29-84 | exactly one count; a skip happens exactly when the target exists without `autoOverwrite` for a tool other than codex, and changes nothing; an error names the target path |
| McpMigrator.MigrateForToolWrites | src/lib/migrators/mcp.ts:40-71 | precedence transform > claude (source verbatim) > codex (existing TOML updated) > `convertMCPConfig` (target replaced) |
| McpMigrator.GeminiEntryDiffers | src/lib/migrators/mcp.ts:186 | the migrator's Gemini entry equals the public one except for a remote entry with a falsy url, which it copies |
| McpMigrator.OpenCodeEntryDiffers | src/lib/migrators/mcp.ts:172 | for an unclassified entry the migrator omits the `enabled:true` the public converter adds |
| McpMigrator.CodexTableAgrees | src/lib/migrators/mcp.ts:119-147 | the migrator's Codex table is the public converter's, without the wrapper |
| McpMigrator.Migrate | src/lib/migrators/mcp.ts:38-73 | the guarded block's new tree and error are those of `TryMigrate` |
| McpMigrator.MigrateForTool | src/lib/migrators/mcp.ts:29-84 | the new tree and result are those of `MigrateForToolSpec` |
| Settings.Policy | src/lib/migrators/settings.ts:45-58 | without `autoOverwrite` the result is the deep merge whatever the `merge` flag; with it the keys are the union, source values win and target-only keys are kept |
| Settings.Combine | src/lib/migrators/settings.ts:45-58 | a target that parsed to `null`/`undefined` throws exactly when deep merge reads it for a defined source key (deepMerge.ts:50) or the overwrite loop assigns a source key into it; an overwrite with no source keys writes the target back unchanged; an object target gets the policy's document |
| Settings.Existing | src/lib/migrators/settings.ts:37-42 | a missing target is `{}`, otherwise the parsed target |
| Settings.TryMigrate | src/lib/migrators/settings.ts:35-62 | a failing read of the source or the target, or a throw while combining them, changes nothing and yields that message; success writes the combined document |
| Settings.MigrateForToolSpec | src/lib/migrators/settings.ts:27-74 | a tool missing from the registry throws; no `settings` section gives zero stats and no change; otherwise exactly one success or one error naming the target |
| Settings.PolicyRerun | src/lib/migrators/settings.ts:45-58 | applying the policy again to its own output with the same source changes nothing |
| Settings.PolicyFromNothing | src/lib/migrators/settings.ts:49-54 | with no previous target, overwrite mode writes the source settings as they are |
| Settings.MigrateForToolWrites | src/lib/migrators/settings.ts:60-61 | a success writes the source combined with the previous settings (or `{}`) |
| Settings.NullTargetFails | src/lib/migrators/settings.ts:40-67 | a target file that parses to `null`, with a source that has a defined key, gives one error under the target path and leaves the tree unchanged |
| Settings.ReplaceTopLevel | src/lib/migrators/settings.ts:49-54 | the overwrite loop gives the union of keys, source values for source keys and target values elsewhere |
| Settings.MigrateForTool | src/lib/migrators/settings.ts:27-74 | the new tree and result are those of `MigrateForToolSpec` |
| Base.Dispatch | src/lib/migrators/base.ts:40 | a tool's own result keeps the invariant, and a thrown error leaves the tree unchanged |
| Base.ToolSpec | src/lib/migrators/base.ts:39-40 | a tool's resolved result keeps the invariant |
| Base.Absorb | src/lib/migrators/base.ts:42-56 | a result is summed in; a thrown error adds exactly one error labelled `Tool: <tool>, Type: <configType>` |
| Base.LoopStep | src/lib/migrators/base.ts:37-57 | for any runner, each tool runs on the tree the previous tools left, in order, and its result is absorbed into the running stats |
| Base.LoopCounts | src/lib/migrators/base.ts:37-57 | for any runner, the loop only appends errors and no counter decreases; when every tool result keeps one error record per counted error, so does the total |
| Base.LoopSum | src/lib/migrators/base.ts:35-45 | the result is the starting stats plus the per-tool sum from zero |
| Base.LoopLast | src/lib/migrators/base.ts:37-57 | the last tool runs on the tree the earlier tools left, and its result is absorbed last |
| Base.LoopThen | src/lib/migrators/base.ts:37-57 | the loop over two tool lists in a row is the loop over the second continuing from the stats and tree the first left |
| Base.LoopConcat | src/lib/migrators/base.ts:42-45 | the result over two tool lists is the sum of each, with errors in tool order |
| Base.ThrowingTool | src/lib/migrators/base.ts:47-56 | a throwing tool adds one count and one error labelled with the tool and type; earlier errors stay |
| Base.MigrateCounts | src/lib/migrators/mcp.ts:18-24 | the total keeps the invariant; a missing MCP source gives exactly one error naming it; a missing settings source gives zero stats, and no tool runs |
| Base.ToolSpecResolved | src/lib/migrators/base.ts:70-75 | each tool's target is `getToolPath` on the built-in registry |
| Base.MigrateForTool | src/lib/migrators/base.ts:40 | dispatches to the type's migrator, as `Dispatch` describes |
| Base.Migrate | src/lib/migrators/base.ts:34-60 | the loop's result and tree are those of `MigrateSpec` |
| Base.RunTool | src/lib/migrators/base.ts:38-40 | one tool's step: its target is resolved and its migrator run, with exactly the result and tree the migrator's runner gives |
| Base.RunAll | src/lib/migrators/base.ts:35-59 | the `for…of` loop over the target tools, starting from zero stats, gives the result and tree of the loop specification |
| Base.ToolRunApplies | src/lib/migrators/base.ts:39-40 | the runner the loop uses accepts every tool whose walking target is the source itself or apart from it, and applies the tool's specified step |
| Base.ClaudeCommandsOntoItself | src/lib/configs/claude.ts:5-9 | the built-in Claude Code commands target resolves to `~/.claude/commands` itself, and the walk onto it is accepted |
| Base.ToolRunSound | src/lib/migrators/base.ts:40-45 | every migrator's step, for every tool and tree, keeps one error record per counted error |

## Left out

- Asynchrony, concurrency and file-system races: every step is sequential over an in-memory tree. Listing order is the order stored in the tree.
- Console output, spinners and the logger (`src/lib/utils/logger.ts`).
- The CLI in `src/index.ts`. Its per-type loop repeats the base migrator's summation.
- The user-configuration loader (`src/lib/customConfig.ts`): it is dynamic `import()` and file I/O. Its `mergeConfigs` is `DeepMerge.Merge`.
- `getConfigDirChoiceList` and the `CONFIG_TYPES` constant: fixed display lists with no logic.
- `setExecutablePermission` and `removeDirectory` in `src/lib/utils/file.ts`: no migrator in the model calls them.
- The hooks migrator (`src/lib/migrators/hooks.ts`) does not match the current types, so only its converter is modelled.
- The YAML, JSON and TOML libraries are uninterpreted parameters, so their output formats, key order and error texts are not modelled.
- Error messages of Node and of V8: a thrown `TypeError` or a file-system error code becomes one fixed message per case (`Fs.Message`, `Json.PropError`, `Paths.UndefinedRead`).
- User-supplied transforms and merges signal a throw as `Err(message)`. A thrown value that is not an `Error`, which the catch blocks replace by a fixed text, is not distinguished from one that is.
- Paths are POSIX segment lists. `join`, `resolve` and `dirname` normalise `.`, `..` and empty segments; Windows drive letters are not modelled.
- `stat` ignores the set of unreadable paths: a path that exists can always be stat-ed.
- Recursive walks require the target to be the source directory itself or a tree apart from it (`Fs.NotNested`). A target strictly inside the source, or a source strictly inside the target, is not modelled. Every `readdir` reads one listing before its loop starts, so such a walk still ends in the source code, but the files and directories it writes can appear in listings it reads later.
- Walk.WalkCounts: for a walk of a tree onto itself, the count is proved only when no listing names one entry twice (`Fs.UniqueBelow`), as real directory listings do. A `.mdc` file a conversion writes next to its source is not in the listing already read, but a second visit of the same sub-directory would see it.
- Base.Apart: states the requirement for the rules migrator whenever the tool is configured for a direct walk, even when the rules source turns out to be a single file, which does not walk. The rules migrator itself asks it only of a directory source (`Rules.MigrateForToolSpec`).
- Sorting compares code points, whereas JavaScript's default sort compares UTF-16 code units. The two orders differ only outside the Basic Multilingual Plane.
- Prototype keys and inherited properties: a JSON object is a finite map of its own keys.
- JSON values that are not objects where the migrators expect one are read through `Json.Fields` as `{}`. This covers a top-level settings array or number (a settings target of `null` is modelled: it throws), a non-object TOML document, and an `mcpServers` value that is truthy but not an object. Spreading such a value into an entry also gives `{}`, where JavaScript would give an array's or a string's index keys.
- An `args` value that is neither an array nor falsy cannot be spread, so the OpenCode entry for it throws (`McpConvert.SpreadArgs`). A string `args` is spread character by character, as JavaScript does.
- Project mode for rules merges: `getTargetFilePath` passes a Promise to `resolve`, which throws. The model states that throw as one error, labelled by the base migrator (`Rules.TargetFile`).
- A rules `target` written as a candidate list would reach `split`/`expandHome` with an array. The model states that throw as one error.
- The empty rules target: `expandHome('')` resolves to the working directory.
- `customMerge` receives the file tree and the two paths. What it does inside is a parameter; a throw leaves the tree unchanged.
- `resolveTargetPath` reads the built-in registry (`DEFAULT_TOOL_CONFIGS`), not the user-merged one. The model does the same, so the candidate-list branch is reachable only through `Paths.ResolveTarget` with another registry.
- The `projectDir` and `sourceDir` fields that some migrators receive but never read are not modelled. The MCP source path is rendered from its `Path` when it is named in an error.
- `convertHooksForClaude`'s `sourceHooksDir` argument is never read and is not modelled.
- MarkdownToMdc.MdcFrontmatterRoundTrip: proved only for descriptions without `---`, since a description ending in `---` puts a `---` line end inside the YAML and the block closes early.
- McpMigrator.MigrateForToolSpec: does not state the error message itself; `TryMigrate`, `Converted` and `CodexWrite` state it.
- McpMigrator.TryMigrate: says only that a success leaves a file at the target; what that file holds is stated by `MigrateForToolWrites`.
- Settings.NullTargetError: the `TypeError` message leaves out the key it names, because the model's maps carry no key order and the source names the first key of its `for…in` loop.
- Settings.MigrateForToolSpec: does not restate which document is written; `TryMigrate` and `MigrateForToolWrites` state it.

=== FILE: agent.dfy ===
/**
 * src/lib/converters/agent.ts: agent definitions are Markdown files with a
 * YAML frontmatter.  They are converted for OpenCode (keep `name` and
 * `description`, add `mode: subagent`) and for the tools that take the
 * common format (keep `name` and `description` only).  The YAML parser
 * and serialiser are parameters.
 */
module Agent {
  import opened Wrappers
  import opened Strs
  import opened Json
  import opened Frontmatter

  /** Metadata as an ordered list of entries, in the order a serialiser writes them. */
  type Meta = seq<(string, Json)>

  /** What `parseAgentContent` returns. */
  datatype AgentParse = AgentParse(metadata: Json, body: string, hasFrontmatter: bool, parseError: bool, frontmatterStr: string)

  const EmptyObject: Json := JObj(map[])

  /**
   * `parseAgentContent(content)`: the parsed frontmatter (or `{}` when it
   * parses to a falsy value or fails to parse) and the text after the match.
   */
  function ParseAgentContent(content: string, yaml: string -> Result<Json>): (r: AgentParse)
    ensures AgentMatch(content).None? ==> r == AgentParse(EmptyObject, content, false, false, "")
    ensures r.hasFrontmatter <==> AgentMatch(content).Some?
    ensures r.hasFrontmatter ==>
              var b := AgentMatch(content).value;
              r.frontmatterStr == b.raw && r.body == content[b.matchLength..]
              && (r.parseError <==> yaml(b.raw).Err?)
              && (r.parseError ==> r.metadata == EmptyObject)
              && (!r.parseError ==> r.metadata == Or(yaml(b.raw).value, EmptyObject))
    ensures Truthy(r.metadata)
  {
    match AgentMatch(content)
    case None => AgentParse(EmptyObject, content, false, false, "")
    case Some(b) =>
      match yaml(b.raw)
      case Err(_) => AgentParse(EmptyObject, content[b.matchLength..], true, true, b.raw)
      case Ok(doc) => AgentParse(Or(doc, EmptyObject), content[b.matchLength..], true, false, b.raw)
  }

  function Keys(m: Meta): (r: seq<string>)
    ensures |r| == |m| && forall i :: 0 <= i < |m| ==> r[i] == m[i].0
  {
    if m == [] then [] else [m[0].0] + Keys(m[1..])
  }

  /**
   * `extractUniversalMetadata(metadata)`: `name`, then `description`, each
   * kept only when truthy.
   */
  function ExtractUniversalMetadata(metadata: Json): (r: Meta)
    requires !(metadata.Undefined? || metadata.Null?)
    ensures |r| <= 2
    ensures forall e :: e in r ==> e.0 == "name" || e.0 == "description"
    ensures forall e :: e in r ==> Truthy(e.1) && Some(e.1) == Prop(metadata, e.0)
    ensures ("name" in Keys(r)) <==> Truthy(Prop(metadata, "name").value)
    ensures ("description" in Keys(r)) <==> Truthy(Prop(metadata, "description").value)
    ensures |r| == 2 ==> r[0].0 == "name" && r[1].0 == "description"
  {
    var name := Prop(metadata, "name").value;
    var description := Prop(metadata, "description").value;
    (if Truthy(name) then [("name", name)] else []) + (if Truthy(description) then [("description", description)] else [])
  }

  /** `stringifyAgentContent(metadata, body)` with the serialiser `stringify`. */
  function StringifyAgentContent(meta: Meta, body: string, stringify: Meta -> string): string {
    "---\n" + stringify(meta) + "---\n\n" + Trim(body)
  }

  const SubagentMode: (string, Json) := ("mode", JStr("subagent"))

  /** `convertToOpenCodeAgent(content)`. */
  function ConvertToOpenCodeAgent(content: string, yaml: string -> Result<Json>, stringify: Meta -> string): string {
    var p := ParseAgentContent(content, yaml);
    if p.hasFrontmatter then
      if !p.parseError then
        StringifyAgentContent(ExtractUniversalMetadata(p.metadata) + [SubagentMode], p.body, stringify)
      else if !Contains(p.frontmatterStr, "mode: subagent") then
        "---\nmode: subagent\n" + p.frontmatterStr + "\n---\n" + p.body
      else content
    else "---\nmode: subagent\n---\n\n" + content
  }

  /** `convertToUniversalAgent(content)`. */
  function ConvertToUniversalAgent(content: string, yaml: string -> Result<Json>, stringify: Meta -> string): string {
    var p := ParseAgentContent(content, yaml);
    if p.hasFrontmatter && !p.parseError then
      var meta := ExtractUniversalMetadata(p.metadata);
      if |meta| == 0 then Trim(p.body) else StringifyAgentContent(meta, p.body, stringify)
    else content
  }

  /** Content without a frontmatter block gets a minimal OpenCode header, and stays as it is otherwise. */
  lemma NoFrontmatter(content: string, yaml: string -> Result<Json>, stringify: Meta -> string)
    requires AgentMatch(content).None?
    ensures ConvertToOpenCodeAgent(content, yaml, stringify) == "---\nmode: subagent\n---\n\n" + content
    ensures ConvertToUniversalAgent(content, yaml, stringify) == content
  {
  }

  /**
   * A parsed frontmatter is rewritten to `name` and `description` (when
   * truthy) followed by `mode: subagent`, over the trimmed body.
   */
  lemma OpenCodeMetadata(content: string, yaml: string -> Result<Json>, stringify: Meta -> string)
    requires AgentMatch(content).Some? && yaml(AgentMatch(content).value.raw).Ok?
    ensures var p := ParseAgentContent(content, yaml);
            var meta := ExtractUniversalMetadata(p.metadata) + [SubagentMode];
            ConvertToOpenCodeAgent(content, yaml, stringify) == StringifyAgentContent(meta, p.body, stringify)
            && meta[|meta| - 1] == SubagentMode
            && forall k :: k in Keys(meta) ==> k in {"name", "description", "mode"}
  {
    var p := ParseAgentContent(content, yaml);
    var meta := ExtractUniversalMetadata(p.metadata) + [SubagentMode];
    forall k | k in Keys(meta) ensures k in {"name", "description", "mode"} {
      var i :| 0 <= i < |Keys(meta)| && Keys(meta)[i] == k;
      assert meta[i] in meta;
      if i < |meta| - 1 {
        assert meta[i] in ExtractUniversalMetadata(p.metadata);
      }
    }
  }

  /**
   * When the frontmatter does not parse, the result still declares
   * `mode: subagent`: inserted in front of the raw block unless it is there.
   */
  lemma OpenCodeFallbackHasMode(content: string, yaml: string -> Result<Json>, stringify: Meta -> string)
    requires AgentMatch(content).Some? && yaml(AgentMatch(content).value.raw).Err?
    ensures Contains(ConvertToOpenCodeAgent(content, yaml, stringify), "mode: subagent")
  {
    var p := ParseAgentContent(content, yaml);
    if Contains(p.frontmatterStr, "mode: subagent") {
      RawInside(content, "mode: subagent");
    } else {
      ModeInserted(p.frontmatterStr, p.body);
    }
  }

  /** What the matched block contains, the content contains. */
  lemma RawInside(content: string, pat: string)
    requires AgentMatch(content).Some? && Contains(AgentMatch(content).value.raw, pat)
    ensures Contains(content, pat)
  {
    var b := AgentMatch(content).value;
    var m := b.matchLength;
    var e := if content[m - 1] == '\n' then m - 1 else m;
    ContainsInside(content, e - 4 - |b.raw|, b.raw, pat);
  }

  /** The header written in front of an unparsable block declares the mode. */
  lemma ModeInserted(raw: string, body: string)
    ensures Contains("---\nmode: subagent\n" + raw + "\n---\n" + body, "mode: subagent")
  {
    var head := "---\nmode: subagent\n";
    var r := head + raw + "\n---\n" + body;
    PrefixOfConcat(head, raw, head);
    PrefixOfConcat(head + raw, "\n---\n", head);
    PrefixOfConcat(head + raw + "\n---\n", body, head);
    assert head[4..18] == "mode: subagent";
    OccursWithin(r, head, 0, "mode: subagent", 4);
    ContainsAt(r, "mode: subagent", 4);
  }

  /** What a piece of a text contains, the text contains. */
  lemma ContainsInside(s: string, start: nat, t: string, pat: string)
    requires start + |t| <= |s| && s[start..start + |t|] == t && Contains(t, pat)
    ensures Contains(s, pat)
  {
    var i := IndexOfFrom(t, pat, 0).value;
    OccursWithin(s, t, start, pat, start + i);
    ContainsAt(s, pat, start + i);
  }

  /** A frontmatter with neither a truthy `name` nor a truthy `description` leaves only the trimmed body. */
  lemma UniversalDropsEmptyMetadata(content: string, yaml: string -> Result<Json>, stringify: Meta -> string)
    requires AgentMatch(content).Some? && yaml(AgentMatch(content).value.raw).Ok?
    requires var p := ParseAgentContent(content, yaml);
             !Truthy(Prop(p.metadata, "name").value) && !Truthy(Prop(p.metadata, "description").value)
    ensures ConvertToUniversalAgent(content, yaml, stringify) == Trim(ParseAgentContent(content, yaml).body)
  {
  }

  /** No line of a serialised frontmatter after the first starts with a dash. */
  predicate NoDashLine(y: string) {
    forall i :: 0 <= i < |y| - 1 && y[i] == '\n' ==> y[i + 1] != '-'
  }

  /**
   * Parsing what `stringifyAgentContent` wrote finds the serialised block
   * (without its last line break) and the trimmed body after one blank line,
   * provided the serialiser ends its output with a line break and starts
   * no later line with a dash.
   */
  lemma StringifyParseRoundTrip(meta: Meta, body: string, stringify: Meta -> string)
    requires var y := stringify(meta); y != "" && y[|y| - 1] == '\n' && NoDashLine(y)
    ensures var y := stringify(meta);
            AgentMatch(StringifyAgentContent(meta, body, stringify))
              == Some(AgentBlock(y[..|y| - 1], |y| + 8))
    ensures var y := stringify(meta);
            StringifyAgentContent(meta, body, stringify)[|y| + 8..] == "\n" + Trim(body)
  {
    var y := stringify(meta);
    var c := StringifyAgentContent(meta, body, stringify);
    Layout(y, Trim(body), c);
    FenceScan(c, y);
  }

  /** Where the pieces of `---\n<y>---\n\n<t>` sit. */
  lemma Layout(y: string, t: string, c: string)
    requires c == "---\n" + y + "---\n\n" + t
    ensures 9 + |y| <= |c| && c[..3] == "---" && c[3] == '\n' && c[4..4 + |y|] == y
    ensures c[4 + |y|..7 + |y|] == "---" && c[7 + |y|] == '\n' && c[|y| + 8..] == "\n" + t
  {
    var tail := "---\n\n";
    assert c == ("---\n" + y) + tail + t;
    assert tail[..3] == "---" && tail[3] == '\n' && tail[4..] == "\n";
    assert c[4 + |y|..9 + |y|] == tail;
    assert c[9 + |y|..] == t;
    assert c[|y| + 8..] == [c[|y| + 8]] + c[9 + |y|..];
  }

  /**
   * The agent pattern on a text laid out as `---\n<y>---\n…`, with `y`
   * ending in a line break and no later line of it starting with a dash,
   * captures `y` without its last line break.
   */
  lemma FenceScan(c: string, y: string)
    requires y != "" && y[|y| - 1] == '\n' && NoDashLine(y) && 8 + |y| <= |c|
    requires c[..3] == "---" && c[3] == '\n' && c[4..4 + |y|] == y
    requires c[4 + |y|..7 + |y|] == "---" && c[7 + |y|] == '\n'
    ensures AgentMatch(c) == Some(AgentBlock(y[..|y| - 1], |y| + 8))
  {
    assert StartsWith(c, "---");
    assert c[3..4] == "\n";
    IndexOfFromIs(c, "\n", 3, 3);
    forall j | 4 <= j < 3 + |y|
      ensures !OccursAt(c, "\n---", j)
    {
      assert c[j] == y[j - 4] && c[j + 1] == y[j - 3];
      if c[j] == '\n' {
        DiffersAt(c, "\n---", j, 1);
      } else {
        DiffersAt(c, "\n---", j, 0);
      }
    }
    assert c[3 + |y|] == y[|y| - 1];
    assert c[3 + |y|..7 + |y|] == [c[3 + |y|]] + c[4 + |y|..7 + |y|];
    IndexOfFromIs(c, "\n---", 4, 3 + |y|);
    assert c[4..3 + |y|] == y[..|y| - 1];
  }

  /** Metadata entries as the object a parser would return for them. */
  function MetaObject(m: Meta): (r: Json)
    ensures r.JObj? && forall e :: e in m ==> e.0 in r.fields
  {
    if m == [] then EmptyObject
    else
      var prev := MetaObject(m[..|m| - 1]);
      assert forall e :: e in m ==> e in m[..|m| - 1] || e == m[|m| - 1];
      JObj(prev.fields[m[|m| - 1].0 := m[|m| - 1].1])
  }

  /** Extracting from the object of extracted metadata gives the same entries. */
  lemma ExtractStable(metadata: Json)
    requires !(metadata.Undefined? || metadata.Null?)
    ensures ExtractUniversalMetadata(MetaObject(ExtractUniversalMetadata(metadata))) == ExtractUniversalMetadata(metadata)
  {
    var name := Prop(metadata, "name").value;
    var description := Prop(metadata, "description").value;
    var m := ExtractUniversalMetadata(metadata);
    if Truthy(name) && Truthy(description) {
      assert m == [("name", name), ("description", description)];
      assert m[..1] == [("name", name)];
      assert MetaObject(m[..1]) == JObj(map["name" := name]);
    } else if Truthy(name) {
      assert m == [("name", name)];
      assert m[..0] == [];
    } else if Truthy(description) {
      assert m == [("description", description)];
      assert m[..0] == [];
    }
  }

  /**
   * Converting to the common format twice changes nothing, when the
   * serialiser and the parser agree on the kept entries (the parser reads
   * back the object of what the serialiser wrote) and the kept metadata is
   * not empty.
   */
  lemma UniversalIdempotent(content: string, yaml: string -> Result<Json>, stringify: Meta -> string)
    requires AgentMatch(content).Some? && yaml(AgentMatch(content).value.raw).Ok?
    requires var m := ExtractUniversalMetadata(ParseAgentContent(content, yaml).metadata);
             var y := stringify(m);
             |m| > 0 && y != "" && y[|y| - 1] == '\n' && NoDashLine(y) && yaml(y[..|y| - 1]) == Ok(MetaObject(m))
    ensures var once := ConvertToUniversalAgent(content, yaml, stringify);
            ConvertToUniversalAgent(once, yaml, stringify) == once
  {
    var p := ParseAgentContent(content, yaml);
    var m := ExtractUniversalMetadata(p.metadata);
    var once := ConvertToUniversalAgent(content, yaml, stringify);
    assert once == StringifyAgentContent(m, p.body, stringify);
    ExtractStable(p.metadata);
    UniversalOfWritten(m, p.body, yaml, stringify);
    TrimStable(p.body);
    TrimStable(Trim(p.body));
    assert Trim("\n" + Trim(p.body)) == Trim(p.body);
    StringifyTrimmed(m, "\n" + Trim(p.body), p.body, stringify);
  }

  /** Two bodies that trim alike are written alike. */
  lemma StringifyTrimmed(m: Meta, body: string, other: string, stringify: Meta -> string)
    requires Trim(body) == Trim(other)
    ensures StringifyAgentContent(m, body, stringify) == StringifyAgentContent(m, other, stringify)
  {
  }

  /** The common-format conversion of a file it wrote itself reads back its own entries. */
  lemma UniversalOfWritten(m: Meta, body: string, yaml: string -> Result<Json>, stringify: Meta -> string)
    requires var y := stringify(m);
             |m| > 0 && y != "" && y[|y| - 1] == '\n' && NoDashLine(y) && yaml(y[..|y| - 1]) == Ok(MetaObject(m))
    requires ExtractUniversalMetadata(MetaObject(m)) == m
    ensures ConvertToUniversalAgent(StringifyAgentContent(m, body, stringify), yaml, stringify)
         == StringifyAgentContent(m, "\n" + Trim(body), stringify)
  {
    var c := StringifyAgentContent(m, body, stringify);
    var y := stringify(m);
    StringifyParseRoundTrip(m, body, stringify);
    assert AgentMatch(c) == Some(AgentBlock(y[..|y| - 1], |y| + 8));
    assert yaml(AgentMatch(c).value.raw) == Ok(MetaObject(m));
    var q := ParseAgentContent(c, yaml);
    assert q.hasFrontmatter && !q.parseError;
    assert Truthy(MetaObject(m));
    assert q.metadata == MetaObject(m);
    assert q.body == "\n" + Trim(body);
    assert ExtractUniversalMetadata(q.metadata) == m;
  }
}

=== FILE: base.dfy ===
/**
 * src/lib/migrators/base.ts: the template every migrator runs.  For each
 * target tool in order, the tool's target path is resolved against the
 * built-in registry and the migrator's own step runs on it; the step's
 * counts are summed into the result, and a step that throws adds one
 * error naming the tool and the configuration type instead, after which
 * the remaining tools still run.  The MCP and settings migrators first
 * check that their source file exists.
 */
module Base {
  import opened Wrappers
  import opened Stats
  import opened Fs
  import opened Config
  import opened FileSystem
  import opened Paths
  import opened Migration
  import CommandsStep = Commands
  import SkillsStep = Skills
  import RulesStep = Rules
  import McpStep = McpMigrator
  import SettingsStep = Settings

  /** The migrator subclasses, one per configuration type they migrate. */
  datatype Kind = CommandsKind | SkillsKind | RulesKind | McpKind | SettingsKind

  /** The `configType` each migrator passes to the base constructor. */
  function TypeOf(kind: Kind): ConfigType {
    match kind
    case CommandsKind => ConfigType.Commands
    case SkillsKind => ConfigType.Skills
    case RulesKind => ConfigType.Rules
    case McpKind => ConfigType.Mcp
    case SettingsKind => ConfigType.Settings
  }

  /**
   * The migrators and tools whose step walks the source tree into the
   * target directory: a plain commands or skills copy and a direct rules
   * walk (for a rules source that is a directory).
   */
  predicate Walks(tools: Registry, kind: Kind, tool: string) {
    match kind
    case CommandsKind => CommandsStep.CopiesTree(tools, tool)
    case SkillsKind => SkillsStep.CopiesTree(tools, tool)
    case RulesKind => RulesStep.WalksDirect(tools, tool)
    case McpKind => false
    case SettingsKind => false
  }

  /**
   * What a walking step needs of a tool's target: it is the source tree
   * itself, or lies outside it with the source tree outside it.
   */
  predicate Apart(ctx: Context, kind: Kind, src: Path, tool: string)
    requires ctx.Valid()
  {
    var target := GetToolPath(ctx.home, Defaults, tool, TypeOf(kind));
    Walks(ctx.tools, kind, tool) && target.Ok? ==> NotNested(src, Resolve(ctx.cwd, target.value))
  }

  /** `Tool: <tool>, Type: <configType>`, the file of a tool's thrown error. */
  function ToolLabel(kind: Kind, tool: string): string {
    "Tool: " + tool + ", Type: " + TypeName(TypeOf(kind))
  }

  /**
   * The migrator's `migrateForTool(tool, target)` for the resolved target
   * string `target`: `Err` is what it throws.
   */
  ghost function Dispatch(n: Nodes, failing: set<Path>, ctx: Context, kind: Kind, src: Path, tool: string, target: string): (r: (Result<Stats>, Nodes))
    requires ctx.Valid()
    requires Walks(ctx.tools, kind, tool) ==> NotNested(src, Resolve(ctx.cwd, target))
    ensures r.0.Ok? ==> r.0.value.Consistent()
    ensures r.0.Err? ==> r.1 == n
  {
    var dst := Resolve(ctx.cwd, target);
    match kind
    case CommandsKind =>
      CommandsStep.MigrateForToolCounts(n, failing, ctx, src, tool, dst);
      var (s, n1) := CommandsStep.MigrateForToolSpec(n, failing, ctx, src, tool, dst);
      (Ok(s), n1)
    case SkillsKind =>
      SkillsStep.MigrateForToolCounts(n, failing, ctx, src, tool, dst);
      var (s, n1) := SkillsStep.MigrateForToolSpec(n, failing, ctx, src, tool, dst);
      (Ok(s), n1)
    case RulesKind =>
      RulesStep.MigrateForToolCounts(n, failing, ctx, src, tool, dst);
      RulesStep.MigrateForToolSpec(n, failing, ctx, src, tool, dst)
    case McpKind =>
      var (s, n1) := McpStep.MigrateForToolSpec(n, failing, ctx, src, tool, target);
      (Ok(s), n1)
    case SettingsKind =>
      SettingsStep.MigrateForToolSpec(n, failing, ctx, src, tool, target)
  }

  /**
   * One tool of the loop: its target is resolved (which may throw), then
   * the migrator's step runs on it.
   */
  ghost function ToolSpec(n: Nodes, failing: set<Path>, ctx: Context, kind: Kind, src: Path, tool: string): (r: (Result<Stats>, Nodes))
    requires ctx.Valid() && Apart(ctx, kind, src, tool)
    ensures r.0.Ok? ==> r.0.value.Consistent()
  {
    DefaultsResolve(n, ctx.cwd, ctx.home, tool, TypeOf(kind));
    match ResolveTarget(n, ctx.cwd, ctx.home, Defaults, tool, TypeOf(kind))
    case Err(m) => (Err(m), n)
    case Ok(target) => Dispatch(n, failing, ctx, kind, src, tool, target)
  }

  /**
   * The body of the `try` and its `catch` for one tool: the tool's stats
   * summed into the running result, or one error naming the tool.
   */
  function Absorb(acc: Stats, res: Result<Stats>, kind: Kind, tool: string): (r: Stats)
    ensures res.Ok? ==> r.Total() == acc.Total() + res.value.Total() && r.errors == acc.errors + res.value.errors
    ensures res.Err? ==> r.Total() == acc.Total() + 1 && r.error == acc.error + 1
    ensures res.Err? ==> r.errors == acc.errors + [MigrationError(ToolLabel(kind, tool), res.error)]
    ensures acc.Consistent() && (res.Ok? ==> res.value.Consistent()) ==> r.Consistent()
  {
    match res
    case Ok(s) => Sum(acc, s)
    case Err(m) => acc.AddError(ToolLabel(kind, tool), m)
  }

  /** Every tool of `tools` satisfies `Apart`. */
  predicate AllApart(ctx: Context, kind: Kind, src: Path, tools: seq<string>)
    requires ctx.Valid()
  {
    forall i :: 0 <= i < |tools| ==> Apart(ctx, kind, src, tools[i])
  }

  /** What one tool of the loop does: its result (`Err` is a throw) and the tree after it. */
  type Runner = (Nodes, string) --> (Result<Stats>, Nodes)

  /** `run` accepts every tool of `tools`, on any tree. */
  ghost predicate Runs(run: Runner, tools: seq<string>) {
    forall m: Nodes, i :: 0 <= i < |tools| ==> run.requires(m, tools[i])
  }

  /** Every result `run` returns for a tool of `tools` keeps one recorded error per counted error. */
  ghost predicate Sound(run: Runner, tools: seq<string>)
    requires Runs(run, tools)
  {
    forall m: Nodes, i :: 0 <= i < |tools| && run(m, tools[i]).0.Ok? ==> run(m, tools[i]).0.value.Consistent()
  }

  /** The step of the migrator `kind` for one tool, as a runner. */
  ghost function ToolRun(failing: set<Path>, ctx: Context, kind: Kind, src: Path): Runner
    requires ctx.Valid()
  {
    (m: Nodes, t: string) requires ctx.Valid() && Apart(ctx, kind, src, t) => ToolSpec(m, failing, ctx, kind, src, t)
  }

  /**
   * The loop of `migrate` over `tools`, in order, from the running result
   * `acc`: each tool runs on the tree the previous one left.
   */
  ghost function Loop(n: Nodes, kind: Kind, tools: seq<string>, run: Runner, acc: Stats): (r: (Stats, Nodes))
    requires Runs(run, tools)
    decreases |tools|
  {
    if tools == [] then (acc, n)
    else
      var init := tools[..|tools| - 1];
      assert forall m: Nodes, i :: 0 <= i < |init| ==> run.requires(m, init[i]) by {
        assert forall i :: 0 <= i < |init| ==> init[i] == tools[i];
      }
      var prev := Loop(n, kind, init, run, acc);
      var last := run(prev.1, tools[|tools| - 1]);
      (Absorb(prev.0, last.0, kind, tools[|tools| - 1]), last.1)
  }

  /**
   * `migrate()`: the MCP migrator with a missing source records one error
   * naming it and runs no tool; the settings migrator with a missing source
   * returns zero counts and runs no tool; otherwise the loop from zero.
   */
  ghost function MigrateSpec(n: Nodes, failing: set<Path>, ctx: Context, kind: Kind, src: Path, tools: seq<string>): (r: (Stats, Nodes))
    requires ctx.Valid() && AllApart(ctx, kind, src, tools)
  {
    if kind.McpKind? && src !in n then (Stats(0, 0, 1, [MigrationError(Render(src), McpStep.SourceMissing)]), n)
    else if kind.SettingsKind? && src !in n then (Stats(0, 0, 0, []), n)
    else
      ToolRunRuns(failing, ctx, kind, src, tools);
      Loop(n, kind, tools, ToolRun(failing, ctx, kind, src), Stats(0, 0, 0, []))
  }

  // -------------------------------------------------------- properties

  /** The migrator's runner accepts every tool that satisfies `Apart`, and runs its step. */
  lemma ToolRunRuns(failing: set<Path>, ctx: Context, kind: Kind, src: Path, tools: seq<string>)
    requires ctx.Valid() && AllApart(ctx, kind, src, tools)
    ensures Runs(ToolRun(failing, ctx, kind, src), tools)
  {
  }

  /** The migrator's runner applies `ToolSpec`. */
  lemma ToolRunApplies(failing: set<Path>, ctx: Context, kind: Kind, src: Path, m: Nodes, tool: string)
    requires ctx.Valid() && Apart(ctx, kind, src, tool)
    ensures ToolRun(failing, ctx, kind, src).requires(m, tool)
    ensures ToolRun(failing, ctx, kind, src)(m, tool) == ToolSpec(m, failing, ctx, kind, src, tool)
  {
  }

  /** Every migrator's step keeps one recorded error per counted error. */
  lemma ToolRunSound(failing: set<Path>, ctx: Context, kind: Kind, src: Path, tools: seq<string>)
    requires ctx.Valid() && AllApart(ctx, kind, src, tools)
    ensures Runs(ToolRun(failing, ctx, kind, src), tools)
    ensures Sound(ToolRun(failing, ctx, kind, src), tools)
  {
    var run := ToolRun(failing, ctx, kind, src);
    forall m: Nodes, i | 0 <= i < |tools| && run(m, tools[i]).0.Ok?
      ensures run(m, tools[i]).0.value.Consistent()
    {
      ToolRunApplies(failing, ctx, kind, src, m, tools[i]);
    }
  }

  /** A runner that accepts all the tools accepts every prefix of them. */
  lemma RunsPrefix(run: Runner, tools: seq<string>, i: nat)
    requires Runs(run, tools) && i <= |tools|
    ensures Runs(run, tools[..i])
    ensures Sound(run, tools) ==> Sound(run, tools[..i])
  {
    assert forall k :: 0 <= k < i ==> tools[..i][k] == tools[k];
  }

  /** The loop over the first `i + 1` tools is the loop over the first `i`, then tool `i`. */
  lemma LoopStep(n: Nodes, kind: Kind, tools: seq<string>, i: nat, run: Runner, acc: Stats)
    requires Runs(run, tools) && i < |tools|
    ensures Runs(run, tools[..i]) && Runs(run, tools[..i + 1])
    ensures var prev := Loop(n, kind, tools[..i], run, acc);
      var last := run(prev.1, tools[i]);
      Loop(n, kind, tools[..i + 1], run, acc) == (Absorb(prev.0, last.0, kind, tools[i]), last.1)
  {
    RunsPrefix(run, tools, i);
    RunsPrefix(run, tools, i + 1);
    assert tools[..i + 1][..i] == tools[..i];
  }

  /**
   * The loop keeps one recorded error per counted error when every tool's
   * result does, and it only ever appends: the running result's errors
   * stay a prefix and no counter decreases, whatever the tools do.
   */
  lemma {:induction false} LoopCounts(n: Nodes, kind: Kind, tools: seq<string>, run: Runner, acc: Stats)
    requires Runs(run, tools)
    ensures var r := Loop(n, kind, tools, run, acc).0;
      && (acc.Consistent() && Sound(run, tools) ==> r.Consistent())
      && |acc.errors| <= |r.errors| && r.errors[..|acc.errors|] == acc.errors
      && r.success >= acc.success && r.skipped >= acc.skipped && r.error >= acc.error
    decreases |tools|
  {
    if tools != [] {
      var init := tools[..|tools| - 1];
      RunsPrefix(run, tools, |tools| - 1);
      LoopCounts(n, kind, init, run, acc);
      var prev := Loop(n, kind, init, run, acc);
      var last := run(prev.1, tools[|tools| - 1]);
      var r := Absorb(prev.0, last.0, kind, tools[|tools| - 1]);
      assert r.errors[..|acc.errors|] == prev.0.errors[..|acc.errors|];
    }
  }

  /**
   * Starting the loop from a running result is summing that result with
   * the loop from zero: the total is the field-wise sum of the tools'
   * contributions, with the errors concatenated in tool order.
   */
  lemma {:induction false} LoopSum(n: Nodes, kind: Kind, tools: seq<string>, run: Runner, acc: Stats)
    requires Runs(run, tools)
    ensures var r := Loop(n, kind, tools, run, acc);
      var z := Loop(n, kind, tools, run, Stats(0, 0, 0, []));
      r == (Sum(acc, z.0), z.1)
    decreases |tools|
  {
    if tools == [] {
      SumZero(acc);
    } else {
      var init := tools[..|tools| - 1];
      var tool := tools[|tools| - 1];
      RunsPrefix(run, tools, |tools| - 1);
      LoopSum(n, kind, init, run, acc);
      var z := Loop(n, kind, init, run, Stats(0, 0, 0, []));
      var last := run(z.1, tool);
      match last.0
      case Ok(s) =>
        SumAssoc(acc, z.0, s);
      case Err(m) =>
        var e := Stats(0, 0, 1, [MigrationError(ToolLabel(kind, tool), m)]);
        assert z.0.AddError(ToolLabel(kind, tool), m) == Sum(z.0, e);
        assert Sum(acc, z.0).AddError(ToolLabel(kind, tool), m) == Sum(Sum(acc, z.0), e);
        SumAssoc(acc, z.0, e);
    }
  }

  /** The loop over `first + rest` is the loop over `rest` continuing from where the loop over `first` stopped. */
  lemma {:induction false} LoopThen(n: Nodes, kind: Kind, first: seq<string>, rest: seq<string>, run: Runner, acc: Stats)
    requires Runs(run, first + rest)
    ensures Runs(run, first) && Runs(run, rest)
    ensures var a := Loop(n, kind, first, run, acc);
      Loop(n, kind, first + rest, run, acc) == Loop(a.1, kind, rest, run, a.0)
    decreases |rest|
  {
    RunsSplit(run, first, rest);
    if rest == [] {
      assert first + rest == first;
    } else {
      var all := first + rest;
      var init := rest[..|rest| - 1];
      assert all[..|all| - 1] == first + init && all[|all| - 1] == rest[|rest| - 1];
      assert all[..|all|] == all && rest[..|rest|] == rest;
      RunsPrefix(run, all, |all| - 1);
      RunsPrefix(run, rest, |rest| - 1);
      LoopThen(n, kind, first, init, run, acc);
      var a := Loop(n, kind, first, run, acc);
      var p1 := Loop(n, kind, first + init, run, acc);
      var p2 := Loop(a.1, kind, init, run, a.0);
      assert p1 == p2;
      var t := rest[|rest| - 1];
      var x := run(p1.1, t);
      LoopLast(n, kind, all, run, acc);
      assert Loop(n, kind, all, run, acc) == (Absorb(p1.0, x.0, kind, t), x.1);
      LoopLast(a.1, kind, rest, run, a.0);
      assert Loop(a.1, kind, rest, run, a.0) == (Absorb(p2.0, x.0, kind, t), x.1);
    }
  }

  /** The loop over a non-empty list is the loop over all but the last tool, then the last tool. */
  lemma LoopLast(n: Nodes, kind: Kind, tools: seq<string>, run: Runner, acc: Stats)
    requires Runs(run, tools) && tools != []
    ensures Runs(run, tools[..|tools| - 1])
    ensures var prev := Loop(n, kind, tools[..|tools| - 1], run, acc);
      var last := run(prev.1, tools[|tools| - 1]);
      Loop(n, kind, tools, run, acc) == (Absorb(prev.0, last.0, kind, tools[|tools| - 1]), last.1)
  {
    RunsPrefix(run, tools, |tools| - 1);
  }

  /** A runner that accepts two tool lists in a row accepts each of them. */
  lemma RunsSplit(run: Runner, first: seq<string>, rest: seq<string>)
    requires Runs(run, first + rest)
    ensures Runs(run, first) && Runs(run, rest)
  {
    assert forall i :: 0 <= i < |first| ==> first[i] == (first + rest)[i];
    assert forall i :: 0 <= i < |rest| ==> rest[i] == (first + rest)[|first| + i];
  }

  /**
   * Tools run strictly in order: running `first` and then `rest` is the
   * loop over `first + rest`, and its counts are those of the two runs
   * summed, the second run on the tree the first left.
   */
  lemma LoopConcat(n: Nodes, kind: Kind, first: seq<string>, rest: seq<string>, run: Runner)
    requires Runs(run, first + rest)
    ensures Runs(run, first) && Runs(run, rest)
    ensures var a := Loop(n, kind, first, run, Stats(0, 0, 0, []));
      var b := Loop(a.1, kind, rest, run, Stats(0, 0, 0, []));
      Loop(n, kind, first + rest, run, Stats(0, 0, 0, [])) == (Sum(a.0, b.0), b.1)
  {
    LoopThen(n, kind, first, rest, run, Stats(0, 0, 0, []));
    var a := Loop(n, kind, first, run, Stats(0, 0, 0, []));
    LoopSum(a.1, kind, rest, run, a.0);
  }

  /**
   * A tool whose step throws adds exactly one error, naming the tool and
   * the configuration type, and the tools after it still run.
   */
  lemma ThrowingTool(n: Nodes, kind: Kind, tools: seq<string>, tool: string, run: Runner)
    requires Runs(run, tools + [tool])
    ensures Runs(run, tools) && forall m: Nodes :: run.requires(m, tool)
    ensures run(Loop(n, kind, tools, run, Stats(0, 0, 0, [])).1, tool).0.Err? ==>
      var before := Loop(n, kind, tools, run, Stats(0, 0, 0, [])).0;
      var after := Loop(n, kind, tools + [tool], run, Stats(0, 0, 0, [])).0;
      && after.Total() == before.Total() + 1 && after.error == before.error + 1
      && after.errors[..|before.errors|] == before.errors
      && after.errors[|after.errors| - 1].file == ToolLabel(kind, tool)
  {
    var all := tools + [tool];
    assert all[..|all| - 1] == tools;
    assert all[|tools|] == tool;
    RunsPrefix(run, all, |tools|);
  }

  /**
   * `migrate()` keeps one recorded error per counted error; a missing MCP
   * or settings source runs no tool and leaves the tree as it was.
   */
  lemma MigrateCounts(n: Nodes, failing: set<Path>, ctx: Context, kind: Kind, src: Path, tools: seq<string>)
    requires ctx.Valid() && AllApart(ctx, kind, src, tools)
    ensures MigrateSpec(n, failing, ctx, kind, src, tools).0.Consistent()
    ensures src !in n && kind.McpKind? ==>
      MigrateSpec(n, failing, ctx, kind, src, tools) == (Stats(0, 0, 1, [MigrationError(Render(src), McpStep.SourceMissing)]), n)
    ensures src !in n && kind.SettingsKind? ==> MigrateSpec(n, failing, ctx, kind, src, tools) == (Stats(0, 0, 0, []), n)
  {
    ToolRunSound(failing, ctx, kind, src, tools);
    LoopCounts(n, kind, tools, ToolRun(failing, ctx, kind, src), Stats(0, 0, 0, []));
  }

  /** No target resolution throws, so every error that names a tool comes from its step. */
  lemma ToolSpecResolved(n: Nodes, failing: set<Path>, ctx: Context, kind: Kind, src: Path, tool: string)
    requires ctx.Valid() && Apart(ctx, kind, src, tool)
    ensures GetToolPath(ctx.home, Defaults, tool, TypeOf(kind)).Ok?
    ensures ToolSpec(n, failing, ctx, kind, src, tool)
         == Dispatch(n, failing, ctx, kind, src, tool, GetToolPath(ctx.home, Defaults, tool, TypeOf(kind)).value)
  {
    DefaultsResolve(n, ctx.cwd, ctx.home, tool, TypeOf(kind));
  }

  /**
   * `-t claude` from the default source `~/.claude`: the commands target
   * resolves to the commands source itself, which a walk accepts.
   */
  lemma ClaudeCommandsOntoItself(ctx: Context)
    requires ctx.Valid()
    ensures GetToolPath(ctx.home, Defaults, "claude", TypeOf(CommandsKind)).Ok?
    ensures Resolve(ctx.cwd, GetToolPath(ctx.home, Defaults, "claude", TypeOf(CommandsKind)).value)
         == ctx.home + [".claude", "commands"]
    ensures Apart(ctx, CommandsKind, ctx.home + [".claude", "commands"], "claude")
  {
    ClaudeCommandsTarget(ctx.home);
    ResolveRender(ctx.cwd, ctx.home + [".claude", "commands"]);
  }

  // ------------------------------------------------------------ methods

  /** The migrator's own `migrateForTool(tool, target)`. */
  method MigrateForTool(fs: FileSystem, ctx: Context, kind: Kind, src: Path, tool: string, target: string) returns (r: Result<Stats>)
    requires ctx.Valid()
    requires Walks(ctx.tools, kind, tool) ==> NotNested(src, Resolve(ctx.cwd, target))
    modifies fs
    ensures (r, fs.nodes) == Dispatch(old(fs.nodes), fs.failing, ctx, kind, src, tool, target)
  {
    ghost var n0 := fs.nodes;
    var dst := Resolve(ctx.cwd, target);
    match kind
    case CommandsKind =>
      assert Dispatch(n0, fs.failing, ctx, kind, src, tool, target)
          == (Ok(CommandsStep.MigrateForToolSpec(n0, fs.failing, ctx, src, tool, dst).0), CommandsStep.MigrateForToolSpec(n0, fs.failing, ctx, src, tool, dst).1);
      var s := CommandsStep.MigrateForTool(fs, ctx, src, tool, dst);
      r := Ok(s);
    case SkillsKind =>
      assert Dispatch(n0, fs.failing, ctx, kind, src, tool, target)
          == (Ok(SkillsStep.MigrateForToolSpec(n0, fs.failing, ctx, src, tool, dst).0), SkillsStep.MigrateForToolSpec(n0, fs.failing, ctx, src, tool, dst).1);
      var s := SkillsStep.MigrateForTool(fs, ctx, src, tool, dst);
      r := Ok(s);
    case RulesKind =>
      assert Dispatch(n0, fs.failing, ctx, kind, src, tool, target) == RulesStep.MigrateForToolSpec(n0, fs.failing, ctx, src, tool, dst);
      r := RulesStep.MigrateForTool(fs, ctx, src, tool, dst);
    case McpKind =>
      assert Dispatch(n0, fs.failing, ctx, kind, src, tool, target)
          == (Ok(McpStep.MigrateForToolSpec(n0, fs.failing, ctx, src, tool, target).0), McpStep.MigrateForToolSpec(n0, fs.failing, ctx, src, tool, target).1);
      var s := McpStep.MigrateForTool(fs, ctx, src, tool, target);
      r := Ok(s);
    case SettingsKind =>
      assert Dispatch(n0, fs.failing, ctx, kind, src, tool, target) == SettingsStep.MigrateForToolSpec(n0, fs.failing, ctx, src, tool, target);
      r := SettingsStep.MigrateForTool(fs, ctx, src, tool, target);
  }

  /** One iteration of the `try` block: resolve the tool's target, then run its step. */
  method RunTool(fs: FileSystem, ctx: Context, kind: Kind, src: Path, tool: string) returns (res: Result<Stats>)
    requires ctx.Valid() && Apart(ctx, kind, src, tool)
    modifies fs
    ensures ToolRun(fs.failing, ctx, kind, src).requires(old(fs.nodes), tool)
    ensures (res, fs.nodes) == ToolRun(fs.failing, ctx, kind, src)(old(fs.nodes), tool)
  {
    ghost var before := fs.nodes;
    ToolRunApplies(fs.failing, ctx, kind, src, before, tool);
    var target := ResolveTargetPath(fs, ctx.cwd, ctx.home, Defaults, tool, TypeOf(kind));
    if target.Err? {
      res := Err(target.error);
      assert (res, fs.nodes) == ToolSpec(before, fs.failing, ctx, kind, src, tool);
    } else {
      DefaultsResolve(before, ctx.cwd, ctx.home, tool, TypeOf(kind));
      assert ToolSpec(before, fs.failing, ctx, kind, src, tool) == Dispatch(before, fs.failing, ctx, kind, src, tool, target.value);
      res := MigrateForTool(fs, ctx, kind, src, tool, target.value);
    }
  }

  /** `BaseMigrator.migrate()`, with the MCP and settings overrides in front of it. */
  method Migrate(fs: FileSystem, ctx: Context, kind: Kind, src: Path, tools: seq<string>) returns (r: Stats)
    requires ctx.Valid() && AllApart(ctx, kind, src, tools)
    modifies fs
    ensures (r, fs.nodes) == MigrateSpec(old(fs.nodes), fs.failing, ctx, kind, src, tools)
  {
    if kind.McpKind? && !fs.FileExists(src) {
      return Stats(0, 0, 1, [MigrationError(Render(src), McpStep.SourceMissing)]);
    }
    if kind.SettingsKind? && !fs.FileExists(src) {
      return Stats(0, 0, 0, []);
    }
    ToolRunRuns(fs.failing, ctx, kind, src, tools);
    r := RunAll(fs, ctx, kind, src, tools);
  }

  /** The `for…of` loop of `migrate()` over the target tools. */
  method RunAll(fs: FileSystem, ctx: Context, kind: Kind, src: Path, tools: seq<string>) returns (r: Stats)
    requires ctx.Valid() && AllApart(ctx, kind, src, tools)
    requires Runs(ToolRun(fs.failing, ctx, kind, src), tools)
    modifies fs
    ensures (r, fs.nodes) == Loop(old(fs.nodes), kind, tools, ToolRun(fs.failing, ctx, kind, src), Stats(0, 0, 0, []))
  {
    ghost var n0 := fs.nodes;
    ghost var run := ToolRun(fs.failing, ctx, kind, src);
    r := Stats(0, 0, 0, []);
    var i := 0;
    while i < |tools|
      invariant 0 <= i <= |tools|
      invariant Runs(run, tools[..i])
      invariant (r, fs.nodes) == Loop(n0, kind, tools[..i], run, Stats(0, 0, 0, []))
    {
      var tool := tools[i];
      LoopStep(n0, kind, tools, i, run, Stats(0, 0, 0, []));
      var res := RunTool(fs, ctx, kind, src, tool);
      r := Absorb(r, res, kind, tool);
      i := i + 1;
    }
    assert tools[..i] == tools;
  }
}

=== FILE: commands.dfy ===
/**
 * src/lib/migrators/commands.ts: the commands migrator's step for one tool.
 * A tool with its own `commands.transform` gets the transform applied to
 * every top-level Markdown file; `gemini` and `iflow` get every such file
 * converted to a TOML command; every other tool gets the directory copied.
 */
module Commands {
  import opened Wrappers
  import opened Strs
  import opened Json
  import opened Stats
  import opened Fs
  import opened Walk
  import opened Config
  import opened FileSystem
  import opened MarkdownToToml
  import opened Migration

  // ---------------------------------------------------- custom transform

  /**
   * One file of `migrateWithCustomTransform`: read, transform, create the
   * target directory when `existsSync` does not see it, write.  Whatever
   * throws is recorded under the file name; there is no skip.
   */
  function TransformStep(n: Nodes, failing: set<Path>, src: Path, dst: Path, file: string,
                         transform: (string, string) -> Result<string>): (r: (Outcome, Nodes))
    ensures !r.0.Skip?
    ensures r.0.Fail? ==> r.0.file == file
    ensures r.0.Success? ==>
      && ReadFile(n, failing, src + [file]).Done?
      && transform(ReadFile(n, failing, src + [file]).value, file).Ok?
      && dst + [file] in r.1
      && r.1[dst + [file]] == File(transform(ReadFile(n, failing, src + [file]).value, file).value)
  {
    var target := dst + [file];
    match ReadFile(n, failing, src + [file])
    case Failed(e) => (Fail(file, Message(e)), n)
    case Done(c) =>
      match transform(c, file)
      case Err(m) => (Fail(file, m), n)
      case Ok(t) =>
        var (e1, n1) := if dst == [] || dst in n then (None, n) else Mkdir(n, failing, dst);
        if e1.Some? then (Fail(file, Message(e1.value)), n1)
        else
          var (e2, n2) := Fs.WriteFile(n1, failing, target, t);
          assert Parent(target) == dst;
          if e2.Some? then (Fail(file, Message(e2.value)), n2) else (Success, n2)
  }

  function TransformStepOf(failing: set<Path>, src: Path, dst: Path, transform: (string, string) -> Result<string>): FileStep {
    (m: Nodes, f: string) => TransformStep(m, failing, src, dst, f, transform)
  }

  // ------------------------------------------------------ TOML conversion

  /** `file.replace('.md', '.toml')`: the first `.md` anywhere in the name. */
  function TomlName(file: string): string {
    ReplaceFirst(file, ".md", ".toml")
  }

  /**
   * The first `.md` is the one replaced, whatever follows it: `x.md`
   * becomes `x.toml`, but `x.mdc` becomes `x.tomlc` and `a.md.md` becomes
   * `a.toml.md`.
   */
  lemma TomlNames(base: string, rest: string)
    requires !Contains(base, ".md")
    ensures TomlName(base + ".md" + rest) == base + ".toml" + rest
  {
    var s := base + ".md" + rest;
    var i := |base|;
    assert s[..i] == base && s[i..i + 3] == ".md" && s[i + 3..] == rest;
    assert s[i] == '.';
    forall j | 0 <= j < i
      ensures !OccursAt(s, ".md", j)
    {
      if j + 3 <= i {
        OccursWithin(s, base, 0, ".md", j);
        NotOccurs(base, ".md", j);
      } else {
        DiffersAt(s, ".md", j, i - j);
      }
    }
    IndexOfFromIs(s, ".md", 0, i);
  }

  /**
   * One file of `migrateWithConversion`: `convertMarkdownToTOML` into the
   * renamed target; what it throws is recorded under the file name.
   */
  function ConvertStep(n: Nodes, failing: set<Path>, src: Path, dst: Path, file: string,
                       yaml: string -> Result<Json>): (r: (Outcome, Nodes))
    ensures !r.0.Skip?
    ensures r.0.Fail? ==> r.0.file == file
    ensures r.0.Success? <==> ConvertSpec(n, failing, src + [file], dst + [TomlName(file)], yaml).0.None?
    ensures r.1 == ConvertSpec(n, failing, src + [file], dst + [TomlName(file)], yaml).1
  {
    var (e, n1) := ConvertSpec(n, failing, src + [file], dst + [TomlName(file)], yaml);
    (if e.Some? then Fail(file, e.value) else Success, n1)
  }

  function ConvertStepOf(failing: set<Path>, src: Path, dst: Path, yaml: string -> Result<Json>): FileStep {
    (m: Nodes, f: string) => ConvertStep(m, failing, src, dst, f, yaml)
  }

  // ------------------------------------------------------------- dispatch

  /** The tool's own `commands.transform`, if the registry has one. */
  function CustomTransform(tools: Registry, tool: string): (r: Option<(string, string) -> Result<string>>)
    ensures r.Some? ==> Lookup(tools, tool).Some? && Lookup(tools, tool).value.commands.transform == r
    ensures Lookup(tools, tool).Some? ==> r == Lookup(tools, tool).value.commands.transform
  {
    match Lookup(tools, tool)
    case None => None
    case Some(tc) => tc.commands.transform
  }

  /** The tools whose commands are converted to TOML. */
  predicate ConvertsToToml(tool: string) {
    tool in ["gemini", "iflow"]
  }

  /**
   * The tools whose commands directory is copied as a tree; only that walk
   * needs the source and the target to be the same directory or apart.
   */
  predicate CopiesTree(tools: Registry, tool: string) {
    CustomTransform(tools, tool).None? && !ConvertsToToml(tool)
  }

  /**
   * `migrateForTool(tool, targetDir)` for the source directory `src` and
   * the target directory `dst`; it never throws.
   */
  ghost function MigrateForToolSpec(n: Nodes, failing: set<Path>, ctx: Context, src: Path, tool: string, dst: Path): (r: (Stats, Nodes))
    requires CopiesTree(ctx.tools, tool) ==> NotNested(src, dst)
  {
    match CustomTransform(ctx.tools, tool)
    case Some(f) => Tally(n, MarkdownFiles(n, failing, src), TransformStepOf(failing, src, dst, f), Stats(0, 0, 0, []))
    case None =>
      if ConvertsToToml(tool) then
        Tally(n, MarkdownFiles(n, failing, src), ConvertStepOf(failing, src, dst, ctx.codecs.yaml), Stats(0, 0, 0, []))
      else
        WalkDir(n, failing, PlainCopy, src, dst, ctx.options.autoOverwrite, Stats(0, 0, 0, []))
  }

  /**
   * The counts of one tool: one recorded error per counted error; the
   * transform and TOML branches count every listed Markdown file exactly
   * once, never as a skip, with each error recorded under one of those
   * files; the copy counts every file of the tree once (onto itself, once
   * its listings name no entry twice).
   */
  lemma MigrateForToolCounts(n: Nodes, failing: set<Path>, ctx: Context, src: Path, tool: string, dst: Path)
    requires CopiesTree(ctx.tools, tool) ==> NotNested(src, dst)
    ensures var r := MigrateForToolSpec(n, failing, ctx, src, tool, dst).0;
      && r.Consistent()
      && (CustomTransform(ctx.tools, tool).Some? || ConvertsToToml(tool) ==>
            && r.skipped == 0
            && r.Total() == |MarkdownFiles(n, failing, src)|
            && forall k :: 0 <= k < |r.errors| ==> r.errors[k].file in MarkdownFiles(n, failing, src))
      && (CopiesTree(ctx.tools, tool) && (src == dst ==> UniqueBelow(n, src)) ==>
            r.Total() == Visits(n, failing, src))
  {
    var files := MarkdownFiles(n, failing, src);
    match CustomTransform(ctx.tools, tool)
    case Some(f) =>
      TransformStepShape(failing, src, dst, f);
      TallyCounts(n, files, TransformStepOf(failing, src, dst, f), Stats(0, 0, 0, []));
    case None =>
      if ConvertsToToml(tool) {
        ConvertStepShape(failing, src, dst, ctx.codecs.yaml);
        TallyCounts(n, files, ConvertStepOf(failing, src, dst, ctx.codecs.yaml), Stats(0, 0, 0, []));
      } else {
        WalkConsistent(n, failing, PlainCopy, src, dst, ctx.options.autoOverwrite, Stats(0, 0, 0, []));
        if src == dst ==> UniqueBelow(n, src) {
          WalkCounts(n, failing, PlainCopy, src, dst, ctx.options.autoOverwrite, Stats(0, 0, 0, []));
        }
      }
  }

  lemma TransformStepShape(failing: set<Path>, src: Path, dst: Path, f: (string, string) -> Result<string>)
    ensures NeverSkips(TransformStepOf(failing, src, dst, f))
    ensures FailsUnderName(TransformStepOf(failing, src, dst, f))
  {
    var step := TransformStepOf(failing, src, dst, f);
    forall m, x
      ensures !step(m, x).0.Skip? && (step(m, x).0.Fail? ==> step(m, x).0.file == x)
    {
      assert step(m, x) == TransformStep(m, failing, src, dst, x, f);
    }
  }

  lemma ConvertStepShape(failing: set<Path>, src: Path, dst: Path, yaml: string -> Result<Json>)
    ensures NeverSkips(ConvertStepOf(failing, src, dst, yaml))
    ensures FailsUnderName(ConvertStepOf(failing, src, dst, yaml))
  {
    var step := ConvertStepOf(failing, src, dst, yaml);
    forall m, x
      ensures !step(m, x).0.Skip? && (step(m, x).0.Fail? ==> step(m, x).0.file == x)
    {
      assert step(m, x) == ConvertStep(m, failing, src, dst, x, yaml);
    }
  }

  // -------------------------------------------------------------- methods

  /** The guarded block of `migrateWithCustomTransform` for one file. */
  method TransformOne(fs: FileSystem, src: Path, dst: Path, file: string, transform: (string, string) -> Result<string>)
    returns (o: Outcome)
    modifies fs
    ensures (o, fs.nodes) == TransformStep(old(fs.nodes), fs.failing, src, dst, file, transform)
  {
    var content := fs.ReadFile(src + [file]);
    if content.Failed? {
      return Fail(file, Message(content.code));
    }
    var transformed := transform(content.value, file);
    if transformed.Err? {
      return Fail(file, transformed.error);
    }
    if !(dst == [] || fs.FileExists(dst)) {
      var e1 := fs.Mkdir(dst);
      if e1.Some? {
        return Fail(file, Message(e1.value));
      }
    }
    var e2 := fs.WriteFile(dst + [file], transformed.value);
    o := if e2.Some? then Fail(file, Message(e2.value)) else Success;
  }

  /** `migrateWithCustomTransform(targetDir, results, tool)`. */
  method MigrateWithCustomTransform(fs: FileSystem, src: Path, dst: Path, transform: (string, string) -> Result<string>)
    returns (r: Stats)
    modifies fs
    ensures (r, fs.nodes) == Tally(old(fs.nodes), MarkdownFiles(old(fs.nodes), fs.failing, src),
                                   TransformStepOf(fs.failing, src, dst, transform), Stats(0, 0, 0, []))
  {
    var files := fs.GetMarkdownFiles(src);
    ghost var n0 := fs.nodes;
    ghost var step := TransformStepOf(fs.failing, src, dst, transform);
    r := Stats(0, 0, 0, []);
    var i := 0;
    while i < |files|
      invariant 0 <= i <= |files|
      invariant (r, fs.nodes) == Tally(n0, files[..i], step, Stats(0, 0, 0, []))
    {
      ghost var before := fs.nodes;
      TallyStep(n0, files, i, step, Stats(0, 0, 0, []));
      var o := TransformOne(fs, src, dst, files[i], transform);
      assert step(before, files[i]) == TransformStep(before, fs.failing, src, dst, files[i], transform);
      r := Record(r, o);
      i := i + 1;
    }
    assert files[..i] == files;
  }

  /** `migrateWithConversion(targetDir, results, tool)`. */
  method MigrateWithConversion(fs: FileSystem, src: Path, dst: Path, yaml: string -> Result<Json>)
    returns (r: Stats)
    modifies fs
    ensures (r, fs.nodes) == Tally(old(fs.nodes), MarkdownFiles(old(fs.nodes), fs.failing, src),
                                   ConvertStepOf(fs.failing, src, dst, yaml), Stats(0, 0, 0, []))
  {
    var files := fs.GetMarkdownFiles(src);
    ghost var n0 := fs.nodes;
    ghost var step := ConvertStepOf(fs.failing, src, dst, yaml);
    r := Stats(0, 0, 0, []);
    var i := 0;
    while i < |files|
      invariant 0 <= i <= |files|
      invariant (r, fs.nodes) == Tally(n0, files[..i], step, Stats(0, 0, 0, []))
    {
      var file := files[i];
      ghost var before := fs.nodes;
      TallyStep(n0, files, i, step, Stats(0, 0, 0, []));
      var e := ConvertMarkdownToToml(fs, src + [file], dst + [TomlName(file)], yaml);
      var o := if e.Some? then Fail(file, e.value) else Success;
      assert step(before, file) == ConvertStep(before, fs.failing, src, dst, file, yaml);
      r := Record(r, o);
      i := i + 1;
    }
    assert files[..i] == files;
  }

  /** `CommandsMigrator.migrateForTool(tool, targetDir)`. */
  method MigrateForTool(fs: FileSystem, ctx: Context, src: Path, tool: string, dst: Path) returns (r: Stats)
    requires CopiesTree(ctx.tools, tool) ==> NotNested(src, dst)
    modifies fs
    ensures (r, fs.nodes) == MigrateForToolSpec(old(fs.nodes), fs.failing, ctx, src, tool, dst)
  {
    ghost var n0 := fs.nodes;
    var transform := CustomTransform(ctx.tools, tool);
    if transform.Some? {
      assert MigrateForToolSpec(n0, fs.failing, ctx, src, tool, dst)
          == Tally(n0, MarkdownFiles(n0, fs.failing, src), TransformStepOf(fs.failing, src, dst, transform.value), Stats(0, 0, 0, []));
      r := MigrateWithCustomTransform(fs, src, dst, transform.value);
    } else if ConvertsToToml(tool) {
      assert MigrateForToolSpec(n0, fs.failing, ctx, src, tool, dst)
          == Tally(n0, MarkdownFiles(n0, fs.failing, src), ConvertStepOf(fs.failing, src, dst, ctx.codecs.yaml), Stats(0, 0, 0, []));
      r := MigrateWithConversion(fs, src, dst, ctx.codecs.yaml);
    } else {
      assert MigrateForToolSpec(n0, fs.failing, ctx, src, tool, dst)
          == WalkDir(n0, fs.failing, PlainCopy, src, dst, ctx.options.autoOverwrite, Stats(0, 0, 0, []));
      var stats := fs.CopyDirectory(src, dst, ctx.options.autoOverwrite);
      SumZero(stats);
      r := Sum(Stats(0, 0, 0, []), stats);
    }
  }
}

=== FILE: config.dfy ===
/**
 * src/lib/config.ts, src/lib/types/config.ts and the files of src/lib/configs: the
 * tool registry.  A registry maps tool keys, in insertion order, to the
 * tool's configuration; each configuration has one optional section per
 * configuration type and the list of types the tool supports.
 */
module Config {
  import opened Wrappers
  import opened Json
  import opened Fs

  /** `ConfigType`. */
  datatype ConfigType = Commands | Skills | Rules | Mcp | Settings | Agents

  /** The string a configuration type is written as. */
  function TypeName(t: ConfigType): (r: string)
    ensures r != "" && '/' !in r
  {
    match t
    case Commands => "commands"
    case Skills => "skills"
    case Rules => "rules"
    case Mcp => "mcp"
    case Settings => "settings"
    case Agents => "agents"
  }

  /** `FormatType`. */
  datatype Format = Markdown | Toml | Mdc | JsonFormat

  /**
   * A configured `target`: one path, or (the form the resolver also
   * accepts) candidate paths probed in order.
   */
  datatype Target = Single(path: string) | Candidates(paths: seq<string>)

  /**
   * One section of a tool's configuration: the union of `CommandConfig`,
   * `SkillConfig`, `AgentConfig`, `RuleConfig`, `MCPConfig` and
   * `SettingsConfig`.  An absent boolean flag reads as `false`.  User hooks
   * that may throw return `Err(message)`: `transform(content, fileName)`,
   * the MCP `transform(config)`, and `customMerge(sourceDir, targetFile)`,
   * whose effect on the file tree is its result.
   */
  datatype Section = Section(
    source: Option<string>,
    format: Option<Format>,
    target: Option<Target>,
    convert: bool,
    merge: bool,
    transform: Option<(string, string) -> Result<string>>,
    mcpTransform: Option<Json -> Result<Json>>,
    customMerge: Option<(Nodes, Path, Path) -> Result<Nodes>>)

  /** `ToolConfig`. */
  datatype ToolConfig = ToolConfig(
    name: string,
    commands: Section,
    skills: Section,
    rules: Option<Section>,
    mcp: Section,
    settings: Option<Section>,
    agents: Option<Section>,
    supported: seq<ConfigType>)

  /** `toolConfig[configType]`. */
  function SectionOf(tc: ToolConfig, t: ConfigType): (r: Option<Section>)
    ensures t in {Commands, Skills, Mcp} ==> r.Some?
  {
    match t
    case Commands => Some(tc.commands)
    case Skills => Some(tc.skills)
    case Rules => tc.rules
    case Mcp => Some(tc.mcp)
    case Settings => tc.settings
    case Agents => tc.agents
  }

  /** `Record<ToolKey, ToolConfig>`, in key order. */
  type Registry = seq<(string, ToolConfig)>

  predicate UniqueKeys(reg: Registry) {
    forall i, j :: 0 <= i < j < |reg| ==> reg[i].0 != reg[j].0
  }

  /** `tools[tool]`: the entry stored under `tool`, if any. */
  function Lookup(reg: Registry, tool: string): (r: Option<ToolConfig>)
    ensures r.None? <==> forall i :: 0 <= i < |reg| ==> reg[i].0 != tool
    ensures r.Some? ==> exists i :: 0 <= i < |reg| && reg[i] == (tool, r.value)
  {
    if reg == [] then None
    else if reg[0].0 == tool then Some(reg[0].1)
    else Lookup(reg[1..], tool)
  }

  /** With unique keys, the entry at any position is the one found under its key. */
  lemma {:induction false} LookupAt(reg: Registry, i: nat)
    requires UniqueKeys(reg) && i < |reg|
    ensures Lookup(reg, reg[i].0) == Some(reg[i].1)
  {
    if i > 0 {
      assert reg[0].0 != reg[i].0;
      assert reg[1..][i - 1] == reg[i];
      LookupAt(reg[1..], i - 1);
    }
  }

  /**
   * `isConfigTypeSupported(tool, configType, tools)`: false for a tool the
   * registry lacks, otherwise whether the type is in its `supported` list.
   */
  function IsConfigTypeSupported(tool: string, t: ConfigType, reg: Registry): (r: bool)
    ensures Lookup(reg, tool).None? ==> !r
    ensures Lookup(reg, tool).Some? ==> (r <==> t in Lookup(reg, tool).value.supported)
  {
    match Lookup(reg, tool)
    case None => false
    case Some(tc) => t in tc.supported
  }

  /** `ToolChoice`. */
  datatype ToolChoice = ToolChoice(name: string, value: string)

  /** `getToolChoiceList(tools)`: one choice per key, in key order. */
  function GetToolChoiceList(reg: Registry): (r: seq<ToolChoice>)
    ensures |r| == |reg|
    ensures forall i :: 0 <= i < |r| ==> r[i].value == reg[i].0
  {
    seq(|reg|, i requires 0 <= i < |reg| => ToolChoice(reg[i].1.name, reg[i].0))
  }

  /** Every choice is labelled with the name of the entry its value looks up. */
  lemma ChoiceNames(reg: Registry)
    requires UniqueKeys(reg)
    ensures forall c :: c in GetToolChoiceList(reg) ==>
              Lookup(reg, c.value).Some? && c.name == Lookup(reg, c.value).value.name
  {
    var r := GetToolChoiceList(reg);
    forall c | c in r
      ensures Lookup(reg, c.value).Some? && c.name == Lookup(reg, c.value).value.name
    {
      var i :| 0 <= i < |r| && r[i] == c;
      LookupAt(reg, i);
    }
  }

  /** Every key of the registry is offered. */
  lemma ChoicesCover(reg: Registry, tool: string)
    requires Lookup(reg, tool).Some?
    ensures exists c :: c in GetToolChoiceList(reg) && c.value == tool
  {
    var i :| 0 <= i < |reg| && reg[i] == (tool, Lookup(reg, tool).value);
    assert GetToolChoiceList(reg)[i].value == tool;
  }

  /** `defineConfig(config)` hands its argument back. */
  function DefineConfig<T>(config: T): (r: T)
    ensures r == config
  {
    config
  }

  // ------------------------------------------------- the built-in registry

  /** A section with only a source and a target. */
  function Plain(source: string, target: string): Section {
    Section(Some(source), None, Some(Single(target)), false, false, None, None, None)
  }

  function WithFormat(s: Section, f: Format): Section {
    s.(format := Some(f))
  }

  const CursorConfig: ToolConfig := ToolConfig(
    "Cursor",
    WithFormat(Plain(".claude/commands", "~/.cursor/commands"), Markdown),
    Plain(".claude/skills", "~/.cursor/skills"),
    None,
    Plain(".claude.json", "~/.cursor/mcp.json").(convert := true),
    None,
    Some(Plain(".claude/agents", "~/.cursor/agents")),
    [Commands, Skills, Mcp, Agents])

  const ClaudeConfig: ToolConfig := ToolConfig(
    "Claude Code",
    WithFormat(Plain(".claude/commands", "~/.claude/commands"), Markdown),
    Plain(".claude/skills", "~/.claude/skills"),
    Some(WithFormat(Plain(".cursor/rules", "~/.claude/CLAUDE.md"), Markdown).(merge := true)),
    Plain(".claude.json", "~/.claude/.claude.json"),
    None,
    None,
    [Commands, Skills, Rules, Mcp])

  const CodebuddyConfig: ToolConfig := ToolConfig(
    "CodeBuddy",
    WithFormat(Plain(".claude/commands", "~/.codebuddy/commands"), Markdown),
    Plain(".claude/skills", "~/.codebuddy/skills"),
    Some(WithFormat(Plain(".claude/CLAUDE.md", "~/.codebuddy/CODEBUDDY.md"), Markdown).(merge := true)),
    Plain(".claude.json", "~/.codebuddy/.mcp.json"),
    Some(Plain(".claude/settings.json", "~/.codebuddy/settings.json").(merge := true)),
    None,
    [Commands, Skills, Rules, Mcp, Settings])

  const OpencodeConfig: ToolConfig := ToolConfig(
    "OpenCode",
    WithFormat(Plain(".claude/commands", "~/.config/opencode/command"), Markdown),
    Plain(".claude/skills", "~/.config/opencode/skill"),
    Some(WithFormat(Plain(".claude/CLAUDE.md", "~/.config/opencode/AGENTS.md"), Markdown).(merge := true)),
    Plain(".claude.json", "~/.config/opencode/opencode.jsonc").(convert := true),
    None,
    None,
    [Commands, Skills, Rules, Mcp])

  const GeminiConfig: ToolConfig := ToolConfig(
    "Gemini CLI",
    WithFormat(Plain(".claude/commands", "~/.gemini/commands"), Toml).(convert := true),
    Plain(".claude/skills", "~/.gemini/skills"),
    Some(WithFormat(Plain(".claude/CLAUDE.md", "~/.gemini/GEMINI.md"), Markdown).(merge := true)),
    Plain(".claude.json", "~/.gemini/settings.json").(convert := true),
    None,
    Some(Plain(".claude/agents", "~/.gemini/agents")),
    [Commands, Skills, Rules, Mcp, Agents])

  const IflowConfig: ToolConfig := ToolConfig(
    "IFlow CLI",
    WithFormat(Plain(".claude/commands", "~/.iflow/commands"), Toml).(convert := true),
    Plain(".claude/skills", "~/.iflow/skills"),
    Some(WithFormat(Plain(".cursor/rules", "~/.iflow/IFLOW.md"), Markdown).(merge := true)),
    Plain(".claude.json", "~/.iflow/settings.json").(convert := true),
    None,
    None,
    [Commands, Skills, Rules, Mcp])

  const CodexConfig: ToolConfig := ToolConfig(
    "Codex",
    WithFormat(Plain(".claude/commands", "~/.codex/prompts"), Markdown),
    Plain(".claude/skills", "~/.codex/skills"),
    Some(WithFormat(Plain(".cursor/rules", "~/.codex/AGENTS.md"), Markdown).(merge := true)),
    Plain(".claude.json", "~/.codex/config.toml").(convert := true),
    None,
    None,
    [Commands, Skills, Rules, Mcp])

  /** `DEFAULT_TOOL_CONFIGS`, in its key order. */
  const Defaults: Registry := [
    ("cursor", CursorConfig),
    ("claude", ClaudeConfig),
    ("codebuddy", CodebuddyConfig),
    ("opencode", OpencodeConfig),
    ("gemini", GeminiConfig),
    ("iflow", IflowConfig),
    ("codex", CodexConfig)]

  /** The built-in registry's keys are distinct. */
  lemma DefaultsUnique()
    ensures UniqueKeys(Defaults)
  {
    var keys := DefaultKeys();
    assert Defaults[0].0 == keys[0] && Defaults[1].0 == keys[1] && Defaults[2].0 == keys[2];
    assert Defaults[3].0 == keys[3] && Defaults[4].0 == keys[4] && Defaults[5].0 == keys[5];
    assert Defaults[6].0 == keys[6];
    UniqueByKeys(Defaults, keys);
  }

  /** The keys of `DEFAULT_TOOL_CONFIGS`, in order; no two are alike. */
  function DefaultKeys(): (keys: seq<string>)
    ensures |keys| == 7
    ensures forall i, j :: 0 <= i < j < |keys| ==> keys[i] != keys[j]
  {
    var keys := ["cursor", "claude", "codebuddy", "opencode", "gemini", "iflow", "codex"];
    assert keys[0][1] == 'u' && keys[1][1] == 'l' && keys[2][1] == 'o' && keys[3][1] == 'p';
    assert keys[4][1] == 'e' && keys[5][1] == 'f' && keys[6][1] == 'o';
    assert |keys[2]| == 9 && |keys[6]| == 5;
    keys
  }

  /** A registry whose keys are those of a list without repeats has unique keys. */
  lemma UniqueByKeys(reg: Registry, keys: seq<string>)
    requires |reg| == |keys| && forall i :: 0 <= i < |reg| ==> reg[i].0 == keys[i]
    requires forall i, j :: 0 <= i < j < |keys| ==> keys[i] != keys[j]
    ensures UniqueKeys(reg)
  {
  }

  /**
   * Support in the built-in registry: only codebuddy takes settings, only
   * cursor and gemini take agents, cursor takes no rules, and a tool the
   * registry lacks supports nothing.
   */
  lemma DefaultSupport(tool: string, t: ConfigType)
    ensures IsConfigTypeSupported("cursor", Agents, Defaults)
    ensures !IsConfigTypeSupported("cursor", Rules, Defaults)
    ensures IsConfigTypeSupported("codebuddy", Settings, Defaults)
    ensures tool !in {"cursor", "claude", "codebuddy", "opencode", "gemini", "iflow", "codex"} ==>
              !IsConfigTypeSupported(tool, t, Defaults)
  {
    assert Lookup(Defaults, "cursor") == Some(CursorConfig);
    assert Lookup(Defaults, "codebuddy") == Some(CodebuddyConfig) by {
      assert Defaults[2] == ("codebuddy", CodebuddyConfig);
      DefaultsUnique();
      LookupAt(Defaults, 2);
    }
  }
}

=== FILE: deep_merge.dfy ===
/** src/lib/utils/deepMerge.ts: `isObj` and `deepMerge`. */
module DeepMerge {
  import opened Json

  /** `typeof v === 'object'`: true for `null`, arrays and plain objects. */
  predicate TypeofObject(v: Json) {
    v.Null? || v.JArr? || v.JObj?
  }

  /** `isObj`: an object that is neither `null` nor an array. */
  predicate IsObj(v: Json)
    ensures IsObj(v) <==> v.JObj?
  {
    TypeofObject(v) && !v.Null? && !v.JArr?
  }

  /** The own keys of `source` whose value is not `undefined`. */
  function DefinedKeys(source: map<string, Json>): (r: set<string>)
    ensures forall k :: k in r <==> k in source && !source[k].Undefined?
  {
    set k | k in source && !source[k].Undefined?
  }

  /**
   * `deepMerge(target, source)`: a fresh map that starts as a copy of
   * `target`; every source key with a defined value either recurses (both
   * values plain objects) or replaces the target's value wholesale.
   */
  function Merge(target: map<string, Json>, source: map<string, Json>): (r: map<string, Json>)
    decreases JObj(source)
    ensures r.Keys == target.Keys + DefinedKeys(source)
    ensures forall k :: k in target && k !in DefinedKeys(source) ==> r[k] == target[k]
    ensures forall k :: k in DefinedKeys(source) && !(IsObj(source[k]) && IsObj(Get(target, k))) ==>
      r[k] == source[k]
    ensures forall k :: k in DefinedKeys(source) && IsObj(source[k]) && IsObj(Get(target, k)) ==>
      r[k].JObj? && r[k].fields == Merge(target[k].fields, source[k].fields)
  {
    map k | k in target.Keys + DefinedKeys(source) ::
      if k in source && !source[k].Undefined? then
        if IsObj(source[k]) && IsObj(Get(target, k)) then
          JObj(Merge(Get(target, k).fields, source[k].fields))
        else
          source[k]
      else
        target[k]
  }

  /** Merging a map into itself changes nothing. */
  lemma {:induction false} MergeSelf(m: map<string, Json>)
    ensures Merge(m, m) == m
    decreases JObj(m)
  {
    var r := Merge(m, m);
    forall k | k in m
      ensures r[k] == m[k]
    {
      if k in DefinedKeys(m) && IsObj(m[k]) {
        MergeSelf(m[k].fields);
      }
    }
  }

  /** Merging the same source a second time changes nothing. */
  lemma {:induction false} MergeIdempotent(target: map<string, Json>, source: map<string, Json>)
    ensures Merge(Merge(target, source), source) == Merge(target, source)
    decreases JObj(source)
  {
    var r := Merge(target, source);
    var rr := Merge(r, source);
    forall k | k in r
      ensures rr[k] == r[k]
    {
      if k in DefinedKeys(source) && IsObj(source[k]) && IsObj(Get(r, k)) {
        if IsObj(Get(target, k)) {
          MergeIdempotent(target[k].fields, source[k].fields);
        } else {
          MergeSelf(source[k].fields);
        }
      }
    }
  }

  /** The example of the source's documentation comment. */
  lemma MergeExample()
    ensures Merge(map["a" := JNum(1), "b" := JObj(map["c" := JNum(2), "d" := JNum(3)])],
                  map["b" := JObj(map["c" := JNum(4)])])
         == map["a" := JNum(1), "b" := JObj(map["c" := JNum(4), "d" := JNum(3)])]
  {
    MergeReplaceOne("c", "d", JNum(2), JNum(3), JNum(4));
    MergeNestedOne("a", "b", JNum(1), map["c" := JNum(2), "d" := JNum(3)], map["c" := JNum(4)]);
  }

  /** A source with one scalar key replaces that key's value and keeps the other key. */
  lemma MergeReplaceOne(c: string, d: string, x: Json, y: Json, z: Json)
    requires c != d && !z.Undefined? && !z.JObj?
    ensures Merge(map[c := x, d := y], map[c := z]) == map[c := z, d := y]
  {
    var si := map[c := z];
    assert DefinedKeys(si) == {c};
    var r := Merge(map[c := x, d := y], si);
    assert r.Keys == {c, d};
    assert r[c] == z && r[d] == y;
  }

  /** A source with one object under a key that holds an object in the target merges the two and keeps the other key. */
  lemma MergeNestedOne(a: string, b: string, x: Json, ti: map<string, Json>, si: map<string, Json>)
    requires a != b
    ensures Merge(map[a := x, b := JObj(ti)], map[b := JObj(si)]) == map[a := x, b := JObj(Merge(ti, si))]
  {
    var t, s := map[a := x, b := JObj(ti)], map[b := JObj(si)];
    assert DefinedKeys(s) == {b};
    assert IsObj(s[b]) && IsObj(Get(t, b)) && t[b].fields == ti && s[b].fields == si;
    var r := Merge(t, s);
    var m := Merge(ti, si);
    assert r.Keys == {a, b};
    assert r[a] == x;
    assert r[b].JObj? && r[b].fields == m;
    assert r == map[a := x, b := JObj(m)];
  }

  /**
   * Overriding one field of one registry entry (a user configuration such
   * as `{cursor: {name: 'Custom Cursor'}}`) changes that field only: every
   * sibling field of the entry and every other entry is kept.
   */
  lemma OverrideOneField(registry: map<string, Json>, tool: string, field: string, value: Json)
    requires tool in registry && registry[tool].JObj?
    requires !value.Undefined? && !value.JObj?
    ensures var r := Merge(registry, map[tool := JObj(map[field := value])]);
      && r.Keys == registry.Keys
      && r[tool].JObj?
      && r[tool].fields.Keys == registry[tool].fields.Keys + {field}
      && r[tool].fields[field] == value
      && (forall f :: f in registry[tool].fields && f != field ==>
            r[tool].fields[f] == registry[tool].fields[f])
      && (forall t :: t in registry && t != tool ==> r[t] == registry[t])
  {
  }
}

=== FILE: filesystem.dfy ===
/**
 * src/lib/utils/file.ts: the file helpers of the core, as the methods of a
 * `FileSystem` object that owns the in-memory tree.  Each method is proved
 * against the state transition of the `Fs` and `Walk` modules.
 */
module FileSystem {
  import opened Wrappers
  import opened Strs
  import opened Json
  import opened Stats
  import opened Fs
  import opened Walk

  /** `name.endsWith('.md') || name.endsWith('.mdc')`. */
  predicate IsMarkdownName(name: string) {
    EndsWith(name, ".md") || EndsWith(name, ".mdc")
  }

  /**
   * The names `getMarkdownFiles` collects from a listing: regular files
   * with a Markdown extension, in listing order.
   */
  function MarkdownNames(entries: seq<DirEntry>): (r: seq<string>)
    ensures |r| <= |entries|
    ensures forall k :: 0 <= k < |r| ==> IsMarkdownName(r[k])
    ensures forall x :: x in r <==> DirEntry(x, FileKind) in entries && IsMarkdownName(x)
  {
    if entries == [] then []
    else
      var init := entries[..|entries| - 1];
      var last := entries[|entries| - 1];
      assert entries == init + [last];
      MarkdownNames(init) + (if last.kind.FileKind? && IsMarkdownName(last.name) then [last.name] else [])
  }

  /** `getMarkdownFiles(dir)`: `[]` when the directory cannot be listed. */
  function MarkdownFiles(n: Nodes, failing: set<Path>, dir: Path): (r: seq<string>)
    ensures ReadDir(n, failing, dir).Failed? ==> r == []
    ensures ReadDir(n, failing, dir).Done? ==> r == MarkdownNames(ReadDir(n, failing, dir).value)
  {
    match ReadDir(n, failing, dir)
    case Failed(_) => []
    case Done(entries) => MarkdownNames(entries)
  }

  /** `readJSONFile` / `readTOMLFile`: a read, then the given parser. */
  function ReadParsed(n: Nodes, failing: set<Path>, p: Path, parse: string -> Result<Json>): (r: Result<Json>)
    ensures ReadFile(n, failing, p).Failed? ==> r == Err(Message(ReadFile(n, failing, p).code))
    ensures ReadFile(n, failing, p).Done? ==> r == parse(ReadFile(n, failing, p).value)
  {
    match ReadFile(n, failing, p)
    case Failed(e) => Err(Message(e))
    case Done(c) => parse(c)
  }

  /**
   * `writeJSONFile` / `writeTOMLFile`: the parent directory is ensured,
   * then the data is printed (a printer may throw) and written.
   */
  function WriteSerialized(n: Nodes, failing: set<Path>, p: Path, text: Result<string>): (r: (Option<string>, Nodes))
    ensures OnPath(n, r.1, p)
    ensures r.0.None? ==> text.Ok? && p in r.1 && r.1[p] == File(text.value)
  {
    var (e1, n1) := EnsureDir(n, failing, Parent(p));
    OnPathParent(n, n1, p);
    if e1.Some? then (Some(Message(e1.value)), n1)
    else match text
      case Err(m) => (Some(m), n1)
      case Ok(t) =>
        var (e2, n2) := WriteFile(n1, failing, p, t);
        OnPathTrans(n, n1, n2, p);
        if e2.Some? then (Some(Message(e2.value)), n2) else (None, n2)
  }

  class FileSystem {
    var nodes: Nodes
    const failing: set<Path>

    constructor (initial: Nodes, unreadable: set<Path>)
      ensures nodes == initial && failing == unreadable
    {
      nodes := initial;
      failing := unreadable;
    }

    /** `fileExists(p)`: `access(p, F_OK)` succeeds for any kind of node. */
    predicate FileExists(p: Path)
      reads this
    {
      p in nodes
    }

    /** `directoryExists(p)`: `stat(p)` succeeds and names a directory. */
    predicate DirectoryExists(p: Path)
      reads this
      ensures DirectoryExists(p) ==> FileExists(p)
    {
      p in nodes && nodes[p].Dir?
    }

    /**
     * `stat(p)`, which fails only when nothing is there: with `ENOTDIR`
     * when the path runs through a regular file, else with `ENOENT`.
     */
    method Stat(p: Path) returns (r: FsResult<Kind>)
      ensures r.Failed? <==> !FileExists(p)
      ensures r.Failed? ==> r.code == MissingCode(nodes, p)
      ensures r.Done? ==> r.value == KindAt(nodes, p) && !r.value.OtherKind?
    {
      if p in nodes {
        r := Done(KindAt(nodes, p));
      } else {
        r := Failed(MissingCode(nodes, p));
      }
    }

    method ReadFile(p: Path) returns (r: FsResult<string>)
      ensures r == Fs.ReadFile(nodes, failing, p)
    {
      r := Fs.ReadFile(nodes, failing, p);
    }

    method ReadDirectory(p: Path) returns (r: FsResult<seq<DirEntry>>)
      ensures r == ReadDir(nodes, failing, p)
    {
      r := ReadDir(nodes, failing, p);
    }

    method WriteFile(p: Path, content: string) returns (err: Option<ErrCode>)
      modifies this
      ensures (err, nodes) == Fs.WriteFile(old(nodes), failing, p, content)
    {
      var r := Fs.WriteFile(nodes, failing, p, content);
      err, nodes := r.0, r.1;
    }

    /** `mkdir(p, {recursive: true})`. */
    method Mkdir(p: Path) returns (err: Option<ErrCode>)
      modifies this
      ensures (err, nodes) == Fs.Mkdir(old(nodes), failing, p)
    {
      var r := Fs.Mkdir(nodes, failing, p);
      err, nodes := r.0, r.1;
    }

    /**
     * `ensureDirectoryExists(p)`: afterwards `p` is a directory, or was
     * already a file (the swallowed `EEXIST`), unless an error is returned.
     */
    method EnsureDirectoryExists(p: Path) returns (err: Option<ErrCode>)
      modifies this
      ensures (err, nodes) == EnsureDir(old(nodes), failing, p)
      ensures err.None? && |p| > 0 ==> DirectoryExists(p) || (old(FileExists(p)) && nodes[p] == old(nodes[p]))
      ensures err != Some(EEXIST)
    {
      var r := Fs.Mkdir(nodes, failing, p);
      nodes := r.1;
      if r.0 == Some(EEXIST) {
        err := None;
      } else {
        err := r.0;
      }
    }

    method CopyFile(src: Path, dst: Path) returns (err: Option<ErrCode>)
      modifies this
      ensures (err, nodes) == Fs.CopyFile(old(nodes), failing, src, dst)
    {
      var content := ReadFile(src);
      match content
      case Failed(e) => err := Some(e);
      case Done(c) => err := WriteFile(dst, c);
    }

    /**
     * `copyFileSafe(src, dst, autoOverwrite)`: exactly one of copied,
     * skipped (an existing target without overwrite, nothing written) and
     * failed (with the error's message); it never throws.
     */
    method CopyFileSafe(src: Path, dst: Path, autoOverwrite: bool) returns (r: CopyResult)
      modifies this
      ensures (r, nodes) == CopyFileSafeSpec(old(nodes), failing, src, dst, autoOverwrite)
      ensures (r.success && !r.skipped && r.error.None?)
           || (!r.success && r.skipped && r.error.None?)
           || (!r.success && !r.skipped && r.error.Some?)
      ensures r.skipped <==> old(FileExists(dst)) && !autoOverwrite
      ensures r.skipped ==> nodes == old(nodes)
      ensures r.success ==> FileExists(dst) && old(FileExists(src)) && nodes[dst] == old(nodes[src])
    {
      if FileExists(dst) && !autoOverwrite {
        return CopyResult(false, true, None);
      }
      var e1 := EnsureDirectoryExists(Parent(dst));
      if e1.Some? {
        return CopyResult(false, false, Some(Message(e1.value)));
      }
      var e2 := CopyFile(src, dst);
      if e2.Some? {
        return CopyResult(false, false, Some(Message(e2.value)));
      }
      r := CopyResult(true, false, None);
    }

    /** The guarded read-transform-write of `copyWithTransform`. */
    method TransformFile(src: Path, dst: Path, name: string, transform: (string, string) -> Result<string>)
      returns (err: Option<string>)
      modifies this
      ensures (err, nodes) == TransformFileSpec(old(nodes), failing, src, dst, name, transform)
    {
      var content := ReadFile(src);
      if content.Failed? {
        return Some(Message(content.code));
      }
      var transformed := transform(content.value, name);
      if transformed.Err? {
        return Some(transformed.error);
      }
      var e1 := EnsureDirectoryExists(Parent(dst));
      if e1.Some? {
        return Some(Message(e1.value));
      }
      var e2 := WriteFile(dst, transformed.value);
      if e2.Some? {
        return Some(Message(e2.value));
      }
      err := None;
    }

    /**
     * The read-convert-write of `markdownToMdc` for a content conversion
     * `convert(content, sourcePath)`: `false` on any failure.
     */
    method ConvertFile(src: Path, dst: Path, convert: (string, string) -> string) returns (ok: bool)
      modifies this
      ensures (ok, nodes) == ConvertFileSpec(old(nodes), failing, src, dst, convert)
    {
      var content := ReadFile(src);
      if content.Failed? {
        return false;
      }
      var e1 := EnsureDirectoryExists(Parent(dst));
      if e1.Some? {
        return false;
      }
      var e2 := WriteFile(dst, convert(content.value, Render(src)));
      ok := e2.None?;
    }

    /** One regular file of a walk. */
    method Step(action: Action, src: Path, dst: Path, name: string, over: bool) returns (o: Outcome)
      modifies this
      ensures (o, nodes) == StepSpec(old(nodes), failing, action, src, dst, name, over)
    {
      var target := dst + [TargetName(action, name)];
      match action
      case PlainCopy =>
        var result := CopyFileSafe(src, target, over);
        o := CopyOutcome(result, name, UnknownError);
      case Transform(f) =>
        if FileExists(target) && !over {
          o := Skip;
        } else {
          var e := TransformFile(src, target, name, f);
          o := if e.Some? then Fail(name, e.value) else Success;
        }
      case ConvertMd(g) =>
        if EndsWith(name, ".md") {
          if FileExists(target) && !over {
            o := Skip;
          } else {
            var ok := ConvertFile(src, target, g);
            o := if ok then Success else Fail(name, ConversionFailed);
          }
        } else {
          var result := CopyFileSafe(src, target, over);
          o := CopyOutcome(result, name, CopyFailed);
        }
    }

    /**
     * The walk of `src` into `dst` shared by copyDirectory,
     * copyWithTransform and copyWithConversion, adding to `acc`.
     */
    method Walk(action: Action, src: Path, dst: Path, over: bool, acc: Stats) returns (r: Stats)
      requires NotNested(src, dst)
      modifies this
      ensures (r, nodes) == WalkDir(old(nodes), failing, action, src, dst, over, acc)
      decreases |Dirs(nodes, src)|, 1
    {
      var listing := ReadDirectory(src);
      match listing
      case Failed(e) =>
        r := acc.AddError(Render(src), Message(e));
      case Done(entries) =>
        r := WalkListing(action, src, dst, over, entries, acc, Dirs(nodes, src));
    }

    /** The loop of a walk over the listing `entries` of `src`; `under` bounds the directories below `src`. */
    method WalkListing(action: Action, src: Path, dst: Path, over: bool, entries: seq<DirEntry>, acc: Stats,
                       ghost under: set<Path>) returns (r: Stats)
      requires NotNested(src, dst) && src in under && Dirs(nodes, src) <= under && IsDir(nodes, src)
      modifies this
      ensures (r, nodes) == WalkEntries(old(nodes), failing, action, src, dst, over, entries, 0, acc, under)
      decreases |under|, 0
    {
      ghost var n0 := nodes;
      r := acc;
      var i := 0;
      while i < |entries|
        invariant 0 <= i <= |entries|
        invariant Confined(n0, nodes, dst)
        invariant Dirs(nodes, src) <= under && IsDir(nodes, src)
        invariant WalkEntries(nodes, failing, action, src, dst, over, entries, i, r, under)
               == WalkEntries(n0, failing, action, src, dst, over, entries, 0, acc, under)
      {
        var e := entries[i];
        ghost var before := nodes;
        ghost var step := EntryStep(nodes, failing, action, src, dst, over, e, r, under);
        EntriesNext(nodes, failing, action, src, dst, over, entries, i, r, under);
        ChildSmaller(nodes, src, e.name, under);
        match e.kind {
          case DirKind =>
            NotNestedChild(src, dst, e.name);
            r := Walk(action, src + [e.name], dst + [e.name], over, r);
          case FileKind =>
            var o := Step(action, src + [e.name], dst, e.name, over);
            r := Record(r, o);
          case OtherKind =>
        }
        assert (r, nodes) == step;
        ConfinedTrans(n0, before, nodes, dst);
        i := i + 1;
      }
    }

    /**
     * `copyDirectory(src, dst, autoOverwrite)`: the counts start from zero,
     * keep one recorded error per counted error, and count every regular
     * file of the source tree and every unreadable directory exactly once
     * (for a copy onto itself, once its listings name no entry twice).
     */
    method CopyDirectory(src: Path, dst: Path, autoOverwrite: bool) returns (r: Stats)
      requires NotNested(src, dst)
      modifies this
      ensures (r, nodes) == WalkDir(old(nodes), failing, PlainCopy, src, dst, autoOverwrite, Stats(0, 0, 0, []))
      ensures r.Consistent()
      ensures (src == dst ==> UniqueBelow(old(nodes), src)) ==> r.Total() == Visits(old(nodes), failing, src)
    {
      var zero := Stats(0, 0, 0, []);
      r := Walk(PlainCopy, src, dst, autoOverwrite, zero);
      WalkConsistent(old(nodes), failing, PlainCopy, src, dst, autoOverwrite, zero);
      if src == dst ==> UniqueBelow(old(nodes), src) {
        WalkCounts(old(nodes), failing, PlainCopy, src, dst, autoOverwrite, zero);
      }
    }

    /**
     * `getMarkdownFiles(dir)`: the Markdown file names of the listing in
     * order, `[]` when it cannot be read.
     */
    method GetMarkdownFiles(dir: Path) returns (files: seq<string>)
      ensures files == MarkdownFiles(nodes, failing, dir)
    {
      files := [];
      var listing := ReadDirectory(dir);
      if listing.Failed? {
        return;
      }
      var entries := listing.value;
      var i := 0;
      while i < |entries|
        invariant 0 <= i <= |entries|
        invariant files == MarkdownNames(entries[..i])
      {
        var entry := entries[i];
        assert entries[..i + 1] == entries[..i] + [entry];
        if entry.kind.FileKind? && IsMarkdownName(entry.name) {
          files := files + [entry.name];
        }
        i := i + 1;
      }
      assert entries[..i] == entries;
    }

    /** `readJSONFile(p)` / `readTOMLFile(p)` with the library's parser. */
    method ReadParsedFile(p: Path, parse: string -> Result<Json>) returns (r: Result<Json>)
      ensures r == ReadParsed(nodes, failing, p, parse)
    {
      var content := ReadFile(p);
      match content
      case Failed(e) => r := Err(Message(e));
      case Done(c) => r := parse(c);
    }

    /**
     * `writeJSONFile(p, data)` / `writeTOMLFile(p, data)` with the
     * library's printer; the error message is returned when one throws.
     */
    method WriteSerializedFile(p: Path, text: Result<string>) returns (err: Option<string>)
      modifies this
      ensures (err, nodes) == WriteSerialized(old(nodes), failing, p, text)
      ensures err.None? ==> text.Ok? && FileExists(p) && nodes[p] == File(text.value)
    {
      var e1 := EnsureDirectoryExists(Parent(p));
      if e1.Some? {
        return Some(Message(e1.value));
      }
      if text.Err? {
        return Some(text.error);
      }
      var e2 := WriteFile(p, text.value);
      err := if e2.Some? then Some(Message(e2.value)) else None;
    }
  }
}

=== FILE: frontmatter.dfy ===
/**
 * The two regular expressions with which the Markdown→TOML converter
 * (src/lib/converters/markdown-to-toml.ts) and the rules merger
 * (src/lib/converters/rules-merger.ts) find and remove a leading YAML block,
 * and the one the agent converter (src/lib/converters/agent.ts) uses, as
 * explicit scans.  The lazy `[\s\S]*?` of each pattern is the first
 * occurrence of the closing delimiter.
 */
module Frontmatter {
  import opened Wrappers
  import opened Strs
  import opened Json

  /**
   * `content.match(/^---\n([\s\S]*?)\n---/)`: the captured YAML text, or
   * None when there is no match.
   */
  function YamlBlock(content: string): (r: Option<string>)
    ensures r.Some? ==> StartsWith(content, "---\n") && OccursAt(content, "\n---", 4 + |r.value|)
                        && content[4..4 + |r.value|] == r.value
    ensures r.Some? ==> forall j :: 4 <= j < 4 + |r.value| ==> !OccursAt(content, "\n---", j)
    ensures r.None? ==> !StartsWith(content, "---\n") || forall j :: 4 <= j ==> !OccursAt(content, "\n---", j)
  {
    if !StartsWith(content, "---\n") then None
    else
      match IndexOfFrom(content, "\n---", 4)
      case None => None
      case Some(j) => Some(content[4..j])
  }

  /**
   * `content.replace(/^---[\s\S]*?---\n/, '')`: everything up to the first
   * `---\n` at or after index 3 is removed; without such a match the
   * content is unchanged.  This is a different pattern from the one
   * `YamlBlock` matches.
   */
  function StripBlock(content: string): (r: string)
    ensures |r| <= |content| && r == content[|content| - |r|..]
    ensures !StartsWith(content, "---") ==> r == content
    ensures StartsWith(content, "---") && r != content ==>
              |content| - |r| >= 7 && OccursAt(content, "---\n", |content| - |r| - 4)
  {
    if !StartsWith(content, "---") then content
    else
      match IndexOfFrom(content, "---\n", 3)
      case None => content
      case Some(j) => content[j + 4..]
  }

  /**
   * The outcome shared by the two converters: the description value (a
   * parse failure counts as `{}`), the remaining text, or the `TypeError`
   * that reading `.description` of a `null` document throws.
   */
  function SplitDocument(content: string, yaml: string -> Result<Json>): (r: Result<(Json, string)>)
    ensures YamlBlock(content).None? ==> r == Ok((Undefined, content))
    ensures YamlBlock(content).Some? && yaml(YamlBlock(content).value).Err? ==> r == Ok((Undefined, content))
    ensures YamlBlock(content).Some? && yaml(YamlBlock(content).value).Ok? ==>
              r == (var doc := yaml(YamlBlock(content).value).value;
                    if doc.Undefined? || doc.Null? then Err(PropError(doc, "description"))
                    else Ok((Prop(doc, "description").value, StripBlock(content))))
  {
    match YamlBlock(content)
    case None => Ok((Undefined, content))
    case Some(y) =>
      match yaml(y)
      case Err(_) => Ok((Undefined, content))
      case Ok(doc) =>
        match Read(doc, "description")
        case Err(m) => Err(m)
        case Ok(d) => Ok((d, StripBlock(content)))
  }

  /** A block written as `---\n<y>\n---\n<body>` reads back as `y` and strips to `body`. */
  lemma BlockRoundTrip(y: string, body: string)
    requires !Contains(y, "\n---") && !Contains(y + "\n", "---\n")
    ensures YamlBlock("---\n" + y + "\n---\n" + body) == Some(y)
    ensures StripBlock("---\n" + y + "\n---\n" + body) == body
  {
    var c := "---\n" + y + "\n---\n" + body;
    assert c[..4] == "---\n" && c[..3] == "---";
    ClosingFound(y, body, c);
    assert YamlBlock(c) == Some(c[4..4 + |y|]);
    StripFound(y, body, c);
    assert StripBlock(c) == c[9 + |y|..];
    assert c[9 + |y|..] == body;
  }

  lemma ClosingFound(y: string, body: string, c: string)
    requires c == "---\n" + y + "\n---\n" + body
    requires !Contains(y, "\n---")
    ensures IndexOfFrom(c, "\n---", 4) == Some(4 + |y|)
    ensures c[4..4 + |y|] == y
  {
    assert c[4..4 + |y|] == y;
    assert c[4 + |y|..8 + |y|] == "\n---" && c[4 + |y|] == '\n';
    ClosingScan(c, y);
  }

  /** The scan of `ClosingFound`, over any text laid out as `---\n<y>\n---…`. */
  lemma ClosingScan(c: string, y: string)
    requires 8 + |y| <= |c|
    requires c[4..4 + |y|] == y && c[4 + |y|..8 + |y|] == "\n---"
    requires c[4 + |y|] == '\n' && !Contains(y, "\n---")
    ensures IndexOfFrom(c, "\n---", 4) == Some(4 + |y|)
  {
    forall j | 4 <= j < 4 + |y|
      ensures !OccursAt(c, "\n---", j)
    {
      if j + 4 <= 4 + |y| {
        OccursWithin(c, y, 4, "\n---", j);
        NotOccurs(y, "\n---", j - 4);
      } else {
        DiffersAt(c, "\n---", j, 4 + |y| - j);
      }
    }
    IndexOfFromIs(c, "\n---", 4, 4 + |y|);
  }

  lemma StripFound(y: string, body: string, c: string)
    requires c == "---\n" + y + "\n---\n" + body
    requires !Contains(y + "\n", "---\n")
    ensures IndexOfFrom(c, "---\n", 3) == Some(5 + |y|)
  {
    var yn := y + "\n";
    assert c[4..5 + |y|] == yn;
    assert c[5 + |y|..9 + |y|] == "---\n";
    assert c[3] == '\n' && c[4 + |y|] == '\n';
    StripScan(c, yn);
  }

  /** The scan of `StripFound`, over any text laid out as `---\n<yn>---\n…` with `yn` ending in a newline. */
  lemma StripScan(c: string, yn: string)
    requires 1 <= |yn| && 8 + |yn| <= |c|
    requires c[3] == '\n' && c[4..4 + |yn|] == yn && c[3 + |yn|] == '\n' && c[4 + |yn|..8 + |yn|] == "---\n"
    requires !Contains(yn, "---\n")
    ensures IndexOfFrom(c, "---\n", 3) == Some(4 + |yn|)
  {
    forall j | 3 <= j < 4 + |yn|
      ensures !OccursAt(c, "---\n", j)
    {
      if j == 3 {
        DiffersAt(c, "---\n", 3, 0);
      } else if j + 4 <= 4 + |yn| {
        OccursWithin(c, yn, 4, "---\n", j);
        NotOccurs(yn, "---\n", j - 4);
      } else {
        DiffersAt(c, "---\n", j, 3 + |yn| - j);
      }
    }
    IndexOfFromIs(c, "---\n", 3, 4 + |yn|);
  }

  /**
   * The match of the agent converter's `/^---\s*?\n([\s\S]*?)\n---\s*?\n?/`:
   * the captured text and the length of the whole match.
   */
  datatype AgentBlock = AgentBlock(raw: string, matchLength: nat)

  /** Whether `s[from..to]` is all whitespace. */
  predicate AllWhitespace(s: string, from: nat, to: nat)
    requires from <= to <= |s|
  {
    forall i :: from <= i < to ==> IsWhitespace(s[i])
  }

  /**
   * Where the parts of an agent match lie: the match, of length `m`, ends
   * at `e` (before an optional final line break) with the closing `\n---`,
   * right after the captured text, which follows a line break.
   */
  predicate AgentShaped(content: string, b: AgentBlock) {
    var m := b.matchLength;
    8 <= m <= |content| &&
    var e := if content[m - 1] == '\n' then m - 1 else m;
    8 + |b.raw| <= e && OccursAt(content, "\n---", e - 4)
    && content[e - 4 - |b.raw|..e - 4] == b.raw && content[e - 5 - |b.raw|] == '\n'
  }

  /**
   * The agent pattern: the opening `---` may be followed by whitespace up
   * to the first line break; the block ends at the first `\n---` after
   * it, and the match takes one more line break when one follows.
   */
  function AgentMatch(content: string): (r: Option<AgentBlock>)
    ensures r.Some? ==> StartsWith(content, "---") && AgentShaped(content, r.value)
  {
    if !StartsWith(content, "---") then None
    else
      match IndexOfFrom(content, "\n", 3)
      case None => None
      case Some(k) =>
        if !AllWhitespace(content, 3, k) then None
        else
          match IndexOfFrom(content, "\n---", k + 1)
          case None => None
          case Some(j) =>
            var m := if j + 4 < |content| && content[j + 4] == '\n' then j + 5 else j + 4;
            AgentShape(content, k, j, m);
            Some(AgentBlock(content[k + 1..j], m))
  }

  /** The match `AgentMatch` builds from the line break `k` and the closing `\n---` at `j` has the agent shape. */
  lemma AgentShape(content: string, k: nat, j: nat, m: nat)
    requires 3 <= k < j && OccursAt(content, "\n", k) && OccursAt(content, "\n---", j)
    requires m == if j + 4 < |content| && content[j + 4] == '\n' then j + 5 else j + 4
    ensures AgentShaped(content, AgentBlock(content[k + 1..j], m))
  {
    assert content[j..j + 4] == "\n---" && content[j + 3] == '-';
    assert content[k..k + 1] == "\n" && content[k] == '\n';
    assert (if content[m - 1] == '\n' then m - 1 else m) == j + 4;
  }
}

=== FILE: fs.dfy ===
/**
 * The parts of Node's `fs/promises` and `path` modules the core uses, as
 * pure state transitions over an in-memory tree: a map from absolute,
 * normalised paths to files and directories, and a set of paths on which
 * every operation fails with a permission error.  The repository's own
 * file helpers are specified here as functions of that state
 * (`EnsureDir`, `CopyFileSafeSpec`, `WalkDir`) and implemented by the
 * methods of the `FileSystem` class.
 */
module Fs {
  import opened Wrappers
  import opened Strs
  import opened Stats

  // ------------------------------------------------------------- paths

  /** An absolute path, as its segments below the root. */
  type Path = seq<string>

  /** A segment that survives normalisation. */
  predicate IsSegment(s: string) {
    s != "" && s != "." && s != ".." && '/' !in s
  }

  predicate Normal(p: Path) {
    forall i :: 0 <= i < |p| ==> IsSegment(p[i])
  }

  /**
   * Appends `parts` to `base` as `path.resolve` does: empty and `.` parts
   * vanish and `..` drops the last segment (never above the root).
   */
  function Normalize(base: Path, parts: seq<string>): (r: Path)
    requires Normal(base)
    requires forall k :: 0 <= k < |parts| ==> '/' !in parts[k]
    ensures Normal(r)
    decreases |parts|
  {
    if parts == [] then base
    else
      var s := parts[0];
      var next :=
        if s == "" || s == "." then base
        else if s == ".." then (if base == [] then [] else base[..|base| - 1])
        else base + [s];
      Normalize(next, parts[1..])
  }

  /** `path.resolve(cwd, s)` for a working directory `cwd`. */
  function Resolve(cwd: Path, s: string): (r: Path)
    requires Normal(cwd)
    ensures Normal(r)
  {
    Normalize(if StartsWith(s, "/") then [] else cwd, Split(s, '/'))
  }

  /** The string form of a path. */
  function Render(p: Path): string {
    "/" + Join(p, "/")
  }

  /** `path.dirname`. */
  function Parent(p: Path): (r: Path)
    ensures |p| > 0 ==> r == p[..|p| - 1]
  {
    if |p| == 0 then [] else p[..|p| - 1]
  }

  /** One path lies on the other's way to the root. */
  predicate Related(p: Path, q: Path) {
    p <= q || q <= p
  }

  /** Two trees that share no node. */
  predicate Disjoint(a: Path, b: Path) {
    !Related(a, b)
  }

  /**
   * Neither tree lies strictly inside the other: the same directory, or two
   * trees that share no node.
   */
  predicate NotNested(a: Path, b: Path) {
    a == b || Disjoint(a, b)
  }

  /** Normalising already-normal segments onto `base` just appends them. */
  lemma {:induction false} NormalizeNormal(base: Path, parts: Path)
    requires Normal(base) && Normal(parts)
    ensures Normalize(base, parts) == base + parts
    decreases |parts|
  {
    if parts != [] {
      NormalizeNormal(base + [parts[0]], parts[1..]);
      assert base + [parts[0]] + parts[1..] == base + parts;
    }
  }

  /** Splitting a join of separator-free, non-empty lists gives the list back. */
  lemma {:induction false} SplitJoin(parts: seq<string>, sep: char)
    requires |parts| >= 1
    requires forall k :: 0 <= k < |parts| ==> sep !in parts[k]
    ensures Split(Join(parts, [sep]), sep) == parts
    decreases |parts|
  {
    if |parts| > 1 {
      var j := Join(parts, [sep]);
      var rest := Join(parts[1..], [sep]);
      assert j == parts[0] + [sep] + rest;
      assert j[..|parts[0]|] == parts[0];
      assert j[|parts[0]|] == sep;
      FirstIndexAt(j, sep, |parts[0]|);
      assert j[|parts[0]| + 1..] == rest;
      SplitJoin(parts[1..], sep);
    }
  }

  lemma {:induction false} FirstIndexAt(s: string, c: char, i: nat)
    requires i < |s| && s[i] == c && c !in s[..i]
    ensures c in s && FirstIndex(s, c) == i
    decreases i
  {
    if i > 0 {
      assert s[..i][0] == s[0];
      assert s[1..][..i - 1] == s[1..i] && s[1..i] == s[..i][1..];
      FirstIndexAt(s[1..], c, i - 1);
    }
  }

  /** Rendering a normal path and resolving the string gives the path back. */
  lemma RenderResolve(cwd: Path, p: Path)
    requires Normal(cwd) && Normal(p)
    ensures Resolve(cwd, Render(p)) == p
  {
    var s := Render(p);
    SplitRender(p);
    assert s[..1] == "/";
    if p == [] {
      assert Normalize([], ["", ""]) == Normalize([], [""]) == Normalize([], []);
    } else {
      var parts := [""] + p;
      assert parts[1..] == p;
      NormalizeNormal([], p);
      assert Normalize([], parts) == Normalize([], p);
    }
  }

  /** A rendered path splits into an empty first part and its segments (one empty part for the root). */
  lemma SplitRender(p: Path)
    requires Normal(p)
    ensures Split(Render(p), '/') == [""] + (if p == [] then [""] else p)
  {
    var s := Render(p);
    var j := Join(p, "/");
    assert s == "/" + j;
    FirstIndexAt(s, '/', 0);
    assert s[1..] == j;
    assert Split(s, '/') == [""] + Split(j, '/');
    if p != [] {
      SplitJoin(p, '/');
    }
  }

  // ------------------------------------------------------------ the tree

  datatype Node = File(content: string) | Dir(entries: seq<string>)

  type Nodes = map<Path, Node>

  /** The error codes the modelled operations raise. */
  datatype ErrCode = ENOENT | EACCES | EISDIR | ENOTDIR | EEXIST

  /** The `message` of the error a failing operation throws. */
  function Message(code: ErrCode): (r: string)
    ensures r != ""
  {
    match code
    case ENOENT => "ENOENT: no such file or directory"
    case EACCES => "EACCES: permission denied"
    case EISDIR => "EISDIR: illegal operation on a directory"
    case ENOTDIR => "ENOTDIR: not a directory"
    case EEXIST => "EEXIST: file already exists"
  }

  datatype FsResult<+T> = Done(value: T) | Failed(code: ErrCode)

  /** Some proper ancestor of `p` is a regular file. */
  predicate UnderFile(n: Nodes, p: Path) {
    exists i :: 0 < i < |p| && p[..i] in n && n[p[..i]].File?
  }

  /**
   * The code of a lookup of a path that is not there: `ENOTDIR` when the
   * path runs through a regular file, `ENOENT` otherwise.
   */
  function MissingCode(n: Nodes, p: Path): (r: ErrCode)
    ensures r == ENOTDIR <==> UnderFile(n, p)
    ensures r == ENOENT <==> !UnderFile(n, p)
  {
    if UnderFile(n, p) then ENOTDIR else ENOENT
  }

  /**
   * `n2` differs from `n1` at most on paths related to `t`: `t`, its
   * ancestors and the tree below it.
   */
  ghost predicate Confined(n1: Nodes, n2: Nodes, t: Path) {
    forall p :: !Related(p, t) ==> (p in n1 <==> p in n2) && (p in n1 ==> n1[p] == n2[p])
  }

  /** `n1` and `n2` agree on the tree below `root`. */
  ghost predicate SameBelow(n1: Nodes, n2: Nodes, root: Path) {
    forall p :: root <= p ==> (p in n1 <==> p in n2) && (p in n1 ==> n1[p] == n2[p])
  }

  /**
   * `n2` differs from `n1` at most on `t` and its ancestors, as a
   * recursive `mkdir` or a `writeFile` of `t` changes a tree.
   */
  ghost predicate OnPath(n1: Nodes, n2: Nodes, t: Path) {
    forall p :: !(p <= t) ==> (p in n1 <==> p in n2) && (p in n1 ==> n1[p] == n2[p])
  }

  lemma ConfinedTrans(n1: Nodes, n2: Nodes, n3: Nodes, t: Path)
    requires Confined(n1, n2, t) && Confined(n2, n3, t)
    ensures Confined(n1, n3, t)
  {
  }

  lemma OnPathTrans(n1: Nodes, n2: Nodes, n3: Nodes, t: Path)
    requires OnPath(n1, n2, t) && OnPath(n2, n3, t)
    ensures OnPath(n1, n3, t)
  {
  }

  lemma PrefixTrans(a: Path, b: Path, c: Path)
    requires a <= b && b <= c
    ensures a <= c
  {
    assert a == b[..|a|] == c[..|a|];
  }

  /** What is related to a child of `t` is related to `t`. */
  lemma RelatedToChild(p: Path, t: Path, x: string)
    requires Related(p, t + [x])
    ensures Related(p, t)
  {
    if p <= t + [x] {
      if |p| <= |t| {
        assert p == (t + [x])[..|p|] == t[..|p|];
      } else {
        assert p == t + [x];
        assert t == p[..|t|];
      }
    } else {
      assert t == (t + [x])[..|t|] == p[..|t|];
    }
  }

  /** What is related to a node below `root` is related to `root` or below it. */
  lemma RelatedBelow(root: Path, p: Path, t: Path)
    requires root <= p && Related(p, t)
    ensures Related(root, t)
  {
    if p <= t {
      PrefixTrans(root, p, t);
    } else if |t| <= |root| {
      assert t == p[..|t|] == root[..|t|];
    } else {
      assert root == p[..|root|] == t[..|root|];
    }
  }

  /** A change on the path to a child of `t` is confined to `t`. */
  lemma OnPathConfined(n1: Nodes, n2: Nodes, t: Path, x: string)
    requires OnPath(n1, n2, t + [x])
    ensures Confined(n1, n2, t)
  {
    forall p | p <= t + [x]
      ensures Related(p, t)
    {
      RelatedToChild(p, t, x);
    }
  }

  /** A change on the path to `Parent(p)` is on the path to `p`. */
  lemma OnPathParent(n1: Nodes, n2: Nodes, p: Path)
    requires OnPath(n1, n2, Parent(p))
    ensures OnPath(n1, n2, p)
  {
    forall q | q in n1 && q <= Parent(p)
      ensures q <= p
    {
      PrefixTrans(q, Parent(p), p);
    }
    forall q | q in n2 && q <= Parent(p)
      ensures q <= p
    {
      PrefixTrans(q, Parent(p), p);
    }
  }

  /** A change confined to a child of `t` is confined to `t`. */
  lemma ConfinedWiden(n1: Nodes, n2: Nodes, t: Path, x: string)
    requires Confined(n1, n2, t + [x])
    ensures Confined(n1, n2, t)
  {
    forall p | Related(p, t + [x])
      ensures Related(p, t)
    {
      RelatedToChild(p, t, x);
    }
  }

  /** Changes confined to one tree leave a disjoint tree as it was. */
  lemma ConfinedKeepsDisjoint(n1: Nodes, n2: Nodes, t: Path, root: Path)
    requires Confined(n1, n2, t) && Disjoint(root, t)
    ensures SameBelow(n1, n2, root)
  {
    forall p | root <= p && Related(p, t)
      ensures false
    {
      RelatedBelow(root, p, t);
    }
  }

  lemma NotNestedChild(a: Path, b: Path, x: string)
    requires NotNested(a, b)
    ensures NotNested(a + [x], b + [x])
  {
    if a != b {
      DisjointChild(a, b, x);
    }
  }

  /** A change on the path to `t` creates directories only on that path. */
  lemma OnPathNewDirs(n1: Nodes, n2: Nodes, t: Path)
    requires OnPath(n1, n2, t)
    ensures NewDirsOn(n1, n2, t)
  {
  }

  lemma NewDirsTrans(n1: Nodes, n2: Nodes, n3: Nodes, t: Path)
    requires NewDirsOn(n1, n2, t) && NewDirsOn(n2, n3, t)
    ensures NewDirsOn(n1, n3, t)
  {
  }

  lemma DisjointChild(a: Path, b: Path, x: string)
    requires Disjoint(a, b)
    ensures Disjoint(a + [x], b + [x])
  {
    if Related(a + [x], b + [x]) {
      RelatedToChild(a + [x], b, x);
      if a + [x] <= b {
        PrefixTrans(a, a + [x], b);
      } else {
        RelatedBelow(b, b + [x], a + [x]);
        RelatedToChild(b, a, x);
      }
    }
  }

  /** `p` is a directory of `n`. */
  ghost predicate IsDir(n: Nodes, p: Path) {
    p in n && n[p].Dir?
  }

  /** The directories at or below `root`. */
  ghost function Dirs(n: Nodes, root: Path): set<Path> {
    set p | p in n && root <= p && n[p].Dir?
  }

  /** No directory of `n1` is removed or replaced by a file. */
  ghost predicate KeepsDirs(n1: Nodes, n2: Nodes) {
    forall q :: q in n1 && n1[q].Dir? ==> q in n2 && n2[q].Dir?
  }

  /** Every directory `n2` has and `n1` has not lies on the way from the root to `t`. */
  ghost predicate NewDirsOn(n1: Nodes, n2: Nodes, t: Path) {
    forall q :: q in n2 && n2[q].Dir? && !(q in n1 && n1[q].Dir?) ==> q <= t
  }

  /** No directory at all appears, as a `writeFile` or a `copyFile` changes a tree. */
  ghost predicate NoNewDirs(n1: Nodes, n2: Nodes) {
    forall q :: q in n2 && n2[q].Dir? ==> q in n1 && n1[q].Dir?
  }

  /** No directory lists a name twice, in the tree below `root`. */
  ghost predicate UniqueBelow(n: Nodes, root: Path) {
    forall p, j, k :: root <= p && p in n && n[p].Dir? && 0 <= j < k < |n[p].entries| ==> n[p].entries[j] != n[p].entries[k]
  }

  lemma SubsetCard<T>(a: set<T>, b: set<T>)
    requires a <= b
    ensures |a| <= |b|
    decreases a
  {
    if a != {} {
      var y :| y in a;
      SubsetCard(a - {y}, b - {y});
    }
  }

  /** A child has strictly fewer directories below it than any bound on its parent's, which counts the parent. */
  lemma ChildSmaller(n: Nodes, root: Path, x: string, under: set<Path>)
    requires root in under && Dirs(n, root) <= under
    ensures |Dirs(n, root + [x])| < |under|
  {
    forall p | p in Dirs(n, root + [x])
      ensures p in under - {root}
    {
      assert root == (root + [x])[..|root|] == p[..|root|];
    }
    SubsetCard(Dirs(n, root + [x]), under - {root});
  }

  lemma SameBelowChild(n1: Nodes, n2: Nodes, root: Path, x: string)
    requires SameBelow(n1, n2, root)
    ensures SameBelow(n1, n2, root + [x])
  {
    forall p | p in n1 && root + [x] <= p
      ensures root <= p
    {
      PrefixTrans(root, root + [x], p);
    }
    forall p | p in n2 && root + [x] <= p
      ensures root <= p
    {
      PrefixTrans(root, root + [x], p);
    }
  }

  // ----------------------------------------------------- fs primitives

  /**
   * What every modelled write keeps: directories stay directories, and
   * files other than the `written` ones are neither created, changed nor
   * removed.
   */
  ghost predicate KeepsKinds(n1: Nodes, n2: Nodes, written: set<Path>) {
    && (forall q :: q in n1 && n1[q].Dir? ==> q in n2 && n2[q].Dir?)
    && (forall q :: q in n2 && n2[q].File? && q !in written ==> q in n1 && n1[q] == n2[q])
    && (forall q :: q in n1 && n1[q].File? && q !in written ==> q in n2 && n2[q] == n1[q])
  }

  /** Records the last segment of `p` in its parent's listing, once. */
  function AddEntry(n: Nodes, p: Path): (r: Nodes)
    requires |p| > 0
    ensures OnPath(n, r, Parent(p))
    ensures KeepsKinds(n, r, {}) && NoNewDirs(n, r)
    ensures p in n <==> p in r
    ensures p in n ==> r[p] == n[p]
  {
    var parent := Parent(p);
    var name := p[|p| - 1];
    assert parent != p;
    if parent in n && n[parent].Dir? && name !in n[parent].entries then
      n[parent := Dir(n[parent].entries + [name])]
    else n
  }

  /**
   * `mkdir(p, {recursive: true})` from the prefix of length `i` on: an
   * existing directory is passed, a missing one is created, a file on the
   * way fails with `ENOTDIR` and a file at `p` itself with `EEXIST`.  The
   * root is taken to exist.
   */
  function MkdirFrom(n: Nodes, failing: set<Path>, p: Path, i: nat): (r: (Option<ErrCode>, Nodes))
    requires i <= |p|
    ensures OnPath(n, r.1, p)
    ensures KeepsKinds(n, r.1, {})
    ensures r.0.None? ==> forall k :: i < k <= |p| ==> p[..k] in r.1 && r.1[p[..k]].Dir?
    ensures r.0 == Some(EEXIST) ==> p in n && n[p].File?
    decreases |p| - i
  {
    if i == |p| then (None, n)
    else
      var q := p[..i + 1];
      if q in failing then (Some(EACCES), n)
      else if q in n then
        if n[q].Dir? then MkdirFrom(n, failing, p, i + 1)
        else if i + 1 == |p| then assert q == p; (Some(EEXIST), n)
        else (Some(ENOTDIR), n)
      else
        var n1 := AddEntry(n, q)[q := Dir([])];
        assert OnPath(n, n1, p) by {
          OnPathParent(n, AddEntry(n, q), q);
          assert Parent(q) <= q;
          forall t | t in n && t <= q
            ensures t <= p
          {
            PrefixTrans(t, q, p);
          }
          forall t | t in n1 && t <= q
            ensures t <= p
          {
            PrefixTrans(t, q, p);
          }
        }
        var r := MkdirFrom(n1, failing, p, i + 1);
        OnPathTrans(n, n1, r.1, p);
        r
  }

  function Mkdir(n: Nodes, failing: set<Path>, p: Path): (r: (Option<ErrCode>, Nodes))
    ensures OnPath(n, r.1, p)
    ensures KeepsKinds(n, r.1, {})
    ensures r.0.None? ==> |p| == 0 || (p in r.1 && r.1[p].Dir?)
    ensures r.0 == Some(EEXIST) ==> p in n && n[p].File?
  {
    assert p[..|p|] == p;
    MkdirFrom(n, failing, p, 0)
  }

  /** `readFile(p, 'utf-8')`. */
  function ReadFile(n: Nodes, failing: set<Path>, p: Path): (r: FsResult<string>)
    ensures r.Done? <==> p !in failing && p in n && n[p].File?
    ensures r.Done? ==> r.value == n[p].content
    ensures p !in failing && p !in n ==> r == Failed(MissingCode(n, p))
  {
    if p in failing then Failed(EACCES)
    else if p !in n then Failed(MissingCode(n, p))
    else match n[p]
      case Dir(_) => Failed(EISDIR)
      case File(c) => Done(c)
  }

  /**
   * `writeFile(p, content)`: the parent must be a directory (the root
   * always is); a directory at `p` cannot be overwritten.
   */
  function WriteFile(n: Nodes, failing: set<Path>, p: Path, content: string): (r: (Option<ErrCode>, Nodes))
    ensures OnPath(n, r.1, p)
    ensures KeepsKinds(n, r.1, {p}) && NoNewDirs(n, r.1)
    ensures r.0.Some? ==> r.1 == n
    ensures r.0.None? ==> p in r.1 && r.1[p] == File(content)
    ensures r.0.None? <==>
      |p| > 0 && p !in failing && (Parent(p) == [] || (Parent(p) in n && n[Parent(p)].Dir?))
      && !(p in n && n[p].Dir?)
    ensures |p| > 0 && p !in failing && Parent(p) != [] && Parent(p) !in n ==> r.0 == Some(MissingCode(n, Parent(p)))
  {
    if |p| == 0 then (Some(EISDIR), n)
    else if p in failing then (Some(EACCES), n)
    else if Parent(p) != [] && Parent(p) !in n then (Some(MissingCode(n, Parent(p))), n)
    else if Parent(p) != [] && n[Parent(p)].File? then (Some(ENOTDIR), n)
    else if p in n && n[p].Dir? then (Some(EISDIR), n)
    else
      OnPathParent(n, AddEntry(n, p), p);
      (None, AddEntry(n, p)[p := File(content)])
  }

  /** `copyFile(src, dst)`: a read of the source, then a write. */
  function CopyFile(n: Nodes, failing: set<Path>, src: Path, dst: Path): (r: (Option<ErrCode>, Nodes))
    ensures OnPath(n, r.1, dst)
    ensures KeepsKinds(n, r.1, {dst}) && NoNewDirs(n, r.1)
    ensures r.0.Some? ==> r.1 == n
    ensures r.0.None? ==> src in n && n[src].File? && dst in r.1 && r.1[dst] == n[src]
  {
    match ReadFile(n, failing, src)
    case Failed(e) => (Some(e), n)
    case Done(c) => WriteFile(n, failing, dst, c)
  }

  datatype Kind = FileKind | DirKind | OtherKind

  /** A `Dirent` of `readdir(p, {withFileTypes: true})`. */
  datatype DirEntry = DirEntry(name: string, kind: Kind)

  function KindAt(n: Nodes, p: Path): Kind {
    if p !in n then OtherKind
    else if n[p].File? then FileKind
    else DirKind
  }

  function Listing(n: Nodes, dir: Path, names: seq<string>): (r: seq<DirEntry>)
    ensures |r| == |names|
    ensures forall i :: 0 <= i < |names| ==> r[i] == DirEntry(names[i], KindAt(n, dir + [names[i]]))
  {
    if names == [] then [] else [DirEntry(names[0], KindAt(n, dir + [names[0]]))] + Listing(n, dir, names[1..])
  }

  /** `readdir(p, {withFileTypes: true})`, in the directory's own order. */
  function ReadDir(n: Nodes, failing: set<Path>, p: Path): (r: FsResult<seq<DirEntry>>)
    ensures r.Done? <==> p !in failing && p in n && n[p].Dir?
    ensures r.Done? ==> r.value == Listing(n, p, n[p].entries)
    ensures p !in failing && p !in n ==> r == Failed(MissingCode(n, p))
  {
    if p in failing then Failed(EACCES)
    else if p !in n then Failed(MissingCode(n, p))
    else match n[p]
      case File(_) => Failed(ENOTDIR)
      case Dir(names) => Done(Listing(n, p, names))
  }

  /**
   * A path that runs through a regular file is not there, and reading or
   * listing it fails with `ENOTDIR`, not `ENOENT`.
   */
  lemma ThroughFileIsNotDir(n: Nodes, failing: set<Path>, p: Path, i: nat)
    requires 0 < i < |p| && p[..i] in n && n[p[..i]].File?
    requires p !in n && p !in failing
    ensures ReadFile(n, failing, p) == Failed(ENOTDIR)
    ensures ReadDir(n, failing, p) == Failed(ENOTDIR)
  {
    assert UnderFile(n, p);
  }

  /**
   * Whether a directory can be listed, and its listing, depend only on the
   * tree below it (the code of a failure also looks at its ancestors).
   */
  lemma ReadDirBelow(n1: Nodes, n2: Nodes, failing: set<Path>, p: Path)
    requires SameBelow(n1, n2, p)
    ensures ReadDir(n1, failing, p).Done? <==> ReadDir(n2, failing, p).Done?
    ensures ReadDir(n1, failing, p).Done? ==> ReadDir(n1, failing, p) == ReadDir(n2, failing, p)
  {
    assert p <= p;
    if p in n1 && n1[p].Dir? && p !in failing {
      var names := n1[p].entries;
      forall i | 0 <= i < |names|
        ensures KindAt(n1, p + [names[i]]) == KindAt(n2, p + [names[i]])
      {
        assert p <= p + [names[i]];
      }
      var l1 := Listing(n1, p, names);
      var l2 := Listing(n2, p, names);
      assert |l1| == |l2|;
      assert forall i :: 0 <= i < |l1| ==> l1[i] == l2[i];
      assert l1 == l2;
    }
  }

  // ------------------------------------------- the repository's helpers

  /**
   * `ensureDirectoryExists`: `mkdir -p`, with an `EEXIST` failure (a file
   * where the directory should be) swallowed and any other failure passed on.
   */
  function EnsureDir(n: Nodes, failing: set<Path>, p: Path): (r: (Option<ErrCode>, Nodes))
    ensures OnPath(n, r.1, p)
    ensures KeepsKinds(n, r.1, {})
    ensures r.0 != Some(EEXIST)
    ensures r.0 == None <==> Mkdir(n, failing, p).0 in {None, Some(EEXIST)}
    ensures r.1 == Mkdir(n, failing, p).1
    ensures r.0.None? ==> |p| == 0 || (p in r.1 && (r.1[p].Dir? || (p in n && r.1[p] == n[p] && n[p].File?)))
  {
    var (e, n1) := Mkdir(n, failing, p);
    if e == Some(EEXIST) then (None, n1) else (e, n1)
  }

  /** `CopyResult`: `error` is the thrown error's message, if any. */
  datatype CopyResult = CopyResult(success: bool, skipped: bool, error: Option<string>)

  /**
   * `copyFileSafe(src, dst, autoOverwrite)`: an existing target is skipped
   * unless overwriting; otherwise the parent directory is ensured and the
   * file copied, and a failure is returned, never thrown.
   */
  function CopyFileSafeSpec(n: Nodes, failing: set<Path>, src: Path, dst: Path, over: bool): (r: (CopyResult, Nodes))
    ensures OnPath(n, r.1, dst)
    ensures (r.0.success && !r.0.skipped && r.0.error.None?)
         || (!r.0.success && r.0.skipped && r.0.error.None?)
         || (!r.0.success && !r.0.skipped && r.0.error.Some?)
    ensures r.0.skipped <==> dst in n && !over
    ensures r.0.skipped ==> r.1 == n
    ensures r.0.success ==> src in n && n[src].File? && dst in r.1 && r.1[dst] == n[src]
    ensures KeepsDirs(n, r.1) && NewDirsOn(n, r.1, Parent(dst))
    ensures IsDir(n, dst) ==> OnPath(n, r.1, Parent(dst))
  {
    if dst in n && !over then (CopyResult(false, true, None), n)
    else
      var (e1, n1) := EnsureDir(n, failing, Parent(dst));
      OnPathParent(n, n1, dst);
      OnPathNewDirs(n, n1, Parent(dst));
      if e1.Some? then (CopyResult(false, false, Some(Message(e1.value))), n1)
      else
        var (e2, n2) := CopyFile(n1, failing, src, dst);
        OnPathTrans(n, n1, n2, dst);
        if e2.Some? then (CopyResult(false, false, Some(Message(e2.value))), n2)
        else
          assert n1[src].File?;
          (CopyResult(true, false, None), n2)
  }
}

=== FILE: hooks_converter.dfy ===
/**
 * src/lib/converters/hooks-converter.ts: a Cursor `hooks.json` becomes the
 * `hooks` settings of Claude Code.  JSON parsing and serialisation are
 * parameters; the converted settings are a JSON value.
 */
module HooksConverter {
  import opened Wrappers
  import opened Strs
  import opened Json
  import opened Fs
  import opened FileSystem

  const CursorHooksDir: string := "~/.cursor/hooks"
  const PluginHooksDir: string := "${CLAUDE_PLUGIN_ROOT}/hooks"
  const Timeout: int := 30

  /** The message of the `TypeError` for calling a missing method. */
  function NotAFunction(expr: string): string {
    expr + " is not a function"
  }

  /** `{ matcher?, hooks: [{ type: 'command', command, timeout: 30 }] }`. */
  function HookEntry(matcher: Option<string>, command: Json): (r: Json)
    ensures r.JObj? && "hooks" in r.fields
    ensures ("matcher" in r.fields) <==> matcher.Some?
  {
    var hook := JObj(map["type" := JStr("command"), "command" := command, "timeout" := JNum(Timeout)]);
    var base := map["hooks" := JArr([hook])];
    JObj(if matcher.Some? then base["matcher" := JStr(matcher.value)] else base)
  }

  /** The command an entry runs. */
  function EntryCommand(entry: Json): Json {
    match entry
    case JObj(f) =>
      (match Get(f, "hooks")
       case JArr(items) => if |items| == 1 && items[0].JObj? then Get(items[0].fields, "command") else Undefined
       case _ => Undefined)
    case _ => Undefined
  }

  /** The command of one Cursor hook, rewritten or not; a `null` hook or a non-string command to rewrite throws. */
  function HookCommand(hook: Json, rewrite: bool): (r: Result<Json>)
    ensures (hook.Undefined? || hook.Null?) ==> r.Err?
    ensures !(hook.Undefined? || hook.Null?) && !rewrite ==> r == Ok(Prop(hook, "command").value)
    ensures !(hook.Undefined? || hook.Null?) && rewrite ==>
              (r.Ok? <==> Prop(hook, "command").value.JStr?)
              && (r.Ok? ==> r.value == JStr(ReplaceFirst(Prop(hook, "command").value.s, CursorHooksDir, PluginHooksDir)))
  {
    match Read(hook, "command")
    case Err(m) => Err(m)
    case Ok(c) =>
      if !rewrite then Ok(c)
      else match c
        case JStr(s) => Ok(JStr(ReplaceFirst(s, CursorHooksDir, PluginHooksDir)))
        case Undefined => Err(PropError(c, "replace"))
        case Null => Err(PropError(c, "replace"))
        case _ => Err(NotAFunction("hook.command.replace"))
  }

  /** `list.map(hook => entry)`, stopping at the first hook that throws. */
  function MapHooks(items: seq<Json>, matcher: Option<string>, rewrite: bool): (r: Result<seq<Json>>)
    ensures r.Ok? <==> forall i :: 0 <= i < |items| ==> HookCommand(items[i], rewrite).Ok?
    ensures r.Ok? ==> |r.value| == |items|
    ensures r.Ok? ==> forall i :: 0 <= i < |items| ==> r.value[i] == HookEntry(matcher, HookCommand(items[i], rewrite).value)
  {
    if items == [] then Ok([])
    else
      match HookCommand(items[0], rewrite)
      case Err(m) => Err(m)
      case Ok(c) =>
        match MapHooks(items[1..], matcher, rewrite)
        case Err(m) =>
          assert !(forall i :: 0 <= i < |items[1..]| ==> HookCommand(items[1..][i], rewrite).Ok?);
          Err(m)
        case Ok(rest) =>
          assert forall i :: 1 <= i < |items| ==> items[i] == items[1..][i - 1];
          Ok([HookEntry(matcher, c)] + rest)
  }

  /**
   * One event: absent when the source list is falsy, converted when it is
   * an array, a `TypeError` for any other truthy value.
   */
  function ConvertEvent(list: Json, name: string, matcher: Option<string>, rewrite: bool): (r: Result<Option<Json>>)
    ensures !Truthy(list) ==> r == Ok(None)
    ensures Truthy(list) && !list.JArr? ==> r.Err?
    ensures list.JArr? ==> (r.Ok? <==> MapHooks(list.items, matcher, rewrite).Ok?)
    ensures list.JArr? && r.Ok? ==> r.value == Some(JArr(MapHooks(list.items, matcher, rewrite).value))
  {
    if !Truthy(list) then Ok(None)
    else match list
      case JArr(items) =>
        (match MapHooks(items, matcher, rewrite)
         case Err(m) => Err(m)
         case Ok(entries) => Ok(Some(JArr(entries))))
      case _ => Err(NotAFunction("cursorHooks.hooks." + name + ".map"))
  }

  /** `cursorHooks.hooks?.<name>`. */
  function EventList(cursorHooks: Json, name: string): Json
    requires !(cursorHooks.Undefined? || cursorHooks.Null?)
  {
    var hooks := Prop(cursorHooks, "hooks").value;
    if hooks.Undefined? || hooks.Null? then Undefined else Prop(hooks, name).value
  }

  function WithEntry(fields: map<string, Json>, key: string, value: Option<Json>): map<string, Json> {
    if value.Some? then fields[key := value.value] else fields
  }

  /**
   * The Claude settings for a parsed `hooks.json`: `PostToolUse` from
   * `afterFileEdit` (matcher `Write|Edit`, hook directory rewritten),
   * `PreToolUse` from `beforeShellExecution` (matcher `Bash`), `Stop` from
   * `stop` (no matcher); or the message of the `TypeError` raised.
   */
  function ConvertHooks(cursorHooks: Json): (r: Result<Json>)
    ensures (cursorHooks.Undefined? || cursorHooks.Null?) ==> r.Err?
    ensures r.Ok? ==> r.value.JObj? && forall k :: k in r.value.fields ==> k in {"PostToolUse", "PreToolUse", "Stop"}
  {
    match Read(cursorHooks, "hooks")
    case Err(m) => Err(m)
    case Ok(_) =>
      match ConvertEvent(EventList(cursorHooks, "afterFileEdit"), "afterFileEdit", Some("Write|Edit"), true)
      case Err(m) => Err(m)
      case Ok(post) =>
        match ConvertEvent(EventList(cursorHooks, "beforeShellExecution"), "beforeShellExecution", Some("Bash"), false)
        case Err(m) => Err(m)
        case Ok(pre) =>
          match ConvertEvent(EventList(cursorHooks, "stop"), "stop", None, false)
          case Err(m) => Err(m)
          case Ok(stop) =>
            Ok(JObj(WithEntry(WithEntry(WithEntry(map[], "PostToolUse", post), "PreToolUse", pre), "Stop", stop)))
  }

  /** A configuration without a `hooks` object gives empty settings. */
  lemma NoHooksEmptySettings(cursorHooks: Json)
    requires !(cursorHooks.Undefined? || cursorHooks.Null?)
    requires !Truthy(Prop(cursorHooks, "hooks").value)
    ensures ConvertHooks(cursorHooks) == Ok(JObj(map[]))
  {
  }

  /** The command an entry runs is the one it was built with. */
  lemma EntryCommandOf(matcher: Option<string>, command: Json)
    ensures EntryCommand(HookEntry(matcher, command)) == command
  {
  }

  /**
   * A converted event has one entry per Cursor hook, in order, each
   * running that hook's (possibly rewritten) command; the event is present
   * exactly when its source list is truthy.
   */
  lemma EventEntries(list: Json, name: string, matcher: Option<string>, rewrite: bool)
    requires ConvertEvent(list, name, matcher, rewrite).Ok?
    ensures var r := ConvertEvent(list, name, matcher, rewrite).value;
            (r.Some? <==> Truthy(list))
            && (r.Some? ==> list.JArr? && r.value.JArr? && |r.value.items| == |list.items|)
            && (r.Some? ==> forall i :: 0 <= i < |list.items| ==>
                  HookCommand(list.items[i], rewrite).Ok?
                  && EntryCommand(r.value.items[i]) == HookCommand(list.items[i], rewrite).value)
  {
    var r := ConvertEvent(list, name, matcher, rewrite).value;
    if r.Some? {
      forall i | 0 <= i < |list.items|
        ensures EntryCommand(r.value.items[i]) == HookCommand(list.items[i], rewrite).value
      {
        EntryCommandOf(matcher, HookCommand(list.items[i], rewrite).value);
      }
    }
  }

  /**
   * The settings hold `PostToolUse`, `PreToolUse` and `Stop` exactly as
   * the conversions of `afterFileEdit` (directory rewritten),
   * `beforeShellExecution` and `stop` give them.
   */
  lemma ConvertHooksFields(cursorHooks: Json)
    requires ConvertHooks(cursorHooks).Ok?
    ensures !(cursorHooks.Undefined? || cursorHooks.Null?)
    ensures var out := ConvertHooks(cursorHooks).value.fields;
            var post := ConvertEvent(EventList(cursorHooks, "afterFileEdit"), "afterFileEdit", Some("Write|Edit"), true);
            var pre := ConvertEvent(EventList(cursorHooks, "beforeShellExecution"), "beforeShellExecution", Some("Bash"), false);
            var stop := ConvertEvent(EventList(cursorHooks, "stop"), "stop", None, false);
            post.Ok? && pre.Ok? && stop.Ok?
            && (post.value.Some? <==> "PostToolUse" in out) && (post.value.Some? ==> out["PostToolUse"] == post.value.value)
            && (pre.value.Some? <==> "PreToolUse" in out) && (pre.value.Some? ==> out["PreToolUse"] == pre.value.value)
            && (stop.value.Some? <==> "Stop" in out) && (stop.value.Some? ==> out["Stop"] == stop.value.value)
  {
  }

  /**
   * `convertHooksForClaude(sourceHooksDir, sourceConfigFile, targetFile)`
   * as a state transition: a config that cannot be read or parsed ends the
   * call quietly; otherwise the settings are written, or the message of
   * what was thrown is returned.
   */
  function ConvertSpec(n: Nodes, failing: set<Path>, config: Path, target: Path,
                       parse: string -> Result<Json>, serialize: Json -> string): (r: (Option<string>, Nodes))
    ensures OnPath(n, r.1, target)
    ensures ReadParsed(n, failing, config, parse).Err? ==> r == (None, n)
  {
    match ReadParsed(n, failing, config, parse)
    case Err(_) => (None, n)
    case Ok(cursorHooks) =>
      match ConvertHooks(cursorHooks)
      case Err(m) => (Some(m), n)
      case Ok(settings) =>
        var (e1, n1) := EnsureDir(n, failing, Parent(target));
        OnPathParent(n, n1, target);
        if e1.Some? then (Some(Message(e1.value)), n1)
        else
          var (e2, n2) := Fs.WriteFile(n1, failing, target, serialize(settings));
          OnPathTrans(n, n1, n2, target);
          (if e2.Some? then Some(Message(e2.value)) else None, n2)
  }

  /** A call that raises nothing and read a config wrote the serialised settings. */
  lemma ConvertWritesSettings(n: Nodes, failing: set<Path>, config: Path, target: Path,
                              parse: string -> Result<Json>, serialize: Json -> string)
    requires ReadParsed(n, failing, config, parse).Ok?
    requires ConvertSpec(n, failing, config, target, parse, serialize).0.None?
    ensures var r := ConvertSpec(n, failing, config, target, parse, serialize).1;
            ConvertHooks(ReadParsed(n, failing, config, parse).value).Ok?
            && target in r && r[target] == File(serialize(ConvertHooks(ReadParsed(n, failing, config, parse).value).value))
  {
  }

  method ConvertHooksForClaude(fs: FileSystem, config: Path, target: Path,
                               parse: string -> Result<Json>, serialize: Json -> string) returns (err: Option<string>)
    modifies fs
    ensures (err, fs.nodes) == ConvertSpec(old(fs.nodes), fs.failing, config, target, parse, serialize)
  {
    var cursorHooks := fs.ReadParsedFile(config, parse);
    if cursorHooks.Err? {
      return None;
    }
    var settings := ConvertHooks(cursorHooks.value);
    if settings.Err? {
      return Some(settings.error);
    }
    var e1 := fs.EnsureDirectoryExists(Parent(target));
    if e1.Some? {
      return Some(Message(e1.value));
    }
    var e2 := fs.WriteFile(target, serialize(settings.value));
    err := if e2.Some? then Some(Message(e2.value)) else None;
  }
}

=== FILE: json.dfy ===
/**
 * JavaScript values as the source handles them after `JSON.parse`,
 * `YAML.parse` or `TOML.parse`, with the few JavaScript operations on them
 * that the source relies on: property access, truthiness, `||`,
 * `Object.keys(..).length` and conversion to a string in a template literal.
 */
module Json {
  import opened Wrappers
  import Strs

  /**
   * `Undefined` is JavaScript's `undefined`: it never comes out of a parser,
   * but it is what reading an absent property yields and what deep merge
   * skips.  Numbers are integers in this model.
   */
  datatype Json =
    | Undefined
    | Null
    | JBool(b: bool)
    | JNum(n: int)
    | JStr(s: string)
    | JArr(items: seq<Json>)
    | JObj(fields: map<string, Json>)

  /** JavaScript truthiness. */
  predicate Truthy(v: Json) {
    match v
    case Undefined => false
    case Null => false
    case JBool(b) => b
    case JNum(n) => n != 0
    case JStr(s) => s != ""
    case JArr(_) => true
    case JObj(_) => true
  }

  /** `obj[k]` on a plain object: `undefined` when the key is absent. */
  function Get(m: map<string, Json>, k: string): (r: Json)
    ensures k in m ==> r == m[k]
    ensures k !in m ==> r == Undefined
  {
    if k in m then m[k] else Undefined
  }

  /**
   * `v.k` on any value: a `TypeError` (None) on `null` and `undefined`,
   * the field on an object, `undefined` on any other value for the field
   * names the source reads (`description`, `name`, ...).
   */
  function Prop(v: Json, k: string): (r: Option<Json>)
    ensures r.None? <==> (v.Undefined? || v.Null?)
    ensures v.JObj? ==> r == Some(Get(v.fields, k))
  {
    match v
    case Undefined => None
    case Null => None
    case JObj(m) => Some(Get(m, k))
    case _ => Some(Undefined)
  }

  /** The message of the `TypeError` that reading `v.k` throws on `null` or `undefined`. */
  function PropError(v: Json, k: string): (r: string)
    ensures r != ""
  {
    "Cannot read properties of " + (if v.Null? then "null" else "undefined") + " (reading '" + k + "')"
  }

  /** `v.k` where the `TypeError` is an exception of the enclosing operation. */
  function Read(v: Json, k: string): (r: Result<Json>)
    ensures r.Err? <==> (v.Undefined? || v.Null?)
    ensures r.Ok? ==> Some(r.value) == Prop(v, k)
  {
    match Prop(v, k)
    case None => Err(PropError(v, k))
    case Some(x) => Ok(x)
  }

  /** `a || b`. */
  function Or(a: Json, b: Json): (r: Json)
    ensures Truthy(a) ==> r == a
    ensures !Truthy(a) ==> r == b
  {
    if Truthy(a) then a else b
  }

  /** The own enumerable string-keyed fields of an object; none otherwise. */
  function Fields(v: Json): map<string, Json> {
    if v.JObj? then v.fields else map[]
  }

  /** `v && Object.keys(v).length > 0`. */
  predicate HasKeys(v: Json) {
    match v
    case JObj(m) => |m| > 0
    case JArr(s) => |s| > 0
    case JStr(s) => |s| > 0
    case _ => false
  }

  function DigitChar(d: nat): char
    requires d < 10
  {
    "0123456789"[d]
  }

  /** The decimal numeral of a natural number. */
  function NatToString(n: nat): (r: string)
    ensures |r| >= 1
    ensures forall i :: 0 <= i < |r| ==> Strs.IsDigit(r[i])
    decreases n
  {
    if n < 10 then [DigitChar(n)] else NatToString(n / 10) + [DigitChar(n % 10)]
  }

  /** `String(v)`, as a template literal `${v}` converts a value. */
  function ToStr(v: Json): string {
    match v
    case Undefined => "undefined"
    case Null => "null"
    case JBool(b) => if b then "true" else "false"
    case JNum(n) => if n < 0 then "-" + NatToString(-n) else NatToString(n)
    case JStr(s) => s
    case JArr(items) => JoinItems(items)
    case JObj(_) => "[object Object]"
  }

  /** `Array.prototype.join(',')`: `null` and `undefined` items print as empty. */
  function JoinItems(items: seq<Json>): string
    decreases items
  {
    if |items| == 0 then ""
    else
      var head := if items[0].Undefined? || items[0].Null? then "" else ToStr(items[0]);
      if |items| == 1 then head else head + "," + JoinItems(items[1..])
  }
}

=== FILE: markdown_to_mdc.dfy ===
/**
 * src/lib/converters/markdown-to-mdc.ts: a Markdown rule without
 * frontmatter gets a Cursor `.mdc` frontmatter whose description comes
 * from the file name.
 */
module MarkdownToMdc {
  import opened Wrappers
  import opened Strs
  import opened Fs
  import opened Frontmatter
  import opened Walk
  import opened FileSystem

  predicate IsSeparator(c: char) {
    c == '/' || c == '\\'
  }

  /** `p.split(/[/\\]/).pop()`: the text after the last slash or backslash. */
  function LastSegment(p: string): (r: string)
    ensures |r| <= |p| && r == p[|p| - |r|..]
    ensures forall i :: 0 <= i < |r| ==> !IsSeparator(r[i])
    ensures |r| < |p| ==> IsSeparator(p[|p| - |r| - 1])
  {
    if p == "" then ""
    else if IsSeparator(p[|p| - 1]) then ""
    else
      var rest := LastSegment(p[..|p| - 1]);
      assert p[..|p| - 1][|p| - 1 - |rest|..] + [p[|p| - 1]] == p[|p| - 1 - |rest|..];
      rest + [p[|p| - 1]]
  }

  /** `s.replace(/\.md$/, '')`. */
  function StripMdSuffix(s: string): (r: string)
    ensures EndsWith(s, ".md") ==> r + ".md" == s
    ensures !EndsWith(s, ".md") ==> r == s
  {
    if EndsWith(s, ".md") then s[..|s| - 3] else s
  }

  /** `s.replace(/([a-z])([A-Z])/g, '$1 $2')`: a space between each lower-case and upper-case pair. */
  function CamelSpace(s: string): (r: string)
    ensures s != "" ==> r != "" && r[0] == s[0]
    decreases |s|
  {
    if |s| < 2 then s
    else if IsLowerAscii(s[0]) && IsUpperAscii(s[1]) then [s[0], ' ', s[1]] + CamelSpace(s[2..])
    else [s[0]] + CamelSpace(s[1..])
  }

  /** A lower-case letter directly followed by an upper-case one. */
  predicate CamelPairAt(s: string, i: nat)
    requires i + 1 < |s|
  {
    IsLowerAscii(s[i]) && IsUpperAscii(s[i + 1])
  }

  /** After the rewrite no lower-case letter is directly followed by an upper-case one. */
  lemma {:induction false} CamelSpaceSeparates(s: string)
    ensures forall i :: 0 <= i < |CamelSpace(s)| - 1 ==> !CamelPairAt(CamelSpace(s), i)
    decreases |s|
  {
    var r := CamelSpace(s);
    if |s| < 2 {
    } else if IsLowerAscii(s[0]) && IsUpperAscii(s[1]) {
      var rest := CamelSpace(s[2..]);
      CamelSpaceSeparates(s[2..]);
      assert r == [s[0], ' ', s[1]] + rest;
      forall i | 0 <= i < |r| - 1 ensures !CamelPairAt(r, i) {
        if i >= 3 {
          assert r[i] == rest[i - 3] && r[i + 1] == rest[i - 2];
          assert !CamelPairAt(rest, i - 3);
        } else if i == 2 {
          assert r[2] == s[1];
        }
      }
    } else {
      var rest := CamelSpace(s[1..]);
      CamelSpaceSeparates(s[1..]);
      assert r == [s[0]] + rest;
      forall i | 0 <= i < |r| - 1 ensures !CamelPairAt(r, i) {
        if i >= 1 {
          assert r[i] == rest[i - 1] && r[i + 1] == rest[i];
          assert !CamelPairAt(rest, i - 1);
        } else {
          assert r[1] == rest[0] == s[1];
        }
      }
    }
  }

  /** A name with no such pair is left alone. */
  lemma {:induction false} CamelSpaceIdentity(s: string)
    requires forall i :: 0 <= i < |s| - 1 ==> !CamelPairAt(s, i)
    ensures CamelSpace(s) == s
    decreases |s|
  {
    if |s| >= 2 {
      assert !CamelPairAt(s, 0);
      forall i | 0 <= i < |s[1..]| - 1 ensures !CamelPairAt(s[1..], i) {
        assert !CamelPairAt(s, i + 1);
      }
      CamelSpaceIdentity(s[1..]);
      assert s == [s[0]] + s[1..];
    }
  }

  /** The text with its spaces removed. */
  function WithoutSpaces(s: string): (r: string)
    ensures ' ' !in r
  {
    if s == "" then "" else (if s[0] == ' ' then "" else [s[0]]) + WithoutSpaces(s[1..])
  }

  lemma {:induction false} WithoutSpacesAppend(a: string, b: string)
    ensures WithoutSpaces(a + b) == WithoutSpaces(a) + WithoutSpaces(b)
    decreases |a|
  {
    if a != "" {
      assert (a + b)[1..] == a[1..] + b;
      WithoutSpacesAppend(a[1..], b);
    } else {
      assert a + b == b;
    }
  }

  /** The rewrite only inserts spaces: every other character stays, in order. */
  lemma {:induction false} CamelSpaceOnlySpaces(s: string)
    ensures WithoutSpaces(CamelSpace(s)) == WithoutSpaces(s)
    decreases |s|
  {
    if |s| < 2 {
    } else if IsLowerAscii(s[0]) && IsUpperAscii(s[1]) {
      CamelSpaceOnlySpaces(s[2..]);
      WithoutSpacesAppend([s[0], ' ', s[1]], CamelSpace(s[2..]));
      WithoutSpacesAppend([s[0], s[1]], s[2..]);
      assert s == [s[0], s[1]] + s[2..];
      assert WithoutSpaces([s[0], ' ', s[1]]) == [s[0], s[1]] == WithoutSpaces([s[0], s[1]]);
    } else {
      CamelSpaceOnlySpaces(s[1..]);
      WithoutSpacesAppend([s[0]], CamelSpace(s[1..]));
      WithoutSpacesAppend([s[0]], s[1..]);
      assert s == [s[0]] + s[1..];
    }
  }

  /** The description derived from the source path. */
  function Description(sourcePath: string): string {
    Trim(CamelSpace(StripMdSuffix(LastSegment(sourcePath))))
  }

  /** The frontmatter lines the converter adds, without the fences. */
  function MdcYaml(description: string): string {
    "description: " + description + "\nalwaysApply: true"
  }

  /** The fenced frontmatter and the blank line put in front of a rule without one. */
  function MdcHeader(description: string): string {
    "---\n" + MdcYaml(description) + "\n---\n" + "\n"
  }

  /** The converted content: unchanged when it already opens a frontmatter block. */
  function MdcContent(content: string, sourcePath: string): (r: string)
    ensures StartsWith(content, "---\n") ==> r == content
    ensures !StartsWith(content, "---\n") ==> r == MdcHeader(Description(sourcePath)) + content
    ensures |content| <= |r| && r[|r| - |content|..] == content
  {
    if StartsWith(content, "---\n") then content
    else MdcHeader(Description(sourcePath)) + content
  }

  /** Every converted file opens a frontmatter block, so converting twice changes nothing. */
  lemma MdcIdempotent(content: string, p: string, q: string)
    ensures StartsWith(MdcContent(content, p), "---\n")
    ensures MdcContent(MdcContent(content, p), q) == MdcContent(content, p)
  {
    if !StartsWith(content, "---\n") {
      var y := MdcYaml(Description(p));
      PrefixOfConcat("---\n", y, "---\n");
      PrefixOfConcat("---\n" + y, "\n---\n", "---\n");
      PrefixOfConcat("---\n" + y + "\n---\n", "\n", "---\n");
      PrefixOfConcat(MdcHeader(Description(p)), content, "---\n");
    }
  }

  /** A run of three dashes in the YAML lines (newline-terminated) lies inside the description. */
  lemma DashRunInDescription(d: string, i: nat)
    requires !Contains(d, "---")
    ensures !OccursAt(MdcYaml(d) + "\n", "---", i)
  {
    var t := MdcYaml(d) + "\n";
    var head := "description: ";
    var tail := "\nalwaysApply: true\n";
    assert t == head + d + tail;
    assert '-' !in head && '-' !in tail;
    if i + 3 > |t| {
    } else if i < |head| {
      assert t[i] == head[i];
      DiffersAt(t, "---", i, 0);
    } else if i + 3 <= |head| + |d| {
      NotOccurs(d, "---", i - |head|);
      assert t[|head|..|head| + |d|] == d;
      OccursWithin(t, d, |head|, "---", i);
    } else if i < |head| + |d| {
      assert t[|head| + |d|] == '\n';
      DiffersAt(t, "---", i, |head| + |d| - i);
    } else {
      assert t[i] == tail[i - |head| - |d|];
      DiffersAt(t, "---", i, 0);
    }
  }

  /** Without `---` in the description, nothing in the YAML lines closes the block. */
  lemma NoClosingInYaml(d: string)
    requires !Contains(d, "---")
    ensures !Contains(MdcYaml(d), "\n---") && !Contains(MdcYaml(d) + "\n", "---\n")
  {
    var y := MdcYaml(d);
    var t := y + "\n";
    forall i: nat
      ensures !OccursAt(y, "\n---", i)
    {
      DashRunInDescription(d, i + 1);
      if i + 4 <= |y| {
        assert y[i..i + 4][1..] == t[i + 1..i + 4];
      }
    }
    forall i: nat
      ensures !OccursAt(t, "---\n", i)
    {
      DashRunInDescription(d, i);
      if i + 4 <= |t| {
        assert t[i..i + 4][..3] == t[i..i + 3];
      }
    }
  }

  /**
   * The added frontmatter reads back as written and the original content
   * follows it after one blank line, provided the description holds no
   * `---` (a name ending in `---` would end the block early).
   */
  lemma MdcFrontmatterRoundTrip(content: string, sourcePath: string)
    requires !StartsWith(content, "---\n")
    requires !Contains(Description(sourcePath), "---")
    ensures YamlBlock(MdcContent(content, sourcePath)) == Some(MdcYaml(Description(sourcePath)))
    ensures StripBlock(MdcContent(content, sourcePath)) == "\n" + content
  {
    var y := MdcYaml(Description(sourcePath));
    NoClosingInYaml(Description(sourcePath));
    BlockRoundTrip(y, "\n" + content);
    Regroup("---\n" + y + "\n---\n", "\n", content);
  }

  /** The last segment of `dir/name` is `name`. */
  lemma {:induction false} LastSegmentAfter(dir: string, sep: char, name: string)
    requires IsSeparator(sep) && forall i :: 0 <= i < |name| ==> !IsSeparator(name[i])
    ensures LastSegment(dir + [sep] + name) == name
    decreases |name|
  {
    var p := dir + [sep] + name;
    if name != "" {
      var init := name[..|name| - 1];
      assert p[..|p| - 1] == dir + [sep] + init;
      LastSegmentAfter(dir, sep, init);
      assert name == init + [name[|name| - 1]];
    }
  }

  /**
   * `markdownToMdc(sourcePath, targetPath)`: true when the converted file
   * was written, false when anything failed.
   */
  method MarkdownToMdc(fs: FileSystem, src: Path, dst: Path) returns (ok: bool)
    modifies fs
    ensures (ok, fs.nodes) == ConvertFileSpec(old(fs.nodes), fs.failing, src, dst, MdcContent)
    ensures ok ==> fs.FileExists(dst) && old(fs.FileExists(src))
                   && fs.nodes[dst] == File(MdcContent(old(fs.nodes)[src].content, Render(src)))
  {
    ok := fs.ConvertFile(src, dst, MdcContent);
  }
}

=== FILE: markdown_to_toml.dfy ===
/**
 * src/lib/converters/markdown-to-toml.ts: a Markdown command with optional
 * YAML frontmatter becomes a TOML prompt file.  The three regular
 * expressions of the parameter rewrite and the three of the line removal
 * are explicit left-to-right scans.
 */
module MarkdownToToml {
  import opened Wrappers
  import opened Strs
  import opened Json
  import opened Fs
  import opened Frontmatter
  import opened FileSystem

  // ------------------------------------------------ convertParameterSyntax

  /** The length of the run of ASCII digits at the start of `s`. */
  function DigitRun(s: string): (r: nat)
    ensures r <= |s|
    ensures forall i :: 0 <= i < r ==> IsDigit(s[i])
    ensures r == |s| || !IsDigit(s[r])
  {
    if s != "" && IsDigit(s[0]) then 1 + DigitRun(s[1..]) else 0
  }

  /** `s.replace(/\$(\d+)/g, '{{arg$1}}')`: the digit run is taken whole. */
  function DigitArgs(s: string): (r: string)
    ensures r == "" <==> s == ""
    decreases |s|
  {
    if s == "" then ""
    else if s[0] == '$' && |s| >= 2 && IsDigit(s[1]) then
      var k := 1 + DigitRun(s[1..]);
      "{{arg" + s[1..k] + "}}" + DigitArgs(s[k..])
    else [s[0]] + DigitArgs(s[1..])
  }

  /** No `$` in `t` is followed by a digit. */
  predicate NoDollarDigit(t: string) {
    forall i :: 0 <= i < |t| - 1 && t[i] == '$' ==> !IsDigit(t[i + 1])
  }

  /** `s.replace(/`([^`]+)`/g, '!{$1}')`: a span needs one character that is not a backtick. */
  function Backticks(s: string): (r: string)
    decreases |s|
  {
    if s == "" then ""
    else if s[0] == '`' && '`' in s[1..] && FirstIndex(s[1..], '`') > 0 then
      var k := FirstIndex(s[1..], '`');
      "!{" + s[1..1 + k] + "}" + Backticks(s[k + 2..])
    else [s[0]] + Backticks(s[1..])
  }

  /** `convertParameterSyntax(prompt)`. */
  function ConvertParameterSyntax(prompt: string): string {
    Backticks(DigitArgs(ReplaceAll(prompt, "$ARGUMENTS", "{{args}}")))
  }

  /** The first character of the rewrite is the first character of the input, or the `{` of `{{arg`. */
  lemma {:induction false} DigitArgsHead(s: string)
    requires s != ""
    ensures DigitArgs(s)[0] == (if s[0] == '$' && |s| >= 2 && IsDigit(s[1]) then '{' else s[0])
  {
  }

  /** After the rewrite no `$` is followed by a digit: every `$<digits>` was replaced. */
  lemma {:induction false} DigitArgsComplete(s: string)
    ensures NoDollarDigit(DigitArgs(s))
    decreases |s|
  {
    if s == "" {
    } else if s[0] == '$' && |s| >= 2 && IsDigit(s[1]) {
      var k := 1 + DigitRun(s[1..]);
      var rest := DigitArgs(s[k..]);
      DigitArgsComplete(s[k..]);
      var head := "{{arg" + s[1..k] + "}}";
      var t := head + rest;
      forall i | 0 <= i < |t| - 1 && t[i] == '$'
        ensures !IsDigit(t[i + 1])
      {
        if i >= |head| {
          assert t[i] == rest[i - |head|] && t[i + 1] == rest[i + 1 - |head|];
        }
      }
    } else {
      var rest := DigitArgs(s[1..]);
      DigitArgsComplete(s[1..]);
      var t := [s[0]] + rest;
      forall i | 0 <= i < |t| - 1 && t[i] == '$'
        ensures !IsDigit(t[i + 1])
      {
        if i == 0 {
          DigitArgsHead(s[1..]);
        } else {
          assert t[i] == rest[i - 1] && t[i + 1] == rest[i];
        }
      }
    }
  }

  /** Text without a `$` is left alone. */
  lemma {:induction false} DigitArgsIdentity(s: string)
    requires '$' !in s
    ensures DigitArgs(s) == s
    decreases |s|
  {
    if s != "" {
      assert s[1..] == s[1..];
      assert '$' !in s[1..] by {
        forall c | c in s[1..] ensures c != '$' {
          assert c in s;
        }
      }
      DigitArgsIdentity(s[1..]);
      assert s == [s[0]] + s[1..];
    }
  }

  /** Text without a backtick is left alone. */
  lemma {:induction false} BackticksIdentity(s: string)
    requires '`' !in s
    ensures Backticks(s) == s
    decreases |s|
  {
    if s != "" {
      assert '`' !in s[1..] by {
        forall c | c in s[1..] ensures c != '`' {
          assert c in s;
        }
      }
      BackticksIdentity(s[1..]);
      assert s == [s[0]] + s[1..];
    }
  }

  /**
   * A backtick span with a non-empty body becomes `!{body}`, whatever the
   * body holds (in particular a substituted `{{args}}`).
   */
  lemma BackticksSpan(body: string, rest: string)
    requires body != "" && '`' !in body
    ensures Backticks("`" + body + "`" + rest) == "!{" + body + "}" + Backticks(rest)
  {
    var s := "`" + body + "`" + rest;
    assert s[1..] == body + "`" + rest;
    assert (body + "`" + rest)[|body|] == '`';
    FirstIndexAfter(body, rest, '`');
    assert s[1..1 + |body|] == body;
    assert s[|body| + 2..] == rest;
  }

  lemma FirstIndexAfter(a: string, b: string, c: char)
    requires c !in a
    ensures c in a + [c] + b && FirstIndex(a + [c] + b, c) == |a|
  {
    var s := a + [c] + b;
    assert s[|a|] == c;
    assert s[..|a|] == a;
  }

  /** Text with no `$` and no backtick has no parameter syntax and passes through unchanged. */
  lemma ParameterSyntaxIdentity(s: string)
    requires '$' !in s && '`' !in s
    ensures ConvertParameterSyntax(s) == s
  {
    assert Free(s, "$ARGUMENTS") by {
      forall i: nat | i + 10 <= |s| ensures !OccursAt(s, "$ARGUMENTS", i) {
        assert s[i] in s;
      }
    }
    ReplaceAllAbsent(s, "$ARGUMENTS", "{{args}}");
    DigitArgsIdentity(s);
    BackticksIdentity(s);
  }

  // ----------------------------------------------- removeUnsupportedConfig

  /** The characters `.` does not match in a JavaScript regular expression. */
  predicate LineTerminator(c: char) {
    c == '\n' || c == '\r' || c == '\U{2028}' || c == '\U{2029}'
  }

  /** The index of the first line terminator of `s`, if any. */
  function FirstTerminator(s: string): (r: Option<nat>)
    ensures r.Some? ==> r.value < |s| && LineTerminator(s[r.value])
    ensures forall i :: 0 <= i < |s| && (r.None? || i < r.value) ==> !LineTerminator(s[i])
  {
    if s == "" then None
    else if LineTerminator(s[0]) then Some(0)
    else match FirstTerminator(s[1..])
      case None => None
      case Some(i) => Some(i + 1)
  }

  /**
   * The length of the text `<key>:.*\n` matches at the start of `s`: the
   * key, the colon and everything up to and including a line feed that no
   * other line terminator precedes.
   */
  function KeyLineLength(s: string, key: string): (r: Option<nat>)
    ensures r.Some? ==> |key| + 2 <= r.value <= |s| && StartsWith(s, key + ":") && s[r.value - 1] == '\n'
    ensures r.Some? ==> forall i :: |key| + 1 <= i < r.value - 1 ==> !LineTerminator(s[i])
  {
    if StartsWith(s, key + ":") then
      match FirstTerminator(s[|key| + 1..])
      case Some(k) => if s[|key| + 1 + k] == '\n' then Some(|key| + 2 + k) else None
      case None => None
    else None
  }

  /**
   * `s.replace(/<key>:.*\n/g, '')`: each key line found scanning from the
   * left is removed and the scan resumes after it.
   */
  function RemoveKeyLines(s: string, key: string): (r: string)
    decreases |s|
  {
    if s == "" then ""
    else match KeyLineLength(s, key)
      case Some(n) => RemoveKeyLines(s[n..], key)
      case None => [s[0]] + RemoveKeyLines(s[1..], key)
  }

  /** `removeUnsupportedConfig(prompt)`. */
  function RemoveUnsupportedConfig(prompt: string): string {
    RemoveKeyLines(RemoveKeyLines(RemoveKeyLines(prompt, "allowed-tools"), "argument-hint"), "context")
  }

  /** Text free of line terminators, such as a key or the rest of a line. */
  predicate Plain(s: string) {
    forall i :: 0 <= i < |s| ==> !LineTerminator(s[i])
  }

  /** The first terminator after plain text is the one that follows it. */
  lemma TerminatorAfterPlain(y: string, c: char, z: string)
    requires Plain(y) && LineTerminator(c)
    ensures FirstTerminator(y + [c] + z) == Some(|y|)
  {
    var t := y + [c] + z;
    assert t[|y|] == c;
    assert forall i :: 0 <= i < |y| ==> t[i] == y[i];
  }

  /** A key line, up to its line feed, is deleted. */
  lemma RemoveKeyLine(key: string, line: string, rest: string)
    requires Plain(line)
    ensures RemoveKeyLines(key + ":" + line + "\n" + rest, key) == RemoveKeyLines(rest, key)
  {
    var s := key + ":" + line + "\n" + rest;
    assert StartsWith(s, key + ":");
    assert s[|key| + 1..] == line + ['\n'] + rest;
    TerminatorAfterPlain(line, '\n', rest);
    assert s[|key| + 1 + |line|] == '\n';
    assert KeyLineLength(s, key) == Some(|key| + 2 + |line|);
    assert s[|key| + 2 + |line|..] == rest;
  }

  lemma FirstTerminatorPrefix(a: string, b: string)
    requires FirstTerminator(a).Some?
    ensures FirstTerminator(a + b) == FirstTerminator(a)
  {
    var k := FirstTerminator(a).value;
    assert (a + b)[k] == a[k];
    assert forall i :: 0 <= i < k ==> (a + b)[i] == a[i];
  }

  /** A key that holds no line terminator cannot straddle the end of a line. */
  lemma StartsWithAcross(a: string, b: string, key: string)
    requires a != "" && a[|a| - 1] == '\n' && Plain(key)
    ensures StartsWith(a + b, key + ":") <==> StartsWith(a, key + ":")
    ensures StartsWith(a, key + ":") ==> |a| > |key| + 1
  {
    var p := key + ":";
    if |a| <= |p| {
      assert p[|a| - 1] != '\n';
      assert (a + b)[|a| - 1] == '\n';
    } else {
      assert (a + b)[..|p|] == a[..|p|];
    }
  }

  /** Whether a key line starts text ending in a line feed does not depend on what follows. */
  lemma KeyLineAcross(a: string, b: string, key: string)
    requires a != "" && a[|a| - 1] == '\n' && Plain(key)
    ensures KeyLineLength(a + b, key) == KeyLineLength(a, key)
  {
    StartsWithAcross(a, b, key);
    if StartsWith(a, key + ":") {
      var ta := a[|key| + 1..];
      assert (a + b)[|key| + 1..] == ta + b;
      assert ta[|ta| - 1] == '\n';
      FirstTerminatorPrefix(ta, b);
      var k := FirstTerminator(ta).value;
      assert (a + b)[|key| + 1 + k] == a[|key| + 1 + k];
    }
  }

  /**
   * The removal works line by line: text that ends in a line feed and the
   * text after it are treated separately (a key line never spans the
   * boundary), provided the key holds no line terminator.
   */
  lemma {:induction false} RemoveKeyLinesSplit(a: string, b: string, key: string)
    requires a == "" || a[|a| - 1] == '\n'
    requires Plain(key)
    ensures RemoveKeyLines(a + b, key) == RemoveKeyLines(a, key) + RemoveKeyLines(b, key)
    decreases |a|
  {
    if a == "" {
      assert a + b == b;
    } else {
      KeyLineAcross(a, b, key);
      assert a + b != "";
      match KeyLineLength(a, key)
      case Some(n) =>
        assert (a + b)[n..] == a[n..] + b;
        assert a[n..] == "" || a[n..][|a[n..]| - 1] == '\n';
        RemoveKeyLinesSplit(a[n..], b, key);
        assert RemoveKeyLines(a + b, key) == RemoveKeyLines(a[n..] + b, key);
      case None =>
        var t := a[1..];
        assert (a + b)[1..] == t + b && (a + b)[0] == a[0];
        assert t == "" || t[|t| - 1] == '\n';
        RemoveKeyLinesSplit(t, b, key);
        assert RemoveKeyLines(a + b, key) == [a[0]] + RemoveKeyLines(t + b, key);
        Regroup([a[0]], RemoveKeyLines(t, key), RemoveKeyLines(b, key));
    }
  }

  /** A last line without a line feed is never removed. */
  lemma {:induction false} RemoveKeyLinesUnterminated(s: string, key: string)
    requires '\n' !in s
    ensures RemoveKeyLines(s, key) == s
    decreases |s|
  {
    if s != "" {
      assert KeyLineLength(s, key).None?;
      assert '\n' !in s[1..] by {
        forall c | c in s[1..] ensures c != '\n' {
          assert c in s;
        }
      }
      RemoveKeyLinesUnterminated(s[1..], key);
      assert s == [s[0]] + s[1..];
    }
  }

  /**
   * A key line ending in CRLF is kept whole: `.` stops at the carriage
   * return, so the pattern never reaches the line feed.
   */
  lemma {:induction false} CrlfLineKept(x: string, rest: string, key: string)
    requires Plain(x) && Plain(key)
    ensures RemoveKeyLines(x + "\r\n" + rest, key) == x + "\r\n" + RemoveKeyLines(rest, key)
    decreases |x|
  {
    var s := x + "\r\n" + rest;
    if x == "" {
      CrlfTail(rest, key);
      assert s == "\r\n" + rest;
    } else {
      CrNoKeyLine(x, rest, key);
      assert s[1..] == x[1..] + "\r\n" + rest;
      CrlfLineKept(x[1..], rest, key);
      assert x == [x[0]] + x[1..];
    }
  }

  lemma CrlfTail(rest: string, key: string)
    requires Plain(key)
    ensures RemoveKeyLines("\r\n" + rest, key) == "\r\n" + RemoveKeyLines(rest, key)
  {
    var p := key + ":";
    assert !LineTerminator(p[0]);
    var s := "\r\n" + rest;
    assert !StartsWith(s, p) by { assert s[0] == '\r'; }
    assert s[1..] == "\n" + rest;
    assert !StartsWith(s[1..], p) by { assert s[1..][0] == '\n'; }
    assert s[1..][1..] == rest;
  }

  /** No key line starts inside the plain text before a carriage return. */
  lemma CrNoKeyLine(x: string, rest: string, key: string)
    requires x != "" && Plain(x) && Plain(key)
    ensures KeyLineLength(x + "\r\n" + rest, key).None?
  {
    var s := x + "\r\n" + rest;
    var p := key + ":";
    if StartsWith(s, p) {
      assert forall i :: 0 <= i < |p| ==> s[i] == p[i] && !LineTerminator(s[i]);
      assert LineTerminator(s[|x|]);
      assert s[|p|..] == x[|p|..] + ['\r'] + ("\n" + rest);
      TerminatorAfterPlain(x[|p|..], '\r', "\n" + rest);
      assert s[|p| + |x| - |p|] == '\r';
    }
  }

  /** The line `context: a` written with CRLF stays. */
  lemma CrlfExample()
    ensures RemoveKeyLines("context: a\r\n", "context") == "context: a\r\n"
  {
    CrlfLineKept("context: a", "", "context");
    assert "context: a" + "\r\n" + "" == "context: a\r\n";
  }

  // ---------------------------------------------------------- generateTOML

  /** `generateTOML(description, prompt)`; the description is not escaped. */
  function GenerateToml(description: Json, prompt: string): (r: string)
  {
    var body := "prompt = \"\"\"\n" + Trim(prompt) + "\n\"\"\"\n";
    if Truthy(description) then "description = \"" + ToStr(description) + "\"\n" + body else body
  }

  /** What a reader takes from the generated text: the description line, if any, and the prompt. */
  datatype TomlCommand = TomlCommand(description: Option<string>, prompt: string)

  const DescriptionPrefix: string := "description = \""
  const PromptOpen: string := "prompt = \"\"\"\n"
  const PromptClose: string := "\n\"\"\"\n"

  /**
   * A reader for the text `GenerateToml` writes: a description string runs
   * to the first quote; the prompt lies between the opening and the final
   * closing triple quote.
   */
  function ReadToml(t: string): (r: Option<TomlCommand>)
  {
    if StartsWith(t, DescriptionPrefix) then
      var u := t[|DescriptionPrefix|..];
      if '"' !in u then None
      else
        var q := FirstIndex(u, '"');
        var after := u[q + 1..];
        if StartsWith(after, "\n") then
          match ReadPrompt(after[1..])
          case None => None
          case Some(p) => Some(TomlCommand(Some(u[..q]), p))
        else None
    else
      match ReadPrompt(t)
      case None => None
      case Some(p) => Some(TomlCommand(None, p))
  }

  function ReadPrompt(t: string): Option<string> {
    if StartsWith(t, PromptOpen) && EndsWith(t, PromptClose) && |t| >= |PromptOpen| + |PromptClose|
    then Some(t[|PromptOpen|..|t| - |PromptClose|])
    else None
  }

  /**
   * Reading back the generated text gives the trimmed prompt, and the
   * description exactly when it is truthy and its text holds no quote.
   */
  lemma GenerateTomlRoundTrip(description: Json, prompt: string)
    requires '"' !in ToStr(description)
    ensures ReadToml(GenerateToml(description, prompt))
         == Some(TomlCommand(if Truthy(description) then Some(ToStr(description)) else None, Trim(prompt)))
  {
    var p := Trim(prompt);
    ReadPromptOf(p);
    if Truthy(description) {
      ReadDescribed(ToStr(description), p);
    } else {
      ReadPlain(p);
    }
  }

  lemma ReadPromptOf(p: string)
    ensures ReadPrompt(PromptOpen + p + PromptClose) == Some(p)
  {
    var t := PromptOpen + p + PromptClose;
    assert t[..|PromptOpen|] == PromptOpen;
    assert t[|t| - |PromptClose|..] == PromptClose;
    assert t[|PromptOpen|..|t| - |PromptClose|] == p;
  }

  lemma ReadPlain(p: string)
    requires ReadPrompt(PromptOpen + p + PromptClose) == Some(p)
    ensures ReadToml(PromptOpen + p + PromptClose) == Some(TomlCommand(None, p))
  {
    var t := PromptOpen + p + PromptClose;
    assert t[0] == 'p' != DescriptionPrefix[0];
  }

  lemma ReadDescribed(d: string, p: string)
    requires '"' !in d
    requires ReadPrompt(PromptOpen + p + PromptClose) == Some(p)
    ensures ReadToml(DescriptionPrefix + d + "\"\n" + (PromptOpen + p + PromptClose)) == Some(TomlCommand(Some(d), p))
  {
    var body := PromptOpen + p + PromptClose;
    var t := DescriptionPrefix + d + "\"\n" + body;
    assert t[..|DescriptionPrefix|] == DescriptionPrefix;
    var u := t[|DescriptionPrefix|..];
    assert u == d + ['"'] + ("\n" + body);
    FirstIndexAfter(d, "\n" + body, '"');
    assert u[|d| + 1..] == "\n" + body;
    assert ("\n" + body)[1..] == body;
    assert u[..|d|] == d;
  }

  // -------------------------------------------------- convertMarkdownToTOML

  /**
   * The TOML text for a command file, or the message of the `TypeError`
   * thrown when the frontmatter parses to `null`.
   */
  function TomlOf(content: string, yaml: string -> Result<Json>): (r: Result<string>)
    ensures SplitDocument(content, yaml).Err? <==> r.Err?
    ensures r.Ok? ==>
              var (d, body) := SplitDocument(content, yaml).value;
              r.value == GenerateToml(Or(d, JStr("")), RemoveUnsupportedConfig(ConvertParameterSyntax(body)))
  {
    match SplitDocument(content, yaml)
    case Err(m) => Err(m)
    case Ok((d, body)) =>
      Ok(GenerateToml(Or(d, JStr("")), RemoveUnsupportedConfig(ConvertParameterSyntax(body))))
  }

  /** Without a frontmatter block the whole content is the prompt and there is no description. */
  lemma NoFrontmatterWholePrompt(content: string, yaml: string -> Result<Json>)
    requires YamlBlock(content).None? || yaml(YamlBlock(content).value).Err?
    ensures TomlOf(content, yaml)
         == Ok(PromptOpen + Trim(RemoveUnsupportedConfig(ConvertParameterSyntax(content))) + PromptClose)
  {
  }

  /** The state transition of `convertMarkdownToTOML(src, dst)`: read, convert, ensure the parent, write. */
  function ConvertSpec(n: Nodes, failing: set<Path>, src: Path, dst: Path, yaml: string -> Result<Json>): (r: (Option<string>, Nodes))
    ensures OnPath(n, r.1, dst)
    ensures r.0.None? ==> src in n && n[src].File? && TomlOf(n[src].content, yaml).Ok?
                          && dst in r.1 && r.1[dst] == File(TomlOf(n[src].content, yaml).value)
    ensures Fs.ReadFile(n, failing, src).Failed? ==> r == (Some(Message(Fs.ReadFile(n, failing, src).code)), n)
  {
    match Fs.ReadFile(n, failing, src)
    case Failed(e) => (Some(Message(e)), n)
    case Done(c) =>
      match TomlOf(c, yaml)
      case Err(m) => (Some(m), n)
      case Ok(t) =>
        var (e1, n1) := EnsureDir(n, failing, Parent(dst));
        OnPathParent(n, n1, dst);
        if e1.Some? then (Some(Message(e1.value)), n1)
        else
          var (e2, n2) := Fs.WriteFile(n1, failing, dst, t);
          OnPathTrans(n, n1, n2, dst);
          if e2.Some? then (Some(Message(e2.value)), n2) else (None, n2)
  }

  /**
   * `convertMarkdownToTOML(src, dst)`: the message of what it throws, or
   * None when the TOML file was written.
   */
  method ConvertMarkdownToToml(fs: FileSystem, src: Path, dst: Path, yaml: string -> Result<Json>) returns (err: Option<string>)
    modifies fs
    ensures (err, fs.nodes) == ConvertSpec(old(fs.nodes), fs.failing, src, dst, yaml)
  {
    var content := fs.ReadFile(src);
    if content.Failed? {
      return Some(Message(content.code));
    }
    var toml := TomlOf(content.value, yaml);
    if toml.Err? {
      return Some(toml.error);
    }
    var e1 := fs.EnsureDirectoryExists(Parent(dst));
    if e1.Some? {
      return Some(Message(e1.value));
    }
    var e2 := fs.WriteFile(dst, toml.value);
    err := if e2.Some? then Some(Message(e2.value)) else None;
  }
}

=== FILE: mcp_convert.dfy ===
/**
 * src/lib/converters/mcp.ts: classification of MCP server entries and the
 * reshaping of a `{mcpServers: {name: entry}}` document into the Codex,
 * OpenCode and Gemini layouts.
 */
module McpConvert {
  import opened Wrappers
  import opened Json

  /**
   * The JavaScript `in` operator, which the classification uses, is
   * defined on objects and arrays and throws a `TypeError` on any other
   * value.  No array has a `command`, `url` or `httpUrl` key.
   */
  predicate InDefined(server: Json) {
    server.JObj? || server.JArr?
  }

  /** `isLocalMCPConfig`: the entry has a `command` key. */
  predicate IsLocal(server: Json)
    requires InDefined(server)
  {
    server.JObj? && "command" in server.fields
  }

  /** `isRemoteMCPConfig`: the entry has a `url` or an `httpUrl` key. */
  predicate IsRemote(server: Json)
    requires InDefined(server)
  {
    server.JObj? && ("url" in server.fields || "httpUrl" in server.fields)
  }

  /** `server.url || server.httpUrl`. */
  function RemoteUrl(server: Json): Json {
    Or(Get(Fields(server), "url"), Get(Fields(server), "httpUrl"))
  }

  /** What a converter does with one entry inside its `forEach`. */
  datatype EntryResult = Keep(value: Json) | Drop | Throw

  /**
   * Applies `f` to every entry: the whole conversion throws when some
   * entry throws, otherwise it keeps the entries `f` keeps, under the
   * same names.
   */
  function MapServers(servers: map<string, Json>, f: Json -> EntryResult): (r: Option<map<string, Json>>)
    ensures r.None? <==> exists n :: n in servers && f(servers[n]).Throw?
    ensures r.Some? ==> forall n :: n in r.value <==> n in servers && f(servers[n]).Keep?
    ensures r.Some? ==> forall n :: n in r.value ==> r.value[n] == f(servers[n]).value
  {
    if exists n :: n in servers && f(servers[n]).Throw? then None
    else Some(map n | n in servers && f(servers[n]).Keep? :: f(servers[n]).value)
  }

  /**
   * `sourceConfig.mcpServers || {}`: reading the field of `null` throws;
   * a missing or falsy field is an empty map.
   */
  function ServersOf(sourceConfig: Json): (r: Option<map<string, Json>>)
    ensures r.None? <==> sourceConfig.Undefined? || sourceConfig.Null?
    ensures sourceConfig.JObj? && "mcpServers" !in sourceConfig.fields ==> r == Some(map[])
  {
    match Prop(sourceConfig, "mcpServers")
    case None => None
    case Some(v) => if Truthy(v) then Some(Fields(v)) else Some(map[])
  }

  // ---------------------------------------------------------------- Codex

  /** A local entry in Codex form: `args` defaults to `[]`, and `env` is kept only when it has keys. */
  function CodexLocal(f: map<string, Json>): (r: map<string, Json>)
    requires "command" in f
    ensures r.Keys == {"command", "args"} + (if HasKeys(Get(f, "env")) then {"env"} else {})
    ensures r["command"] == f["command"] && r["args"] == Or(Get(f, "args"), JArr([]))
    ensures HasKeys(Get(f, "env")) ==> r["env"] == f["env"]
  {
    var env := Get(f, "env");
    map["command" := f["command"], "args" := Or(Get(f, "args"), JArr([]))]
    + (if HasKeys(env) then map["env" := env] else map[])
  }

  /** A remote entry in Codex form: the URL, and the headers as `http_headers` only when they have keys. */
  function CodexRemote(server: Json): (r: map<string, Json>)
    requires server.JObj?
    ensures r.Keys == {"url"} + (if HasKeys(Get(server.fields, "headers")) then {"http_headers"} else {})
    ensures r["url"] == RemoteUrl(server)
    ensures HasKeys(Get(server.fields, "headers")) ==> r["http_headers"] == server.fields["headers"]
  {
    var headers := Get(server.fields, "headers");
    map["url" := RemoteUrl(server)] + (if HasKeys(headers) then map["http_headers" := headers] else map[])
  }

  /** One entry in Codex form: local first, then remote, else dropped. */
  function CodexEntry(server: Json): (r: EntryResult)
    ensures !InDefined(server) <==> r.Throw?
    ensures InDefined(server) && IsLocal(server) ==> r == Keep(JObj(CodexLocal(server.fields)))
    ensures InDefined(server) && !IsLocal(server) && IsRemote(server) ==> r == Keep(JObj(CodexRemote(server)))
    ensures InDefined(server) && !IsLocal(server) && !IsRemote(server) ==> r.Drop?
  {
    if !InDefined(server) then Throw
    else if IsLocal(server) then Keep(JObj(CodexLocal(server.fields)))
    else if IsRemote(server) then Keep(JObj(CodexRemote(server)))
    else Drop
  }

  /** The Codex server table, without any wrapper. */
  function CodexServers(servers: map<string, Json>): Option<map<string, Json>> {
    MapServers(servers, CodexEntry)
  }

  /**
   * `convertToCodexFormat`: `{mcp_servers: ...}`.  It throws exactly when
   * `mcpServers` cannot be read or some entry is neither an object nor an
   * array; otherwise the table keeps the local and remote entries under
   * their own names, each in Codex form.
   */
  function ConvertToCodexFormat(sourceConfig: Json): (r: Option<Json>)
    ensures r.None? <==>
      || ServersOf(sourceConfig).None?
      || exists n :: n in ServersOf(sourceConfig).value && !InDefined(ServersOf(sourceConfig).value[n])
    ensures r.Some? ==> r.value.JObj? && r.value.fields.Keys == {"mcp_servers"}
    ensures r.Some? ==>
      && ServersOf(sourceConfig).Some? && r.value.fields["mcp_servers"].JObj?
      && var servers := ServersOf(sourceConfig).value;
      var table := r.value.fields["mcp_servers"].fields;
      && (forall n :: n in table <==> n in servers && InDefined(servers[n]) && (IsLocal(servers[n]) || IsRemote(servers[n])))
      && (forall n :: n in table ==> Keep(table[n]) == CodexEntry(servers[n]))
  {
    match ServersOf(sourceConfig)
    case None => None
    case Some(servers) =>
      match CodexServers(servers)
      case None => None
      case Some(table) => Some(JObj(map["mcp_servers" := JObj(table)]))
  }

  // ------------------------------------------------------------- OpenCode

  /**
   * `...(server.args || [])`: a falsy value spreads as `[]`, an array as
   * its items and a string as its characters; any other value is not
   * iterable and the spread throws (None).
   */
  function SpreadArgs(args: Json): (r: Option<seq<Json>>)
    ensures !Truthy(args) ==> r == Some([])
    ensures args.JArr? ==> r == Some(args.items)
  {
    if !Truthy(args) then Some([])
    else match args
      case JArr(items) => Some(items)
      case JStr(s) => Some(CharStrings(s))
      case _ => None
  }

  /** A string spread into one-character strings. */
  function CharStrings(s: string): (r: seq<Json>)
    ensures |r| == |s|
    ensures forall i :: 0 <= i < |s| ==> r[i] == JStr([s[i]])
  {
    if s == [] then [] else [JStr([s[0]])] + CharStrings(s[1..])
  }

  /** The command array of an OpenCode local entry. */
  function OpenCodeCommand(server: Json): (r: Option<Json>)
    ensures Get(Fields(server), "command").JArr? ==> r == Some(Get(Fields(server), "command"))
    ensures !Get(Fields(server), "command").JArr? && Get(Fields(server), "args").JArr? ==>
      r == Some(JArr([Get(Fields(server), "command")] + Get(Fields(server), "args").items))
  {
    var command := Get(Fields(server), "command");
    if command.JArr? then Some(command)
    else match SpreadArgs(Get(Fields(server), "args"))
      case None => None
      case Some(args) => Some(JArr([command] + args))
  }

  /** One entry in OpenCode form. */
  function OpenCodeEntry(server: Json): (r: EntryResult)
    ensures r.Drop? == false
    ensures r.Throw? <==> !InDefined(server) || (IsLocal(server) && OpenCodeCommand(server).None?)
    ensures InDefined(server) && IsLocal(server) && OpenCodeCommand(server).Some? ==>
      r == Keep(JObj(map["type" := JStr("local"), "command" := OpenCodeCommand(server).value,
                         "enabled" := JBool(true)]))
    ensures InDefined(server) && !IsLocal(server) && IsRemote(server) ==>
      r == Keep(JObj(map["type" := JStr("remote"), "url" := RemoteUrl(server), "enabled" := JBool(true)]))
    ensures InDefined(server) && !IsLocal(server) && !IsRemote(server) ==>
      r == Keep(JObj(Fields(server)["enabled" := JBool(true)]))
  {
    if !InDefined(server) then Throw
    else if IsLocal(server) then
      match OpenCodeCommand(server)
      case None => Throw
      case Some(command) =>
        Keep(JObj(map["type" := JStr("local"), "command" := command, "enabled" := JBool(true)]))
    else if IsRemote(server) then
      Keep(JObj(map["type" := JStr("remote"), "url" := RemoteUrl(server), "enabled" := JBool(true)]))
    else
      Keep(JObj(Fields(server)["enabled" := JBool(true)]))
  }

  /**
   * `convertToOpenCodeFormat`: `{mcp: ...}`.  It throws exactly when
   * `mcpServers` cannot be read, or some entry is neither an object nor an
   * array, or is local with arguments that cannot be spread; otherwise
   * every server name is kept, each entry in OpenCode form.
   */
  function ConvertToOpenCodeFormat(sourceConfig: Json): (r: Option<Json>)
    ensures r.None? <==>
      || ServersOf(sourceConfig).None?
      || exists n :: n in ServersOf(sourceConfig).value &&
           var server := ServersOf(sourceConfig).value[n];
           !InDefined(server) || (IsLocal(server) && OpenCodeCommand(server).None?)
    ensures r.Some? ==> r.value.JObj? && r.value.fields.Keys == {"mcp"}
    ensures r.Some? ==>
      && ServersOf(sourceConfig).Some? && r.value.fields["mcp"].JObj?
      && var servers := ServersOf(sourceConfig).value;
      var table := r.value.fields["mcp"].fields;
      && table.Keys == servers.Keys
      && (forall n :: n in table ==> Keep(table[n]) == OpenCodeEntry(servers[n]))
  {
    match ServersOf(sourceConfig)
    case None => None
    case Some(servers) =>
      match MapServers(servers, OpenCodeEntry)
      case None => None
      case Some(table) => Some(JObj(map["mcp" := JObj(table)]))
  }

  // --------------------------------------------------------------- Gemini

  /**
   * A remote entry in Gemini form: the entry's own fields, `httpUrl` set to
   * the resolved url, `type: 'streamable-http'`, and `url` deleted.
   */
  function GeminiRemote(server: Json): (r: Json)
    ensures r.JObj?
    ensures r.fields.Keys == Fields(server).Keys - {"url"} + {"httpUrl", "type"}
    ensures r.fields["httpUrl"] == RemoteUrl(server)
    ensures r.fields["type"] == JStr("streamable-http")
    ensures forall k :: k in Fields(server) && k !in {"url", "httpUrl", "type"} ==>
      r.fields[k] == Fields(server)[k]
  {
    JObj((Fields(server) + map["httpUrl" := RemoteUrl(server), "type" := JStr("streamable-http")]) - {"url"})
  }

  /** One entry in Gemini form: remote is tested first; others are copied. */
  function GeminiEntry(server: Json): (r: EntryResult)
    ensures r.Throw? <==> !InDefined(server)
    ensures InDefined(server) && IsRemote(server) ==> r == Keep(GeminiRemote(server))
    ensures InDefined(server) && !IsRemote(server) ==> r == Keep(JObj(Fields(server)))
  {
    if !InDefined(server) then Throw
    else if IsRemote(server) then Keep(GeminiRemote(server))
    else Keep(JObj(Fields(server)))
  }

  /**
   * `convertToGeminiFormat`: `{mcpServers: ...}`.  It throws exactly when
   * `mcpServers` cannot be read or some entry is neither an object nor an
   * array; otherwise every server name is kept, each entry in Gemini form.
   */
  function ConvertToGeminiFormat(sourceConfig: Json): (r: Option<Json>)
    ensures r.None? <==>
      || ServersOf(sourceConfig).None?
      || exists n :: n in ServersOf(sourceConfig).value && !InDefined(ServersOf(sourceConfig).value[n])
    ensures r.Some? ==> r.value.JObj? && r.value.fields.Keys == {"mcpServers"}
    ensures r.Some? ==>
      && ServersOf(sourceConfig).Some? && r.value.fields["mcpServers"].JObj?
      && var servers := ServersOf(sourceConfig).value;
      var table := r.value.fields["mcpServers"].fields;
      && table.Keys == servers.Keys
      && (forall n :: n in table ==> Keep(table[n]) == GeminiEntry(servers[n]))
  {
    match ServersOf(sourceConfig)
    case None => None
    case Some(servers) =>
      match MapServers(servers, GeminiEntry)
      case None => None
      case Some(table) => Some(JObj(map["mcpServers" := JObj(table)]))
  }

  // ----------------------------------------------------------- Properties

  /** A missing `mcpServers` is an empty map for all three converters. */
  lemma MissingServersIsEmpty(sourceConfig: Json)
    requires sourceConfig.JObj? && "mcpServers" !in sourceConfig.fields
    ensures ConvertToCodexFormat(sourceConfig) == Some(JObj(map["mcp_servers" := JObj(map[])]))
    ensures ConvertToOpenCodeFormat(sourceConfig) == Some(JObj(map["mcp" := JObj(map[])]))
    ensures ConvertToGeminiFormat(sourceConfig) == Some(JObj(map["mcpServers" := JObj(map[])]))
  {
    assert ServersOf(sourceConfig) == Some(map[]);
    assert CodexServers(map[]) == Some(map[]);
    assert MapServers(map[], OpenCodeEntry) == Some(map[]);
    assert MapServers(map[], GeminiEntry) == Some(map[]);
  }

  /**
   * Codex keeps exactly the local and remote entries, under their names;
   * an entry with both `command` and `url` takes the local form.
   */
  lemma CodexKeepsClassified(servers: map<string, Json>)
    requires forall n :: n in servers ==> servers[n].JObj?
    ensures CodexServers(servers).Some?
    ensures forall n :: n in CodexServers(servers).value <==>
      n in servers && (IsLocal(servers[n]) || IsRemote(servers[n]))
    ensures forall n :: n in servers && IsLocal(servers[n]) ==>
      "command" in CodexServers(servers).value[n].fields
      && "url" !in CodexServers(servers).value[n].fields
  {
  }

  /** OpenCode keeps every name of a well-formed server map. */
  lemma OpenCodeKeepsAllNames(sourceConfig: Json)
    requires sourceConfig.JObj? && "mcpServers" in sourceConfig.fields
    requires sourceConfig.fields["mcpServers"].JObj?
    requires var servers := sourceConfig.fields["mcpServers"].fields;
      forall n :: n in servers ==> servers[n].JObj? && OpenCodeCommand(servers[n]).Some?
    ensures ConvertToOpenCodeFormat(sourceConfig).Some?
    ensures ConvertToOpenCodeFormat(sourceConfig).value.fields["mcp"].fields.Keys
         == sourceConfig.fields["mcpServers"].fields.Keys
  {
    var servers := sourceConfig.fields["mcpServers"].fields;
    assert ServersOf(sourceConfig) == Some(servers);
    assert forall n :: n in servers ==> OpenCodeEntry(servers[n]).Keep?;
  }

  /**
   * Gemini keeps every name; an entry with both `command` and `url` is
   * converted as remote, because the remote test comes first.
   */
  lemma GeminiRemoteWinsOverLocal(sourceConfig: Json, name: string)
    requires sourceConfig.JObj? && "mcpServers" in sourceConfig.fields
    requires sourceConfig.fields["mcpServers"].JObj?
    requires var servers := sourceConfig.fields["mcpServers"].fields;
      forall n :: n in servers ==> servers[n].JObj?
    requires var servers := sourceConfig.fields["mcpServers"].fields;
      name in servers && "command" in servers[name].fields && "url" in servers[name].fields
    ensures ConvertToGeminiFormat(sourceConfig).Some?
    ensures var table := ConvertToGeminiFormat(sourceConfig).value.fields["mcpServers"].fields;
      && table.Keys == sourceConfig.fields["mcpServers"].fields.Keys
      && table[name] == GeminiRemote(sourceConfig.fields["mcpServers"].fields[name])
      && "url" !in table[name].fields
      && table[name].fields["command"] == sourceConfig.fields["mcpServers"].fields[name].fields["command"]
  {
    var servers := sourceConfig.fields["mcpServers"].fields;
    assert ServersOf(sourceConfig) == Some(servers);
    assert forall n :: n in servers ==> GeminiEntry(servers[n]).Keep?;
  }
}

=== FILE: mcp_migrator.dfy ===
/**
 * src/lib/migrators/mcp.ts: the MCP migrator's step for one tool.  An
 * existing target is skipped without `autoOverwrite`, except for codex;
 * otherwise the source JSON is read and written to the target in the
 * tool's shape: through the tool's own `mcp.transform`, verbatim for
 * claude, into the `mcp_servers` table of the existing codex TOML, or
 * reshaped by the migrator's own converters.  The migrator's converters
 * are private copies of those of src/lib/converters/mcp.ts that differ in
 * two places, stated by the lemmas at the end.
 */
module McpMigrator {
  import opened Wrappers
  import opened Strs
  import opened Json
  import opened Stats
  import opened Fs
  import opened Config
  import opened FileSystem
  import opened McpConvert
  import opened Migration

  /** The error `migrate` records when the source file is missing. */
  const SourceMissing: string := "源文件不存在 (Source file does not exist)"

  /**
   * The `TypeError` an entry conversion throws: the `in` test on an entry
   * that is not an object, or the spread of a non-iterable `args`.
   */
  const EntryTypeError: string := "TypeError: an MCP server entry cannot be converted"

  // ------------------------------------------------- private converters

  /**
   * The migrator's `convertToOpenCodeFormat` entry: as the converter's,
   * except that an entry neither local nor remote is copied without
   * `enabled`.
   */
  function MigratorOpenCodeEntry(server: Json): (r: EntryResult)
    ensures InDefined(server) && !IsLocal(server) && !IsRemote(server) ==> r == Keep(JObj(Fields(server)))
    ensures !(InDefined(server) && !IsLocal(server) && !IsRemote(server)) ==> r == OpenCodeEntry(server)
  {
    if InDefined(server) && !IsLocal(server) && !IsRemote(server) then Keep(JObj(Fields(server)))
    else OpenCodeEntry(server)
  }

  /**
   * The migrator's `convertToGeminiFormat` entry: a remote entry is
   * converted only when its `type` is `'http'` or its resolved url is
   * truthy, and copied otherwise; every other entry is copied.
   */
  function MigratorGeminiEntry(server: Json): (r: EntryResult)
    ensures !InDefined(server) ==> r.Throw?
    ensures InDefined(server) && IsRemote(server) && HttpOrUrl(server) ==> r == Keep(GeminiRemote(server))
    ensures InDefined(server) && IsRemote(server) && !HttpOrUrl(server) ==> r == Keep(JObj(Fields(server)))
    ensures InDefined(server) && !IsRemote(server) ==> r == Keep(JObj(Fields(server)))
  {
    if !InDefined(server) then Throw
    else if IsRemote(server) then
      if HttpOrUrl(server) then Keep(GeminiRemote(server)) else Keep(JObj(Fields(server)))
    else Keep(JObj(Fields(server)))
  }

  /** `server.type === 'http' || url`. */
  predicate HttpOrUrl(server: Json) {
    Get(Fields(server), "type") == JStr("http") || Truthy(RemoteUrl(server))
  }

  /** A converted server table, or the message of what the conversion threw. */
  function Table(servers: map<string, Json>, f: Json -> EntryResult): (r: Result<map<string, Json>>)
    ensures r.Err? <==> MapServers(servers, f).None?
    ensures r.Ok? ==> r.value == MapServers(servers, f).value
  {
    match MapServers(servers, f)
    case None => Err(EntryTypeError)
    case Some(t) => Ok(t)
  }

  /**
   * `convertMCPConfig(sourceConfig, tool)`: opencode gets `{mcp: ...}`,
   * gemini and iflow `{mcpServers: ...}` in Gemini shape, and cursor and
   * every other tool a copy of the servers under `mcpServers`.
   */
  function ConvertMcpConfig(sourceConfig: Json, tool: string): (r: Result<Json>)
    ensures ServersOf(sourceConfig).None? ==> r == Err(PropError(sourceConfig, "mcpServers"))
    ensures r.Ok? ==> r.value.JObj? && r.value.fields.Keys == (if tool == "opencode" then {"mcp"} else {"mcpServers"})
    ensures ServersOf(sourceConfig).Some? && tool !in {"opencode", "gemini", "iflow"} ==>
              r == Ok(JObj(map["mcpServers" := JObj(ServersOf(sourceConfig).value)]))
    ensures ServersOf(sourceConfig).Some? && tool == "opencode" ==>
              (r.Ok? <==> MapServers(ServersOf(sourceConfig).value, MigratorOpenCodeEntry).Some?)
    ensures ServersOf(sourceConfig).Some? && tool in {"gemini", "iflow"} ==>
              (r.Ok? <==> MapServers(ServersOf(sourceConfig).value, MigratorGeminiEntry).Some?)
  {
    match ServersOf(sourceConfig)
    case None => Err(PropError(sourceConfig, "mcpServers"))
    case Some(servers) =>
      if tool == "opencode" then
        match Table(servers, MigratorOpenCodeEntry)
        case Err(m) => Err(m)
        case Ok(t) => Ok(JObj(map["mcp" := JObj(t)]))
      else if tool == "gemini" || tool == "iflow" then
        match Table(servers, MigratorGeminiEntry)
        case Err(m) => Err(m)
        case Ok(t) => Ok(JObj(map["mcpServers" := JObj(t)]))
      else Ok(JObj(map["mcpServers" := JObj(servers)]))
  }

  /**
   * The codex document: the existing configuration with only its
   * `mcp_servers` key set to the Codex table of the source's servers.
   */
  function CodexDocument(existing: Json, sourceConfig: Json): (r: Result<Json>)
    ensures ServersOf(sourceConfig).None? ==> r == Err(PropError(sourceConfig, "mcpServers"))
    ensures r.Ok? <==> ServersOf(sourceConfig).Some? && CodexServers(ServersOf(sourceConfig).value).Some?
    ensures r.Ok? ==> && r.value.JObj?
                      && r.value.fields.Keys == Fields(existing).Keys + {"mcp_servers"}
                      && r.value.fields["mcp_servers"] == JObj(CodexServers(ServersOf(sourceConfig).value).value)
                      && forall k :: k in Fields(existing) && k != "mcp_servers" ==> r.value.fields[k] == Fields(existing)[k]
  {
    match ServersOf(sourceConfig)
    case None => Err(PropError(sourceConfig, "mcpServers"))
    case Some(servers) =>
      match Table(servers, CodexEntry)
      case Err(m) => Err(m)
      case Ok(t) => Ok(JObj(Fields(existing)["mcp_servers" := JObj(t)]))
  }

  /** The tool's own `mcp.transform`, if the registry has one. */
  function McpTransform(tools: Registry, tool: string): (r: Option<Json -> Result<Json>>)
    ensures r.Some? ==> Lookup(tools, tool).Some? && Lookup(tools, tool).value.mcp.mcpTransform == r
    ensures Lookup(tools, tool).Some? ==> r == Lookup(tools, tool).value.mcp.mcpTransform
  {
    match Lookup(tools, tool)
    case None => None
    case Some(tc) => tc.mcp.mcpTransform
  }

  // -------------------------------------------------------- one tool

  /**
   * The branch of a tool without a transform, other than claude and codex:
   * the converted document replaces whatever the target held.
   */
  function Converted(n: Nodes, failing: set<Path>, ctx: Context, source: Json, tool: string, dst: Path): (r: (Option<string>, Nodes))
    ensures OnPath(n, r.1, dst)
    ensures ConvertMcpConfig(source, tool).Err? ==> r == (Some(ConvertMcpConfig(source, tool).error), n)
    ensures r.0.None? ==> && ConvertMcpConfig(source, tool).Ok?
                          && ctx.codecs.printJson(ConvertMcpConfig(source, tool).value).Ok?
                          && dst in r.1
                          && r.1[dst] == File(ctx.codecs.printJson(ConvertMcpConfig(source, tool).value).value)
  {
    match ConvertMcpConfig(source, tool)
    case Err(m) => (Some(m), n)
    case Ok(c) => WriteSerialized(n, failing, dst, ctx.codecs.printJson(c))
  }

  /** The configuration codex starts from: the parsed target when it exists, else `{}`. */
  function CodexExisting(n: Nodes, failing: set<Path>, ctx: Context, dst: Path): (r: Result<Json>)
    ensures dst !in n ==> r == Ok(JObj(map[]))
    ensures dst in n ==> r == ReadParsed(n, failing, dst, ctx.codecs.parseToml)
  {
    if dst in n then ReadParsed(n, failing, dst, ctx.codecs.parseToml) else Ok(JObj(map[]))
  }

  /**
   * The codex branch: the existing configuration with its table replaced
   * is written back; a read, conversion or print failure is the error.
   */
  function CodexWrite(n: Nodes, failing: set<Path>, ctx: Context, source: Json, dst: Path): (r: (Option<string>, Nodes))
    ensures OnPath(n, r.1, dst)
    ensures CodexExisting(n, failing, ctx, dst).Err? ==> r == (Some(CodexExisting(n, failing, ctx, dst).error), n)
    ensures r.0.None? ==>
      var existing := CodexExisting(n, failing, ctx, dst);
      && existing.Ok? && CodexDocument(existing.value, source).Ok?
      && ctx.codecs.printToml(CodexDocument(existing.value, source).value).Ok?
      && dst in r.1
      && r.1[dst] == File(ctx.codecs.printToml(CodexDocument(existing.value, source).value).value)
  {
    match CodexExisting(n, failing, ctx, dst)
    case Err(m) => (Some(m), n)
    case Ok(config) =>
      match CodexDocument(config, source)
      case Err(m) => (Some(m), n)
      case Ok(doc) => WriteSerialized(n, failing, dst, ctx.codecs.printToml(doc))
  }

  /** The printed form of a transformed document: TOML iff the target ends in `.toml`. */
  function PrintFor(ctx: Context, target: string, doc: Json): (r: Result<string>)
    ensures EndsWith(target, ".toml") ==> r == ctx.codecs.printToml(doc)
    ensures !EndsWith(target, ".toml") ==> r == ctx.codecs.printJson(doc)
  {
    if EndsWith(target, ".toml") then ctx.codecs.printToml(doc) else ctx.codecs.printJson(doc)
  }

  /**
   * The guarded block of `migrateForTool`: the message of whatever throws,
   * with the tree it leaves.  `target` is the target path as a string,
   * `dst` the path it resolves to.
   */
  function TryMigrate(n: Nodes, failing: set<Path>, ctx: Context, src: Path, tool: string, target: string, dst: Path): (r: (Option<string>, Nodes))
    ensures ReadParsed(n, failing, src, ctx.codecs.parseJson).Err? ==> r == (Some(ReadParsed(n, failing, src, ctx.codecs.parseJson).error), n)
    ensures OnPath(n, r.1, dst)
    ensures r.0.None? ==> dst in r.1 && r.1[dst].File?
  {
    match ReadParsed(n, failing, src, ctx.codecs.parseJson)
    case Err(m) => (Some(m), n)
    case Ok(source) =>
      match McpTransform(ctx.tools, tool)
      case Some(f) =>
        (match f(source)
         case Err(m) => (Some(m), n)
         case Ok(t) => WriteSerialized(n, failing, dst, PrintFor(ctx, target, t)))
      case None =>
        if tool == "claude" then WriteSerialized(n, failing, dst, ctx.codecs.printJson(source))
        else if tool == "codex" then CodexWrite(n, failing, ctx, source, dst)
        else Converted(n, failing, ctx, source, tool, dst)
  }

  /** The skip test of `migrateForTool`. */
  predicate Skips(n: Nodes, ctx: Context, tool: string, dst: Path) {
    dst in n && !ctx.options.autoOverwrite && tool != "codex"
  }

  /**
   * `migrateForTool(tool, targetPath)`: one skip, one success, or one
   * error naming the target path; it never throws.
   */
  function MigrateForToolSpec(n: Nodes, failing: set<Path>, ctx: Context, src: Path, tool: string, target: string): (r: (Stats, Nodes))
    requires ctx.Valid()
    ensures r.0.Consistent() && r.0.Total() == 1
    ensures r.0.skipped == 1 <==> Skips(n, ctx, tool, Resolve(ctx.cwd, target))
    ensures r.0.skipped == 1 ==> r.1 == n
    ensures r.0.error == 1 ==> |r.0.errors| == 1 && r.0.errors[0].file == target
    ensures r.0.success == 1 ==> Resolve(ctx.cwd, target) in r.1 && r.1[Resolve(ctx.cwd, target)].File?
    ensures OnPath(n, r.1, Resolve(ctx.cwd, target))
  {
    var dst := Resolve(ctx.cwd, target);
    if Skips(n, ctx, tool, dst) then (Stats(0, 1, 0, []), n)
    else
      var (e, n1) := TryMigrate(n, failing, ctx, src, tool, target, dst);
      (if e.None? then Stats(1, 0, 0, []) else Stats(0, 0, 1, [MigrationError(target, e.value)]), n1)
  }

  // -------------------------------------------------------- properties

  /**
   * What a successful tool writes, read from the source document `source`:
   * its transform's output, printed as TOML iff the target ends in
   * `.toml`; for claude the source verbatim; for codex the existing
   * configuration with only its table replaced; for every other tool the
   * converted document, whatever the target held before.
   */
  lemma MigrateForToolWrites(n: Nodes, failing: set<Path>, ctx: Context, src: Path, tool: string, target: string)
    requires ctx.Valid()
    requires ReadParsed(n, failing, src, ctx.codecs.parseJson).Ok?
    ensures var source := ReadParsed(n, failing, src, ctx.codecs.parseJson).value;
      var dst := Resolve(ctx.cwd, target);
      var r := MigrateForToolSpec(n, failing, ctx, src, tool, target);
      var transform := McpTransform(ctx.tools, tool);
      r.0.success == 1 ==>
      && (transform.Some? ==> transform.value(source).Ok? && PrintFor(ctx, target, transform.value(source).value).Ok?
                              && r.1[dst] == File(PrintFor(ctx, target, transform.value(source).value).value))
      && (transform.None? && tool == "claude" ==> ctx.codecs.printJson(source).Ok?
                                                  && r.1[dst] == File(ctx.codecs.printJson(source).value))
      && (transform.None? && tool == "codex" ==>
            var doc := CodexDocument(CodexExisting(n, failing, ctx, dst).value, source);
            doc.Ok? && r.1[dst] == File(ctx.codecs.printToml(doc.value).value))
      && (transform.None? && tool !in {"claude", "codex"} ==>
            r.1[dst] == File(ctx.codecs.printJson(ConvertMcpConfig(source, tool).value).value))
  {
    var source := ReadParsed(n, failing, src, ctx.codecs.parseJson).value;
    var dst := Resolve(ctx.cwd, target);
    if !Skips(n, ctx, tool, dst) {
      var transform := McpTransform(ctx.tools, tool);
      if transform.Some? && transform.value(source).Ok? {
        var t := transform.value(source).value;
        assert TryMigrate(n, failing, ctx, src, tool, target, dst) == WriteSerialized(n, failing, dst, PrintFor(ctx, target, t));
      } else if transform.None? && tool == "claude" {
        assert TryMigrate(n, failing, ctx, src, tool, target, dst) == WriteSerialized(n, failing, dst, ctx.codecs.printJson(source));
      }
    }
  }

  /**
   * The migrator's Gemini entry agrees with the converter's except on a
   * remote entry with a falsy url and a `type` other than `'http'`, which
   * it copies unchanged; `{url: ''}` shows that the two differ.
   */
  lemma GeminiEntryDiffers(server: Json)
    ensures !(InDefined(server) && IsRemote(server) && !HttpOrUrl(server)) ==>
              MigratorGeminiEntry(server) == GeminiEntry(server)
    ensures var s := JObj(map["url" := JStr("")]);
      MigratorGeminiEntry(s) == Keep(s) && GeminiEntry(s) != Keep(s)
  {
    var s := JObj(map["url" := JStr("")]);
    assert IsRemote(s);
    assert !Truthy(RemoteUrl(s));
    assert "url" !in GeminiRemote(s).fields;
  }

  /**
   * The migrator's OpenCode entry agrees with the converter's except on an
   * entry neither local nor remote, which the converter extends with
   * `enabled: true`, so the two differ on every such entry without an
   * `enabled` key.
   */
  lemma OpenCodeEntryDiffers(server: Json)
    ensures InDefined(server) && !IsLocal(server) && !IsRemote(server) ==>
              && OpenCodeEntry(server) == Keep(JObj(Fields(server)["enabled" := JBool(true)]))
              && MigratorOpenCodeEntry(server) == Keep(JObj(Fields(server)))
              && ("enabled" !in Fields(server) ==> MigratorOpenCodeEntry(server) != OpenCodeEntry(server))
  {
    if InDefined(server) && !IsLocal(server) && !IsRemote(server) && "enabled" !in Fields(server) {
      assert "enabled" in Fields(server)["enabled" := JBool(true)];
    }
  }

  /**
   * The codex table the migrator writes is the one the converter's
   * `convertToCodexFormat` wraps in `mcp_servers`.
   */
  lemma CodexTableAgrees(existing: Json, sourceConfig: Json)
    requires CodexDocument(existing, sourceConfig).Ok?
    ensures ConvertToCodexFormat(sourceConfig).Some?
    ensures CodexDocument(existing, sourceConfig).value.fields["mcp_servers"]
         == ConvertToCodexFormat(sourceConfig).value.fields["mcp_servers"]
  {
  }

  // ------------------------------------------------------------ methods

  /** The guarded block of `migrateForTool`. */
  method Migrate(fs: FileSystem, ctx: Context, src: Path, tool: string, target: string, dst: Path) returns (err: Option<string>)
    modifies fs
    ensures (err, fs.nodes) == TryMigrate(old(fs.nodes), fs.failing, ctx, src, tool, target, dst)
  {
    var source := fs.ReadParsedFile(src, ctx.codecs.parseJson);
    if source.Err? {
      return Some(source.error);
    }
    var transform := McpTransform(ctx.tools, tool);
    if transform.Some? {
      var transformed := transform.value(source.value);
      if transformed.Err? {
        return Some(transformed.error);
      }
      err := fs.WriteSerializedFile(dst, PrintFor(ctx, target, transformed.value));
    } else if tool == "claude" {
      err := fs.WriteSerializedFile(dst, ctx.codecs.printJson(source.value));
    } else if tool == "codex" {
      var config := Ok(JObj(map[]));
      if fs.FileExists(dst) {
        config := fs.ReadParsedFile(dst, ctx.codecs.parseToml);
      }
      if config.Err? {
        return Some(config.error);
      }
      var doc := CodexDocument(config.value, source.value);
      if doc.Err? {
        return Some(doc.error);
      }
      err := fs.WriteSerializedFile(dst, ctx.codecs.printToml(doc.value));
    } else {
      var converted := ConvertMcpConfig(source.value, tool);
      if converted.Err? {
        return Some(converted.error);
      }
      err := fs.WriteSerializedFile(dst, ctx.codecs.printJson(converted.value));
    }
  }

  /** `MCPMigrator.migrateForTool(tool, targetPath)`. */
  method MigrateForTool(fs: FileSystem, ctx: Context, src: Path, tool: string, target: string) returns (r: Stats)
    requires ctx.Valid()
    modifies fs
    ensures (r, fs.nodes) == MigrateForToolSpec(old(fs.nodes), fs.failing, ctx, src, tool, target)
  {
    var dst := Resolve(ctx.cwd, target);
    if fs.FileExists(dst) && !ctx.options.autoOverwrite && tool != "codex" {
      return Stats(0, 1, 0, []);
    }
    var e := Migrate(fs, ctx, src, tool, target, dst);
    r := if e.None? then Stats(1, 0, 0, []) else Stats(0, 0, 1, [MigrationError(target, e.value)]);
  }
}

=== FILE: migration.dfy ===
/**
 * src/lib/migrators/types.ts and what every migrator shares: the options a
 * run is given, the environment the paths are resolved in, the parsers and
 * printers of the libraries the migrators call, and the per-file tally of
 * the migrators' loops over a list of files.
 */
module Migration {
  import opened Wrappers
  import opened Json
  import opened Stats
  import opened Fs
  import opened Config

  /** `MigrateOptions`, with the fields the migrators read. */
  datatype Options = Options(isProject: bool, autoOverwrite: bool)

  /**
   * The libraries' text formats: `YAML.parse`, `JSON.parse`,
   * `JSON.stringify(data, null, 2)`, `TOML.parse` and `TOML.stringify`.
   * Each may throw, which is `Err(message)`.
   */
  datatype Codecs = Codecs(
    yaml: string -> Result<Json>,
    parseJson: string -> Result<Json>,
    printJson: Json -> Result<string>,
    parseToml: string -> Result<Json>,
    printToml: Json -> Result<string>)

  /**
   * What a migrator is constructed with besides its source and its tools:
   * the working and home directories, the options, the (user-merged)
   * registry `tools`, and the codecs.
   */
  datatype Context = Context(cwd: Path, home: Path, options: Options, tools: Registry, codecs: Codecs)
  {
    predicate Valid() {
      Normal(cwd) && Normal(home)
    }
  }

  /** What one file of a per-file loop does: its outcome and the tree after it. */
  type FileStep = (Nodes, string) -> (Outcome, Nodes)

  /**
   * A per-file loop of a migrator: the files in order, each one's outcome
   * counted into `acc` and each one run on the tree the previous left.
   */
  function Tally(n: Nodes, files: seq<string>, step: FileStep, acc: Stats): (r: (Stats, Nodes))
  {
    if files == [] then (acc, n)
    else
      var prev := Tally(n, files[..|files| - 1], step, acc);
      var last := step(prev.1, files[|files| - 1]);
      (Record(prev.0, last.0), last.1)
  }

  /** The loop over the first `i + 1` files is the loop over the first `i`, then file `i`. */
  lemma TallyStep(n: Nodes, files: seq<string>, i: nat, step: FileStep, acc: Stats)
    requires i < |files|
    ensures var prev := Tally(n, files[..i], step, acc);
      Tally(n, files[..i + 1], step, acc) == (Record(prev.0, step(prev.1, files[i]).0), step(prev.1, files[i]).1)
  {
    assert files[..i + 1][..i] == files[..i];
  }

  /** A step that never counts a skip. */
  ghost predicate NeverSkips(step: FileStep) {
    forall m, f :: !step(m, f).0.Skip?
  }

  /** A step that records a failure under the file's own name. */
  ghost predicate FailsUnderName(step: FileStep) {
    forall m, f :: step(m, f).0.Fail? ==> step(m, f).0.file == f
  }

  /**
   * A per-file loop counts every file exactly once, keeps one recorded
   * error per counted error, adds no skip with a step that never skips,
   * and records every new error under one of the files.
   */
  lemma {:induction false} TallyCounts(n: Nodes, files: seq<string>, step: FileStep, acc: Stats)
    ensures var r := Tally(n, files, step, acc).0;
      && r.Total() == acc.Total() + |files|
      && (acc.Consistent() ==> r.Consistent())
      && (NeverSkips(step) ==> r.skipped == acc.skipped)
      && |acc.errors| <= |r.errors| && r.errors[..|acc.errors|] == acc.errors
      && (FailsUnderName(step) ==> forall k :: |acc.errors| <= k < |r.errors| ==> r.errors[k].file in files)
    decreases |files|
  {
    if files != [] {
      var init := files[..|files| - 1];
      var (s, n1) := Tally(n, init, step, acc);
      TallyCounts(n, init, step, acc);
      var (o, n2) := step(n1, files[|files| - 1]);
      var r := Record(s, o);
      assert Tally(n, files, step, acc) == (r, n2);
      assert r.errors[..|acc.errors|] == s.errors[..|acc.errors|];
      if FailsUnderName(step) {
        forall k | |acc.errors| <= k < |r.errors|
          ensures r.errors[k].file in files
        {
          if k < |s.errors| {
            assert r.errors[k] == s.errors[k];
            assert s.errors[k].file in init;
          } else {
            assert o.Fail? && r.errors[k] == MigrationError(o.file, o.message);
          }
        }
      }
    }
  }
}

=== FILE: paths.dfy ===
/**
 * src/lib/path.ts: home expansion, backslash normalisation, where each
 * tool's files go, where the sources are read from, and the probes that
 * pick the first existing candidate.  The home directory and the working
 * directory are parameters; existence is asked of the `FileSystem`.
 * Paths the source builds with `resolve` are `Fs.Path` values; paths it
 * builds with `join` and returns as strings stay strings.
 */
module Paths {
  import opened Wrappers
  import opened Strs
  import opened Fs
  import opened Config
  import opened FileSystem

  // ---------------------------------------------------- path.join model

  /**
   * `path.normalize(p)` for an absolute POSIX path: the segments resolved
   * as by `resolve`, and a trailing separator kept.
   */
  function AbsNormalize(p: string): (r: string)
    requires StartsWith(p, "/")
    ensures StartsWith(r, "/")
  {
    var segs := Normalize([], Split(p, '/'));
    if segs == [] then "/"
    else Render(segs) + (if EndsWith(p, "/") then "/" else "")
  }

  /** `path.join(base, rest)` for an absolute `base`; an empty `rest` is skipped. */
  function JoinAbs(base: string, rest: string): (r: string)
    requires StartsWith(base, "/")
    ensures StartsWith(r, "/")
  {
    if rest == "" then AbsNormalize(base) else AbsNormalize(base + "/" + rest)
  }

  /**
   * `expandHome(filepath)`: a path starting with `~` becomes the home
   * directory joined with the rest; any other path is returned as given.
   */
  function ExpandHome(home: Path, s: string): (r: string)
    ensures !StartsWith(s, "~") ==> r == s
    ensures StartsWith(s, "~") ==> StartsWith(r, "/")
  {
    if StartsWith(s, "~") then JoinAbs(Render(home), s[1..]) else s
  }

  /** Splitting at the first separator. */
  lemma SplitAt(s: string, sep: char, i: nat)
    requires i < |s| && s[i] == sep && sep !in s[..i]
    ensures Split(s, sep) == [s[..i]] + Split(s[i + 1..], sep)
  {
    FirstIndexAt(s, sep, i);
  }

  /** Splitting at a separator splits the two sides independently. */
  lemma {:induction false} SplitAppend(a: string, b: string, sep: char)
    ensures Split(a + [sep] + b, sep) == Split(a, sep) + Split(b, sep)
    decreases |a|
  {
    if sep !in a {
      SplitAppendFirst(a, b, sep);
    } else {
      var i := FirstIndex(a, sep);
      SplitAppend(a[i + 1..], b, sep);
      SplitAppendStep(a, b, sep, i);
      SplitAt(a, sep, i);
      Regroup([a[..i]], Split(a[i + 1..], sep), Split(b, sep));
    }
  }

  lemma SplitAppendFirst(a: string, b: string, sep: char)
    requires sep !in a
    ensures Split(a + [sep] + b, sep) == [a] + Split(b, sep)
  {
    var s := a + [sep] + b;
    assert s[..|a|] == a;
    SplitAt(s, sep, |a|);
    assert s[|a| + 1..] == b;
  }

  lemma SplitAppendStep(a: string, b: string, sep: char, i: nat)
    requires i < |a| && a[i] == sep && sep !in a[..i]
    ensures Split(a + [sep] + b, sep) == [a[..i]] + Split(a[i + 1..] + [sep] + b, sep)
  {
    var s := a + [sep] + b;
    assert s[..i] == a[..i];
    SplitAt(s, sep, i);
    assert s[i + 1..] == a[i + 1..] + [sep] + b;
  }

  /** Normalising a concatenation normalises its parts one after the other. */
  lemma {:induction false} NormalizeAppend(base: Path, x: seq<string>, y: seq<string>)
    requires Normal(base)
    requires forall k :: 0 <= k < |x| ==> '/' !in x[k]
    requires forall k :: 0 <= k < |y| ==> '/' !in y[k]
    ensures Normalize(base, x + y) == Normalize(Normalize(base, x), y)
    decreases |x|
  {
    if x == [] {
      assert x + y == y;
    } else {
      var s := x[0];
      var next :=
        if s == "" || s == "." then base
        else if s == ".." then (if base == [] then [] else base[..|base| - 1])
        else base + [s];
      assert (x + y)[0] == s && (x + y)[1..] == x[1..] + y;
      NormalizeAppend(next, x[1..], y);
    }
  }

  /** A rendered normal path splits back into its segments. */
  lemma RenderSplit(p: Path)
    requires Normal(p)
    ensures Normalize([], Split(Render(p), '/')) == p
  {
    RenderResolve([], p);
  }

  /** The last part of a join is its end. */
  lemma {:induction false} JoinLast(parts: seq<string>, sep: string)
    requires |parts| >= 1
    ensures EndsWith(Join(parts, sep), parts[|parts| - 1])
    decreases |parts|
  {
    if |parts| > 1 {
      JoinLast(parts[1..], sep);
      var rest := Join(parts[1..], sep);
      var last := parts[|parts| - 1];
      assert parts[1..][|parts| - 2] == last;
      var j := parts[0] + sep + rest;
      assert j[|j| - |last|..] == rest[|rest| - |last|..];
    }
  }

  /** A rendered non-empty normal path does not end in a separator. */
  lemma RenderNoTrailing(p: Path)
    requires Normal(p) && p != []
    ensures !EndsWith(Render(p), "/")
  {
    var last := p[|p| - 1];
    JoinLast(p, "/");
    var j := Join(p, "/");
    assert Render(p)[|Render(p)| - 1] == j[|j| - 1] == last[|last| - 1];
    assert last[|last| - 1] in last;
  }

  lemma SplitEmpty(sep: char)
    ensures Split("", sep) == [""]
  {
  }

  /** An empty part is dropped by normalisation. */
  lemma NormalizeEmptyPart(base: Path, xs: seq<string>)
    requires Normal(base) && forall k :: 0 <= k < |xs| ==> '/' !in xs[k]
    ensures Normalize(base, [""] + xs) == Normalize(base, xs)
  {
    assert ([""] + xs)[0] == "" && ([""] + xs)[1..] == xs;
  }

  /** An absolute path resolves from the root, whatever the working directory. */
  lemma ResolveAbs(cwd: Path, s: string)
    requires Normal(cwd) && StartsWith(s, "/")
    ensures Resolve(cwd, s) == Normalize([], Split(s, '/'))
  {
  }

  /** A trailing separator does not change what a rendered path resolves to. */
  lemma TrailingSep(q: Path)
    requires Normal(q)
    ensures Normalize([], Split(Render(q) + "/", '/')) == q
  {
    var h := Render(q);
    assert h + "/" == h + ['/'] + "";
    SplitAppend(h, "", '/');
    SplitEmpty('/');
    RenderSplit(q);
    NormalizeAppend([], Split(h, '/'), [""]);
    assert Normalize(q, [""]) == q;
  }

  /** Resolving a normalised absolute path resolves the original. */
  lemma AbsNormalizeResolve(cwd: Path, p: string)
    requires Normal(cwd) && StartsWith(p, "/")
    ensures Resolve(cwd, AbsNormalize(p)) == Normalize([], Split(p, '/'))
  {
    var segs := Normalize([], Split(p, '/'));
    if segs == [] {
      assert AbsNormalize(p) == Render([]);
      RenderResolve(cwd, []);
    } else if EndsWith(p, "/") {
      var r := Render(segs) + "/";
      assert AbsNormalize(p) == r;
      assert StartsWith(r, "/");
      ResolveAbs(cwd, r);
      TrailingSep(segs);
    } else {
      assert AbsNormalize(p) == Render(segs);
      RenderResolve(cwd, segs);
    }
  }

  /**
   * What `expandHome` denotes: for a `~` path, the home directory with the
   * rest's segments resolved onto it.
   */
  lemma ExpandHomeResolves(home: Path, cwd: Path, s: string)
    requires Normal(home) && Normal(cwd) && StartsWith(s, "~")
    ensures Resolve(cwd, ExpandHome(home, s)) == Normalize(home, Split(s[1..], '/'))
  {
    var rest := s[1..];
    var h := Render(home);
    assert StartsWith(h, "/");
    RenderSplit(home);
    if rest == "" {
      AbsNormalizeResolve(cwd, h);
      assert Split(rest, '/') == [""];
    } else {
      var p := h + "/" + rest;
      assert StartsWith(p, "/");
      AbsNormalizeResolve(cwd, p);
      SplitAppend(h, rest, '/');
      NormalizeAppend([], Split(h, '/'), Split(rest, '/'));
    }
  }

  /** `~` alone is the home directory itself. */
  lemma ExpandHomeAlone(home: Path)
    requires Normal(home)
    ensures ExpandHome(home, "~") == Render(home)
  {
    assert "~"[1..] == "";
    RenderSplit(home);
    if home != [] {
      RenderNoTrailing(home);
    }
  }

  /** A leading separator splits off an empty first part. */
  lemma SplitLeadingSep(x: string)
    ensures Split("/" + x, '/') == [""] + Split(x, '/')
  {
    assert "/" + x == "" + ['/'] + x;
    SplitAppend("", x, '/');
    SplitEmpty('/');
  }

  /** A string whose last character is not a separator keeps that under a prefix. */
  lemma NoTrailingAppend(x: string, y: string)
    requires y != "" && !EndsWith(y, "/")
    ensures !EndsWith(x + y, "/")
  {
    assert (x + y)[|x + y| - 1] == y[|y| - 1];
    assert y[|y| - 1..] == [y[|y| - 1]];
  }

  /** The segments of `home + "/" + "/a/b"`. */
  lemma JoinedSegments(home: Path, segs: Path)
    requires Normal(home) && Normal(segs) && segs != []
    ensures Normalize([], Split(Render(home) + "/" + ("/" + Join(segs, "/")), '/')) == home + segs
  {
    var h := Render(home);
    var rest := "/" + Join(segs, "/");
    assert h + "/" + rest == h + ['/'] + rest;
    SplitAppend(h, rest, '/');
    SplitLeadingSep(Join(segs, "/"));
    SplitJoin(segs, '/');
    assert Split(rest, '/') == [""] + segs;
    RenderSplit(home);
    NormalizeAppend([], Split(h, '/'), Split(rest, '/'));
    NormalizeEmptyPart(home, segs);
    NormalizeNormal(home, segs);
  }

  /** `~/a/b` is the home directory's `a/b`, as a plain string. */
  lemma ExpandHomeJoin(home: Path, segs: Path)
    requires Normal(home) && Normal(segs) && segs != []
    ensures ExpandHome(home, "~/" + Join(segs, "/")) == Render(home + segs)
  {
    var s := "~/" + Join(segs, "/");
    var rest := "/" + Join(segs, "/");
    assert s[1..] == rest;
    var h := Render(home);
    var p := h + "/" + rest;
    assert ExpandHome(home, s) == AbsNormalize(p);
    JoinedSegments(home, segs);
    RenderNoTrailing(segs);
    assert rest == Render(segs);
    NoTrailingAppend(h + "/", rest);
    assert !EndsWith(p, "/");
  }

  // ------------------------------------------------------ normalizePath

  /** `normalizePath(filepath)`: every backslash becomes a slash. */
  function NormalizePath(s: string): (r: string)
    ensures |r| == |s|
    ensures forall i :: 0 <= i < |s| ==> r[i] == (if s[i] == '\\' then '/' else s[i])
  {
    NormalizePathChars(s);
    ReplaceAll(s, "\\", "/")
  }

  /** The global replacement of one character by another is a character map. */
  lemma {:induction false} NormalizePathChars(s: string)
    ensures |ReplaceAll(s, "\\", "/")| == |s|
    ensures forall i :: 0 <= i < |s| ==> ReplaceAll(s, "\\", "/")[i] == (if s[i] == '\\' then '/' else s[i])
    decreases |s|
  {
    if |s| > 0 {
      NormalizePathChars(s[1..]);
      if s[..1] == "\\" {
        assert s[1..] == s[|"\\"|..];
      }
    }
  }

  /** The result has no backslash, and a path without one is kept as it is. */
  lemma NormalizePathClean(s: string)
    ensures '\\' !in NormalizePath(s)
    ensures '\\' !in s ==> NormalizePath(s) == s
    ensures NormalizePath(NormalizePath(s)) == NormalizePath(s)
  {
    var r := NormalizePath(s);
    forall i | 0 <= i < |r| ensures r[i] != '\\' {
    }
  }

  // ------------------------------------------------ where a tool's files go

  /** `toolConfig?.[configType]?.target` when it is truthy. */
  function ConfiguredTarget(reg: Registry, tool: string, t: ConfigType): (r: Option<Target>)
    ensures r.Some? ==> Lookup(reg, tool).Some? && SectionOf(Lookup(reg, tool).value, t).Some?
    ensures r.Some? ==> SectionOf(Lookup(reg, tool).value, t).value.target == Some(r.value)
    ensures r != Some(Single(""))
  {
    match Lookup(reg, tool)
    case None => None
    case Some(tc) =>
      match SectionOf(tc, t)
      case None => None
      case Some(sec) =>
        if sec.target == Some(Single("")) then None else sec.target
  }

  /** The file name of the fallback target. */
  function FallbackName(t: ConfigType): (r: string)
    ensures t == Mcp ==> r == "mcp.json"
    ensures t != Mcp ==> r == TypeName(t)
  {
    if t == Mcp then "mcp.json" else TypeName(t)
  }

  /** The target used when none is configured. */
  function Fallback(tool: string, t: ConfigType): string {
    "~/." + tool + "/" + FallbackName(t)
  }

  /** The message of reading a property of `undefined`. */
  function UndefinedRead(property: string): string {
    "Cannot read properties of undefined (reading '" + property + "')"
  }

  /**
   * `getToolPath(tool, configType)` over the registry `reg`: the expansion
   * of the configured target (the first entry of a candidate list), or of
   * the fallback when none is configured.  An empty candidate list expands
   * `undefined`, which throws.
   */
  function GetToolPath(home: Path, reg: Registry, tool: string, t: ConfigType): (r: Result<string>)
    ensures ConfiguredTarget(reg, tool, t).None? ==> r == Ok(ExpandHome(home, Fallback(tool, t)))
    ensures r.Err? <==> ConfiguredTarget(reg, tool, t) == Some(Candidates([]))
  {
    match ConfiguredTarget(reg, tool, t)
    case None => Ok(ExpandHome(home, Fallback(tool, t)))
    case Some(Single(s)) => Ok(ExpandHome(home, s))
    case Some(Candidates(ps)) =>
      if ps == [] then Err(UndefinedRead("startsWith")) else Ok(ExpandHome(home, ps[0]))
  }

  /** A segment the fallback directory name `.<tool>` can be. */
  predicate ToolSegment(tool: string) {
    tool != "" && tool != "." && '/' !in tool
  }

  /** Without a configured target a tool's files go to `~/.<tool>/<name>`. */
  lemma FallbackLocation(home: Path, reg: Registry, tool: string, t: ConfigType)
    requires Normal(home) && ToolSegment(tool)
    requires ConfiguredTarget(reg, tool, t).None?
    ensures GetToolPath(home, reg, tool, t) == Ok(Render(home + ["." + tool, FallbackName(t)]))
  {
    var seg := "." + tool;
    var name := FallbackName(t);
    assert Join([seg, name], "/") == seg + "/" + name by {
      assert [seg, name][1..] == [name];
    }
    assert Fallback(tool, t) == "~/" + Join([seg, name], "/");
    assert '/' !in seg by {
      assert forall i :: 0 <= i < |seg| ==> seg[i] == '.' || seg[i] in tool;
    }
    assert seg[1..] == tool;
    assert IsSegment(seg) && IsSegment(name);
    ExpandHomeJoin(home, [seg, name]);
  }

  /** Every target of the built-in registry is a single path, so `getToolPath` never throws on it. */
  lemma DefaultsSingleTargets(home: Path, tool: string, t: ConfigType)
    ensures ConfiguredTarget(Defaults, tool, t).Some? ==> ConfiguredTarget(Defaults, tool, t).value.Single?
    ensures GetToolPath(home, Defaults, tool, t).Ok?
  {
    match Lookup(Defaults, tool)
    case None =>
    case Some(tc) =>
      var i :| 0 <= i < |Defaults| && Defaults[i] == (tool, tc);
      assert SectionOf(tc, t).None? || SectionOf(tc, t).value.target.value.Single?;
  }

  /**
   * `resolveTargetPath` on the built-in registry never throws and never
   * probes the disk: it is `getToolPath`, whatever the tree holds.
   */
  lemma DefaultsResolve(n: Nodes, cwd: Path, home: Path, tool: string, t: ConfigType)
    requires Normal(cwd)
    ensures ResolveTarget(n, cwd, home, Defaults, tool, t) == GetToolPath(home, Defaults, tool, t)
    ensures ResolveTarget(n, cwd, home, Defaults, tool, t).Ok?
  {
    DefaultsSingleTargets(home, tool, t);
    ResolveTargetSingle(n, cwd, home, Defaults, tool, t);
  }

  /** The built-in OpenCode rules target is `~/.config/opencode/AGENTS.md`. */
  lemma OpencodeRulesTarget(home: Path)
    requires Normal(home)
    ensures GetToolPath(home, Defaults, "opencode", Rules) == Ok(Render(home + [".config", "opencode", "AGENTS.md"]))
  {
    OpencodeRulesConfigured();
    var segs := [".config", "opencode", "AGENTS.md"];
    OpencodeRulesSegments();
    assert IsSegment(segs[0]) && IsSegment(segs[1]) && IsSegment(segs[2]);
    ExpandHomeJoin(home, segs);
  }

  lemma OpencodeRulesConfigured()
    ensures ConfiguredTarget(Defaults, "opencode", Rules) == Some(Single("~/.config/opencode/AGENTS.md"))
  {
    DefaultsUnique();
    LookupAt(Defaults, 3);
    assert Lookup(Defaults, "opencode") == Some(OpencodeConfig);
  }

  lemma OpencodeRulesSegments()
    ensures "~/" + Join([".config", "opencode", "AGENTS.md"], "/") == "~/.config/opencode/AGENTS.md"
  {
    var segs := [".config", "opencode", "AGENTS.md"];
    assert segs[1..] == ["opencode", "AGENTS.md"];
    assert segs[1..][1..] == ["AGENTS.md"];
    assert Join(["AGENTS.md"], "/") == "AGENTS.md";
    assert Join(["opencode", "AGENTS.md"], "/") == "opencode/AGENTS.md";
  }

  /** The built-in Claude Code commands target is `~/.claude/commands`. */
  lemma ClaudeCommandsTarget(home: Path)
    requires Normal(home)
    ensures GetToolPath(home, Defaults, "claude", Commands) == Ok(Render(home + [".claude", "commands"]))
  {
    ClaudeCommandsConfigured();
    var segs := [".claude", "commands"];
    ClaudeCommandsSegments();
    assert IsSegment(segs[0]) && IsSegment(segs[1]);
    ExpandHomeJoin(home, segs);
  }

  /** A rendered normal path resolves back to itself from any working directory. */
  lemma ResolveRender(cwd: Path, p: Path)
    requires Normal(cwd) && Normal(p)
    ensures Resolve(cwd, Render(p)) == p
  {
    assert StartsWith(Render(p), "/");
    ResolveAbs(cwd, Render(p));
    RenderSplit(p);
  }

  lemma ClaudeCommandsConfigured()
    ensures ConfiguredTarget(Defaults, "claude", Commands) == Some(Single("~/.claude/commands"))
  {
    DefaultsUnique();
    LookupAt(Defaults, 1);
    assert Lookup(Defaults, "claude") == Some(ClaudeConfig);
  }

  lemma ClaudeCommandsSegments()
    ensures "~/" + Join([".claude", "commands"], "/") == "~/.claude/commands"
  {
    var segs := [".claude", "commands"];
    assert segs[1..] == ["commands"];
    assert Join(["commands"], "/") == "commands";
  }

  // ------------------------------------------- first existing candidate

  /**
   * The first candidate `present` accepts, or `default` when there is
   * none: the early-return probe loops of path.ts.
   */
  function FirstExisting<T>(present: T -> bool, candidates: seq<T>, default: T): T {
    if candidates == [] then default
    else if present(candidates[0]) then candidates[0]
    else FirstExisting(present, candidates[1..], default)
  }

  /** The candidate at the first accepted position is the result. */
  lemma {:induction false} FirstExistingAt<T>(present: T -> bool, candidates: seq<T>, default: T, k: nat)
    requires k < |candidates| && present(candidates[k])
    requires forall j :: 0 <= j < k ==> !present(candidates[j])
    ensures FirstExisting(present, candidates, default) == candidates[k]
  {
    if k > 0 {
      assert !present(candidates[0]);
      assert candidates[1..][k - 1] == candidates[k];
      assert forall j :: 0 <= j < k - 1 ==> candidates[1..][j] == candidates[j + 1];
      FirstExistingAt(present, candidates[1..], default, k - 1);
    }
  }

  /** When nothing is accepted the default is the result. */
  lemma {:induction false} FirstExistingNone<T>(present: T -> bool, candidates: seq<T>, default: T)
    requires forall j :: 0 <= j < |candidates| ==> !present(candidates[j])
    ensures FirstExisting(present, candidates, default) == default
    decreases |candidates|
  {
    if candidates != [] {
      assert !present(candidates[0]);
      assert forall j :: 0 <= j < |candidates| - 1 ==> candidates[1..][j] == candidates[j + 1];
      FirstExistingNone(present, candidates[1..], default);
    }
  }

  /** `existsSync(p)` for a path string, resolved against the working directory. */
  predicate ExistsAt(n: Nodes, cwd: Path, s: string)
    requires Normal(cwd)
  {
    Resolve(cwd, s) in n
  }

  /** The expansion of every candidate. */
  function ExpandAll(home: Path, ps: seq<string>): (r: seq<string>)
    ensures |r| == |ps|
    ensures forall i :: 0 <= i < |ps| ==> r[i] == ExpandHome(home, ps[i])
  {
    seq(|ps|, i requires 0 <= i < |ps| => ExpandHome(home, ps[i]))
  }

  /**
   * `resolveTargetPath(tool, configType)` over the registry `reg`: a
   * candidate list resolves to the first expanded candidate that exists,
   * else its first; every other case is `getToolPath`.
   */
  function ResolveTarget(n: Nodes, cwd: Path, home: Path, reg: Registry, tool: string, t: ConfigType): Result<string>
    requires Normal(cwd)
  {
    match ConfiguredTarget(reg, tool, t)
    case Some(Candidates(ps)) =>
      if ps == [] then Err(UndefinedRead("startsWith"))
      else
        var expanded := ExpandAll(home, ps);
        Ok(FirstExisting((s: string) => ExistsAt(n, cwd, s), expanded, expanded[0]))
    case _ => GetToolPath(home, reg, tool, t)
  }

  /** Without a candidate list, resolving is `getToolPath`. */
  lemma ResolveTargetSingle(n: Nodes, cwd: Path, home: Path, reg: Registry, tool: string, t: ConfigType)
    requires Normal(cwd)
    requires !ConfiguredTarget(reg, tool, t).Some? || !ConfiguredTarget(reg, tool, t).value.Candidates?
    ensures ResolveTarget(n, cwd, home, reg, tool, t) == GetToolPath(home, reg, tool, t)
  {
  }

  /**
   * With candidates, the result is the first one that exists; when none
   * exists it is the first one, which is also what `getToolPath` gives.
   */
  lemma ResolveTargetCandidates(n: Nodes, cwd: Path, home: Path, reg: Registry, tool: string, ps: seq<string>, t: ConfigType, k: nat)
    requires Normal(cwd) && ps != []
    requires ConfiguredTarget(reg, tool, t) == Some(Candidates(ps))
    ensures k < |ps| && ExistsAt(n, cwd, ExpandHome(home, ps[k]))
            && (forall j :: 0 <= j < k ==> !ExistsAt(n, cwd, ExpandHome(home, ps[j]))) ==>
              ResolveTarget(n, cwd, home, reg, tool, t) == Ok(ExpandHome(home, ps[k]))
    ensures (forall j :: 0 <= j < |ps| ==> !ExistsAt(n, cwd, ExpandHome(home, ps[j]))) ==>
              ResolveTarget(n, cwd, home, reg, tool, t) == GetToolPath(home, reg, tool, t)
  {
    var expanded := ExpandAll(home, ps);
    var present := (s: string) => ExistsAt(n, cwd, s);
    if k < |ps| && ExistsAt(n, cwd, ExpandHome(home, ps[k]))
       && (forall j :: 0 <= j < k ==> !ExistsAt(n, cwd, ExpandHome(home, ps[j]))) {
      FirstExistingAt(present, expanded, expanded[0], k);
    }
    if forall j :: 0 <= j < |ps| ==> !ExistsAt(n, cwd, ExpandHome(home, ps[j])) {
      FirstExistingNone(present, expanded, expanded[0]);
    }
  }

  /** The probe loop of `resolveTargetPath`. */
  method ResolveTargetPath(fs: FileSystem, cwd: Path, home: Path, reg: Registry, tool: string, t: ConfigType)
    returns (r: Result<string>)
    requires Normal(cwd)
    ensures r == ResolveTarget(fs.nodes, cwd, home, reg, tool, t)
  {
    var target := ConfiguredTarget(reg, tool, t);
    if !(target.Some? && target.value.Candidates?) {
      return GetToolPath(home, reg, tool, t);
    }
    var ps := target.value.paths;
    if ps == [] {
      return Err(UndefinedRead("startsWith"));
    }
    var i := 0;
    while i < |ps|
      invariant 0 <= i <= |ps|
      invariant forall j :: 0 <= j < i ==> !ExistsAt(fs.nodes, cwd, ExpandHome(home, ps[j]))
    {
      var expanded := ExpandHome(home, ps[i]);
      if fs.FileExists(Resolve(cwd, expanded)) {
        ResolveTargetCandidates(fs.nodes, cwd, home, reg, tool, ps, t, i);
        return Ok(expanded);
      }
      i := i + 1;
    }
    ResolveTargetCandidates(fs.nodes, cwd, home, reg, tool, ps, t, 0);
    r := Ok(ExpandHome(home, ps[0]));
  }

  // ------------------------------------------------------- source paths

  /**
   * `resolveSourceDir(provided, _)`: an empty or absent path means the
   * home directory; otherwise the expanded, resolved path, or its parent
   * when its last segment is `.claude`.
   */
  function ResolveSourceDir(home: Path, cwd: Path, provided: Option<string>): (r: Path)
    requires Normal(home) && Normal(cwd)
    ensures Normal(r)
    ensures provided.None? || provided == Some("") ==> r == home
    ensures provided.Some? && provided != Some("") ==>
              var p := Resolve(cwd, ExpandHome(home, provided.value));
              && (p != [] && p[|p| - 1] == ".claude" ==> r + [".claude"] == p)
              && (p == [] || p[|p| - 1] != ".claude" ==> r == p)
  {
    match provided
    case None => home
    case Some(s) =>
      if s == "" then home
      else
        var p := Resolve(cwd, ExpandHome(home, s));
        if |p| > 0 && p[|p| - 1] == ".claude" then
          assert p == p[..|p| - 1] + [".claude"];
          p[..|p| - 1]
        else p
  }

  /** Pointing at `~/.claude` or at `~` both select the home directory. */
  lemma ResolveSourceDirHome(home: Path, cwd: Path)
    requires Normal(home) && Normal(cwd)
    ensures ResolveSourceDir(home, cwd, Some("~/.claude")) == home
    ensures home == [] || home[|home| - 1] != ".claude" ==> ResolveSourceDir(home, cwd, Some("~")) == home
  {
    assert "~/" + Join([".claude"], "/") == "~/.claude";
    ExpandHomeJoin(home, [".claude"]);
    RenderResolve(cwd, home + [".claude"]);
    assert (home + [".claude"])[..|home|] == home;
    ExpandHomeAlone(home);
    RenderResolve(cwd, home);
  }

  /** A source directory given as an absolute path not ending in `.claude` is kept. */
  lemma ResolveSourceDirAbsolute(home: Path, cwd: Path, p: Path)
    requires Normal(home) && Normal(cwd) && Normal(p)
    requires p != [] && p[|p| - 1] != ".claude"
    ensures ResolveSourceDir(home, cwd, Some(Render(p))) == p
  {
    RenderResolve(cwd, p);
  }

  /** `resolve(sourceDir, relative)` for the fixed relative source names. */
  function SourcePath(sourceDir: Path, relative: seq<string>): (r: Path)
    requires Normal(sourceDir) && Normal(relative)
    ensures r == sourceDir + relative
  {
    NormalizeNormal(sourceDir, relative);
    Normalize(sourceDir, relative)
  }

  /** `getMCPSourcePath(sourceDir)`. */
  function McpSourcePath(sourceDir: Path): (r: Path)
    requires Normal(sourceDir)
    ensures r == sourceDir + [".claude.json"]
  {
    SourcePath(sourceDir, [".claude.json"])
  }

  /** `getCommandsSourcePath(sourceDir)`. */
  function CommandsSourcePath(sourceDir: Path): (r: Path)
    requires Normal(sourceDir)
    ensures r == sourceDir + [".claude", "commands"]
  {
    SourcePath(sourceDir, [".claude", "commands"])
  }

  /** `getSkillsSourcePath(sourceDir)`. */
  function SkillsSourcePath(sourceDir: Path): (r: Path)
    requires Normal(sourceDir)
    ensures r == sourceDir + [".claude", "skills"]
  {
    SourcePath(sourceDir, [".claude", "skills"])
  }

  /** `getAgentsSourcePath(sourceDir)`. */
  function AgentsSourcePath(sourceDir: Path): (r: Path)
    requires Normal(sourceDir)
    ensures r == sourceDir + [".claude", "agents"]
  {
    SourcePath(sourceDir, [".claude", "agents"])
  }

  /** `getSettingsSourcePath(sourceDir)`. */
  function SettingsSourcePath(sourceDir: Path): (r: Path)
    requires Normal(sourceDir)
    ensures r == sourceDir + [".claude", "settings.json"]
  {
    SourcePath(sourceDir, [".claude", "settings.json"])
  }

  /** The rule files `getRuleSourcePath` looks for, in priority order. */
  function RuleCandidates(sourceDir: Path): seq<Path> {
    [sourceDir + [".claude", "CLAUDE.md"], sourceDir + [".claude", "AGENTS.md"],
     sourceDir + ["CLAUDE.md"], sourceDir + ["AGENTS.md"]]
  }

  /**
   * `getRuleSourcePath(sourceDir)`: the first existing of
   * `.claude/CLAUDE.md`, `.claude/AGENTS.md`, `CLAUDE.md`, `AGENTS.md`,
   * defaulting to `.claude/CLAUDE.md`.
   */
  function RuleSource(n: Nodes, sourceDir: Path): Path {
    var c := RuleCandidates(sourceDir);
    FirstExisting((p: Path) => p in n, c, c[0])
  }

  /**
   * The rule source is the highest-priority candidate present, and
   * `.claude/CLAUDE.md` when none is.
   */
  lemma RuleSourcePriority(n: Nodes, sourceDir: Path, k: nat)
    ensures var c := RuleCandidates(sourceDir);
            k < 4 && c[k] in n && (forall j :: 0 <= j < k ==> c[j] !in n) ==> RuleSource(n, sourceDir) == c[k]
    ensures var c := RuleCandidates(sourceDir);
            (forall j :: 0 <= j < 4 ==> c[j] !in n) ==> RuleSource(n, sourceDir) == sourceDir + [".claude", "CLAUDE.md"]
  {
    var c := RuleCandidates(sourceDir);
    var present := (p: Path) => p in n;
    if k < 4 && c[k] in n && (forall j :: 0 <= j < k ==> c[j] !in n) {
      FirstExistingAt(present, c, c[0], k);
    }
    if forall j :: 0 <= j < 4 ==> c[j] !in n {
      FirstExistingNone(present, c, c[0]);
    }
  }

  /** The two probe loops of `getRuleSourcePath`. */
  method GetRuleSourcePath(fs: FileSystem, sourceDir: Path) returns (r: Path)
    ensures r == RuleSource(fs.nodes, sourceDir)
  {
    var priority := ["CLAUDE.md", "AGENTS.md"];
    ghost var c := RuleCandidates(sourceDir);
    var i := 0;
    while i < 2
      invariant 0 <= i <= 2
      invariant forall j :: 0 <= j < i ==> c[j] !in fs.nodes
    {
      var filePath := sourceDir + [".claude", priority[i]];
      assert filePath == c[i];
      if fs.FileExists(filePath) {
        RuleSourcePriority(fs.nodes, sourceDir, i);
        return filePath;
      }
      i := i + 1;
    }
    i := 0;
    while i < 2
      invariant 0 <= i <= 2
      invariant forall j :: 0 <= j < i + 2 ==> c[j] !in fs.nodes
    {
      var filePath := sourceDir + [priority[i]];
      assert filePath == c[i + 2];
      if fs.FileExists(filePath) {
        RuleSourcePriority(fs.nodes, sourceDir, i + 2);
        return filePath;
      }
      i := i + 1;
    }
    RuleSourcePriority(fs.nodes, sourceDir, 0);
    r := sourceDir + [".claude", "CLAUDE.md"];
  }

  /**
   * `getOpenCodeMCPPath(basePath)`: `opencode.jsonc` if it exists, else
   * `opencode.json` if that exists, else `opencode.jsonc`.
   */
  method GetOpenCodeMcpPath(fs: FileSystem, base: Path) returns (r: Path)
    ensures r == base + ["opencode.jsonc"] || r == base + ["opencode.json"]
    ensures r == base + ["opencode.json"] <==>
              base + ["opencode.jsonc"] !in fs.nodes && base + ["opencode.json"] in fs.nodes
  {
    var jsonCPath := base + ["opencode.jsonc"];
    var jsonPath := base + ["opencode.json"];
    assert jsonCPath[|base|] != jsonPath[|base|];
    if fs.FileExists(jsonCPath) {
      return jsonCPath;
    }
    if fs.FileExists(jsonPath) {
      return jsonPath;
    }
    return jsonCPath;
  }
}

=== FILE: rules.dfy ===
/**
 * src/lib/migrators/rules.ts: the rules migrator's step for one tool.  A
 * source that cannot be stat'ed is one error; a single-file source is
 * copied to the tool's rules file; a directory source is handed to the
 * tool's `customMerge`, else merged into one Markdown file when `merge` is
 * set, else walked into the target directory (transformed, converted to
 * `.mdc` for a `.claude` source going to cursor, or copied).  What throws
 * out of the step is `Err(message)`, which the template loop records.
 */
module Rules {
  import opened Wrappers
  import opened Strs
  import opened Stats
  import opened Fs
  import opened Walk
  import opened Config
  import opened FileSystem
  import opened RulesMerger
  import opened MarkdownToMdc
  import opened Paths
  import opened Migration

  /** What `resolve` throws when handed the Promise of the un-awaited `getTargetDir`. */
  const PromiseArgument: string :=
    "The \"paths[0]\" argument must be of type string. Received an instance of Promise"

  /**
   * `getTargetFilePath(tool)`: the rules file of a merge or single-file
   * copy, as the string the source builds.  In project mode the
   * un-awaited directory reaches `resolve` and throws; in global mode it is
   * the expansion of the configured target, `''` when there is none.
   */
  function TargetFile(ctx: Context, tool: string): (r: Result<string>)
    ensures Lookup(ctx.tools, tool).None? ==> r == Err(UndefinedRead("rules"))
    ensures Lookup(ctx.tools, tool).Some? && Lookup(ctx.tools, tool).value.rules.None? ==> r == Err(UndefinedRead("target"))
    ensures ctx.options.isProject ==> r.Err?
    ensures r.Ok? <==> && !ctx.options.isProject && Lookup(ctx.tools, tool).Some?
                       && Lookup(ctx.tools, tool).value.rules.Some?
                       && !(Lookup(ctx.tools, tool).value.rules.value.target.Some?
                            && Lookup(ctx.tools, tool).value.rules.value.target.value.Candidates?)
    ensures r.Ok? ==> match Lookup(ctx.tools, tool).value.rules.value.target
                      case None => r.value == ""
                      case Some(t) => r.value == ExpandHome(ctx.home, t.path)
  {
    match Lookup(ctx.tools, tool)
    case None => Err(UndefinedRead("rules"))
    case Some(tc) =>
      match tc.rules
      case None => Err(UndefinedRead("target"))
      case Some(sec) =>
        if ctx.options.isProject then
          if sec.target.Some? && sec.target.value.Candidates? then Err("toolConfig.rules.target?.split is not a function")
          else Err(PromiseArgument)
        else
          match sec.target
          case None => Ok("")
          case Some(Single(p)) => Ok(ExpandHome(ctx.home, p))
          case Some(Candidates(_)) => Err("filepath.startsWith is not a function")
  }

  /** The direct branch converts `.md` rules to `.mdc` for a `.claude` source going to cursor. */
  predicate NeedsConversion(src: Path, tool: string) {
    EndsWith(Render(src), ".claude") && tool == "cursor"
  }

  // ------------------------------------------------------------ branches

  /**
   * `migrateSingleFile(tool, results)`: the file is copied to the rules
   * file; a copy that does not succeed, failed or skipped, counts as a skip.
   */
  function SingleFileSpec(n: Nodes, failing: set<Path>, ctx: Context, src: Path, tool: string): (r: (Result<Stats>, Nodes))
    requires ctx.Valid()
    ensures r.0.Err? <==> TargetFile(ctx, tool).Err?
    ensures r.0.Err? ==> r.0.error == TargetFile(ctx, tool).error && r.1 == n
    ensures r.0.Ok? ==> r.0.value.error == 0 && r.0.value.errors == [] && r.0.value.Total() == 1
    ensures r.0.Ok? ==>
      var target := Resolve(ctx.cwd, TargetFile(ctx, tool).value);
      && r.1 == CopyFileSafeSpec(n, failing, src, target, ctx.options.autoOverwrite).1
      && (r.0.value.success == 1 <==> CopyFileSafeSpec(n, failing, src, target, ctx.options.autoOverwrite).0.success)
      && (r.0.value.success == 1 ==> src in n && n[src].File? && target in r.1 && r.1[target] == n[src])
  {
    match TargetFile(ctx, tool)
    case Err(m) => (Err(m), n)
    case Ok(t) =>
      var (c, n1) := CopyFileSafeSpec(n, failing, src, Resolve(ctx.cwd, t), ctx.options.autoOverwrite);
      (Ok(if c.success then Stats(1, 0, 0, []) else Stats(0, 1, 0, [])), n1)
  }

  /**
   * `migrateWithCustomMerge(tool, results)`: the tool's hook runs on the
   * source directory and the rules file; it counts one success, or one
   * error naming the rules file when it throws.
   */
  function CustomMergeSpec(n: Nodes, ctx: Context, src: Path, tool: string,
                           merge: (Nodes, Path, Path) -> Result<Nodes>): (r: (Result<Stats>, Nodes))
    requires ctx.Valid()
    ensures r.0.Err? <==> TargetFile(ctx, tool).Err?
    ensures r.0.Err? ==> r.0.error == TargetFile(ctx, tool).error && r.1 == n
    ensures r.0.Ok? ==> r.0.value.Consistent() && r.0.value.skipped == 0 && r.0.value.Total() == 1
    ensures r.0.Ok? ==> match merge(n, src, Resolve(ctx.cwd, TargetFile(ctx, tool).value))
                        case Ok(n1) => r.0.value.success == 1 && r.1 == n1
                        case Err(m) => r.0.value.errors == [MigrationError(TargetFile(ctx, tool).value, m)] && r.1 == n
  {
    match TargetFile(ctx, tool)
    case Err(m) => (Err(m), n)
    case Ok(t) =>
      match merge(n, src, Resolve(ctx.cwd, t))
      case Ok(n1) => (Ok(Stats(1, 0, 0, [])), n1)
      case Err(m) => (Ok(Stats(0, 0, 1, [MigrationError(t, m)])), n)
  }

  /**
   * `migrateWithMerge(tool, results)`: `mergeRules` into the rules file;
   * one success, or one error naming the rules file when it throws.
   */
  function MergeWithSpec(n: Nodes, failing: set<Path>, ctx: Context, src: Path, tool: string): (r: (Result<Stats>, Nodes))
    requires ctx.Valid()
    ensures r.0.Err? <==> TargetFile(ctx, tool).Err?
    ensures r.0.Err? ==> r.0.error == TargetFile(ctx, tool).error && r.1 == n
    ensures r.0.Ok? ==> r.0.value.Consistent() && r.0.value.skipped == 0 && r.0.value.Total() == 1
    ensures r.0.Ok? ==>
      var (e, n1) := MergeSpec(n, failing, src, Resolve(ctx.cwd, TargetFile(ctx, tool).value), ctx.codecs.yaml);
      r.1 == n1 && (e.None? <==> r.0.value.success == 1)
      && (e.Some? ==> r.0.value.errors == [MigrationError(TargetFile(ctx, tool).value, e.value)])
  {
    match TargetFile(ctx, tool)
    case Err(m) => (Err(m), n)
    case Ok(t) =>
      var (e, n1) := MergeSpec(n, failing, src, Resolve(ctx.cwd, t), ctx.codecs.yaml);
      (Ok(if e.None? then Stats(1, 0, 0, []) else Stats(0, 0, 1, [MigrationError(t, e.value)])), n1)
  }

  /**
   * `migrateDirect(tool, targetDir, results)`: the tool's `rules.transform`
   * walk, else the `.md`-to-`.mdc` walk, else `copyDirectory`.
   */
  ghost function DirectSpec(n: Nodes, failing: set<Path>, sec: Section, src: Path, tool: string, dst: Path, over: bool): (r: (Stats, Nodes))
    requires NotNested(src, dst)
  {
    match sec.transform
    case Some(f) => WalkDir(n, failing, Transform(f), src, dst, over, Stats(0, 0, 0, []))
    case None =>
      if NeedsConversion(src, tool) then WalkDir(n, failing, ConvertMd(MdcContent), src, dst, over, Stats(0, 0, 0, []))
      else WalkDir(n, failing, PlainCopy, src, dst, over, Stats(0, 0, 0, []))
  }

  /** The walk the direct branch performs. */
  function DirectAction(sec: Section, src: Path, tool: string): Action {
    match sec.transform
    case Some(f) => Transform(f)
    case None => if NeedsConversion(src, tool) then ConvertMd(MdcContent) else PlainCopy
  }

  /** The direct branch is one walk from zero, whose action follows the precedence transform, conversion, copy. */
  lemma DirectIsWalk(n: Nodes, failing: set<Path>, sec: Section, src: Path, tool: string, dst: Path, over: bool)
    requires NotNested(src, dst)
    ensures DirectSpec(n, failing, sec, src, tool, dst, over)
         == WalkDir(n, failing, DirectAction(sec, src, tool), src, dst, over, Stats(0, 0, 0, []))
    ensures DirectAction(sec, src, tool).Transform? <==> sec.transform.Some?
    ensures DirectAction(sec, src, tool).ConvertMd? <==> sec.transform.None? && NeedsConversion(src, tool)
  {
  }

  // ------------------------------------------------------------ dispatch

  /**
   * The tools whose rules directory is walked into the target directory;
   * only that walk needs the source and the target to be the same
   * directory or apart.
   */
  predicate WalksDirect(tools: Registry, tool: string) {
    && Lookup(tools, tool).Some? && Lookup(tools, tool).value.rules.Some?
    && Lookup(tools, tool).value.rules.value.customMerge.None?
    && !Lookup(tools, tool).value.rules.value.merge
  }

  /**
   * `migrateForTool(tool, targetDir)` for the source `src` and the target
   * directory `dst`.
   */
  ghost function MigrateForToolSpec(n: Nodes, failing: set<Path>, ctx: Context, src: Path, tool: string, dst: Path): (r: (Result<Stats>, Nodes))
    requires ctx.Valid()
    requires src in n && n[src].Dir? && WalksDirect(ctx.tools, tool) ==> NotNested(src, dst)
  {
    if src !in n then (Ok(Stats(0, 0, 1, [MigrationError(Render(src), Message(MissingCode(n, src)))])), n)
    else if n[src].File? then SingleFileSpec(n, failing, ctx, src, tool)
    else
      match Lookup(ctx.tools, tool)
      case None => (Err(UndefinedRead("rules")), n)
      case Some(tc) =>
        match tc.rules
        case None => (Err(UndefinedRead("customMerge")), n)
        case Some(sec) =>
          match sec.customMerge
          case Some(g) => CustomMergeSpec(n, ctx, src, tool, g)
          case None =>
            if sec.merge then MergeWithSpec(n, failing, ctx, src, tool)
            else
              var (s, n1) := DirectSpec(n, failing, sec, src, tool, dst, ctx.options.autoOverwrite);
              (Ok(s), n1)
  }

  // ------------------------------------------------------------ properties

  /**
   * A missing source is exactly one error naming it, with nothing
   * written; whatever throws leaves the tree alone; every result keeps
   * one recorded error per counted error; a single file, a merge and a
   * custom merge count exactly once, and a single file never errors; a
   * direct walk counts every file of the source tree once (onto itself,
   * once its listings name no entry twice).
   */
  lemma MigrateForToolCounts(n: Nodes, failing: set<Path>, ctx: Context, src: Path, tool: string, dst: Path)
    requires ctx.Valid()
    requires src in n && n[src].Dir? && WalksDirect(ctx.tools, tool) ==> NotNested(src, dst)
    ensures var (r, n1) := MigrateForToolSpec(n, failing, ctx, src, tool, dst);
      && (src !in n ==> r == Ok(Stats(0, 0, 1, [MigrationError(Render(src), Message(MissingCode(n, src)))])) && n1 == n)
      && (r.Err? ==> src in n && n1 == n)
      && (r.Ok? ==> r.value.Consistent())
      && (src in n && n[src].File? && r.Ok? ==> r.value.Total() == 1 && r.value.error == 0)
      && (src in n && !n[src].File? && r.Ok? ==>
            var sec := Lookup(ctx.tools, tool).value.rules.value;
            && (sec.customMerge.Some? || sec.merge ==> r.value.Total() == 1)
            && (sec.customMerge.None? && !sec.merge && (src == dst ==> UniqueBelow(n, src)) ==>
                  r.value.Total() == Visits(n, failing, src)))
  {
    if src in n && !n[src].File? {
      match Lookup(ctx.tools, tool)
      case None =>
      case Some(tc) =>
        match tc.rules
        case None =>
        case Some(sec) =>
          if sec.customMerge.None? && !sec.merge {
            var over := ctx.options.autoOverwrite;
            var action := DirectAction(sec, src, tool);
            DirectIsWalk(n, failing, sec, src, tool, dst, over);
            WalkConsistent(n, failing, action, src, dst, over, Stats(0, 0, 0, []));
            if src == dst ==> UniqueBelow(n, src) {
              WalkCounts(n, failing, action, src, dst, over, Stats(0, 0, 0, []));
            }
          }
    }
  }

  /**
   * A single-file source ignores `customMerge`, `merge` and `transform`:
   * two registries that agree on the rules file give the same result.
   */
  lemma SingleFileIgnoresFlags(n: Nodes, failing: set<Path>, ctx: Context, tools: Registry, src: Path, tool: string, dst: Path)
    requires ctx.Valid()
    requires src in n && n[src].File?
    requires TargetFile(ctx.(tools := tools), tool) == TargetFile(ctx, tool)
    ensures MigrateForToolSpec(n, failing, ctx.(tools := tools), src, tool, dst) == MigrateForToolSpec(n, failing, ctx, src, tool, dst)
  {
    var ctx2 := ctx.(tools := tools);
    assert ctx2.cwd == ctx.cwd && ctx2.options == ctx.options && ctx2.Valid();
    assert SingleFileSpec(n, failing, ctx2, src, tool) == SingleFileSpec(n, failing, ctx, src, tool);
  }

  // -------------------------------------------------------------- methods

  /** `migrateSingleFile(tool, results)`. */
  method MigrateSingleFile(fs: FileSystem, ctx: Context, src: Path, tool: string) returns (r: Result<Stats>)
    requires ctx.Valid()
    modifies fs
    ensures (r, fs.nodes) == SingleFileSpec(old(fs.nodes), fs.failing, ctx, src, tool)
  {
    var target := TargetFile(ctx, tool);
    if target.Err? {
      return Err(target.error);
    }
    var result := fs.CopyFileSafe(src, Resolve(ctx.cwd, target.value), ctx.options.autoOverwrite);
    if result.success {
      r := Ok(Stats(1, 0, 0, []));
    } else {
      r := Ok(Stats(0, 1, 0, []));
    }
  }

  /** `migrateWithCustomMerge(tool, results)`; the hook's effect on the tree is its result. */
  method MigrateWithCustomMerge(fs: FileSystem, ctx: Context, src: Path, tool: string, merge: (Nodes, Path, Path) -> Result<Nodes>)
    returns (r: Result<Stats>)
    requires ctx.Valid()
    modifies fs
    ensures (r, fs.nodes) == CustomMergeSpec(old(fs.nodes), ctx, src, tool, merge)
  {
    var target := TargetFile(ctx, tool);
    if target.Err? {
      return Err(target.error);
    }
    var merged := merge(fs.nodes, src, Resolve(ctx.cwd, target.value));
    if merged.Ok? {
      fs.nodes := merged.value;
      r := Ok(Stats(1, 0, 0, []));
    } else {
      r := Ok(Stats(0, 0, 1, [MigrationError(target.value, merged.error)]));
    }
  }

  /** `migrateWithMerge(tool, results)`. */
  method MigrateWithMerge(fs: FileSystem, ctx: Context, src: Path, tool: string) returns (r: Result<Stats>)
    requires ctx.Valid()
    modifies fs
    ensures (r, fs.nodes) == MergeWithSpec(old(fs.nodes), fs.failing, ctx, src, tool)
  {
    var target := TargetFile(ctx, tool);
    if target.Err? {
      return Err(target.error);
    }
    var e := MergeRules(fs, src, Resolve(ctx.cwd, target.value), ctx.codecs.yaml);
    if e.None? {
      r := Ok(Stats(1, 0, 0, []));
    } else {
      r := Ok(Stats(0, 0, 1, [MigrationError(target.value, e.value)]));
    }
  }

  /** `migrateDirect(tool, targetDir, results)` with `copyWithTransform` and `copyWithConversion`. */
  method MigrateDirect(fs: FileSystem, sec: Section, src: Path, tool: string, dst: Path, over: bool) returns (r: Stats)
    requires NotNested(src, dst)
    modifies fs
    ensures (r, fs.nodes) == DirectSpec(old(fs.nodes), fs.failing, sec, src, tool, dst, over)
  {
    if sec.transform.Some? {
      r := fs.Walk(Transform(sec.transform.value), src, dst, over, Stats(0, 0, 0, []));
    } else if NeedsConversion(src, tool) {
      r := fs.Walk(ConvertMd(MdcContent), src, dst, over, Stats(0, 0, 0, []));
    } else {
      var stats := fs.CopyDirectory(src, dst, over);
      SumZero(stats);
      r := Sum(Stats(0, 0, 0, []), stats);
    }
  }

  /** `RulesMigrator.migrateForTool(tool, targetDir)`. */
  method MigrateForTool(fs: FileSystem, ctx: Context, src: Path, tool: string, dst: Path) returns (r: Result<Stats>)
    requires ctx.Valid()
    requires src in fs.nodes && fs.nodes[src].Dir? && WalksDirect(ctx.tools, tool) ==> NotNested(src, dst)
    modifies fs
    ensures (r, fs.nodes) == MigrateForToolSpec(old(fs.nodes), fs.failing, ctx, src, tool, dst)
  {
    var kind := fs.Stat(src);
    if kind.Failed? {
      return Ok(Stats(0, 0, 1, [MigrationError(Render(src), Message(kind.code))]));
    }
    if kind.value.FileKind? {
      r := MigrateSingleFile(fs, ctx, src, tool);
      return;
    }
    var tc := Lookup(ctx.tools, tool);
    if tc.None? {
      return Err(UndefinedRead("rules"));
    }
    if tc.value.rules.None? {
      return Err(UndefinedRead("customMerge"));
    }
    var sec := tc.value.rules.value;
    if sec.customMerge.Some? {
      r := MigrateWithCustomMerge(fs, ctx, src, tool, sec.customMerge.value);
    } else if sec.merge {
      r := MigrateWithMerge(fs, ctx, src, tool);
    } else {
      var stats := MigrateDirect(fs, sec, src, tool, dst, ctx.options.autoOverwrite);
      r := Ok(stats);
    }
  }
}

=== FILE: rules_merger.dfy ===
/**
 * src/lib/converters/rules-merger.ts: the `.mdc` rule files of a
 * directory, sorted by name, become one Markdown document with a header
 * naming them and one section per file.
 */
module RulesMerger {
  import opened Wrappers
  import opened Strs
  import opened Json
  import opened Fs
  import opened Frontmatter
  import opened FileSystem

  // ------------------------------------------------------------- ordering

  /** The default order of `Array.prototype.sort`: lexicographic by character. */
  predicate LexLe(a: string, b: string) {
    if a == "" then true
    else if b == "" then false
    else if a[0] != b[0] then a[0] < b[0]
    else LexLe(a[1..], b[1..])
  }

  lemma {:induction false} LexLeTotal(a: string, b: string)
    ensures LexLe(a, b) || LexLe(b, a)
  {
    if a != "" && b != "" && a[0] == b[0] {
      LexLeTotal(a[1..], b[1..]);
    }
  }

  lemma {:induction false} LexLeRefl(a: string)
    ensures LexLe(a, a)
  {
    if a != "" {
      LexLeRefl(a[1..]);
    }
  }

  lemma {:induction false} LexLeTrans(a: string, b: string, c: string)
    requires LexLe(a, b) && LexLe(b, c)
    ensures LexLe(a, c)
  {
    if a != "" && b != "" && c != "" && a[0] == b[0] == c[0] {
      LexLeTrans(a[1..], b[1..], c[1..]);
    }
  }

  lemma {:induction false} LexLeAntisym(a: string, b: string)
    requires LexLe(a, b) && LexLe(b, a)
    ensures a == b
  {
    if a != "" && b != "" {
      LexLeAntisym(a[1..], b[1..]);
      assert a == [a[0]] + a[1..] && b == [b[0]] + b[1..];
    }
  }

  predicate Sorted(xs: seq<string>) {
    forall i, j :: 0 <= i < j < |xs| ==> LexLe(xs[i], xs[j])
  }

  /** `x` inserted before the first element it precedes. */
  function Insert(x: string, xs: seq<string>): (r: seq<string>)
    ensures multiset(r) == multiset(xs) + multiset{x} && |r| == |xs| + 1
  {
    if xs == [] then [x]
    else if LexLe(x, xs[0]) then [x] + xs
    else
      assert xs == [xs[0]] + xs[1..];
      [xs[0]] + Insert(x, xs[1..])
  }

  /** Inserting into a sorted sequence keeps it sorted. */
  lemma {:induction false} InsertSorted(x: string, xs: seq<string>)
    requires Sorted(xs)
    ensures Sorted(Insert(x, xs))
  {
    if xs == [] {
    } else if LexLe(x, xs[0]) {
      forall k | 0 <= k < |xs| ensures LexLe(x, xs[k]) {
        if k > 0 { LexLeTrans(x, xs[0], xs[k]); }
      }
      ConsSorted(x, xs);
    } else {
      InsertSorted(x, xs[1..]);
      LexLeTotal(x, xs[0]);
      InsertBounded(xs[0], x, xs[1..]);
      ConsSorted(xs[0], Insert(x, xs[1..]));
    }
  }

  /** A sorted sequence stays sorted under a new head that precedes all its elements. */
  lemma ConsSorted(h: string, xs: seq<string>)
    requires Sorted(xs) && forall k :: 0 <= k < |xs| ==> LexLe(h, xs[k])
    ensures Sorted([h] + xs)
  {
    var r := [h] + xs;
    forall i, j | 0 <= i < j < |r| ensures LexLe(r[i], r[j]) {
      assert r[j] == xs[j - 1];
      if i > 0 { assert r[i] == xs[i - 1]; }
    }
  }

  /** A lower bound of `xs` and of `x` is a lower bound of `x` inserted into `xs`. */
  lemma InsertBounded(h: string, x: string, xs: seq<string>)
    requires LexLe(h, x) && forall k :: 0 <= k < |xs| ==> LexLe(h, xs[k])
    ensures forall j :: 0 <= j < |Insert(x, xs)| ==> LexLe(h, Insert(x, xs)[j])
  {
    var r := Insert(x, xs);
    forall j | 0 <= j < |r| ensures LexLe(h, r[j]) {
      assert r[j] in multiset(r);
      if r[j] != x {
        assert r[j] in multiset(xs);
        var k :| 0 <= k < |xs| && xs[k] == r[j];
      }
    }
  }

  /** `names.sort()`: an insertion sort. */
  function SortNames(xs: seq<string>): (r: seq<string>)
    ensures multiset(r) == multiset(xs) && |r| == |xs|
  {
    if xs == [] then [] else
      assert xs == [xs[0]] + xs[1..];
      Insert(xs[0], SortNames(xs[1..]))
  }

  /** The sort's result is sorted. */
  lemma {:induction false} SortNamesSorted(xs: seq<string>)
    ensures Sorted(SortNames(xs))
  {
    if xs != [] {
      SortNamesSorted(xs[1..]);
      InsertSorted(xs[0], SortNames(xs[1..]));
    }
  }

  /**
   * A sorted permutation is unique, so the order of the merged sections
   * does not depend on the order the directory lists its entries in.
   */
  lemma {:induction false} SortedUnique(a: seq<string>, b: seq<string>)
    requires Sorted(a) && Sorted(b) && multiset(a) == multiset(b)
    ensures a == b
    decreases |a|
  {
    if a != [] {
      assert |b| == |a| by { assert |multiset(a)| == |multiset(b)|; }
      SortedHeads(a, b);
      TailMultiset(a);
      TailMultiset(b);
      SortedTail(a);
      SortedTail(b);
      SortedUnique(a[1..], b[1..]);
      assert a == [a[0]] + a[1..] && b == [b[0]] + b[1..];
    }
  }

  /** The tail of a sequence holds its elements but the head. */
  lemma TailMultiset(a: seq<string>)
    requires a != []
    ensures multiset(a[1..]) == multiset(a) - multiset{a[0]}
  {
    assert a == [a[0]] + a[1..];
  }

  /** The tail of a sorted sequence is sorted. */
  lemma SortedTail(a: seq<string>)
    requires a != [] && Sorted(a)
    ensures Sorted(a[1..])
  {
    forall i, j | 0 <= i < j < |a| - 1 ensures LexLe(a[1..][i], a[1..][j]) {
      assert a[1..][i] == a[i + 1] && a[1..][j] == a[j + 1];
    }
  }

  /** Two sorted permutations of each other start with the same element. */
  lemma SortedHeads(a: seq<string>, b: seq<string>)
    requires Sorted(a) && Sorted(b) && multiset(a) == multiset(b) && a != [] && b != []
    ensures a[0] == b[0]
  {
    assert a[0] in multiset(b) && b[0] in multiset(a);
    var i :| 0 <= i < |b| && b[i] == a[0];
    var j :| 0 <= j < |a| && a[j] == b[0];
    LexLeRefl(a[0]);
    assert LexLe(b[0], a[0]) by { if i > 0 { assert LexLe(b[0], b[i]); } }
    assert LexLe(a[0], b[0]) by { if j > 0 { assert LexLe(a[0], a[j]); } }
    LexLeAntisym(a[0], b[0]);
  }

  /** The sorted names depend only on which names there are, not on the listing order. */
  lemma SortOrderIndependent(xs: seq<string>, ys: seq<string>)
    requires multiset(xs) == multiset(ys)
    ensures SortNames(xs) == SortNames(ys)
  {
    SortNamesSorted(xs);
    SortNamesSorted(ys);
    SortedUnique(SortNames(xs), SortNames(ys));
  }

  // ----------------------------------------------------------- the document

  /** The names of a listing, as `readdir` without file types returns them. */
  function Names(entries: seq<DirEntry>): (r: seq<string>)
    ensures |r| == |entries| && forall k :: 0 <= k < |r| ==> r[k] == entries[k].name
  {
    seq(|entries|, k requires 0 <= k < |entries| => entries[k].name)
  }

  /** The names that end in `.mdc`, in listing order. */
  function MdcNames(names: seq<string>): (r: seq<string>)
    ensures forall x :: x in r <==> x in names && EndsWith(x, ".mdc")
    ensures (forall k :: 0 <= k < |names| ==> !EndsWith(names[k], ".mdc")) ==> r == []
  {
    if names == [] then []
    else
      var rest := MdcNames(names[1..]);
      assert forall x :: x in names <==> x == names[0] || x in names[1..] by {
        assert names == [names[0]] + names[1..];
      }
      if EndsWith(names[0], ".mdc") then [names[0]] + rest else rest
  }

  const Banner: string := "# IDE Rules\n\n"
  const Notice: string := "> 本文件由 IDE Rules 迁移脚本自动生成\n"
  const SourcesLabel: string := "> 源文件："
  const Rule: string := "---\n\n"

  /** The document header, listing the merged files. */
  function Header(files: seq<string>): (r: string)
    ensures StartsWith(r, Banner + Notice + SourcesLabel)
    ensures EndsWith(r, "\n\n" + Rule)
  {
    var r := Banner + Notice + SourcesLabel + Join(files, ", ") + "\n\n" + Rule;
    assert r[..|Banner + Notice + SourcesLabel|] == Banner + Notice + SourcesLabel;
    r
  }

  /** The section title: the `description` if truthy, otherwise the name without its first `.mdc`. */
  function Title(file: string, description: Json): string {
    ToStr(Or(description, JStr(ReplaceFirst(file, ".mdc", ""))))
  }

  /** One file's section, or the message of the `TypeError` a `null` frontmatter raises. */
  function Section(file: string, content: string, yaml: string -> Result<Json>): (r: Result<string>)
    ensures r.Err? <==> SplitDocument(content, yaml).Err?
    ensures r.Ok? ==>
              var (d, body) := SplitDocument(content, yaml).value;
              StartsWith(r.value, "## " + Title(file, d) + "\n\n")
              && EndsWith(r.value, body + "\n\n---\n\n")
              && |r.value| == |Title(file, d)| + |body| + 12
  {
    match SplitDocument(content, yaml)
    case Err(m) => Err(m)
    case Ok((d, body)) =>
      var s := "## " + Title(file, d) + "\n\n" + body + "\n\n---\n\n";
      assert s[..|"## " + Title(file, d) + "\n\n"|] == "## " + Title(file, d) + "\n\n";
      assert s[|s| - |body + "\n\n---\n\n"|..] == body + "\n\n---\n\n";
      Ok(s)
  }

  /** Two results in sequence: the first failure, or both texts joined. */
  function Then(a: Result<string>, b: Result<string>): (r: Result<string>)
    ensures r.Ok? <==> a.Ok? && b.Ok?
    ensures r.Ok? ==> r.value == a.value + b.value
    ensures a.Err? ==> r == a
    ensures a.Ok? && b.Err? ==> r == b
  {
    match a
    case Err(m) => Err(m)
    case Ok(s) =>
      match b
      case Err(m) => Err(m)
      case Ok(t) => Ok(s + t)
  }

  lemma ThenAssoc(a: Result<string>, b: Result<string>, c: Result<string>)
    ensures Then(Then(a, b), c) == Then(a, Then(b, c))
  {
    if a.Ok? && b.Ok? && c.Ok? {
      assert a.value + b.value + c.value == a.value + (b.value + c.value);
    }
  }

  /** One file's section as the loop body produces it: read, then render. */
  function FileSection(n: Nodes, failing: set<Path>, dir: Path, file: string, yaml: string -> Result<Json>): (r: Result<string>)
    ensures Fs.ReadFile(n, failing, dir + [file]).Failed? ==> r == Err(Message(Fs.ReadFile(n, failing, dir + [file]).code))
    ensures Fs.ReadFile(n, failing, dir + [file]).Done? ==> r == Section(file, Fs.ReadFile(n, failing, dir + [file]).value, yaml)
  {
    match Fs.ReadFile(n, failing, dir + [file])
    case Failed(e) => Err(Message(e))
    case Done(c) => Section(file, c, yaml)
  }

  /** The texts `f` gives for `names`, joined in order, or the first failure. */
  function Concat(names: seq<string>, f: string -> Result<string>): Result<string>
  {
    if names == [] then Ok("")
    else Then(Concat(names[..|names| - 1], f), f(names[|names| - 1]))
  }

  /** `FileSection` for every file of `dir`. */
  function SectionOf(n: Nodes, failing: set<Path>, dir: Path, yaml: string -> Result<Json>): (r: string -> Result<string>)
    ensures forall file :: r(file) == FileSection(n, failing, dir, file, yaml)
  {
    file => FileSection(n, failing, dir, file, yaml)
  }

  /**
   * The sections of `files` in order, or the message of the first failure
   * (an unreadable file, a `null` frontmatter).
   */
  function Sections(n: Nodes, failing: set<Path>, dir: Path, files: seq<string>, yaml: string -> Result<Json>): Result<string>
  {
    Concat(files, SectionOf(n, failing, dir, yaml))
  }

  /** Joined texts compose: those of `xs + ys` are those of `xs` followed by those of `ys`. */
  lemma {:induction false} ConcatAppend(xs: seq<string>, ys: seq<string>, f: string -> Result<string>)
    ensures Concat(xs + ys, f) == Then(Concat(xs, f), Concat(ys, f))
    decreases |ys|
  {
    if ys == [] {
      assert xs + ys == xs;
      var a := Concat(xs, f);
      if a.Ok? { assert a.value + "" == a.value; }
    } else {
      var zs := xs + ys;
      var ys' := ys[..|ys| - 1];
      assert zs[..|zs| - 1] == xs + ys';
      assert zs[|zs| - 1] == ys[|ys| - 1];
      ConcatAppend(xs, ys', f);
      ThenAssoc(Concat(xs, f), Concat(ys', f), f(ys[|ys| - 1]));
    }
  }

  /** The join over the first `i + 1` names is the join over the first `i`, then name `i`'s text. */
  lemma ConcatSnoc(names: seq<string>, f: string -> Result<string>, i: nat)
    requires i < |names|
    ensures Concat(names[..i + 1], f) == Then(Concat(names[..i], f), f(names[i]))
  {
    assert names[..i + 1][..i] == names[..i];
  }

  /** Once the join over the first `i + 1` names fails, the whole join fails the same way. */
  lemma ConcatFails(names: seq<string>, f: string -> Result<string>, i: nat)
    requires i < |names| && Concat(names[..i + 1], f).Err?
    ensures Concat(names, f) == Concat(names[..i + 1], f)
  {
    assert names == names[..i + 1] + names[i + 1..];
    ConcatAppend(names[..i + 1], names[i + 1..], f);
  }

  /** A successful join succeeds on every prefix of the names, and starts with that prefix's text. */
  lemma {:induction false} ConcatPrefix(names: seq<string>, f: string -> Result<string>, j: nat)
    requires j <= |names| && Concat(names, f).Ok?
    ensures Concat(names[..j], f).Ok? && StartsWith(Concat(names, f).value, Concat(names[..j], f).value)
    decreases |names|
  {
    if j == |names| {
      assert names[..j] == names;
      assert Concat(names, f).value[..|Concat(names, f).value|] == Concat(names, f).value;
    } else {
      var init := names[..|names| - 1];
      assert init[..j] == names[..j];
      ConcatPrefix(init, f, j);
      PrefixOfConcat(Concat(init, f).value, f(names[|names| - 1]).value, Concat(names[..j], f).value);
    }
  }

  /** A successful join covers each name's text, in order. */
  lemma ConcatEach(names: seq<string>, f: string -> Result<string>, i: nat)
    requires i < |names| && Concat(names, f).Ok?
    ensures f(names[i]).Ok? && Concat(names[..i], f).Ok?
    ensures StartsWith(Concat(names, f).value, Concat(names[..i], f).value + f(names[i]).value)
  {
    ConcatPrefix(names, f, i + 1);
    ConcatSnoc(names, f, i);
  }

  /** Sections compose: those of `xs + ys` are those of `xs` followed by those of `ys`. */
  lemma SectionsAppend(n: Nodes, failing: set<Path>, dir: Path, xs: seq<string>, ys: seq<string>, yaml: string -> Result<Json>)
    ensures Sections(n, failing, dir, xs + ys, yaml)
         == Then(Sections(n, failing, dir, xs, yaml), Sections(n, failing, dir, ys, yaml))
  {
    ConcatAppend(xs, ys, SectionOf(n, failing, dir, yaml));
  }

  /** Each file contributes its section: a success covers every file's section, in order. */
  lemma SectionsEach(n: Nodes, failing: set<Path>, dir: Path, files: seq<string>, yaml: string -> Result<Json>, i: nat)
    requires i < |files| && Sections(n, failing, dir, files, yaml).Ok?
    ensures FileSection(n, failing, dir, files[i], yaml).Ok?
    ensures Sections(n, failing, dir, files[..i], yaml).Ok?
    ensures StartsWith(Sections(n, failing, dir, files, yaml).value,
                       Sections(n, failing, dir, files[..i], yaml).value + FileSection(n, failing, dir, files[i], yaml).value)
  {
    ConcatEach(files, SectionOf(n, failing, dir, yaml), i);
  }

  /** A file without a frontmatter block is titled by its name and copied whole. */
  lemma SectionWithoutFrontmatter(file: string, content: string, yaml: string -> Result<Json>)
    requires !StartsWith(content, "---\n")
    ensures Section(file, content, yaml) == Ok("## " + ReplaceFirst(file, ".mdc", "") + "\n\n" + content + "\n\n---\n\n")
  {
  }

  /**
   * A file `---\n<y>\n---\n<body>` whose frontmatter holds a non-empty
   * string description is titled by it and contributes only its body.
   */
  lemma SectionWithDescription(file: string, y: string, body: string, d: string, yaml: string -> Result<Json>)
    requires !Contains(y, "\n---") && !Contains(y + "\n", "---\n")
    requires yaml(y).Ok? && yaml(y).value.JObj? && Get(yaml(y).value.fields, "description") == JStr(d) && d != ""
    ensures Section(file, "---\n" + y + "\n---\n" + body, yaml) == Ok("## " + d + "\n\n" + body + "\n\n---\n\n")
  {
    BlockRoundTrip(y, body);
  }

  // ------------------------------------------------------------ mergeRules

  /** The state transition of `mergeRules(sourceDir, targetFile)`, with the message of what it throws. */
  function MergeSpec(n: Nodes, failing: set<Path>, dir: Path, target: Path, yaml: string -> Result<Json>): (r: (Option<string>, Nodes))
    ensures OnPath(n, r.1, target)
  {
    match ReadDir(n, failing, dir)
    case Failed(e) => (Some(Message(e)), n)
    case Done(entries) =>
      var files := SortNames(MdcNames(Names(entries)));
      if files == [] then (None, n)
      else
        match Sections(n, failing, dir, files, yaml)
        case Err(m) => (Some(m), n)
        case Ok(body) =>
          var (e1, n1) := EnsureDir(n, failing, Parent(target));
          OnPathParent(n, n1, target);
          if e1.Some? then (Some(Message(e1.value)), n1)
          else
            var (e2, n2) := Fs.WriteFile(n1, failing, target, Header(files) + body);
            OnPathTrans(n, n1, n2, target);
            (if e2.Some? then Some(Message(e2.value)) else None, n2)
  }

  /** A directory without `.mdc` files leaves the tree alone and raises nothing. */
  lemma NoRulesNoWrite(n: Nodes, failing: set<Path>, dir: Path, target: Path, yaml: string -> Result<Json>)
    requires ReadDir(n, failing, dir).Done?
    requires forall k :: 0 <= k < |ReadDir(n, failing, dir).value| ==> !EndsWith(ReadDir(n, failing, dir).value[k].name, ".mdc")
    ensures MergeSpec(n, failing, dir, target, yaml) == (None, n)
  {
    var entries := ReadDir(n, failing, dir).value;
    var m := MdcNames(Names(entries));
    assert m == [];
  }

  /**
   * A merge that raises nothing and found rule files wrote the header
   * (naming the files in sorted order) followed by their sections.
   */
  lemma MergeWritesDocument(n: Nodes, failing: set<Path>, dir: Path, target: Path, yaml: string -> Result<Json>)
    requires ReadDir(n, failing, dir).Done?
    requires MdcNames(Names(ReadDir(n, failing, dir).value)) != []
    requires MergeSpec(n, failing, dir, target, yaml).0.None?
    ensures var files := SortNames(MdcNames(Names(ReadDir(n, failing, dir).value)));
            var r := MergeSpec(n, failing, dir, target, yaml).1;
            Sorted(files) && Sections(n, failing, dir, files, yaml).Ok?
            && target in r && r[target] == File(Header(files) + Sections(n, failing, dir, files, yaml).value)
  {
    var m := MdcNames(Names(ReadDir(n, failing, dir).value));
    var files := SortNames(m);
    assert m[0] in multiset(m);
    assert files != [];
    SortNamesSorted(m);
    var body := Sections(n, failing, dir, files, yaml);
    assert body.Ok?;
    var (e1, n1) := EnsureDir(n, failing, Parent(target));
    assert e1.None?;
    var (e2, n2) := Fs.WriteFile(n1, failing, target, Header(files) + body.value);
    assert MergeSpec(n, failing, dir, target, yaml) == (None, n2);
  }

  /** The loop of `mergeRules` over the sorted files: read each one and render its section. */
  method CollectSections(fs: FileSystem, dir: Path, files: seq<string>, yaml: string -> Result<Json>) returns (r: Result<string>)
    ensures r == Sections(fs.nodes, fs.failing, dir, files, yaml)
  {
    ghost var f := SectionOf(fs.nodes, fs.failing, dir, yaml);
    var content := "";
    var i := 0;
    assert files[..0] == [];
    while i < |files|
      invariant 0 <= i <= |files|
      invariant Concat(files[..i], f) == Ok(content)
    {
      var section := ReadSection(fs, dir, files[i], yaml);
      ConcatSnoc(files, f, i);
      if section.Err? {
        ConcatFails(files, f, i);
        return section;
      }
      content := content + section.value;
      i := i + 1;
    }
    assert files[..i] == files;
    r := Ok(content);
  }

  /** One pass of the loop body: the file is read and its section rendered. */
  method ReadSection(fs: FileSystem, dir: Path, file: string, yaml: string -> Result<Json>) returns (section: Result<string>)
    ensures section == FileSection(fs.nodes, fs.failing, dir, file, yaml)
  {
    var text := fs.ReadFile(dir + [file]);
    section := if text.Failed? then Err(Message(text.code)) else Section(file, text.value, yaml);
  }

  /**
   * `mergeRules(sourceDir, targetFile)`: the message of what it throws, or
   * None.
   */
  method MergeRules(fs: FileSystem, dir: Path, target: Path, yaml: string -> Result<Json>) returns (err: Option<string>)
    modifies fs
    ensures (err, fs.nodes) == MergeSpec(old(fs.nodes), fs.failing, dir, target, yaml)
  {
    var listing := fs.ReadDirectory(dir);
    if listing.Failed? {
      return Some(Message(listing.code));
    }
    var files := SortNames(MdcNames(Names(listing.value)));
    if |files| == 0 {
      return None;
    }
    var body := CollectSections(fs, dir, files, yaml);
    if body.Err? {
      return Some(body.error);
    }
    var e1 := fs.EnsureDirectoryExists(Parent(target));
    if e1.Some? {
      return Some(Message(e1.value));
    }
    var e2 := fs.WriteFile(target, Header(files) + body.value);
    err := if e2.Some? then Some(Message(e2.value)) else None;
  }
}

=== FILE: settings.dfy ===
/**
 * src/lib/migrators/settings.ts: the settings migrator's step for one tool.
 * The source settings document is read, the tool's existing settings (or
 * `{}`) are combined with it, and the result is written back: with
 * `autoOverwrite` every top-level source key replaces the target's value,
 * otherwise the two are deep-merged, whatever the tool's `merge` flag.
 */
module Settings {
  import opened Wrappers
  import opened Json
  import opened DeepMerge
  import opened Stats
  import opened Fs
  import opened Config
  import opened FileSystem
  import opened Paths
  import opened Migration

  /**
   * The settings document written from the existing target document and
   * the source document: the three branches of the policy, of which the
   * first and the last compute the same merge.
   */
  function Policy(target: Json, source: Json, merge: bool, over: bool): (r: map<string, Json>)
    ensures !over ==> r == Merge(Fields(target), Fields(source))
    ensures over ==> r.Keys == Fields(target).Keys + Fields(source).Keys
    ensures over ==> forall k :: k in Fields(source) ==> r[k] == Fields(source)[k]
    ensures forall k :: k in Fields(target) && k !in Fields(source) ==> r[k] == Fields(target)[k]
  {
    if merge && !over then Merge(Fields(target), Fields(source))
    else if over then Fields(target) + Fields(source)
    else Merge(Fields(target), Fields(source))
  }

  /** A value whose properties cannot be read or set: `null` or `undefined`. */
  predicate Nullish(v: Json) {
    v.Null? || v.Undefined?
  }

  /**
   * The message of the `TypeError` thrown when the settings target parsed
   * to `null` (or `undefined`): deep merge reads `target[key]`, the
   * overwrite loop assigns `targetConfig[key]`.
   */
  function NullTargetError(t: Json, over: bool): (r: string)
    ensures r != ""
  {
    "Cannot " + (if over then "set" else "read") + " properties of " + (if t.Null? then "null" else "undefined")
  }

  /**
   * The document the policy produces from the parsed target `t`, or the
   * `TypeError` it throws.  Deep merge reads `t[key]` for every defined
   * source key and the overwrite loop assigns `t[key]` for every source
   * key, so a nullish target throws exactly when there is such a key; an
   * overwrite with no source keys writes the target back as it was.
   */
  function Combine(t: Json, source: Json, merge: bool, over: bool): (r: Result<Json>)
    ensures r.Err? <==> Nullish(t) && (if over then Fields(source) != map[] else DefinedKeys(Fields(source)) != {})
    ensures r.Err? ==> r.error == NullTargetError(t, over)
    ensures t.JObj? ==> r == Ok(JObj(Policy(t, source, merge, over)))
    ensures r.Ok? && !over ==> r.value == JObj(Policy(t, source, merge, over))
    ensures r.Ok? && over && Fields(source) != map[] ==> r.value == JObj(Policy(t, source, merge, over))
    ensures over && Fields(source) == map[] ==> r == Ok(t)
  {
    if over && Fields(source) == map[] then
      assert Fields(t) + Fields(source) == Fields(t);
      Ok(t)
    else if Nullish(t) && (over || DefinedKeys(Fields(source)) != {}) then Err(NullTargetError(t, over))
    else Ok(JObj(Policy(t, source, merge, over)))
  }

  /** The settings the tool starts from: the parsed target when it exists, else `{}`. */
  function Existing(n: Nodes, failing: set<Path>, ctx: Context, dst: Path): (r: Result<Json>)
    ensures dst !in n ==> r == Ok(JObj(map[]))
    ensures dst in n ==> r == ReadParsed(n, failing, dst, ctx.codecs.parseJson)
  {
    if dst in n then ReadParsed(n, failing, dst, ctx.codecs.parseJson) else Ok(JObj(map[]))
  }

  /**
   * The guarded block of `migrateForTool`: the message of whatever throws,
   * with the tree it leaves.  A failing read leaves the tree as it was.
   */
  function TryMigrate(n: Nodes, failing: set<Path>, ctx: Context, src: Path, merge: bool, dst: Path): (r: (Option<string>, Nodes))
    ensures ReadParsed(n, failing, src, ctx.codecs.parseJson).Err? ==> r == (Some(ReadParsed(n, failing, src, ctx.codecs.parseJson).error), n)
    ensures ReadParsed(n, failing, src, ctx.codecs.parseJson).Ok? && Existing(n, failing, ctx, dst).Err? ==>
      r == (Some(Existing(n, failing, ctx, dst).error), n)
    ensures ReadParsed(n, failing, src, ctx.codecs.parseJson).Ok? && Existing(n, failing, ctx, dst).Ok? ==>
      var c := Combine(Existing(n, failing, ctx, dst).value, ReadParsed(n, failing, src, ctx.codecs.parseJson).value,
                       merge, ctx.options.autoOverwrite);
      c.Err? ==> r == (Some(c.error), n)
    ensures OnPath(n, r.1, dst)
    ensures r.0.None? ==>
      && ReadParsed(n, failing, src, ctx.codecs.parseJson).Ok?
      && Existing(n, failing, ctx, dst).Ok?
      && var c := Combine(Existing(n, failing, ctx, dst).value, ReadParsed(n, failing, src, ctx.codecs.parseJson).value,
                          merge, ctx.options.autoOverwrite);
         c.Ok? && ctx.codecs.printJson(c.value).Ok? && dst in r.1 && r.1[dst] == File(ctx.codecs.printJson(c.value).value)
  {
    match ReadParsed(n, failing, src, ctx.codecs.parseJson)
    case Err(m) => (Some(m), n)
    case Ok(source) =>
      match Existing(n, failing, ctx, dst)
      case Err(m) => (Some(m), n)
      case Ok(t) =>
        match Combine(t, source, merge, ctx.options.autoOverwrite)
        case Err(m) => (Some(m), n)
        case Ok(doc) => WriteSerialized(n, failing, dst, ctx.codecs.printJson(doc))
  }

  /**
   * `migrateForTool(tool, targetPath)` with `target` the target path as a
   * string: `Err` is the error thrown outside the guarded block, when the
   * registry has no entry for the tool.
   */
  function MigrateForToolSpec(n: Nodes, failing: set<Path>, ctx: Context, src: Path, tool: string, target: string): (r: (Result<Stats>, Nodes))
    requires ctx.Valid()
    ensures r.0.Err? <==> Lookup(ctx.tools, tool).None?
    ensures r.0.Err? ==> r == (Err(UndefinedRead("settings")), n)
    ensures r.0.Ok? ==> r.0.value.Consistent() && r.0.value.skipped == 0
    ensures r.0.Ok? ==> r.0.value.Total() == (if Lookup(ctx.tools, tool).value.settings.Some? then 1 else 0)
    ensures r.0.Ok? && Lookup(ctx.tools, tool).value.settings.None? ==> r.1 == n
    ensures r.0.Ok? ==> forall k :: 0 <= k < |r.0.value.errors| ==> r.0.value.errors[k].file == target
    ensures OnPath(n, r.1, Resolve(ctx.cwd, target))
  {
    match Lookup(ctx.tools, tool)
    case None => (Err(UndefinedRead("settings")), n)
    case Some(tc) =>
      match tc.settings
      case None => (Ok(Stats(0, 0, 0, [])), n)
      case Some(sec) =>
        var (e, n1) := TryMigrate(n, failing, ctx, src, sec.merge, Resolve(ctx.cwd, target));
        (Ok(if e.None? then Stats(1, 0, 0, []) else Stats(0, 0, 1, [MigrationError(target, e.value)])), n1)
  }

  // -------------------------------------------------------- properties

  /**
   * Running the migration again on its own output changes nothing: the
   * policy applied to the settings it wrote, with the same source, gives
   * the same settings.
   */
  lemma PolicyRerun(target: Json, source: Json, merge: bool, over: bool)
    ensures Policy(JObj(Policy(target, source, merge, over)), source, merge, over) == Policy(target, source, merge, over)
  {
    var r := Policy(target, source, merge, over);
    if !over {
      MergeIdempotent(Fields(target), Fields(source));
    } else {
      assert Fields(JObj(r)) == r;
      assert r + Fields(source) == r;
    }
  }

  /**
   * A successful tool writes the policy's document: the source settings
   * combined with the target's previous settings, or with `{}` when there
   * was no target.
   */
  lemma MigrateForToolWrites(n: Nodes, failing: set<Path>, ctx: Context, src: Path, tool: string, target: string)
    requires ctx.Valid()
    ensures var r := MigrateForToolSpec(n, failing, ctx, src, tool, target);
      var dst := Resolve(ctx.cwd, target);
      r.0.Ok? && r.0.value.success == 1 ==>
        && ReadParsed(n, failing, src, ctx.codecs.parseJson).Ok?
        && Existing(n, failing, ctx, dst).Ok?
        && var c := Combine(Existing(n, failing, ctx, dst).value, ReadParsed(n, failing, src, ctx.codecs.parseJson).value,
                            Lookup(ctx.tools, tool).value.settings.value.merge, ctx.options.autoOverwrite);
           c.Ok? && r.1[dst] == File(ctx.codecs.printJson(c.value).value)
  {
  }

  /**
   * A settings target whose content parses to `null` makes the tool fail:
   * when the source has a key the policy touches, the tool records one
   * error under the target path and writes nothing.
   */
  lemma NullTargetFails(n: Nodes, failing: set<Path>, ctx: Context, src: Path, tool: string, target: string)
    requires ctx.Valid()
    requires Lookup(ctx.tools, tool).Some? && Lookup(ctx.tools, tool).value.settings.Some?
    requires Existing(n, failing, ctx, Resolve(ctx.cwd, target)) == Ok(Null)
    requires ReadParsed(n, failing, src, ctx.codecs.parseJson).Ok?
    requires DefinedKeys(Fields(ReadParsed(n, failing, src, ctx.codecs.parseJson).value)) != {}
    ensures MigrateForToolSpec(n, failing, ctx, src, tool, target)
      == (Ok(Stats(0, 0, 1, [MigrationError(target, NullTargetError(Null, ctx.options.autoOverwrite))])), n)
  {
    var source := ReadParsed(n, failing, src, ctx.codecs.parseJson).value;
    var k :| k in DefinedKeys(Fields(source));
    assert k in Fields(source);
  }

  /** Without a previous settings file, overwrite mode writes the source settings as they are. */
  lemma PolicyFromNothing(source: Json, merge: bool)
    ensures Policy(JObj(map[]), source, merge, true) == Fields(source)
  {
    assert map[] + Fields(source) == Fields(source);
  }

  // ------------------------------------------------------------ methods

  /**
   * The `for…in` loop of overwrite mode: every top-level source key is
   * assigned into the target's settings, the other target keys are kept.
   */
  method ReplaceTopLevel(target: map<string, Json>, source: map<string, Json>) returns (r: map<string, Json>)
    ensures r.Keys == target.Keys + source.Keys
    ensures forall k :: k in source ==> r[k] == source[k]
    ensures forall k :: k in target && k !in source ==> r[k] == target[k]
  {
    r := target;
    var todo := source.Keys;
    while todo != {}
      invariant todo <= source.Keys
      invariant r.Keys == target.Keys + (source.Keys - todo)
      invariant forall k :: k in source && k !in todo ==> r[k] == source[k]
      invariant forall k :: k in target && (k !in source || k in todo) ==> r[k] == target[k]
      decreases todo
    {
      var k :| k in todo;
      r := r[k := source[k]];
      todo := todo - {k};
    }
  }

  /** `SettingsMigrator.migrateForTool(tool, targetPath)`. */
  method MigrateForTool(fs: FileSystem, ctx: Context, src: Path, tool: string, target: string) returns (r: Result<Stats>)
    requires ctx.Valid()
    modifies fs
    ensures (r, fs.nodes) == MigrateForToolSpec(old(fs.nodes), fs.failing, ctx, src, tool, target)
  {
    var toolConfig := Lookup(ctx.tools, tool);
    if toolConfig.None? {
      return Err(UndefinedRead("settings"));
    }
    if toolConfig.value.settings.None? {
      return Ok(Stats(0, 0, 0, []));
    }
    var merge := toolConfig.value.settings.value.merge;
    var dst := Resolve(ctx.cwd, target);
    ghost var n0 := fs.nodes;
    var err: Option<string>;
    var source := fs.ReadParsedFile(src, ctx.codecs.parseJson);
    if source.Err? {
      err := Some(source.error);
    } else {
      var targetConfig := Ok(JObj(map[]));
      if fs.FileExists(dst) {
        targetConfig := fs.ReadParsedFile(dst, ctx.codecs.parseJson);
      }
      if targetConfig.Err? {
        err := Some(targetConfig.error);
      } else {
        var t := targetConfig.value;
        var combined: Result<Json>;
        if merge && !ctx.options.autoOverwrite {
          combined := if Nullish(t) && DefinedKeys(Fields(source.value)) != {} then Err(NullTargetError(t, false))
                      else Ok(JObj(Merge(Fields(t), Fields(source.value))));
        } else if ctx.options.autoOverwrite {
          if Fields(source.value) == map[] {
            combined := Ok(t);
          } else if Nullish(t) {
            combined := Err(NullTargetError(t, true));
          } else {
            var settings := ReplaceTopLevel(Fields(t), Fields(source.value));
            assert settings == Fields(t) + Fields(source.value);
            combined := Ok(JObj(settings));
          }
        } else {
          combined := if Nullish(t) && DefinedKeys(Fields(source.value)) != {} then Err(NullTargetError(t, false))
                      else Ok(JObj(Merge(Fields(t), Fields(source.value))));
        }
        assert combined == Combine(t, source.value, merge, ctx.options.autoOverwrite);
        if combined.Err? {
          err := Some(combined.error);
        } else {
          err := fs.WriteSerializedFile(dst, ctx.codecs.printJson(combined.value));
        }
      }
    }
    assert (err, fs.nodes) == TryMigrate(n0, fs.failing, ctx, src, merge, dst);
    r := Ok(if err.None? then Stats(1, 0, 0, []) else Stats(0, 0, 1, [MigrationError(target, err.value)]));
  }
}

=== FILE: skills.dfy ===
/**
 * src/lib/migrators/skills.ts: the skills migrator's step for one tool.  A
 * tool with its own `skills.transform` gets the transform applied to every
 * top-level Markdown file, skipping a target that exists unless
 * `autoOverwrite` is set; every other tool gets the directory copied.
 */
module Skills {
  import opened Wrappers
  import opened Stats
  import opened Fs
  import opened Walk
  import opened Config
  import opened FileSystem
  import opened Migration

  /** The tool's own `skills.transform`, if the registry has one. */
  function SkillTransform(tools: Registry, tool: string): (r: Option<(string, string) -> Result<string>>)
    ensures r.Some? ==> Lookup(tools, tool).Some? && Lookup(tools, tool).value.skills.transform == r
    ensures Lookup(tools, tool).Some? ==> r == Lookup(tools, tool).value.skills.transform
  {
    match Lookup(tools, tool)
    case None => None
    case Some(tc) => tc.skills.transform
  }

  /**
   * The tools whose skills directory is copied as a tree; only that walk
   * needs the source and the target to be the same directory or apart.
   */
  predicate CopiesTree(tools: Registry, tool: string) {
    SkillTransform(tools, tool).None?
  }

  /**
   * One file of `migrateWithTransform`: the walk step of a transforming
   * walk on the top-level file `file` (skip an existing target without
   * `autoOverwrite`, else read, transform, ensure the directory, write).
   */
  function SkillStepOf(failing: set<Path>, src: Path, dst: Path, transform: (string, string) -> Result<string>, over: bool): FileStep {
    (m: Nodes, f: string) => StepSpec(m, failing, Transform(transform), src + [f], dst, f, over)
  }

  /**
   * `migrateForTool(tool, targetDir)` for the source directory `src` and
   * the target directory `dst`; it never throws.
   */
  ghost function MigrateForToolSpec(n: Nodes, failing: set<Path>, ctx: Context, src: Path, tool: string, dst: Path): (r: (Stats, Nodes))
    requires CopiesTree(ctx.tools, tool) ==> NotNested(src, dst)
  {
    match SkillTransform(ctx.tools, tool)
    case Some(f) =>
      Tally(n, MarkdownFiles(n, failing, src), SkillStepOf(failing, src, dst, f, ctx.options.autoOverwrite), Stats(0, 0, 0, []))
    case None =>
      WalkDir(n, failing, PlainCopy, src, dst, ctx.options.autoOverwrite, Stats(0, 0, 0, []))
  }

  lemma SkillStepShape(failing: set<Path>, src: Path, dst: Path, f: (string, string) -> Result<string>, over: bool)
    ensures FailsUnderName(SkillStepOf(failing, src, dst, f, over))
    ensures over ==> NeverSkips(SkillStepOf(failing, src, dst, f, over))
  {
    var step := SkillStepOf(failing, src, dst, f, over);
    forall m, x
      ensures (step(m, x).0.Fail? ==> step(m, x).0.file == x) && (over ==> !step(m, x).0.Skip?)
    {
      assert step(m, x) == StepSpec(m, failing, Transform(f), src + [x], dst, x, over);
    }
  }

  /**
   * The counts of one tool: one recorded error per counted error; with a
   * transform every listed Markdown file is counted exactly once, its error
   * recorded under its own name, and nothing is skipped with
   * `autoOverwrite`; the copy counts every file of the tree once (onto
   * itself, once its listings name no entry twice).
   */
  lemma MigrateForToolCounts(n: Nodes, failing: set<Path>, ctx: Context, src: Path, tool: string, dst: Path)
    requires CopiesTree(ctx.tools, tool) ==> NotNested(src, dst)
    ensures var r := MigrateForToolSpec(n, failing, ctx, src, tool, dst).0;
      && r.Consistent()
      && (SkillTransform(ctx.tools, tool).Some? ==>
            && r.Total() == |MarkdownFiles(n, failing, src)|
            && (ctx.options.autoOverwrite ==> r.skipped == 0)
            && forall k :: 0 <= k < |r.errors| ==> r.errors[k].file in MarkdownFiles(n, failing, src))
      && (CopiesTree(ctx.tools, tool) && (src == dst ==> UniqueBelow(n, src)) ==>
            r.Total() == Visits(n, failing, src))
  {
    var over := ctx.options.autoOverwrite;
    match SkillTransform(ctx.tools, tool)
    case Some(f) =>
      SkillStepShape(failing, src, dst, f, over);
      TallyCounts(n, MarkdownFiles(n, failing, src), SkillStepOf(failing, src, dst, f, over), Stats(0, 0, 0, []));
    case None =>
      WalkConsistent(n, failing, PlainCopy, src, dst, over, Stats(0, 0, 0, []));
      if src == dst ==> UniqueBelow(n, src) {
        WalkCounts(n, failing, PlainCopy, src, dst, over, Stats(0, 0, 0, []));
      }
  }

  /** `migrateWithTransform(targetDir, results, tool)`. */
  method MigrateWithTransform(fs: FileSystem, src: Path, dst: Path, transform: (string, string) -> Result<string>, over: bool)
    returns (r: Stats)
    modifies fs
    ensures (r, fs.nodes) == Tally(old(fs.nodes), MarkdownFiles(old(fs.nodes), fs.failing, src),
                                   SkillStepOf(fs.failing, src, dst, transform, over), Stats(0, 0, 0, []))
  {
    var files := fs.GetMarkdownFiles(src);
    ghost var n0 := fs.nodes;
    ghost var step := SkillStepOf(fs.failing, src, dst, transform, over);
    r := Stats(0, 0, 0, []);
    var i := 0;
    while i < |files|
      invariant 0 <= i <= |files|
      invariant (r, fs.nodes) == Tally(n0, files[..i], step, Stats(0, 0, 0, []))
    {
      var file := files[i];
      ghost var before := fs.nodes;
      TallyStep(n0, files, i, step, Stats(0, 0, 0, []));
      var o := fs.Step(Transform(transform), src + [file], dst, file, over);
      assert step(before, file) == StepSpec(before, fs.failing, Transform(transform), src + [file], dst, file, over);
      r := Record(r, o);
      i := i + 1;
    }
    assert files[..i] == files;
  }

  /** `SkillsMigrator.migrateForTool(tool, targetDir)`. */
  method MigrateForTool(fs: FileSystem, ctx: Context, src: Path, tool: string, dst: Path) returns (r: Stats)
    requires CopiesTree(ctx.tools, tool) ==> NotNested(src, dst)
    modifies fs
    ensures (r, fs.nodes) == MigrateForToolSpec(old(fs.nodes), fs.failing, ctx, src, tool, dst)
  {
    ghost var n0 := fs.nodes;
    var transform := SkillTransform(ctx.tools, tool);
    if transform.Some? {
      assert MigrateForToolSpec(n0, fs.failing, ctx, src, tool, dst)
          == Tally(n0, MarkdownFiles(n0, fs.failing, src),
                   SkillStepOf(fs.failing, src, dst, transform.value, ctx.options.autoOverwrite), Stats(0, 0, 0, []));
      r := MigrateWithTransform(fs, src, dst, transform.value, ctx.options.autoOverwrite);
    } else {
      assert MigrateForToolSpec(n0, fs.failing, ctx, src, tool, dst)
          == WalkDir(n0, fs.failing, PlainCopy, src, dst, ctx.options.autoOverwrite, Stats(0, 0, 0, []));
      var stats := fs.CopyDirectory(src, dst, ctx.options.autoOverwrite);
      SumZero(stats);
      r := Sum(Stats(0, 0, 0, []), stats);
    }
  }
}

=== FILE: stats.dfy ===
/**
 * The counters every migrator and directory walk returns
 * (`MigrationStats`, `CopyDirectoryResults`): successes, skips, errors and
 * the list of recorded errors, with `sumStats` and the per-file tally.
 */
module Stats {

  /** One recorded failure: the file (or tool) it concerns and a message. */
  datatype MigrationError = MigrationError(file: string, error: string)

  datatype Stats = Stats(success: nat, skipped: nat, error: nat, errors: seq<MigrationError>)
  {
    /** The invariant every result keeps: one recorded error per counted error. */
    predicate Consistent() {
      |errors| == error
    }

    /** Everything this result has counted. */
    function Total(): nat {
      success + skipped + error
    }

    /** `results.error++; results.errors.push({file, error})`. */
    function AddError(file: string, message: string): (r: Stats)
      ensures r.success == success && r.skipped == skipped && r.error == error + 1
      ensures r.errors == errors + [MigrationError(file, message)]
      ensures Consistent() ==> r.Consistent()
    {
      Stats(success, skipped, error + 1, errors + [MigrationError(file, message)])
    }

    function AddSuccess(): (r: Stats)
      ensures r == Stats(success + 1, skipped, error, errors)
    {
      this.(success := success + 1)
    }

    function AddSkipped(): (r: Stats)
      ensures r == Stats(success, skipped + 1, error, errors)
    {
      this.(skipped := skipped + 1)
    }
  }

  /** `sumStats(base, addition)`: field-wise sum, errors appended. */
  function Sum(base: Stats, addition: Stats): (r: Stats)
    ensures r.Total() == base.Total() + addition.Total()
    ensures r.errors == base.errors + addition.errors
  {
    Stats(base.success + addition.success, base.skipped + addition.skipped,
          base.error + addition.error, base.errors + addition.errors)
  }

  /** Summing keeps the one-error-per-count invariant. */
  lemma SumConsistent(base: Stats, addition: Stats)
    requires base.Consistent() && addition.Consistent()
    ensures Sum(base, addition).Consistent()
  {
  }

  /** The empty tally `{ success: 0, skipped: 0, error: 0, errors: [] }` is neutral for summing. */
  lemma SumZero(a: Stats)
    ensures Sum(Stats(0, 0, 0, []), a) == a
    ensures Sum(a, Stats(0, 0, 0, [])) == a
  {
    assert [] + a.errors == a.errors;
    assert a.errors + [] == a.errors;
  }

  /** Sums associate, so tallies can be regrouped. */
  lemma SumAssoc(a: Stats, b: Stats, c: Stats)
    ensures Sum(Sum(a, b), c) == Sum(a, Sum(b, c))
  {
    var x, y, z := a.errors, b.errors, c.errors;
    assert (x + y) + z == x + (y + z);
  }

  /** What one regular file contributes to a walk. */
  datatype Outcome = Success | Skip | Fail(file: string, message: string)

  /** The increment a walk performs for one outcome. */
  function Record(s: Stats, o: Outcome): (r: Stats)
    ensures r.Total() == s.Total() + 1
    ensures s.Consistent() ==> r.Consistent()
    ensures o.Fail? <==> r.error == s.error + 1
    ensures o.Success? <==> r.success == s.success + 1
    ensures o.Skip? <==> r.skipped == s.skipped + 1
  {
    match o
    case Success => s.AddSuccess()
    case Skip => s.AddSkipped()
    case Fail(file, message) => s.AddError(file, message)
  }
}

=== FILE: strs.dfy ===
/**
 * String helpers that stand in for the JavaScript string methods the
 * source calls (`startsWith`, `endsWith`, `includes`, `replace` with a
 * string pattern, `join`, `trim`).  Strings are sequences of characters.
 */
module Strs {
  import opened Wrappers

  predicate StartsWith(s: string, prefix: string) {
    prefix <= s
  }

  lemma PrefixOfConcat(s: string, t: string, prefix: string)
    requires StartsWith(s, prefix)
    ensures StartsWith(s + t, prefix)
  {
    assert (s + t)[..|prefix|] == s[..|prefix|];
  }

  /** Concatenation of sequences regroups freely. */
  lemma Regroup<T>(a: seq<T>, b: seq<T>, c: seq<T>)
    ensures (a + b) + c == a + (b + c)
  {
  }

  predicate EndsWith(s: string, suffix: string) {
    |suffix| <= |s| && s[|s| - |suffix|..] == suffix
  }

  /** `pat` occurs in `s` at index `i`. */
  predicate OccursAt(s: string, pat: string, i: nat) {
    i + |pat| <= |s| && s[i..i + |pat|] == pat
  }

  /** The first index at or after `from` where `pat` occurs (`indexOf`). */
  function IndexOfFrom(s: string, pat: string, from: nat): (r: Option<nat>)
    decreases |s| - from
    ensures r.Some? ==> from <= r.value && OccursAt(s, pat, r.value)
    ensures r.Some? ==> forall j :: from <= j < r.value ==> !OccursAt(s, pat, j)
    ensures r.None? ==> forall j :: from <= j ==> !OccursAt(s, pat, j)
  {
    if from + |pat| > |s| then None
    else if s[from..from + |pat|] == pat then Some(from)
    else IndexOfFrom(s, pat, from + 1)
  }

  /** The first occurrence at or after `from` is the one `IndexOfFrom` finds. */
  lemma IndexOfFromIs(s: string, pat: string, from: nat, k: nat)
    requires from <= k && OccursAt(s, pat, k)
    requires forall j :: from <= j < k ==> !OccursAt(s, pat, j)
    ensures IndexOfFrom(s, pat, from) == Some(k)
  {
  }

  /** `s.includes(pat)`. */
  predicate Contains(s: string, pat: string) {
    IndexOfFrom(s, pat, 0).Some?
  }

  lemma NotOccurs(s: string, pat: string, i: nat)
    requires !Contains(s, pat)
    ensures !OccursAt(s, pat, i)
  {
  }

  lemma DiffersAt(s: string, pat: string, i: nat, k: nat)
    requires k < |pat| && i + k < |s| && s[i + k] != pat[k]
    ensures !OccursAt(s, pat, i)
  {
    if i + |pat| <= |s| {
      assert s[i..i + |pat|][k] == s[i + k];
    }
  }

  /** Inside a slice of `s` that equals `t`, the occurrences in `s` are those in `t`. */
  lemma OccursWithin(s: string, t: string, off: nat, pat: string, i: nat)
    requires off <= i && i + |pat| <= off + |t| <= |s| && s[off..off + |t|] == t
    ensures OccursAt(s, pat, i) <==> OccursAt(t, pat, i - off)
  {
    assert forall k :: i <= k < i + |pat| ==> s[k] == t[k - off];
    assert s[i..i + |pat|] == t[i - off..i - off + |pat|];
  }

  lemma ContainsAt(s: string, pat: string, i: nat)
    requires OccursAt(s, pat, i)
    ensures Contains(s, pat)
  {
  }

  /**
   * `s.replace(pat, rep)` with a string pattern: only the first occurrence
   * is replaced; without an occurrence `s` is returned unchanged.
   */
  function ReplaceFirst(s: string, pat: string, rep: string): (r: string)
    ensures !Contains(s, pat) ==> r == s
    ensures Contains(s, pat) ==>
      var i := IndexOfFrom(s, pat, 0).value;
      r == s[..i] + rep + s[i + |pat|..] && forall j: nat :: j < i ==> !OccursAt(s, pat, j)
  {
    match IndexOfFrom(s, pat, 0)
    case None => s
    case Some(i) => s[..i] + rep + s[i + |pat|..]
  }

  /** `pat` occurs nowhere in `s`. */
  ghost predicate Free(s: string, pat: string) {
    forall j: nat :: j + |pat| <= |s| ==> !OccursAt(s, pat, j)
  }

  /**
   * `s.split(pat)` for a non-empty string pattern: the pieces between the
   * occurrences found scanning from the left.
   */
  function SplitOn(s: string, pat: string): (r: seq<string>)
    requires pat != ""
    ensures |r| >= 1 && r[0] <= s
    ensures forall k :: 0 <= k < |r| ==> Free(r[k], pat)
    decreases |s|
  {
    if |s| < |pat| then [s]
    else if s[..|pat|] == pat then [""] + SplitOn(s[|pat|..], pat)
    else
      var rest := SplitOn(s[1..], pat);
      var first := [s[0]] + rest[0];
      assert first <= s;
      forall j: nat | j + |pat| <= |first|
        ensures !OccursAt(first, pat, j)
      {
        if j == 0 {
          assert first[..|pat|] == s[..|pat|];
        } else {
          assert first[j..j + |pat|] == rest[0][j - 1..j - 1 + |pat|];
          assert !OccursAt(rest[0], pat, j - 1);
        }
      }
      [first] + rest[1..]
  }

  /**
   * `s.replace(/pat/g, rep)` for a pattern without special characters:
   * every occurrence found scanning from the left is replaced.
   */
  function ReplaceAll(s: string, pat: string, rep: string): (r: string)
    requires pat != ""
    decreases |s|
  {
    if |s| < |pat| then s
    else if s[..|pat|] == pat then rep + ReplaceAll(s[|pat|..], pat, rep)
    else [s[0]] + ReplaceAll(s[1..], pat, rep)
  }

  /** Where `pat` does not occur, the global replacement changes nothing. */
  lemma {:induction false} ReplaceAllAbsent(s: string, pat: string, rep: string)
    requires pat != "" && Free(s, pat)
    ensures ReplaceAll(s, pat, rep) == s
    decreases |s|
  {
    if |s| >= |pat| {
      assert !OccursAt(s, pat, 0);
      assert Free(s[1..], pat) by {
        forall j: nat | j + |pat| <= |s[1..]| ensures !OccursAt(s[1..], pat, j) {
          assert !OccursAt(s, pat, j + 1);
          assert s[1..][j..j + |pat|] == s[j + 1..j + 1 + |pat|];
        }
      }
      ReplaceAllAbsent(s[1..], pat, rep);
      assert s == [s[0]] + s[1..];
    }
  }

  /** `parts.join(sep)`. */
  function Join(parts: seq<string>, sep: string): (r: string)
    ensures |parts| == 0 ==> r == ""
    ensures |parts| == 1 ==> r == parts[0]
  {
    if |parts| == 0 then ""
    else if |parts| == 1 then parts[0]
    else parts[0] + sep + Join(parts[1..], sep)
  }

  /**
   * Splitting on `pat` and joining with `pat` gives `s` back; joining with
   * `rep` instead is the global replacement, so it keeps every piece and
   * puts `rep` exactly where `pat` was.
   */
  lemma SplitOnJoin(s: string, pat: string, rep: string)
    requires pat != ""
    ensures Join(SplitOn(s, pat), pat) == s
    ensures Join(SplitOn(s, pat), rep) == ReplaceAll(s, pat, rep)
  {
    SplitOnJoinWith(s, pat, pat);
    ReplaceAllSelf(s, pat);
    SplitOnJoinWith(s, pat, rep);
  }

  /** Joining the pieces with `rep` is the global replacement of `pat` by `rep`. */
  lemma {:induction false} SplitOnJoinWith(s: string, pat: string, rep: string)
    requires pat != ""
    ensures Join(SplitOn(s, pat), rep) == ReplaceAll(s, pat, rep)
    decreases |s|
  {
    if |s| < |pat| {
    } else if s[..|pat|] == pat {
      var rest := SplitOn(s[|pat|..], pat);
      assert SplitOn(s, pat) == [""] + rest;
      assert ReplaceAll(s, pat, rep) == rep + ReplaceAll(s[|pat|..], pat, rep);
      SplitOnJoinWith(s[|pat|..], pat, rep);
      JoinCons("", rest, rep);
      assert "" + rep + Join(rest, rep) == rep + Join(rest, rep);
    } else {
      var rest := SplitOn(s[1..], pat);
      assert SplitOn(s, pat) == [[s[0]] + rest[0]] + rest[1..];
      assert ReplaceAll(s, pat, rep) == [s[0]] + ReplaceAll(s[1..], pat, rep);
      SplitOnJoinWith(s[1..], pat, rep);
      JoinHead(s[0], rest, rep);
    }
  }

  /** Replacing `pat` by itself changes nothing. */
  lemma {:induction false} ReplaceAllSelf(s: string, pat: string)
    requires pat != ""
    ensures ReplaceAll(s, pat, pat) == s
    decreases |s|
  {
    if |s| >= |pat| {
      if s[..|pat|] == pat {
        ReplaceAllSelf(s[|pat|..], pat);
        assert s == pat + s[|pat|..];
      } else {
        ReplaceAllSelf(s[1..], pat);
        assert s == [s[0]] + s[1..];
      }
    }
  }

  lemma JoinCons(x: string, xs: seq<string>, sep: string)
    requires |xs| >= 1
    ensures Join([x] + xs, sep) == x + sep + Join(xs, sep)
  {
    assert ([x] + xs)[1..] == xs;
  }

  lemma JoinHead(c: char, xs: seq<string>, sep: string)
    requires |xs| >= 1
    ensures Join([[c] + xs[0]] + xs[1..], sep) == [c] + Join(xs, sep)
  {
    if |xs| > 1 {
      JoinCons([c] + xs[0], xs[1..], sep);
      JoinCons(xs[0], xs[1..], sep);
      assert [xs[0]] + xs[1..] == xs;
    } else {
      assert [[c] + xs[0]] + xs[1..] == [[c] + xs[0]];
    }
  }

  /** The characters JavaScript's `String.prototype.trim` removes. */
  predicate IsWhitespace(c: char) {
    c == ' ' || c == '\t' || c == '\n' || c == '\r' || c == '\U{000B}' || c == '\U{000C}'
    || c == '\U{00A0}' || c == '\U{1680}' || ('\U{2000}' <= c <= '\U{200A}')
    || c == '\U{2028}' || c == '\U{2029}' || c == '\U{202F}' || c == '\U{205F}'
    || c == '\U{3000}' || c == '\U{FEFF}'
  }

  function TrimStart(s: string): (r: string)
    ensures |r| <= |s| && r == s[|s| - |r|..]
    ensures r == "" || !IsWhitespace(r[0])
    ensures forall i :: 0 <= i < |s| - |r| ==> IsWhitespace(s[i])
  {
    if |s| > 0 && IsWhitespace(s[0]) then TrimStart(s[1..]) else s
  }

  function TrimEnd(s: string): (r: string)
    ensures |r| <= |s| && r == s[..|r|]
    ensures r == "" || !IsWhitespace(r[|r| - 1])
    ensures forall i :: |r| <= i < |s| ==> IsWhitespace(s[i])
  {
    if |s| > 0 && IsWhitespace(s[|s| - 1]) then TrimEnd(s[..|s| - 1]) else s
  }

  /** `s.trim()`: leading and trailing whitespace removed, the middle kept. */
  function Trim(s: string): (r: string)
    ensures r == "" || (!IsWhitespace(r[0]) && !IsWhitespace(r[|r| - 1]))
    ensures exists a, b :: 0 <= a <= b <= |s| && r == s[a..b]
  {
    var t := TrimStart(s);
    var u := TrimEnd(t);
    assert u == s[|s| - |t|..|s| - |t| + |u|];
    u
  }

  /** Trimming is idempotent and ignores a leading line break. */
  lemma TrimStable(s: string)
    ensures Trim(Trim(s)) == Trim(s)
    ensures Trim("\n" + s) == Trim(s)
  {
    var r := Trim(s);
    assert TrimStart(r) == r;
    assert TrimEnd(r) == r;
    assert ("\n" + s)[1..] == s;
  }

  predicate IsDigit(c: char) {
    '0' <= c <= '9'
  }

  predicate IsLowerAscii(c: char) {
    'a' <= c <= 'z'
  }

  predicate IsUpperAscii(c: char) {
    'A' <= c <= 'Z'
  }

  /** Splits `s` at every occurrence of the character `sep` (`s.split(sep)`). */
  function Split(s: string, sep: char): (r: seq<string>)
    ensures |r| >= 1
    ensures forall k :: 0 <= k < |r| ==> sep !in r[k]
    decreases |s|
  {
    if sep !in s then [s]
    else
      var i := FirstIndex(s, sep);
      [s[..i]] + Split(s[i + 1..], sep)
  }

  function FirstIndex(s: string, c: char): (i: nat)
    requires c in s
    ensures i < |s| && s[i] == c && c !in s[..i]
  {
    if s[0] == c then 0 else 1 + FirstIndex(s[1..], c)
  }

  /** `parts.join(sep)` undoes `s.split(sep)`. */
  lemma {:induction false} JoinSplit(s: string, sep: char)
    ensures Join(Split(s, sep), [sep]) == s
    decreases |s|
  {
    if sep in s {
      var i := FirstIndex(s, sep);
      var rest := s[i + 1..];
      JoinSplit(rest, sep);
      assert Split(s, sep) == [s[..i]] + Split(rest, sep);
      JoinCons(s[..i], Split(rest, sep), [sep]);
      assert s == s[..i] + [sep] + rest;
    }
  }
}

=== FILE: walk.dfy ===
/**
 * The recursive directory walks of the core, specified as functions of the
 * tree: `copyDirectory` (src/lib/utils/file.ts) and the two walks of the
 * rules migrator, `copyWithTransform` and `copyWithConversion`
 * (src/lib/migrators/rules.ts).  All three read a directory listing once,
 * descend into every sub-directory entry, hand every regular file to a
 * per-file step, and count one outcome per file; an unreadable directory
 * counts one error under its own path.  They differ only in the step,
 * which is the `Action` here.
 */
module Walk {
  import opened Wrappers
  import opened Strs
  import opened Stats
  import opened Fs

  /** The per-file step of a walk. */
  datatype Action =
      /** `copyFileSafe` (copyDirectory). */
    | PlainCopy
      /** The tool's `rules.transform(content, fileName)`, which may throw (copyWithTransform). */
    | Transform(transform: (string, string) -> Result<string>)
      /** `markdownToMdc` for `.md` files, `copyFileSafe` for the rest (copyWithConversion). */
    | ConvertMd(convert: (string, string) -> string)

  const ConversionFailed: string := "转换失败 (Conversion failed)"
  const CopyFailed: string := "复制失败 (Copy failed)"
  const UnknownError: string := "Unknown error"

  /** `name.replace(/\.md$/, '.mdc')` for a name ending in `.md`. */
  function MdcName(name: string): (r: string)
    requires EndsWith(name, ".md")
    ensures EndsWith(r, ".mdc") && r[..|r| - 4] == name[..|name| - 3]
  {
    name[..|name| - 3] + ".mdc"
  }

  /** The name the step writes for the source entry `name`. */
  function TargetName(action: Action, name: string): string {
    if action.ConvertMd? && EndsWith(name, ".md") then MdcName(name) else name
  }

  /** How a walk counts a `CopyResult`; `result.error?.message || fallback`. */
  function CopyOutcome(result: CopyResult, name: string, fallback: string): (r: Outcome)
    ensures r.Success? <==> result.success
    ensures r.Skip? <==> !result.success && result.skipped
    ensures r.Fail? ==> r.file == name
  {
    if result.success then Success
    else if result.skipped then Skip
    else Fail(name, if result.error.Some? && result.error.value != "" then result.error.value else fallback)
  }

  /**
   * `markdownToMdc(src, dst)` with content conversion `convert(content,
   * sourcePath)`: read, convert, ensure the parent, write; any failure is
   * `false`, nothing is thrown.
   */
  function ConvertFileSpec(n: Nodes, failing: set<Path>, src: Path, dst: Path, convert: (string, string) -> string): (r: (bool, Nodes))
    ensures OnPath(n, r.1, dst)
    ensures r.0 ==> (src in n && n[src].File? && dst in r.1
                     && r.1[dst] == File(convert(n[src].content, Render(src))))
    ensures ReadFile(n, failing, src).Failed? ==> r == (false, n)
    ensures KeepsDirs(n, r.1) && NewDirsOn(n, r.1, Parent(dst))
    ensures IsDir(n, dst) ==> OnPath(n, r.1, Parent(dst))
  {
    match ReadFile(n, failing, src)
    case Failed(_) => (false, n)
    case Done(c) =>
      var (e1, n1) := EnsureDir(n, failing, Parent(dst));
      OnPathParent(n, n1, dst);
      OnPathNewDirs(n, n1, Parent(dst));
      if e1.Some? then (false, n1)
      else
        var (e2, n2) := WriteFile(n1, failing, dst, convert(c, Render(src)));
        OnPathTrans(n, n1, n2, dst);
        (e2.None?, n2)
  }

  /**
   * The guarded block of copyWithTransform: read, transform, ensure the
   * parent, write; the message of whatever throws first is returned.
   */
  function TransformFileSpec(n: Nodes, failing: set<Path>, src: Path, dst: Path, name: string,
                             transform: (string, string) -> Result<string>): (r: (Option<string>, Nodes))
    ensures OnPath(n, r.1, dst)
    ensures r.0.None? ==> src in n && n[src].File? && transform(n[src].content, name).Ok?
                          && dst in r.1 && r.1[dst] == File(transform(n[src].content, name).value)
    ensures KeepsDirs(n, r.1) && NewDirsOn(n, r.1, Parent(dst))
    ensures IsDir(n, dst) ==> OnPath(n, r.1, Parent(dst))
  {
    match ReadFile(n, failing, src)
    case Failed(e) => (Some(Message(e)), n)
    case Done(c) =>
      match transform(c, name)
      case Err(m) => (Some(m), n)
      case Ok(t) =>
        var (e1, n1) := EnsureDir(n, failing, Parent(dst));
        OnPathParent(n, n1, dst);
        OnPathNewDirs(n, n1, Parent(dst));
        if e1.Some? then (Some(Message(e1.value)), n1)
        else
          var (e2, n2) := WriteFile(n1, failing, dst, t);
          OnPathTrans(n, n1, n2, dst);
          if e2.Some? then (Some(Message(e2.value)), n2) else (None, n2)
  }

  /**
   * The step for the regular file `src`, listed as `name`, with target
   * directory `dst`.
   */
  function StepSpec(n: Nodes, failing: set<Path>, action: Action, src: Path, dst: Path, name: string, over: bool): (r: (Outcome, Nodes))
    ensures OnPath(n, r.1, dst + [TargetName(action, name)])
    ensures r.0.Fail? ==> r.0.file == name
    ensures r.0.Skip? ==> r.1 == n
    ensures r.0.Skip? <==> dst + [TargetName(action, name)] in n && !over
    ensures KeepsDirs(n, r.1) && NewDirsOn(n, r.1, dst)
    ensures IsDir(n, dst + [TargetName(action, name)]) ==> OnPath(n, r.1, dst)
  {
    var target := dst + [TargetName(action, name)];
    assert Parent(target) == dst;
    match action
    case PlainCopy =>
      var (result, n1) := CopyFileSafeSpec(n, failing, src, target, over);
      (CopyOutcome(result, name, UnknownError), n1)
    case Transform(f) =>
      if target in n && !over then (Skip, n)
      else
        var (e, n1) := TransformFileSpec(n, failing, src, target, name, f);
        (if e.Some? then Fail(name, e.value) else Success, n1)
    case ConvertMd(g) =>
      if EndsWith(name, ".md") then
        if target in n && !over then (Skip, n)
        else
          var (ok, n1) := ConvertFileSpec(n, failing, src, target, g);
          (if ok then Success else Fail(name, ConversionFailed), n1)
      else
        var (result, n1) := CopyFileSafeSpec(n, failing, src, target, over);
        (CopyOutcome(result, name, CopyFailed), n1)
  }

  /** A step writes nothing outside the target directory's tree and path. */
  lemma StepConfined(n: Nodes, failing: set<Path>, action: Action, src: Path, dst: Path, name: string, over: bool)
    ensures Confined(n, StepSpec(n, failing, action, src, dst, name, over).1, dst)
  {
    OnPathConfined(n, StepSpec(n, failing, action, src, dst, name, over).1, dst, TargetName(action, name));
  }

  /**
   * The walk of the directory `src` into `dst`, adding to `acc`: one error
   * naming `src` when it cannot be listed, else its entries in order.  The
   * two trees are the same or apart; the walk writes only on the way to
   * `dst` and below it, removes no directory, and a walk of a tree onto
   * itself adds no directory at or below it.
   */
  ghost function WalkDir(n: Nodes, failing: set<Path>, action: Action, src: Path, dst: Path, over: bool, acc: Stats): (r: (Stats, Nodes))
    requires NotNested(src, dst)
    ensures Confined(n, r.1, dst) && KeepsDirs(n, r.1)
    ensures src == dst ==> NewDirsOn(n, r.1, Parent(src))
    decreases |Dirs(n, src)|, 1, 0
  {
    match ReadDir(n, failing, src)
    case Failed(e) => (acc.AddError(Render(src), Message(e)), n)
    case Done(entries) =>
      var r := WalkEntries(n, failing, action, src, dst, over, entries, 0, acc, Dirs(n, src));
      if src == dst then NewDirsBelowSelf(n, r.1, src); r else r
  }

  /**
   * The walk from the `i`-th entry of a listing of `src` on; `under` bounds
   * the directories below `src`, to which the walk adds none.
   */
  ghost function WalkEntries(n: Nodes, failing: set<Path>, action: Action, src: Path, dst: Path, over: bool,
                             entries: seq<DirEntry>, i: nat, acc: Stats, under: set<Path>): (r: (Stats, Nodes))
    requires NotNested(src, dst) && i <= |entries|
    requires src in under && Dirs(n, src) <= under && IsDir(n, src)
    ensures Confined(n, r.1, dst) && KeepsDirs(n, r.1)
    ensures src == dst ==> NewDirsOn(n, r.1, src)
    decreases |under|, 0, |entries| - i
  {
    if i == |entries| then (acc, n)
    else
      var (acc1, n1) := EntryStep(n, failing, action, src, dst, over, entries[i], acc, under);
      StepKeepsSource(n, n1, src, dst);
      var r := WalkEntries(n1, failing, action, src, dst, over, entries, i + 1, acc1, under);
      ConfinedTrans(n, n1, r.1, dst);
      r
  }

  /**
   * One entry of a listing of `src`: a directory is walked into the
   * directory of the same name, a regular file is stepped, anything else
   * is passed over.
   */
  ghost function EntryStep(n: Nodes, failing: set<Path>, action: Action, src: Path, dst: Path, over: bool,
                           e: DirEntry, acc: Stats, under: set<Path>): (r: (Stats, Nodes))
    requires NotNested(src, dst)
    requires src in under && Dirs(n, src) <= under
    ensures Confined(n, r.1, dst) && KeepsDirs(n, r.1)
    ensures src == dst ==> NewDirsOn(n, r.1, src)
    decreases |under|, 0, 0
  {
    match e.kind
    case DirKind =>
      ChildSmaller(n, src, e.name, under);
      NotNestedChild(src, dst, e.name);
      var r1 := WalkDir(n, failing, action, src + [e.name], dst + [e.name], over, acc);
      ConfinedWiden(n, r1.1, dst, e.name);
      assert Parent(src + [e.name]) == src;
      r1
    case FileKind =>
      StepConfined(n, failing, action, src + [e.name], dst, e.name, over);
      var (o, n2) := StepSpec(n, failing, action, src + [e.name], dst, e.name, over);
      (Record(acc, o), n2)
    case OtherKind => (acc, n)
  }

  /**
   * A change made by one entry leaves `src` a directory and adds no
   * directory below it: a walk apart from `src` does not touch it, and a
   * walk onto itself adds directories only above it.
   */
  lemma StepKeepsSource(n1: Nodes, n2: Nodes, src: Path, dst: Path)
    requires NotNested(src, dst) && IsDir(n1, src)
    requires Confined(n1, n2, dst) && KeepsDirs(n1, n2)
    requires src == dst ==> NewDirsOn(n1, n2, src)
    ensures Dirs(n2, src) <= Dirs(n1, src) && IsDir(n2, src)
  {
    if src != dst {
      ConfinedKeepsDisjoint(n1, n2, dst, src);
      DirsSame(n1, n2, src);
    } else {
      forall q | q in Dirs(n2, src)
        ensures q in n1 && n1[q].Dir?
      {
        if q != src {
          assert !(q <= src);
        }
      }
    }
  }

  /** The directories a self-walk of `t` adds lie above `t`, once `t` itself is one. */
  lemma NewDirsBelowSelf(n1: Nodes, n2: Nodes, t: Path)
    requires NewDirsOn(n1, n2, t) && IsDir(n1, t)
    ensures NewDirsOn(n1, n2, Parent(t))
  {
    forall q | q in n2 && n2[q].Dir? && !(q in n1 && n1[q].Dir?)
      ensures q <= Parent(t)
    {
      assert q <= t && q != t;
      assert q == Parent(t)[..|q|];
    }
  }

  /**
   * The walk from entry `i` is that entry's step followed by the walk from
   * entry `i + 1`, on a tree that still has `src` as a directory and no
   * directory below it the bound does not count.
   */
  lemma EntriesNext(n: Nodes, failing: set<Path>, action: Action, src: Path, dst: Path, over: bool,
                    entries: seq<DirEntry>, i: nat, acc: Stats, under: set<Path>)
    requires NotNested(src, dst) && i < |entries|
    requires src in under && Dirs(n, src) <= under && IsDir(n, src)
    ensures var s := EntryStep(n, failing, action, src, dst, over, entries[i], acc, under);
      && Dirs(s.1, src) <= under && IsDir(s.1, src) && Confined(n, s.1, dst)
      && WalkEntries(n, failing, action, src, dst, over, entries, i, acc, under)
         == WalkEntries(s.1, failing, action, src, dst, over, entries, i + 1, s.0, under)
  {
    var s := EntryStep(n, failing, action, src, dst, over, entries[i], acc, under);
    StepKeepsSource(n, s.1, src, dst);
  }

  // -------------------------------------------------------- properties

  /**
   * What a walk of `src` counts on the tree `n`: one per regular file met
   * and one per directory that cannot be listed.
   */
  ghost function Visits(n: Nodes, failing: set<Path>, src: Path): nat
    decreases |Dirs(n, src)|, 1, 0
  {
    match ReadDir(n, failing, src)
    case Failed(_) => 1
    case Done(entries) => VisitsFrom(n, failing, src, entries, 0, Dirs(n, src))
  }

  ghost function VisitsFrom(n: Nodes, failing: set<Path>, src: Path, entries: seq<DirEntry>, i: nat, under: set<Path>): nat
    requires i <= |entries| && src in under && Dirs(n, src) <= under
    decreases |under|, 0, |entries| - i
  {
    if i == |entries| then 0
    else
      var here := (
        match entries[i].kind
        case DirKind => ChildSmaller(n, src, entries[i].name, under); Visits(n, failing, src + [entries[i].name])
        case FileKind => 1
        case OtherKind => 0);
      here + VisitsFrom(n, failing, src, entries, i + 1, under)
  }

  lemma DirsSame(n1: Nodes, n2: Nodes, root: Path)
    requires SameBelow(n1, n2, root)
    ensures Dirs(n1, root) == Dirs(n2, root)
    ensures IsDir(n1, root) <==> IsDir(n2, root)
  {
    assert root <= root;
  }

  /** What a walk counts depends only on the tree below its source. */
  lemma {:induction false} VisitsBelow(n1: Nodes, n2: Nodes, failing: set<Path>, src: Path)
    requires SameBelow(n1, n2, src)
    ensures Visits(n1, failing, src) == Visits(n2, failing, src)
    decreases |Dirs(n1, src)|, 1, 0
  {
    ReadDirBelow(n1, n2, failing, src);
    DirsSame(n1, n2, src);
    match ReadDir(n1, failing, src)
    case Failed(_) =>
    case Done(entries) => VisitsFromBelow(n1, n2, failing, src, entries, 0, Dirs(n1, src));
  }

  lemma {:induction false} VisitsFromBelow(n1: Nodes, n2: Nodes, failing: set<Path>, src: Path, entries: seq<DirEntry>, i: nat, under: set<Path>)
    requires SameBelow(n1, n2, src)
    requires i <= |entries| && src in under && Dirs(n1, src) <= under
    ensures Dirs(n2, src) <= under
    ensures VisitsFrom(n1, failing, src, entries, i, under) == VisitsFrom(n2, failing, src, entries, i, under)
    decreases |under|, 0, |entries| - i
  {
    DirsSame(n1, n2, src);
    if i < |entries| {
      if entries[i].kind.DirKind? {
        ChildSmaller(n1, src, entries[i].name, under);
        SameBelowChild(n1, n2, src, entries[i].name);
        VisitsBelow(n1, n2, failing, src + [entries[i].name]);
      }
      VisitsFromBelow(n1, n2, failing, src, entries, i + 1, under);
    }
  }

  /**
   * Every regular file of the source tree adds exactly one to `success`,
   * `skipped` or `error`, and every unreadable directory one error.  A walk
   * of a tree onto itself needs its directories to list each name once, as
   * a real file system's do: a `.mdc` file a conversion writes next to its
   * source is not in the listing already read, but a second visit of the
   * same sub-directory would see it.
   */
  lemma WalkCounts(n: Nodes, failing: set<Path>, action: Action, src: Path, dst: Path, over: bool, acc: Stats)
    requires NotNested(src, dst)
    requires src == dst ==> UniqueBelow(n, src)
    ensures WalkDir(n, failing, action, src, dst, over, acc).0.Total() == acc.Total() + Visits(n, failing, src)
  {
    if src == dst {
      SelfWalkCounts(n, failing, action, src, over, acc);
    } else {
      ApartWalkCounts(n, failing, action, src, dst, over, acc);
    }
  }

  /** The counts of a walk into a tree apart from the source, which the walk leaves alone. */
  lemma {:induction false} ApartWalkCounts(n: Nodes, failing: set<Path>, action: Action, src: Path, dst: Path, over: bool, acc: Stats)
    requires Disjoint(src, dst)
    ensures WalkDir(n, failing, action, src, dst, over, acc).0.Total() == acc.Total() + Visits(n, failing, src)
    decreases |Dirs(n, src)|, 1, 0
  {
    match ReadDir(n, failing, src)
    case Failed(_) =>
    case Done(entries) =>
      ApartFromCounts(n, n, failing, action, src, dst, over, entries, 0, acc, Dirs(n, src));
  }

  lemma {:induction false} ApartFromCounts(n0: Nodes, n: Nodes, failing: set<Path>, action: Action, src: Path, dst: Path, over: bool,
                                           entries: seq<DirEntry>, i: nat, acc: Stats, under: set<Path>)
    requires Disjoint(src, dst) && i <= |entries|
    requires src in under && Dirs(n, src) <= under && IsDir(n, src)
    requires SameBelow(n0, n, src)
    ensures Dirs(n0, src) <= under
    ensures WalkEntries(n, failing, action, src, dst, over, entries, i, acc, under).0.Total()
         == acc.Total() + VisitsFrom(n0, failing, src, entries, i, under)
    decreases |under|, 0, |entries| - i
  {
    DirsSame(n0, n, src);
    if i < |entries| {
      var e := entries[i];
      ChildSmaller(n, src, e.name, under);
      EntriesNext(n, failing, action, src, dst, over, entries, i, acc, under);
      var (acc1, n1) := EntryStep(n, failing, action, src, dst, over, e, acc, under);
      if e.kind.DirKind? {
        DisjointChild(src, dst, e.name);
        ApartWalkCounts(n, failing, action, src + [e.name], dst + [e.name], over, acc);
        SameBelowChild(n0, n, src, e.name);
        VisitsBelow(n0, n, failing, src + [e.name]);
      }
      ConfinedKeepsDisjoint(n, n1, dst, src);
      ApartFromCounts(n0, n1, failing, action, src, dst, over, entries, i + 1, acc1, under);
    }
  }

  /** The counts of a walk of a tree onto itself. */
  lemma {:induction false} SelfWalkCounts(n: Nodes, failing: set<Path>, action: Action, src: Path, over: bool, acc: Stats)
    requires UniqueBelow(n, src)
    ensures WalkDir(n, failing, action, src, src, over, acc).0.Total() == acc.Total() + Visits(n, failing, src)
    decreases |Dirs(n, src)|, 1, 0
  {
    match ReadDir(n, failing, src)
    case Failed(_) =>
    case Done(entries) =>
      var names := n[src].entries;
      assert src <= src;
      forall j | 0 <= j < |entries| && entries[j].kind.DirKind?
        ensures IsDir(n, src + [entries[j].name])
      {
        assert entries[j] == DirEntry(names[j], KindAt(n, src + [names[j]]));
      }
      forall j, k | 0 <= j < k < |entries|
        ensures entries[j].name != entries[k].name
      {
        assert entries[j].name == names[j] && entries[k].name == names[k];
      }
      SelfFromCounts(n, n, failing, action, src, over, entries, 0, acc, Dirs(n, src));
  }

  /**
   * The walk from entry `i` of a self-walk counts what the original tree
   * `n0` has below the entries left: every sub-directory still to be
   * visited is as it was, because the names are distinct and a step writes
   * only its own target, which a directory never is.
   */
  lemma {:induction false} SelfFromCounts(n0: Nodes, n: Nodes, failing: set<Path>, action: Action, src: Path, over: bool,
                                          entries: seq<DirEntry>, i: nat, acc: Stats, under: set<Path>)
    requires i <= |entries|
    requires src in under && Dirs(n, src) <= under && IsDir(n, src) && Dirs(n0, src) <= under
    requires UniqueBelow(n0, src)
    requires forall j :: i <= j < |entries| && entries[j].kind.DirKind? ==>
      IsDir(n0, src + [entries[j].name]) && SameBelow(n0, n, src + [entries[j].name])
    requires forall j, k :: i <= j < k < |entries| ==> entries[j].name != entries[k].name
    ensures WalkEntries(n, failing, action, src, src, over, entries, i, acc, under).0.Total()
         == acc.Total() + VisitsFrom(n0, failing, src, entries, i, under)
    decreases |under|, 0, |entries| - i
  {
    if i < |entries| {
      var e := entries[i];
      EntriesNext(n, failing, action, src, src, over, entries, i, acc, under);
      var s := EntryStep(n, failing, action, src, src, over, e, acc, under);
      match e.kind
      case DirKind =>
        var c := src + [e.name];
        ChildSmaller(n, src, e.name, under);
        ChildSmaller(n0, src, e.name, under);
        UniqueChild(n0, n, src, e.name);
        SelfWalkCounts(n, failing, action, c, over, acc);
        VisitsBelow(n0, n, failing, c);
        assert s == WalkDir(n, failing, action, c, c, over, acc);
        forall j | i < j < |entries| && entries[j].kind.DirKind?
          ensures SameBelow(n0, s.1, src + [entries[j].name])
        {
          ConfinedSibling(n, s.1, src, e.name, entries[j].name);
        }
        SelfFromCounts(n0, s.1, failing, action, src, over, entries, i + 1, s.0, under);
      case FileKind =>
        var t := TargetName(action, e.name);
        var step := StepSpec(n, failing, action, src + [e.name], src, e.name, over);
        assert s == (Record(acc, step.0), step.1);
        forall j | i < j < |entries| && entries[j].kind.DirKind?
          ensures SameBelow(n0, s.1, src + [entries[j].name])
        {
          var y := entries[j].name;
          if y == t {
            assert src + [y] <= src + [y];
            assert IsDir(n, src + [t]);
            OnPathAbove(n, s.1, src, y);
          } else {
            OnPathSibling(n, s.1, src, t, y);
          }
        }
        SelfFromCounts(n0, s.1, failing, action, src, over, entries, i + 1, s.0, under);
      case OtherKind =>
        SelfFromCounts(n0, s.1, failing, action, src, over, entries, i + 1, s.0, under);
    }
  }

  /** Below a child that is as it was, names stay distinct. */
  lemma UniqueChild(n0: Nodes, n: Nodes, src: Path, x: string)
    requires UniqueBelow(n0, src) && SameBelow(n0, n, src + [x])
    ensures UniqueBelow(n, src + [x])
  {
    forall p | p in n && src + [x] <= p
      ensures src <= p
    {
      PrefixTrans(src, src + [x], p);
    }
  }

  /** A change confined to one child leaves every other child's tree alone. */
  lemma ConfinedSibling(n1: Nodes, n2: Nodes, root: Path, x: string, y: string)
    requires Confined(n1, n2, root + [x]) && x != y
    ensures SameBelow(n1, n2, root + [y])
  {
    forall p | p in n1 && root + [y] <= p
      ensures !Related(p, root + [x])
    {
      assert p[|root|] == (root + [y])[|root|];
    }
    forall p | p in n2 && root + [y] <= p
      ensures !Related(p, root + [x])
    {
      assert p[|root|] == (root + [y])[|root|];
    }
  }

  /** A change on the path to one child leaves every other child's tree alone. */
  lemma OnPathSibling(n1: Nodes, n2: Nodes, root: Path, t: string, y: string)
    requires OnPath(n1, n2, root + [t]) && t != y
    ensures SameBelow(n1, n2, root + [y])
  {
    forall p | p in n1 && root + [y] <= p
      ensures !(p <= root + [t])
    {
      assert p[|root|] == (root + [y])[|root|];
    }
    forall p | p in n2 && root + [y] <= p
      ensures !(p <= root + [t])
    {
      assert p[|root|] == (root + [y])[|root|];
    }
  }

  /** A change on the path to `root` leaves the tree of each child alone. */
  lemma OnPathAbove(n1: Nodes, n2: Nodes, root: Path, y: string)
    requires OnPath(n1, n2, root)
    ensures SameBelow(n1, n2, root + [y])
  {
    forall p | p in n1 && root + [y] <= p
      ensures !(p <= root)
    {
      assert |p| > |root|;
    }
    forall p | p in n2 && root + [y] <= p
      ensures !(p <= root)
    {
      assert |p| > |root|;
    }
  }

  /** A walk only adds to the counters and appends to the errors. */
  predicate Extends(before: Stats, after: Stats) {
    && before.success <= after.success && before.skipped <= after.skipped
    && before.error <= after.error && before.errors <= after.errors
  }

  /**
   * A walk keeps `|errors| == error`, and only adds to what it was given:
   * the recorded errors of the caller stay in front.
   */
  lemma {:induction false} WalkConsistent(n: Nodes, failing: set<Path>, action: Action, src: Path, dst: Path, over: bool, acc: Stats)
    requires NotNested(src, dst)
    ensures Extends(acc, WalkDir(n, failing, action, src, dst, over, acc).0)
    ensures acc.Consistent() ==> WalkDir(n, failing, action, src, dst, over, acc).0.Consistent()
    decreases |Dirs(n, src)|, 1, 0
  {
    match ReadDir(n, failing, src)
    case Failed(_) =>
    case Done(entries) =>
      WalkFromConsistent(n, failing, action, src, dst, over, entries, 0, acc, Dirs(n, src));
  }

  lemma {:induction false} WalkFromConsistent(n: Nodes, failing: set<Path>, action: Action, src: Path, dst: Path, over: bool,
                                              entries: seq<DirEntry>, i: nat, acc: Stats, under: set<Path>)
    requires NotNested(src, dst) && i <= |entries|
    requires src in under && Dirs(n, src) <= under && IsDir(n, src)
    ensures Extends(acc, WalkEntries(n, failing, action, src, dst, over, entries, i, acc, under).0)
    ensures acc.Consistent() ==> WalkEntries(n, failing, action, src, dst, over, entries, i, acc, under).0.Consistent()
    decreases |under|, 0, |entries| - i
  {
    if i < |entries| {
      var e := entries[i];
      ChildSmaller(n, src, e.name, under);
      EntriesNext(n, failing, action, src, dst, over, entries, i, acc, under);
      var (acc1, n1) := EntryStep(n, failing, action, src, dst, over, e, acc, under);
      if e.kind.DirKind? {
        NotNestedChild(src, dst, e.name);
        WalkConsistent(n, failing, action, src + [e.name], dst + [e.name], over, acc);
      }
      assert Extends(acc, acc1);
      WalkFromConsistent(n1, failing, action, src, dst, over, entries, i + 1, acc1, under);
      var r := WalkEntries(n1, failing, action, src, dst, over, entries, i + 1, acc1, under).0;
      assert acc.errors <= acc1.errors <= r.errors;
    }
  }

  /**
   * Every directory of the source tree can be listed and every file's
   * target already exists.
   */
  ghost predicate TargetsPresent(n: Nodes, failing: set<Path>, action: Action, src: Path, dst: Path)
    decreases |Dirs(n, src)|, 1, 0
  {
    match ReadDir(n, failing, src)
    case Failed(_) => false
    case Done(entries) => TargetsPresentFrom(n, failing, action, src, dst, entries, 0, Dirs(n, src))
  }

  ghost predicate TargetsPresentFrom(n: Nodes, failing: set<Path>, action: Action, src: Path, dst: Path,
                                     entries: seq<DirEntry>, i: nat, under: set<Path>)
    requires i <= |entries| && src in under && Dirs(n, src) <= under
    decreases |under|, 0, |entries| - i
  {
    i == |entries| ||
    (&& (match entries[i].kind
         case DirKind =>
           ChildSmaller(n, src, entries[i].name, under);
           TargetsPresent(n, failing, action, src + [entries[i].name], dst + [entries[i].name])
         case FileKind => dst + [TargetName(action, entries[i].name)] in n
         case OtherKind => true)
     && TargetsPresentFrom(n, failing, action, src, dst, entries, i + 1, under))
  }

  /**
   * Without `autoOverwrite`, a walk whose every target already exists
   * writes nothing and counts every file as skipped.
   */
  lemma {:induction false} WalkAllSkipped(n: Nodes, failing: set<Path>, action: Action, src: Path, dst: Path, acc: Stats)
    requires NotNested(src, dst)
    requires TargetsPresent(n, failing, action, src, dst)
    ensures WalkDir(n, failing, action, src, dst, false, acc)
         == (acc.(skipped := acc.skipped + Visits(n, failing, src)), n)
    decreases |Dirs(n, src)|, 1, 0
  {
    match ReadDir(n, failing, src)
    case Done(entries) =>
      WalkFromAllSkipped(n, failing, action, src, dst, entries, 0, acc, Dirs(n, src));
  }

  lemma {:induction false} WalkFromAllSkipped(n: Nodes, failing: set<Path>, action: Action, src: Path, dst: Path,
                                              entries: seq<DirEntry>, i: nat, acc: Stats, under: set<Path>)
    requires NotNested(src, dst) && i <= |entries|
    requires src in under && Dirs(n, src) <= under && IsDir(n, src)
    requires TargetsPresentFrom(n, failing, action, src, dst, entries, i, under)
    ensures WalkEntries(n, failing, action, src, dst, false, entries, i, acc, under)
         == (acc.(skipped := acc.skipped + VisitsFrom(n, failing, src, entries, i, under)), n)
    decreases |under|, 0, |entries| - i
  {
    if i < |entries| {
      var e := entries[i];
      ChildSmaller(n, src, e.name, under);
      EntriesNext(n, failing, action, src, dst, false, entries, i, acc, under);
      var s := EntryStep(n, failing, action, src, dst, false, e, acc, under);
      match e.kind
      case DirKind =>
        NotNestedChild(src, dst, e.name);
        WalkAllSkipped(n, failing, action, src + [e.name], dst + [e.name], acc);
        var acc1 := acc.(skipped := acc.skipped + Visits(n, failing, src + [e.name]));
        assert s == (acc1, n);
        WalkFromAllSkipped(n, failing, action, src, dst, entries, i + 1, acc1, under);
      case FileKind =>
        assert s == (Record(acc, Skip), n);
        WalkFromAllSkipped(n, failing, action, src, dst, entries, i + 1, Record(acc, Skip), under);
      case OtherKind =>
        assert s == (acc, n);
        WalkFromAllSkipped(n, failing, action, src, dst, entries, i + 1, acc, under);
    }
  }
}

=== FILE: wrappers.dfy ===
/** Failure-carrying wrappers used throughout the model. */
module Wrappers {

  /** A value that may be absent. */
  datatype Option<+T> = None | Some(value: T) {
    function GetOr(default: T): T {
      match this
      case Some(v) => v
      case None => default
    }
  }

  /**
   * The outcome of a step of the source that can throw: `Ok` carries the
   * value, `Err` the message of the exception that escaped.
   */
  datatype Result<+T> = Ok(value: T) | Err(error: string)
}
